=== FILE: README.md ===
# Moj-Agentic-AI in Dafny

A Dafny model of the deterministic core of Moj-Agentic-AI, a set of helpers that drive the X (Twitter) web
application through a browser and prepare content for it with language models.

The model covers five parts.

- **Browser actions** (`x_actions.dfy`, `x_post.dfy`, `x_login.dfy`, `x_delete.dfy`, `x_bookmark.dfy`):
  replying, quoting, reposting, unfollowing, posting, logging in, deleting and bookmarking.
- **Session helpers** (`utils.dfy`): normalising exported cookies, safe labels, URL suffixes.
- **Input validators and log redaction** (`validators.dfy`, `secure_logger.dfy`).
- **Image-prompt and clean-up helpers** of the identity service (`gemini.dfy`).
- **Deterministic parts of the two agents** (`content_generator.dfy`, `profile_agent.dfy`): tweet clean-up and
  scoring, prompt building, intent detection, fallback names and bios, request routing.

Shared modules:

- `Wrappers` holds `Option` and `Result`.
- `Text` holds the Python string operations the source relies on (`strip` with Python's whitespace set,
  `lower`, `startswith`, `replace`, `split` and `join`).
- `Browser` holds the page model.

## How the browser is modelled

A `Browser.Page` is an oracle over time in milliseconds. For a selector at an instant it tells:

- how many elements match, whether the first one is visible or enabled, and its aria-disabled attribute;
- whether a normal, forced or mouse click, a fill or a key press on it goes through;
- how long until it reaches a wait state;
- the URL and the cookie names.

Only the explicit pauses and polling intervals of the source move the clock. A deadline loop becomes a
function over its polls (`Browser.FirstPoll`, `XActions.ClickRounds`, `XActions.MediaRounds`,
`XPost.ReadyRounds`, `XPost.VideoRounds`), and the `while` loop that implements it is a method proved equal
to that function.

What an action does to the page is recorded as a trace of `Browser.Step` values:

- the launch, each visit, click, fill, key press and file set;
- the screenshots and saved files;
- the closing of the context and the browser.

Each action is then described by a predicate over its result and its trace: which clicks happen, in which
order, on which candidates, and what each failure leaves behind. A raised exception is a `Browser.Failure`
carried in a `Result`.

Language-model and image-model calls are parameters: a model is a function from a prompt to an optional
reply, and `None` stands for a call that raised.

## Model

| member | source | states |
|---|---|---|
| Browser.GetScope | app/x/modules/x_actions.py:76-78 | the scope is the first dialog exactly when a dialog is present, the page otherwise |
| Browser.WaitFor | app/x/modules/x_actions.py:37 | a wait succeeds exactly when the state is reached within the timeout, at that instant; otherwise it times out on its selector |
| Browser.ClickOrForce | app/x/modules/x_actions.py:627-630 | the click succeeds exactly when the normal or the forced click goes through, is normal exactly when the normal one does, and otherwise fails on its selector |
| Browser.FirstPollMeaning | app/x/modules/x_actions.py:62-73 | a polling loop stops at a poll before the deadline where its condition holds and no earlier poll saw it; it gives up only when no poll before the deadline saw it |
| Browser.FirstPoll | app/x/modules/x_actions.py:62-73 | a polling loop's answer, when it has one, is an instant between its start and the deadline at which its condition holds; a condition that holds at the start, before the deadline, is answered at once |
| Browser.ChromeChannel | app/x/modules/x_actions.py:13 | the channel is never empty: it is the stripped setting whenever that is not blank, and "chrome" when the setting is blank or unset |
| Browser.Launch | app/x/modules/x_actions.py:11-18 | the browser is launched with a channel exactly when launching on the channel did not raise, and that channel is the one the setting names ("chrome" by default) |
| Browser.Session | app/x/modules/x_actions.py:238-278 | a session records the launch first, then the action's steps, then the closing of the context and the browser |
| Utils.UrlCaseInsensitive | app/x/modules/utils.py:11-12 | `is_url` ignores letter case (the `re.I` flag): a string and its lower-cased form are URLs alike |
| Utils.IsUrl | app/x/modules/utils.py:11-12 | a URL has at least seven characters once stripped; text starting with http:// or https:// is a URL; text whose stripped, lower-cased form does not start with "http" is not |
| Utils.IsUrlIgnoresLeadingSpace | app/x/modules/utils.py:11-12 | whitespace in front of the text does not change whether it is a URL |
| Utils.SchemeKept | app/x/modules/utils.py:11-12 | a lower-case scheme at the start survives the stripping and lower-casing `is_url` applies |
| Utils.PathSuffix | app/x/modules/utils.py:20-22 | a path suffix is empty, or a dot followed by at least one character, with no further dot and no '/' |
| Utils.GuessExt | app/x/modules/utils.py:15-23 | a non-empty MIME extension is returned as it is; otherwise the result is the suffix of the URL's path before its first '?' when that suffix is non-empty, and ".bin" when it is empty; a suffix has one leading dot and no '/', '?' or other dot |
| Utils.GuessExtFromName | app/x/modules/utils.py:15-23 | with no MIME extension, a URL naming a file `stem + ext` in some directory, followed by a query, gets `ext` |
| Utils.SuffixOfPart | app/x/modules/utils.py:20-22 | the suffix of a path that holds no '?' holds no '?' either |
| Utils.CollapseUnsafe | app/x/modules/utils.py:41 | the substitution leaves only characters of `[A-Za-z0-9_.-]`, never empties non-empty text and never lengthens it |
| Utils.CollapseKeepsSafe | app/x/modules/utils.py:41 | text made only of label characters passes the substitution unchanged |
| Utils.SafeLabel | app/x/modules/utils.py:39-42 | the label is 1 to 80 label characters; blank input gives "account"; otherwise it is the prefix of the collapsed stripped text of length min(80, its length), and a prefix of the stripped text when that was already safe |
| Utils.SafeLabelIdempotent | app/x/modules/utils.py:39-42 | `safe_label` applied to its own output changes nothing |
| Utils.Lookup | app/x/modules/utils.py:97-98 | `cookie.get(key)` finds a value exactly when the key is present |
| Utils.NormDomain | app/x/modules/utils.py:104-112 | a missing or falsy domain becomes ".x.com"; a string domain never fails; one mentioning neither x.com nor twitter.com is kept; one mentioning either is given a leading '.' when it lacks one and then has every "twitter.com" replaced by "x.com", so it starts with '.' |
| Utils.NormExpires | app/x/modules/utils.py:115-122 | the first truthy of expires and expirationDate is taken, else expiry when it is not None, else `now` plus 365 days; the value taken is converted by `float` (integers and booleans become floats, other values are kept) |
| Utils.IntToFloat | app/x/modules/utils.py:122 | `float(...)` of the expiry value: an integer becomes the same number as a float, a boolean 1.0 or 0.0, any other value is kept |
| Utils.NormHttpOnly | app/x/modules/utils.py:125-129 | the spellings httpOnly, httponly, HttpOnly are tried in that order and the first truthy one decides: a string is true exactly for "true", "1" or "yes" in any case, any other truthy value (such as a boolean true) is true; no truthy spelling gives false |
| Utils.NormSecure | app/x/modules/utils.py:132-136 | a truthy `secure` decides, else a truthy `Secure`: a string is true exactly for "true", "1" or "yes", another truthy value is true; with `secure` falsy and `Secure` absent the flag is true; with both falsy and `Secure` present it is false |
| Utils.NormSameSite | app/x/modules/utils.py:139-152 | a string or missing value becomes one of "Lax", "Strict", "None"; it is "Lax" exactly for lax and "Strict" exactly for strict in any case; a missing value is "None"; a value that is neither a string nor missing is kept |
| Utils.NormPath | app/x/modules/utils.py:155-157 | the path is always truthy: a truthy path is kept, and a missing or falsy one becomes "/" |
| Utils.NormalizeCookie | app/x/modules/utils.py:96-169 | a normalised cookie keeps the entry's name and value (value "" when missing); its domain, path, expires, httpOnly, secure and sameSite are those of the field normalisers; it fails exactly when the domain rewrite fails |
| Utils.Candidates | app/x/modules/utils.py:92-101 | the entries the loop keeps are dicts with a truthy name, never more than the list holds |
| Utils.CookieList | app/x/modules/utils.py:76-88 | a list is iterated as it is; a dict with "cookies" iterates that list, nothing for a string or dict value (no element is a dict), and fails with the TypeError for a value that cannot be iterated; a dict without "cookies" is iterated as itself when it has both "name" and "value", and as nothing otherwise; any other value gives nothing |
| Utils.NormalizeAllOk | app/x/modules/utils.py:91-171 | a successful loop yields exactly one normalised cookie per kept entry, in input order |
| Utils.NormalizeAllErr | app/x/modules/utils.py:91-171 | a failing loop fails with the error of the first kept entry whose normalisation fails, all earlier ones succeeding |
| Utils.EmptyShapes | app/x/modules/utils.py:73-88 | falsy input, and a dict with neither "cookies" nor both "name" and "value", give an empty session |
| Utils.NormalizedShape | app/x/modules/utils.py:160-176 | every cookie of the result has a truthy name and path, and the origins are always empty |
| Utils.AfterStep | app/x/modules/utils.py:92-171 | one loop turn: a skipped entry changes nothing, a failing entry ends the loop with its error, a kept entry is appended |
| Utils.NormalizeCookies | app/x/modules/utils.py:45-176 | the loop returns exactly the session the normalisation functions describe, or the error they give |
| Validators.EscapeChar | app/utils/validators.py:28 | escaping one character leaves no `<`, `>`, `"` or `'`, and adds only entity characters (`&`, `#`, `;`, ASCII letters and digits) to the character itself |
| Validators.HtmlEscape | app/utils/validators.py:28 | escaped text holds no `<`, `>`, `"` or `'`, and every other character it holds outside entity syntax comes from the input |
| Validators.EscapeNothing | app/utils/validators.py:28 | text with none of `&<>"'` is left as it is by the escape |
| Validators.DropControls | app/utils/validators.py:31 | the first substitution leaves no control character of the removed class and adds nothing |
| Validators.KeepAllowed | app/utils/validators.py:33-41 | the second substitution keeps only characters of the allowed class (with or without the Arabic blocks) and adds nothing |
| Validators.TextAllowed | app/utils/validators.py:36-39 | the allowed class holds ASCII letters, digits and whitespace, and the Arabic blocks when Arabic is allowed, but never `<`, `>` or `&`, so the entities `html.escape` produced are cut apart |
| Validators.SanitizeText | app/utils/validators.py:12-44 | empty text gives ""; the result is at most `max_length` long, holds no `<`, `>`, `&`, `"` or `'`, no control character, and only allowed characters |
| Validators.SanitizeTextKeepsSafe | app/utils/validators.py:12-44 | text whose every character is allowed, not a control character and not one `html.escape` rewrites is only cut to `max_length` |
| Validators.SanitizeTextIdempotent | app/utils/validators.py:12-44 | sanitising sanitised text with the same non-negative bound changes nothing |
| Validators.SanitizeUsername | app/utils/validators.py:47-64 | the result is the input's word characters and '-' in order, cut to their first 50: a prefix of that filtered text of length min(50, its length) |
| Validators.UsernameKeepsAllowed | app/utils/validators.py:47-64 | a name made only of word characters and '-' is kept, cut to 50 characters |
| Validators.UsernameDropsForbidden | app/utils/validators.py:47-64 | a character outside the class is dropped wherever it stands: the result is as if it were not there |
| Validators.UsernameHasNoMinimum | app/utils/validators.py:63-64 | a one-character name is kept: the "3-50" of the comment has no lower bound in the code |
| Validators.SanitizeUsernameIdempotent | app/utils/validators.py:47-64 | sanitising a sanitised username changes nothing |
| Validators.SanitizeEmail | app/utils/validators.py:67-88 | empty input gives None; a result is the stripped, lower-cased input and matches the address pattern; input whose stripped lower-cased form matches is always accepted |
| Validators.IsEmail | app/utils/validators.py:84 | a matching address has at least six characters (as in a@b.cd), opens with a local-part character and holds an '@' |
| Validators.EmailShape | app/utils/validators.py:84 | an accepted address has exactly one '@', and its domain ends with a dot and at least two letters |
| Validators.EmailEnds | app/utils/validators.py:84 | an accepted address starts with a local-part character and ends with a letter |
| Validators.SanitizeEmailIdempotent | app/utils/validators.py:67-88 | sanitising an accepted address again returns it unchanged |
| Validators.SanitizeUrl | app/utils/validators.py:91-113 | a URL is accepted exactly when it starts with http:// or https:// and matches the web-URL pattern; an accepted URL is its first 500 characters, the whole input when it fits, and keeps the scheme |
| Validators.IsWebUrl | app/utils/validators.py:109 | the text after the scheme of a matching URL has at least four characters and holds a dot |
| Validators.HostAndPathHasDot | app/utils/validators.py:109 | a host followed by an optional path has at least four characters and a dot, as `[a-zA-Z0-9.-]+\.[a-zA-Z]{2,}` demands |
| Validators.UrlWithoutDotRefused | app/utils/validators.py:109-111 | an https URL whose host has no dot is refused |
| Validators.HostAndPath | app/utils/validators.py:109 | a host followed by nothing or by a newline-free path from '/' matches the part of the pattern after the scheme |
| Validators.UrlWithPath | app/utils/validators.py:101-113 | an https URL made of a valid host and an optional path is accepted whole when it fits in 500 characters |
| Validators.UrlWithTrailingNewline | app/utils/validators.py:109-113 | because `$` also matches before a final newline, such a URL followed by "\n" is accepted with the newline kept |
| Validators.FirstBroken | app/utils/validators.py:126-142 | the rule reported is a broken rule with no broken rule before it in checking order; none is reported exactly when every rule holds |
| Validators.ValidatePasswordStrength | app/utils/validators.py:116-142 | valid exactly when 8-128 characters with a lower-case letter, an upper-case letter and a digit, with an empty message; otherwise the message of the first broken rule in the order too short, too long, no lower-case, no upper-case, no digit |
| Validators.RuleMessage | app/utils/validators.py:126-140 | every message opens with "كلمة المرور" (the password) |
| Validators.RuleMessagesDistinct | app/utils/validators.py:126-140 | each rule has its own message, so the message tells which rule was broken |
| Validators.SanitizeAccountName | app/utils/validators.py:145-164 | the result holds no '@' and is the word characters left after dropping the leading '@'s, in order, cut to their first 50 |
| Validators.AccountNameKeepsWordChars | app/utils/validators.py:145-164 | a name made only of word characters is kept, cut to 50 characters |
| Validators.AccountNameDropsForbidden | app/utils/validators.py:145-164 | after a first character that is not '@', a non-word character is dropped wherever it stands: the result is as if it were not there |
| Validators.AccountNameIgnoresAt | app/utils/validators.py:159 | "@name" and "name" sanitise to the same account name |
| Validators.IsSafePath | app/utils/validators.py:167-184 | a path is safe exactly when it contains none of the six dangerous patterns |
| Validators.ParentPathUnsafe | app/utils/validators.py:178-182 | any path with ".." anywhere in it is refused |
| Validators.EtcWithoutSlashSafe | app/utils/validators.py:178-184 | example: "/etc" without its trailing slash is accepted, since only the listed substrings are refused |
| SecureLogger.FoldStep | app/utils/secure_logger.py:37-38 | applying the patterns and then one more is the fold of the longer list, in list order |
| SecureLogger.FoldNoMatch | app/utils/secure_logger.py:37-38 | text in which no pattern finds anything to replace comes back unchanged |
| SecureLogger.IsSensitiveKey | app/utils/secure_logger.py:90-92 | a sensitive key is one of the eight listed names once lower-cased, so it has 5 to 11 characters |
| SecureLogger.SensitiveKeyAnyCase | app/utils/secure_logger.py:90-92 | the key comparison ignores letter case: a key and its lower-cased form are masked alike |
| SecureLogger.RedactText | app/utils/secure_logger.py:101-106 | the loop applies every sensitive pattern with its replacement, in list order |
| SecureLogger.SanitizeLogData | app/utils/secure_logger.py:76-108 | the recursive rebuild returns exactly the sanitised value: masked sensitive keys, sanitised values and items, redacted strings, anything else unchanged |
| SecureLogger.SanitizeEntries | app/utils/secure_logger.py:86-96 | the dict loop keeps every entry in order, masking the value of a sensitive key and sanitising the others |
| SecureLogger.SanitizedIsRedacted | app/utils/secure_logger.py:86-99 | after sanitising, no sensitive key at any depth holds anything but the mask, whatever the substitution does |
| SecureLogger.Sanitized | app/utils/secure_logger.py:86-108 | the structure survives sanitising: a dict stays a dict with its keys in order, a list or tuple becomes a list of the same length, a string stays a string, any other value is returned unchanged |
| SecureLogger.SanitizedIdempotent | app/utils/secure_logger.py:76-108 | sanitising sanitised data changes nothing when redacting a redacted string changes nothing |
| Gemini.SanitizeInput | app/identity/services/gemini_service.py:26-35 | a non-string gives ""; for a string, the result is the stripped text cut to `max_length` exactly when that cut text, lower-cased, contains none of the listed patterns, and "" otherwise; a non-empty result contains no pattern and respects the bound |
| Gemini.UppercasePatternNeverMatches | app/identity/services/gemini_service.py:19-34 | the pattern "DAN" is compared against lower-cased text, so it never matches |
| Gemini.OnlyDanIsShort | app/identity/services/gemini_service.py:19-24 | example, about the list: "DAN" is the fourteenth pattern and every other pattern is longer than three characters |
| Gemini.DanIsAccepted | app/identity/services/gemini_service.py:26-35 | example: the input "DAN" itself passes the injection check unchanged |
| Gemini.GetBioInstruction | app/identity/services/gemini_service.py:38-47 | each of the five styles gets its own instruction (Fusha, colloquial, colloquial with English, English, emoji only), an unknown style gets the Fusha one; the two colloquial instructions quote the nationality |
| Gemini.ColloquialInstruction | app/identity/services/gemini_service.py:42 | the colloquial instruction quotes the nationality |
| Gemini.MixedInstruction | app/identity/services/gemini_service.py:43 | the mixed colloquial-and-English instruction quotes the nationality |
| Gemini.BioInstructionIgnoresNationality | app/identity/services/gemini_service.py:40-47 | apart from the two colloquial styles the instruction does not depend on the nationality |
| Gemini.GenderEn | app/identity/services/gemini_service.py:161 | "man" exactly for the Arabic word for man, "woman" for anything else |
| Gemini.SkinEn | app/identity/services/gemini_service.py:162 | "light" and "tan" exactly for their two Arabic tones, "dark" for anything else |
| Gemini.ProfilePrompt | app/identity/services/gemini_service.py:158-166 | the profile prompt ends with the anti-watermark clause and starts with the headshot phrase followed by the gender and description for a person, or by "An image that represents:" otherwise; for a person it contains "The person is from" with the nationality and "The person has a" with the English skin tone and "skin tone."; it always contains the style clause naming the image type |
| Gemini.HeaderPrompt | app/identity/services/gemini_service.py:168-175 | the header prompt ends with the anti-watermark clause and carries the header-text clause: the quoted text, or the request for no text |
| Gemini.HeaderTextClause | app/identity/services/gemini_service.py:171-173 | a requested header text appears in the clause between double quotes; without one the clause asks for no text in the image |
| Gemini.ConstructImagePrompts | app/identity/services/gemini_service.py:136-180 | both prompts end with the anti-watermark clause; custom prompts are used exactly when requested and both survive sanitising, and then start with them; otherwise the built prompts are returned |
| Gemini.ExpiredFreshMembers | app/identity/services/gemini_service.py:197-202 | the expired files are exactly the listed files older than an hour, the young ones exactly the rest |
| Gemini.ExpiredFreshSplit | app/identity/services/gemini_service.py:197-202 | every listed file is either expired or young |
| Gemini.Expired | app/identity/services/gemini_service.py:198 | a file is expired exactly when it was modified before the instant one hour before now |
| Gemini.RemovalPlan | app/identity/services/gemini_service.py:197-206 | the plan opens with every expired file in listing order and holds, beyond those, as many young files as exceed the cap of 200 |
| Gemini.InsertByMtime | app/identity/services/gemini_service.py:204 | inserting into a sorted list keeps it sorted and adds exactly the one file |
| Gemini.SortByMtime | app/identity/services/gemini_service.py:204 | the sort by modification time is sorted and a permutation of its input |
| Gemini.Excess | app/identity/services/gemini_service.py:203-205 | as many files are removed for the cap as the young files exceed 200 |
| Gemini.Attempted | app/identity/services/gemini_service.py:188-208 | the removals carried out are a prefix of the planned ones, all succeeding, and stop exactly at the first failing removal |
| Gemini.AttemptedAppend | app/identity/services/gemini_service.py:197-206 | the cap removals are reached only when every expiry removal succeeded |
| Gemini.RemoveExpired | app/identity/services/gemini_service.py:197-199 | the first loop removes the expired files in listing order up to the first failure, and reports whether it finished |
| Gemini.RemoveExcess | app/identity/services/gemini_service.py:203-206 | the second loop removes the oldest young files beyond 200 in age order, up to the first failure |
| Gemini.CleanupOldImages | app/identity/services/gemini_service.py:186-208 | the clean-up carries out the planned removals (expired files, then the excess oldest) up to the first failure, which ends it silently |
| Gemini.CleanupKeepsAtMostCap | app/identity/services/gemini_service.py:197-206 | when every removal succeeds, the files left number the young files capped at 200 |
| Gemini.ExcessIsOldest | app/identity/services/gemini_service.py:203-206 | the files removed for the cap and the ones kept together are the young files, and none removed is newer than any kept |
| ContentGenerator.StripKeepsEllipsis | app/agents/content_generator_agent.py:230-233 | stripping whitespace after the cut removes only the leading whitespace and keeps the trailing "..." |
| ContentGenerator.CleanContent | app/agents/content_generator_agent.py:220-233 | the result has no surrounding whitespace; it fits in `max_length` (when that is at least 3); an unlabelled reply that fits is only stripped; one that does not is its first `max_length - 3` characters, left-stripped, followed by "..." |
| ContentGenerator.CleanContentKeepsCleanText | app/agents/content_generator_agent.py:220-233 | a reply that fits and has no surrounding quotes, whitespace or "Tweet:" label is returned as it is |
| ContentGenerator.SuggestTopics | app/agents/content_generator_agent.py:235-275 | each of the five known categories gives its own list of five topics; any other category gives none |
| ContentGenerator.PromptFrame | app/agents/content_generator_agent.py:184-203 | every prompt opens with the topic, the requirements heading, the language and the length lines, in that order, and closes with the request to write the tweet directly |
| ContentGenerator.PromptOptionalLines | app/agents/content_generator_agent.py:191-201 | the style, tone, emoji and hashtag lines are each present exactly when requested |
| ContentGenerator.PromptText | app/agents/content_generator_agent.py:184-205 | the prompt text is the opening lines, then each requested optional line in order, then the closing line |
| ContentGenerator.BuildPrompt | app/agents/content_generator_agent.py:172-205 | the appending method builds exactly the text of the prompt's lines |
| ContentGenerator.PromptMentionsTopic | app/agents/content_generator_agent.py:186 | every prompt contains its topic |
| ContentGenerator.GenerateTweet | app/agents/content_generator_agent.py:51-126 | without a key it fails at once with the missing-key message; it succeeds exactly when the model answers; a success carries the cleaned, stripped reply and the metadata with the tokens used; a failure carries no content and the message of the service error |
| ContentGenerator.SystemPrompt | app/agents/content_generator_agent.py:207-218 | the Arabic system message exactly for the language "arabic" (compared case-sensitively), the English one for any other language |
| ContentGenerator.NoKeyIgnoresModel | app/agents/content_generator_agent.py:51-56 | without a key the model is never consulted |
| ContentGenerator.GeneratedTweetFits | app/agents/content_generator_agent.py:229-233 | a generated tweet never exceeds the requested length when that length is at least 3 |
| ContentGenerator.ContainsEmoji | app/agents/content_generator_agent.py:281 | the scan finds a character above code point 127000 exactly when the content has one |
| ContentGenerator.HasEmoji | app/agents/content_generator_agent.py:281 | the content has an emoji exactly when some character of it lies above code point 127000; empty content has none |
| ContentGenerator.WordCount | app/agents/content_generator_agent.py:283 | the word count is zero exactly when the content is all whitespace |
| ContentGenerator.LengthPoints | app/agents/content_generator_agent.py:291-294 | at most 30 points; some points exactly when the length is at most 280, and the full 30 exactly for 100 to 250 characters |
| ContentGenerator.QualityScore | app/agents/content_generator_agent.py:290-306 | the score is at most 100, and is 100 exactly for an ideal length with an emoji, a hashtag and 10 to 40 words |
| ContentGenerator.QualityLevel | app/agents/content_generator_agent.py:309-314 | one of the four levels; "ممتاز" exactly from 80, "مقبول" exactly below 40 |
| ContentGenerator.AnalyzeTweetQuality | app/agents/content_generator_agent.py:277-316 | the analysis reports the length, the emoji and hashtag flags and the word count of the content; the score is the sum of the four criteria and at most 100; the level is the one of that score |
| ContentGenerator.PerfectScore | app/agents/content_generator_agent.py:290-306 | a score of 100 needs an ideal length of 100-250, an emoji, a hashtag and 10-40 words, and these suffice |
| ContentGenerator.ExcellentIff | app/agents/content_generator_agent.py:290-314 | a tweet is rated excellent exactly when its word count is good and either its length is ideal with an emoji or a hashtag, or its length is merely acceptable with both |
| ContentGenerator.OverlongNeverExcellent | app/agents/content_generator_agent.py:290-314 | a tweet over 280 characters scores at most 70, below the excellent threshold of 80 |
| ContentGenerator.LevelMonotone | app/agents/content_generator_agent.py:309-314 | a higher score never gets a lower level |
| ProfileAgent.IntentOf | app/agents/profile_agent.py:99-106 | the intent is create-profile exactly when a create keyword occurs in the lowercased text, generate-name exactly when none does but a name keyword does, generate-bio exactly when neither does but a bio keyword does, and unknown otherwise |
| ProfileAgent.MarkedByIsLast | app/agents/profile_agent.py:80-85 | the account-name scan finds nothing exactly when no marker word has a successor; otherwise it keeps the successor of the last such marker word |
| ProfileAgent.MarkedAccountIsLast | app/agents/profile_agent.py:78-85 | the extracted account name is the successor of the last marker word that has one, stripped of the edge punctuation |
| ProfileAgent.AccountNameOf | app/agents/profile_agent.py:79-85 | no account name unless the text mentions "حساب" or "account"; a name found is the successor of a marker word, stripped of its edge punctuation |
| ProfileAgent.FirstContaining | app/agents/profile_agent.py:92-97 | the inner niche scan stops at the first word holding the keyword once lowercased, and no earlier word holds it |
| ProfileAgent.NicheAfter | app/agents/profile_agent.py:92-97 | a keyword yields a niche exactly when the first word holding it has a successor; the niche is the next (up to) three words joined by spaces |
| ProfileAgent.NicheFor | app/agents/profile_agent.py:90-97 | a keyword yields a niche exactly when it occurs in the lower-cased text and the first word holding it has a successor |
| ProfileAgent.LastGivenWins | app/agents/profile_agent.py:90-97 | trying the keywords in order, the kept value is the last one given, and there is none only if no keyword gives one |
| ProfileAgent.NicheLastKeywordWins | app/agents/profile_agent.py:87-97 | the niche is the one found for the last niche keyword that yields one; there is no niche only if no keyword yields one |
| ProfileAgent.Detected | app/agents/profile_agent.py:59-113 | the detected intent is the keyword-priority intent and the original text is kept; an account name only when the text mentions an account; a niche only when some niche keyword occurs in the lower-cased text |
| ProfileAgent.DetectIntent | app/agents/profile_agent.py:49-113 | the loops of `detect_intent` compute the account name, the niche and the intent of the text, and keep the original text |
| ProfileAgent.ScanNiche | app/agents/profile_agent.py:87-97 | the keyword loop computes the niche of the last keyword that yields one |
| ProfileAgent.ScanWords | app/agents/profile_agent.py:92-97 | the word loop computes the words after the first one holding the keyword |
| ProfileAgent.NameFallback | app/agents/profile_agent.py:325-329 | with a niche the fallback name is the niche followed by " Expert"; without one it is "Content Creator" |
| ProfileAgent.TemplateShows | app/agents/profile_agent.py:333-335 | a filled template shows both slots and keeps its opening text |
| ProfileAgent.BioFallbackNames | app/agents/profile_agent.py:331-335 | both fallback bios name the account; the niche template also names the niche and opens with its emoji; the generic one opens and ends with its fixed text |
| ProfileAgent.Location | app/agents/profile_agent.py:337-346 | the location is one of the listed cities |
| ProfileAgent.LocationIgnoresNiche | app/agents/profile_agent.py:337-346 | the niche never influences the location: it is always the first listed city |
| ProfileAgent.Website | app/agents/profile_agent.py:348-351 | the website is "https://" + host + ".com", where the host is as long as the lowercased name with its spaces removed |
| ProfileAgent.WebsiteHost | app/agents/profile_agent.py:348-351 | the host holds no space and exactly the non-space characters of the lowercased name |
| ProfileAgent.TruncateBio | app/agents/profile_agent.py:193-195 | a bio is at most 160 characters long; a longer one keeps its first 157 characters and ends with "..."; a shorter one is unchanged |
| ProfileAgent.TrimChars | app/agents/profile_agent.py:188-191 | stripping only removes characters |
| ProfileAgent.CleanReplyHasNoQuotes | app/agents/profile_agent.py:188-191 | a cleaned model reply holds no quote characters and no whitespace at its edges |
| ProfileAgent.NameWithGemini | app/agents/profile_agent.py:115-154 | without a model, or when the call fails, the name is the fallback name; otherwise it is the cleaned reply |
| ProfileAgent.BioWithGemini | app/agents/profile_agent.py:156-201 | without a model, or when the call fails, the bio is the fallback bio; otherwise it is the cleaned reply cut to 160 characters |
| ProfileAgent.ModelBioFits | app/agents/profile_agent.py:193-195 | a bio written by the model is at most 160 characters long |
| ProfileAgent.RefineWithGpt | app/agents/profile_agent.py:203-263 | without a client, or when the call fails, the content comes back unchanged; otherwise the cleaned reply |
| ProfileAgent.CompleteProfile | app/agents/profile_agent.py:265-323 | the name is the refined generated name; the bio is the refined bio generated for that refined name; the location and the website are present exactly when requested, the website built from the name; the niche and style are kept |
| ProfileAgent.OfflineProfile | app/agents/profile_agent.py:265-335 | without either model the profile consists of the fallbacks: fallback name, fallback bio for it, the first city, no website |
| ProfileAgent.BioSubject | app/agents/profile_agent.py:396 | the bio subject is the extracted account name, or "المستخدم" when there is none |
| ProfileAgent.BioSubjectAsWritten | app/agents/profile_agent.py:396 | as written, the bio subject is the extracted account name, or the text "None" when there is none |
| ProfileAgent.Route | app/agents/profile_agent.py:363-412 | the request succeeds exactly when the intent is known; creating a profile returns the complete profile, the account name and the fixed "✅ تم إنشاء الهوية بنجاح!" message; a name or a bio is returned with a message that quotes it; an unknown intent gives the fixed failure message |
| ProfileAgent.ProcessRequest | app/agents/profile_agent.py:353-412 | the response succeeds exactly when the detected intent is known; a created profile carries the extracted account name |
| ProfileAgent.ProcessRequestAsWritten | app/agents/profile_agent.py:353-412 | as written, the response succeeds exactly when the intent is known, and a bio request naming no account is answered with a bio written for "None" |
| ProfileAgent.BioNamesSubject | app/agents/profile_agent.py:394-398 | an offline bio request always names its real subject: the extracted account name or the default name |
| ProfileAgent.BioRequestDetected | app/agents/profile_agent.py:59-113 | the text "bio" is a bio request with no account name and no niche |
| ProfileAgent.BioAboutNone | app/agents/profile_agent.py:394-398 | as written, the request "bio" gets an offline bio about "None"; the corrected branch writes it about "المستخدم" |
| ProfileAgent.OfflineBioRequest | app/agents/profile_agent.py:394-398 | as written, every offline bio request without account name or niche gets a bio about "None"; corrected, about "المستخدم" |
| XActions.NormTweetUrl | app/x/modules/x_actions.py:21-26 | the normalised URL is empty exactly when the stripped input is, and never starts with the twitter.com prefix |
| XActions.NormTweetUrlKeepsPath | app/x/modules/x_actions.py:21-26 | a twitter.com URL becomes the x.com URL with the same rest; any other URL is only stripped |
| XActions.NormTweetUrlIdempotent | app/x/modules/x_actions.py:21-26 | normalising twice is normalising once |
| XActions.NormTweetUrlFixed | app/x/modules/x_actions.py:21-26 | a stripped URL without the twitter.com prefix is already normalised |
| XActions.GotoTweet | app/x/modules/x_actions.py:29-37 | an empty URL raises the ValueError before any navigation; otherwise the article shows between 6.2 s and 66.2 s after the visit, or the wait for it times out |
| XActions.GotoSteps | app/x/modules/x_actions.py:30-33 | opening a tweet records exactly one visit of the URL, and none when the URL is empty |
| XActions.ScanHit | app/x/modules/x_actions.py:44-53 | a pass that clicks clicks the first candidate that is shown and takes a click, forcibly only when the normal click raised |
| XActions.ScanMiss | app/x/modules/x_actions.py:44-55 | a pass that clicks nothing found no clickable candidate, and keeps the previous error unless a shown candidate's clicks raised |
| XActions.ScanMissLast | app/x/modules/x_actions.py:44-55 | after a pass that clicks nothing, the recorded error is the click failure of the last candidate that was shown in that pass |
| XActions.ClickRounds | app/x/modules/x_actions.py:40-59 | a click is made at an instant between the start and the deadline; a loop started at or after its deadline raises the recorded error, or the TimeoutError when none was recorded |
| XActions.ClickRoundsOk | app/x/modules/x_actions.py:40-56 | a click happens at a poll, 250 ms apart, before the deadline, on a shown candidate, forcibly only when the normal click raised, and no earlier poll found anything clickable |
| XActions.ClickRoundsErr | app/x/modules/x_actions.py:40-59 | a failure means no poll before the deadline found anything clickable; the error raised is the click failure of the last candidate shown at the last poll where any showed, and, when none ever showed, the earlier error or else the TimeoutError |
| XActions.ClickFirstVisible | app/x/modules/x_actions.py:40-59 | the loop computes exactly the polling outcome from the start to the deadline |
| XActions.ClickCandidate | app/x/modules/x_actions.py:40-59 | a success clicks one of the candidates within the time window |
| XActions.WaitAny | app/x/modules/x_actions.py:62-73 | the wait returns at the first poll, 200 ms apart, that shows a candidate, and raises the TimeoutError when no poll before the deadline did |
| XActions.FirstVisibleNth | app/x/modules/x_actions.py:88-92 | the index found is the least visible one below the bound; none is found only when none is visible |
| XActions.FileInputChoice | app/x/modules/x_actions.py:81-96 | there is no choice exactly when the scope has no file input; the test-id input wins when present; otherwise the first visible of the first (up to) ten generic inputs is chosen, and the generic input itself when none of them is visible |
| XActions.PickFileInput | app/x/modules/x_actions.py:81-96 | the loop picks exactly that input |
| XActions.MediaRounds | app/x/modules/x_actions.py:150-186 | a failed upload wait raises the TimeoutError |
| XActions.SeenBetweenWiden | app/x/modules/x_actions.py:162-167 | a sighting of the media stays a sighting in a wider window |
| XActions.MediaRoundsSettle | app/x/modules/x_actions.py:162-184 | from any state the loop can reach, a success comes 700 ms after a poll before the deadline at which the upload had settled |
| XActions.MediaWaitSettled | app/x/modules/x_actions.py:150-186 | the wait never returns before the media was seen, and returns only 700 ms after four consecutive indicator-free polls following that sighting, the last of them before the deadline |
| XActions.MediaWaitPrompt | app/x/modules/x_actions.py:165-183 | media that shows with no indicator from the first poll on is accepted 1.6 s after the start |
| XActions.WaitMediaUploadedInComposer | app/x/modules/x_actions.py:150-186 | the upload wait observes the scope taken at its start |
| XActions.MediaLoop | app/x/modules/x_actions.py:162-186 | the loop with its latched sighting and its count of indicator-free polls computes exactly that outcome |
| XActions.WaitButtonEnabled | app/x/modules/x_actions.py:189-206 | the corrected wait returns true at the first pass that finds an acceptable button, and false once the deadline has passed |
| XActions.PageScopeWaitRaises | app/x/modules/x_actions.py:189-206 | as written, waiting in the page scope raises at the first pass that finds no enabled button, where the corrected wait goes on polling |
| XActions.EnabledRoundsAsWritten | app/x/modules/x_actions.py:189-206 | as written, a button found is found before the deadline and is acceptable there; the wait raises only in the page scope, with the missing `page` attribute error, and never in a dialog |
| XActions.DialogScopeWaitAgrees | app/x/modules/x_actions.py:189-206 | in a dialog the wait as written and the corrected wait agree |
| XActions.WaitButtonEnabledMeaning | app/x/modules/x_actions.py:191-206 | a true result means an acceptable button was on screen at that instant, before the deadline; false means no pass before the deadline found one |
| XActions.ComposerTextbox | app/x/modules/x_actions.py:489-491 | the textbox is the one with the textbox role or the bare test id |
| XActions.EnterText | app/x/modules/x_actions.py:494-498 | entering text succeeds exactly when the fill or the select-all goes through, and then its last step puts the text in and it clicks and attaches nothing |
| XActions.EnterTextAsWritten | app/x/modules/x_actions.py:373-378 | as written, the entry succeeds exactly when `fill` or the select-all key press goes through and clicks nothing; when `fill` raised, no step puts the text in |
| XActions.ReplyFillFallbackDropsText | app/x/modules/x_actions.py:375-378 | as written, a reply whose fill raises never types the text yet succeeds; the corrected entry types it as the quote does |
| XActions.AttachMedia | app/x/modules/x_actions.py:500-506 | a missing file input is the RuntimeError with nothing recorded; otherwise the file is set on the chosen input and the upload is waited for |
| XActions.TextboxIsNoReplyButton | app/x/modules/x_actions.py:357-372 | the textbox is not one of the reply triggers |
| XActions.OpenReplyComposer | app/x/modules/x_actions.py:354-367 | the tweet is visited first; a reply trigger is clicked exactly when the composer was not already showing |
| XActions.ComposeText | app/x/modules/x_actions.py:488-498 | filling the composer ends with a step that puts the text in, and clicks only the textbox |
| XActions.PublishWhenEnabled | app/x/modules/x_actions.py:508-516 | the publish click is attempted whether or not the wait for an enabled button succeeded, and a success clicks a publish candidate |
| XActions.AttachIfAny | app/x/modules/x_actions.py:381-389 | without media nothing happens; with media the file is set and the upload waited for, or the missing input is the error |
| XActions.ReplyFinish | app/x/modules/x_actions.py:381-411 | a reply tail sets at most the file and then clicks a publish candidate last |
| XActions.ReplySteps | app/x/modules/x_actions.py:353-411 | an empty URL fails with nothing recorded; a success has the shape of a reply |
| XActions.PublishedAfter | app/x/modules/x_actions.py:369-408 | text entry followed by the media and the publish click gives a published trace |
| XActions.NoTriggerBeforeLast | app/x/modules/x_actions.py:354-408 | parts without trigger clicks give a trace without them except perhaps its last step |
| XActions.ReplyOrder | app/x/modules/x_actions.py:354-408 | the visit, the optional trigger, the text, the media and the publish click, in that order, form a reply |
| XActions.ReplyToTweet | app/x/modules/x_actions.py:334-414 | blank text is a ValueError before any launch; otherwise a reply run on the normalised URL closes the context and the browser at the end |
| XActions.ReplyFrom | app/x/modules/x_actions.py:343-414 | the same run once the browser is launched |
| XActions.OpenMenuItem | app/x/modules/x_actions.py:462-486 | an empty URL fails with nothing recorded; a success visits the tweet, clicks a menu button and then a menu item, and nothing else |
| XActions.MenuThenItem | app/x/modules/x_actions.py:474-486 | a success clicks a menu button, then an item |
| XActions.QuoteSteps | app/x/modules/x_actions.py:461-517 | an empty URL fails with nothing recorded; a success has the shape of a quote |
| XActions.QuoteOrder | app/x/modules/x_actions.py:462-516 | the visit, the menu and quote clicks, the text, the media and the publish click, in that order, form a quote |
| XActions.QuoteTweet | app/x/modules/x_actions.py:442-520 | blank text is a ValueError before any launch; otherwise a quote run on the normalised URL closes at the end |
| XActions.QuoteFrom | app/x/modules/x_actions.py:451-520 | the same run once the browser is launched |
| XActions.RepostTweet | app/x/modules/x_actions.py:236-278 | a repost run launches, closes at the end, fails on an empty URL with nothing between, and on success visits the tweet and clicks the menu button, then the repost item |
| XActions.RepostFrom | app/x/modules/x_actions.py:238-278 | the same run once the browser is launched |
| XActions.UnfollowButton | app/x/modules/x_actions.py:619-622 | the unfollow test id is used exactly when it is shown; the text variants otherwise |
| XActions.UnfollowClicks | app/x/modules/x_actions.py:619-639 | the unfollow button is clicked once it shows; the confirmation is clicked exactly when its sheet was present as the button showed; a button that never shows is the failure, with no click |
| XActions.UnfollowUser | app/x/modules/x_actions.py:600-644 | an unfollow run launches on the Chrome channel, visits the profile, makes those clicks and closes at the end |
| XActions.UnfollowFrom | app/x/modules/x_actions.py:609-644 | the same run once the browser is launched |
| XPost.LastDotBeforeExtension | app/x/modules/x_post.py:22-24 | the last dot of a name ending in an extension is the one that starts the extension |
| XPost.SuffixOfFile | app/x/modules/x_post.py:22-24 | a file with a non-empty stem and an extension of a dot and at least one character has that extension as its suffix |
| XPost.IsVideoFile | app/x/modules/x_post.py:22-24 | a video file has a path suffix of a dot and three or four more characters |
| XPost.VideoByExtension | app/x/modules/x_post.py:22-24 | such a file is a video exactly when its lower-cased extension is one of the six video extensions |
| XPost.DotFileHasNoSuffix | app/x/modules/x_post.py:22-24 | a name whose only dot is its first character has no suffix |
| XPost.DotFileIsNoVideo | app/x/modules/x_post.py:22-24 | a file named by an extension alone, such as ".mp4", is not a video |
| XPost.NoSuffixNoVideo | app/x/modules/x_post.py:22-24 | a path without a suffix is not a video |
| XPost.NoDotNoVideo | app/x/modules/x_post.py:22-24 | a path whose name has no dot is never a video |
| XPost.ReadyRounds | app/x/modules/x_post.py:154-182 | a failed ready wait raises the TimeoutError |
| XPost.ReadyMeaning | app/x/modules/x_post.py:167-180 | the ready wait returns 700 ms after a poll before the deadline that saw no indicator, and the media had been seen at or before that poll |
| XPost.ReadyIsPrompt | app/x/modules/x_post.py:167-180 | media shown with no indicator at the start is accepted at once, where the composer wait of the reply and quote actions takes at least three more polls |
| XPost.ReadyLoop | app/x/modules/x_post.py:167-182 | the loop with its latched sighting computes exactly the ready outcome |
| XPost.WaitMediaUploadedOrReady | app/x/modules/x_post.py:154-182 | the ready wait resolves the remove button in the scope of its start |
| XPost.VideoRounds | app/x/modules/x_post.py:185-210 | a failed video wait raises its TimeoutError |
| XPost.VideoSettles | app/x/modules/x_post.py:192-208 | the video wait returns 1.2 s after the third of three consecutive quiet polls, 500 ms apart, the last before the deadline; no sighting of the media is needed |
| XPost.VideoResetByIndicator | app/x/modules/x_post.py:196-199 | an indicator between quiet polls starts the count again |
| XPost.VideoLoop | app/x/modules/x_post.py:192-210 | the loop with its count of quiet polls computes exactly the video outcome |
| XPost.GateButton | app/x/modules/x_post.py:223-225 | the gate judges the inline button exactly when it is shown, the plain one otherwise |
| XPost.WaitPublishButtonEnabled | app/x/modules/x_post.py:213-243 | the gate opens at the first poll, 400 ms apart, that accepts the button, and raises a TimeoutError, never a False, when none does |
| XPost.GateMeaning | app/x/modules/x_post.py:222-243 | the gate opens at an instant before the deadline where the judged button is acceptable, and no earlier poll had an acceptable one; a timeout means no poll had one |
| XPost.PublishLookup | app/x/modules/x_post.py:249-292 | the button found is one of the publish buttons; the inline button is taken at once exactly when it shows; the plain button exactly when the inline one is hidden and the plain one is present and shows within 10 s, found at the instant it showed; the text button exactly when both failed and it is present after the wait (10 s later when the plain button was present); the page-wide button exactly when all three failed and it is present then; no button exactly when all four fail |
| XPost.ClickChain | app/x/modules/x_post.py:307-330 | the click delivered is the normal one when it goes through, the forced one only when the normal one fails, the mouse click only when both fail |
| XPost.ClickPublish | app/x/modules/x_post.py:246-333 | with no button the screenshot is saved and the error raised; with one, the click succeeds exactly when some delivery goes through, 500 ms after the lookup, and records that delivery; otherwise it raises with nothing recorded |
| XPost.WaitPostDone | app/x/modules/x_post.py:336-358 | the wait says yes at the first poll, 300 ms apart, that sees the dialog gone or hidden or a toast shown, and no at the deadline |
| XPost.NewTweetStep | app/x/modules/x_post.py:380-419 | the side-navigation button opens the composer exactly when it is present and its click goes through; the compose link exactly when that failed and the link is present and clickable; the labelled control exactly when both failed and it is present and clickable; the Ctrl+N shortcut exactly when all three failed and the key press goes through; nothing opens it exactly when none of these goes through |
| XPost.SessionExpired | app/x/modules/x_post.py:374 | the session counts as expired exactly when the login field is present or the lower-cased URL mentions "login" or "signin"; so capitalised forms such as "LOGIN" or "Login" count too |
| XPost.OpenNewTweet | app/x/modules/x_post.py:380-424 | the flag-driven chain raises exactly when no way opens the composer; otherwise it records the one step taken and pauses 2 s |
| XPost.TryTextbox | app/x/modules/x_post.py:60-91 | one way finds the textbox exactly when its selector is present, where that is required, and becomes visible within 10 s |
| XPost.TextboxLookup | app/x/modules/x_post.py:52-93 | the textbox found is one of the four ways; the role textbox in the scope wins whenever it is present and shows in time; the ways are tried in order role, textarea, editable, placeholder, each earlier one having failed, and the found one is that way's result |
| XPost.FirstTextbox | app/x/modules/x_post.py:52-93 | the ways are tried in order until one finds a textbox, each from the instant the previous one gave up |
| XPost.FirstTextboxOrder | app/x/modules/x_post.py:52-93 | a textbox found comes from some way `k` tried after every earlier way failed; when none finds one, all were tried in order |
| XPost.WriteText | app/x/modules/x_post.py:427-441 | writing ends with a step that puts the text in and clicks only the textbox; it is a plain fill exactly when the fill goes through |
| XPost.ComposerFileInput | app/x/modules/x_post.py:27-49 | the test-id input in the scope wins; otherwise the first visible of the first (up to) ten generic inputs in the scope, or that generic input when none is visible; with no input in the scope, the test-id input on the page, else the generic input on the page |
| XPost.PickComposerFileInput | app/x/modules/x_post.py:27-49 | the loop picks exactly that input |
| XPost.WaitMediaProcessedVideo | app/x/modules/x_post.py:185-210 | the video wait observes the upload indicator on the page |
| XPost.VideoIfAny | app/x/modules/x_post.py:457-458 | the video wait runs only for a video file, from the instant given, and its outcome is the video wait's |
| XPost.WaitsMeaning | app/x/modules/x_post.py:154-243 | when the three waits go through, the media was seen and the indicator was off 700 ms before the ready wait returned; for a video the indicator was off at three polls 500 ms apart before the processing wait returned; the gate opened at a poll that accepted the button after every earlier poll refused; a failure is one of the three timeouts |
| XPost.WaitsOutcomeFrom | app/x/modules/x_post.py:453-461 | the waits' outcome is the ready wait's error when it fails; else the processing wait's error when it fails; else the gate's timeout when no poll accepts; else the instant the gate opened |
| XPost.MediaWaits | app/x/modules/x_post.py:453-461 | the waits' outcome is exactly the three waits run one after the other on the page from the instant given, each from the instant the previous returned, with the gate in the scope of its own start; the phases are in order and a failure stops at a proper prefix of them |
| XPost.AttachMediaAndWait | app/x/modules/x_post.py:447-461 | without media nothing happens; with media the file is set exactly when its input gets attached in time, and then the outcome is that of the waits started at the instant it got attached; a success ended when the gate opened; a failure stops before all the stages are done |
| XPost.MediaForPost | app/x/modules/x_post.py:447-461 | a media block that goes through attached the input in time and ended when the gate opened |
| XPost.ComposeTweet | app/x/modules/x_post.py:380-445 | no way to open the composer raises with nothing recorded; no textbox raises after the opening step; a success opens the composer first, puts the text in last, and clicks only the textbox in between |
| XPost.PostPhases | app/x/modules/x_post.py:380-470 | a post goes through opening, text entry, the media stages and the publish click, in that order |
| XPost.PostOrder | app/x/modules/x_post.py:380-470 | the composer opening, the text, the file and the publish click, in that order, have the shape of a post |
| XPost.ComposeForPost | app/x/modules/x_post.py:380-445 | a composed post starts with a new-tweet step and ends with the text |
| XPost.PublishClick | app/x/modules/x_post.py:464 | a successful publish clicks one of the publish buttons, the one the lookup started at the given instant found, by the first delivery that goes through |
| XPost.PublishAndConfirm | app/x/modules/x_post.py:463-470 | a successful end of a post clicked the publish button the lookup started at the given instant found |
| XPost.MediaAndPublish | app/x/modules/x_post.py:447-470 | after the text, a post that goes through set the file, and with media clicked publish starting at the very instant the media waits ended |
| XPost.PostSteps | app/x/modules/x_post.py:380-470 | a live session either fails before completing all the stages or produces a post with the shape above; with media, the publish click is the one found by the lookup started at the instant the media waits ended |
| XPost.PrefixAfter | app/x/modules/x_post.py:380-470 | a run stopped inside a stage stays a proper prefix of the whole list of stages |
| XPost.PostToX | app/x/modules/x_post.py:361-489 | a run launches on the Chrome channel, visits home and closes at the end; an expired session is refused with the debug screenshot and HTML; a run where nothing opens the composer raises; every failure leaves the debug files; a success returns True after a post of the right shape, whose publish click, with media, started at the instant the media waits ended |
| XLogin.CookieStem | app/x/modules/x_login.py:13-16 | the stem is non-empty and made only of safe characters; a blank name gives "account"; a name that is already safe once stripped is kept as it is |
| XLogin.JsonExtIsSafe | app/x/modules/x_login.py:14-18 | the ".json" extension is made of safe characters |
| XLogin.SafeCookieFilename | app/x/modules/x_login.py:12-19 | the file name is safe and between 5 and 120 characters long; a blank name gives "account.json"; the name is the stem with ".json" appended unless it already ends so, cut to its first 120 characters; a short stem already ending in ".json" is kept as it is |
| XLogin.SafeCookieFilenameIdempotent | app/x/modules/x_login.py:12-19 | a file name made by the sanitiser comes back unchanged |
| XLogin.LongNameLosesExtension | app/x/modules/x_login.py:17-19 | a safe 120-character name that does not end in ".json" keeps its length and gets no extension: the appended ".json" is cut again |
| XLogin.CookiePath | app/x/modules/x_login.py:80-82 | the session path ends with the file name |
| XLogin.CookiePathName | app/x/modules/x_login.py:80-82 | the last path component of the session path is the sanitised file name, whatever the directory |
| XLogin.ReplaceExtension | app/x/modules/x_login.py:224-233 | when ".json" occurs in a path only as its extension, replacing it swaps only the extension |
| XLogin.FailedShotBeside | app/x/modules/x_login.py:224-233 | for such a path the failure screenshot and HTML are the path with "_failed.png" and "_failed.html" in place of ".json" |
| XLogin.HomePrefixHasHome | app/x/modules/x_login.py:58 | the home URL prefix test adds nothing to the "home" test |
| XLogin.UrlSignedIn | app/x/modules/x_login.py:58-63 | a URL under the home page votes signed in; a URL mentioning "login" but not "home" votes signed out |
| XLogin.CookieSignedIn | app/x/modules/x_login.py:71-75 | a failure to read the cookies votes signed out; otherwise the vote is whether an auth_token cookie exists |
| XLogin.Majority | app/x/modules/x_login.py:77 | two of three: whenever two votes agree, they decide |
| XLogin.LoggedIn | app/x/modules/x_login.py:54-77 | the verdict, taken 4 s after the call, follows any two of the three votes that agree |
| XLogin.CountTrue | app/x/modules/x_login.py:77 | the number of true votes is at most the number of votes |
| XLogin.CheckLoginSuccess | app/x/modules/x_login.py:54-77 | the check says yes exactly when at least two of the URL vote, the visible new-tweet control and the auth_token cookie are true, taken 4 s after the call; a control or cookie read that raises votes no |
| XLogin.Message | app/x/modules/x_login.py:241 | the text raised for a failed login names the failure screenshot |
| XLogin.EnterField | app/x/modules/x_login.py:187-190 | typing into a field succeeds exactly when its click goes through, and then records the two clicks and the text; otherwise it records nothing and fails on the click |
| XLogin.ClickNext | app/x/modules/x_login.py:118-132 | Next is the role button when its click goes through; otherwise the English text button if visible, else the Arabic one; the run fails exactly when both chosen clicks fail, on the second |
| XLogin.RateLimitShown | app/x/modules/x_login.py:139-155 | the scan reports a rate limit exactly when one of the five messages is present and visible |
| XLogin.CheckBlocked | app/x/modules/x_login.py:136-171 | a rate-limit message stops the login with its screenshot; otherwise a verification input stops it with its own; the login goes on exactly when neither is shown, and then records nothing |
| XLogin.EnterPassword | app/x/modules/x_login.py:173-190 | a password field that never shows stops the login with its screenshot; otherwise the field is clicked and the password typed at the instant it showed |
| XLogin.ClickLogin | app/x/modules/x_login.py:198-216 | the log-in button clicked is the first of test id, English and Arabic role whose click goes through; the login fails on the Arabic one only when all three fail |
| XLogin.Conclude | app/x/modules/x_login.py:221-248 | the login succeeds exactly when the check says yes, and then saves the session to its path and closes; otherwise it writes the failure screenshot and HTML beside the path, closes and fails naming the screenshot |
| XLogin.PasswordStepsFrom | app/x/modules/x_login.py:79-248 | a trace with no password step before a point has its password steps after that point |
| XLogin.SavesNothingAppend | app/x/modules/x_login.py:79-248 | two step lists that save no session save none together |
| XLogin.ReachChecks | app/x/modules/x_login.py:101-134 | a user-name field that never shows stops the login with nothing recorded; otherwise the name is typed, Next is clicked, and the checks start after the typing and Next pauses; no password step is made and nothing is saved |
| XLogin.SignIn | app/x/modules/x_login.py:173-248 | after the password field showed, the password is typed and the verdict taken after the pauses; the session is saved exactly when the verdict is yes; a no writes the failure files; a failure saves nothing |
| XLogin.PastChecks | app/x/modules/x_login.py:136-248 | from the checks on: rate limit, then verification request, then the password field, then the verdict, each stopping the login as described; the password is touched only when neither check stops it |
| XLogin.Finish | app/x/modules/x_login.py:136-248 | the steps before the checks are kept, no password step precedes the checks, and a failure saves nothing |
| XLogin.LoginAt | app/x/modules/x_login.py:87-248 | a login run opens the login page, types the name and clicks Next before any password step, then follows the checks; a failed run saves nothing |
| XLogin.LoginTwitter | app/x/modules/x_login.py:79-248 | `login_twitter` is a login run that saves the session under the sanitised file name in the cookie directory |
| XDelete.BuildTweetUrlById | app/x/modules/x_delete.py:8-11 | the URL is the public status prefix followed by exactly the stripped id |
| XDelete.BuildTweetUrlInjective | app/x/modules/x_delete.py:8-11 | two ids give the same URL exactly when they are equal once stripped |
| XDelete.PresentIndex | app/x/modules/x_delete.py:78-85 | a fallback chain stops at a selector after only selectors without matches, and at a selector other than the last only when it has a match |
| XDelete.FirstPresent | app/x/modules/x_delete.py:66-71 | the selector a fallback chain ends with is one of its selectors |
| XDelete.FirstPresentUnfold | app/x/modules/x_delete.py:78-85 | a chain stops at its head when the head has a match or is the last selector, and otherwise goes on with the rest |
| XDelete.ShowAndClick | app/x/modules/x_delete.py:87-88 | a success is a click of the selector at an instant within the timeout after the wait began; a failure is the wait timing out or the click raising, for that selector |
| XDelete.DeleteClicks | app/x/modules/x_delete.py:62-94 | the clicks are at most three, caret, Delete, confirmation, in that order; the run succeeds exactly when all three were made, and then the confirmation click came at least the load pause and both menu pauses after the page opened; a run that clicked Delete and still failed failed on the confirmation |
| XDelete.ChooseCaret | app/x/modules/x_delete.py:66-71 | the reassignment chain picks the caret the fallback chain ends with |
| XDelete.ChooseDelete | app/x/modules/x_delete.py:78-85 | the reassignment chain picks the Delete button the fallback chain ends with |
| XDelete.Choreography | app/x/modules/x_delete.py:58-94 | the steps of the `try` body compute exactly the outcome and clicks of the delete stages |
| XDelete.DeleteTweet | app/x/modules/x_delete.py:31-107 | a run launches on the Chrome channel or falls back to no channel, visits the tweet, makes the delete clicks and closes; a success returns after the final pause, a failure takes the debug screenshot and raises a RuntimeError wrapping the failure |
| XDelete.DeleteFrom | app/x/modules/x_delete.py:52-107 | the same run once the browser is launched |
| XDelete.DeleteTweetById | app/x/modules/x_delete.py:14-28 | deleting by id is a delete run on the URL built from the id |
| XDelete.DeletedAfterConfirm | app/x/modules/x_delete.py:62-104 | a run returns True only after visiting the tweet and clicking caret, Delete and confirmation in that order, and nothing else; a failed run raises the wrapped error after the debug screenshot |
| XBookmark.FirstShown | app/x/modules/x_bookmark.py:26-36 | the scan stops at the first shown candidate, every earlier one hidden; it finds none only when no candidate is shown |
| XBookmark.FirstShownAppend | app/x/modules/x_bookmark.py:75-93 | scanning two lists in turn reaches the second only when nothing in the first is shown |
| XBookmark.ClickBookmark | app/x/modules/x_bookmark.py:21-52 | a success is a click of one of the candidates or of the label |
| XBookmark.ClickBookmarkMeaning | app/x/modules/x_bookmark.py:26-52 | the clicked candidate is the first shown; the label is clicked only when no candidate is shown; with a candidate shown, the outcome is its plain click when that goes through, else its forced click, else its click failure; with none shown, the label is clicked exactly when it is present and one of its clicks goes through, plain first, and otherwise the result is the not-found TimeoutError |
| XBookmark.ScanAndClick | app/x/modules/x_bookmark.py:26-52 | the loop with its flag and the label fallback computes exactly the click or the failure of the scan |
| XBookmark.BookmarkFrom | app/x/modules/x_bookmark.py:13-58 | a run visits the tweet, makes at most the scan's one click, pauses after a click and closes; without a click the failure of the scan is raised |
| XBookmark.BookmarkTweet | app/x/modules/x_bookmark.py:7-58 | bookmarking launches on the Chrome channel with no fallback and runs over the bookmark candidates and label |
| XBookmark.UndoBookmarkTweet | app/x/modules/x_bookmark.py:61-115 | removing a bookmark runs over the removeBookmark candidates first, then the bookmark ones, with the wider label |
| XBookmark.AtMostOneClick | app/x/modules/x_bookmark.py:26-58 | a run clicks once when it succeeds and not at all when it fails, and only a candidate or the label |
| XBookmark.UndoPrefersRemove | app/x/modules/x_bookmark.py:75-93 | when a removeBookmark candidate is shown, removal clicks a removeBookmark candidate, and a failure is the click of one |

## Left out

- Playwright itself is not part of this model: launching, contexts, stealth scripts, navigation, locators, screenshots and HTML dumps. The page is the `Browser.Page` oracle, and `goto` never fails.
- Playwright's strict mode and its per-call timeouts are folded into the click, fill and key oracles: a call either goes through at its instant or raises.
- Clock and timing:
  - `time.time()` deadlines are modelled as instants in milliseconds.
  - Playwright calls other than waits and pauses take no time.
  - Random pauses in `login_twitter` are the fields of the `XLogin.Pauses` parameter.
- Humanisation is not modelled: `human_actions`, mouse movements, `hover`, and the per-character delays of `type_like_human`. Typing is one `Typed` step.
- XLogin.EnterField, XLogin.ClickNext, XLogin.ClickLogin: the click on a field, the click that `type_like_human` makes on it and the fallback attempts after it are all looked up at one instant. The source's humanisation sleeps between them (`x_login.py`, lines 107-110, 121-131 and 199-216) do not advance the model's clock.
- Gemini.SortByMtime: stability is not stated. Its contract gives sortedness and a permutation, so the order among files with equal modification times, and hence which of them `Gemini.Excess` picks, is left open.
- `scroll_into_view_if_needed` is assumed never to raise and is not recorded.
- A screenshot or HTML dump that raises is swallowed by the source. The model always records the step.
- When `login_twitter` raises before its end, the browser is torn down by the Playwright context manager. The trace does not record that teardown.
- `like_tweet`, `undo_repost_tweet`, `undo_like_tweet`, `bookmark_tweet`, `share_copy_link` and `follow_user` of `x_actions.py` are not part of this model. They repeat the candidate-click pattern that `XActions.ClickRounds` models.
- Gemini and OpenAI calls are the `TextModel` parameters; a failed call is `None`. This covers `generate_tweet`, `generate_name_with_gemini`, `generate_bio_with_gemini` and `refine_with_gpt`. Image generation and editing are not part of this model.
- The tokens-used metadata of `generate_tweet` is a parameter of the model reply.
- JSON objects (`Utils.Json`'s `JObj`) and logged dicts (`SecureLogger.Data`'s `Dict`) are lists of key-value pairs in insertion order, and nothing stops a key from repeating. A Python dict has unique keys. `json.load` keeps the last value of a repeated key, while `Utils.Lookup` takes the first. The model therefore matches the source only for objects without repeated keys. In `SecureLogger` each pair is sanitised on its own, so a dict with a repeated key keeps every pair there, where a Python dict would hold one.
- PublishAndConfirm: whether the composer closed after the publish click is not stated. `post_to_x` only prints that answer and returns True either way.
- Regular-expression substitution in `secure_logger.py` is the abstract `SecureLogger.Substitute` function, applied per pattern in list order.
- The Unicode classes behind Python's `\w` and `\d` are the `Text.CharDb` parameter.
- `str.lower()` lower-cases ASCII letters only. Every other character is its own lower case.
- `time.time()` in the cookie expiry default is the integer parameter `now`. Expiry values are Dafny reals.
- `mimetypes.guess_extension` is the `mimeExt` parameter of `Utils.GuessExt`.
- `pathlib` normalisation is modelled for a trailing '/', "" and "." only. `mkdir` is not modelled.
- File modification times and removals in `_cleanup_old_images` are an abstract listing plus a per-file removal result.
- `XActions.MediaRounds`, `XPost.ReadyRounds`, `XPost.VideoRounds`: their own contracts state only the timeout error. What a success means is stated by `XActions.MediaWaitSettled`, `XPost.ReadyMeaning` and `XPost.VideoSettles`.
- ReplySteps, ReplyToTweet and ReplyFrom model the corrected reply. They enter the text through `XActions.ComposeText`, which uses `XActions.EnterText` (the fill-then-type fallback of the quote). They wait with the corrected `XActions.WaitButtonEnabled`. The code as written is `XActions.EnterTextAsWritten` and `XActions.EnabledRoundsAsWritten` (see "## Findings").
- PublishWhenEnabled and ReplyFinish wait with the corrected `XActions.WaitButtonEnabled`. As written, the wait raises in the page scope (`XActions.PageScopeWaitRaises`).
- QuoteSteps, QuoteTweet and QuoteFrom wait for the publish button with the corrected `XActions.WaitButtonEnabled`. As written, that wait behaves as `XActions.EnabledRoundsAsWritten`.
- BioSubject and ProcessRequest model the corrected default bio subject "المستخدم". As written, the subject is "None" (`ProfileAgent.BioSubjectAsWritten`, `ProfileAgent.ProcessRequestAsWritten`).
- SecureLogger.Data gives dicts string keys only. A non-string key, on which `key.lower()` raises AttributeError, is not modelled.
- `XLogin.SignIn`, `XLogin.LoginAt`, `XLogin.LoginTwitter`: the instants of the checks and of the verdict are ghost results. These instants appear only in the contract.

## Findings

| source | as written | input that shows it | evidently intended | confidence | as-written member | corrected member |
|---|---|---|---|---|---|---|
| app/agents/profile_agent.py:396 | `intent_data.get("account_name", "المستخدم")` returns the stored `None`, because `detect_intent` always sets the key. The bio is then written for "None" | the request "bio" with no model configured | the bio names "المستخدم" when no account name was found | not executed | ProfileAgent.BioAboutNone | ProfileAgent.BioNamesSubject |
| app/x/modules/x_actions.py:375-378 | when `fill` raises, the reply fallback presses Control+A and never types the text. The reply is then published without it | `fill` raises on the reply textbox while key presses go through | type the text after selecting all, as `quote_tweet` does at lines 494-498 | not executed | XActions.ReplyFillFallbackDropsText | XActions.EnterText |
| app/x/modules/x_actions.py:205 | the pause is `scope.page.wait_for_timeout(250)`. Without a dialog the scope is the page itself, which has no `page` attribute, so the first pass that finds no enabled button raises | a reply in the inline composer (no dialog open) whose publish button is not yet enabled at the first pass (lines 404-405) | keep polling every 250 ms and return False at the deadline | not executed | XActions.PageScopeWaitRaises | XActions.WaitButtonEnabledMeaning |

=== FILE: browser.dfy ===
/**
 * The browser as the X automation modules see it. The page
 * is an oracle that answers the yes/no and small-value questions the code asks
 * (how many elements match a selector, is the first one visible or enabled,
 * what is its aria-disabled attribute, does a click go through, how long until
 * an element reaches a state, what is the URL, which cookies exist), each at an
 * instant given in milliseconds since the session started. Only the explicit
 * sleeps and waits of the code move the clock; a Playwright call itself takes
 * no time in this model. What the code does to the page is recorded as a
 * sequence of steps.
 */
module Browser {
  import opened Wrappers
  import opened Text

  /** A Playwright selector; chained selectors are joined with " >> ". */
  type Selector = string

  /** How a click is delivered: `click()`, `click(force=True)`, or a mouse click at the centre of the bounding box. */
  datatype ClickMode = Normal | Forced | Mouse

  /** The states `wait_for` can wait for. */
  datatype WaitState = Visible | Attached

  /**
   * The page over time. Every question is about the first element matching the
   * selector, as `locator(sel).first` is, except `count`, which counts all of them.
   */
  datatype Page = Page(
    count: (nat, Selector) -> nat,
    visible: (nat, Selector) -> bool,
    enabled: (nat, Selector) -> Option<bool>,      // None: `is_enabled()` raised
    ariaDisabled: (nat, Selector) -> Option<string>,
    click: (nat, Selector, ClickMode) -> bool,      // false: the click raised
    fill: (nat, Selector) -> bool,                  // false: `fill` raised
    key: (nat, string) -> bool,                     // false: `keyboard.press` raised
    reach: (nat, Selector, WaitState) -> Option<nat>, // ms until the element reaches the state; None: never
    url: nat -> string,
    cookieNames: nat -> Option<seq<string>>)        // None: reading the cookies raised

  /** What one poll of a waiting loop observes, as a function of the instant. */
  type Probe = nat -> bool

  /** `loc.count() and loc.first.is_visible()`. */
  predicate Shown(page: Page, t: nat, sel: Selector)
  {
    page.count(t, sel) > 0 && page.visible(t, sel)
  }

  /** Some selector of the list is shown (the any-search loops that return True on the first hit). */
  predicate AnyShown(page: Page, t: nat, sels: seq<Selector>)
  {
    exists k :: 0 <= k < |sels| && Shown(page, t, sels[k])
  }

  /** `loc.nth(i)`. */
  function Nth(sel: Selector, i: nat): Selector
  {
    sel + " >> nth=" + IntToString(i)
  }

  /** Where locators are resolved: the first open dialog, or the whole page. */
  datatype Scope = WholePage | InDialog

  const DialogSel := "div[role='dialog']"

  /** `_get_scope`: the first dialog when one exists, the page otherwise. */
  function GetScope(page: Page, t: nat): (s: Scope)
    ensures s == InDialog <==> page.count(t, DialogSel) > 0
  {
    if page.count(t, DialogSel) > 0 then InDialog else WholePage
  }

  /** `scope.locator(sel)` as one selector. */
  function Within(scope: Scope, sel: Selector): Selector
  {
    match scope
    case WholePage => sel
    case InDialog => DialogSel + " >> nth=0 >> " + sel
  }

  /** Why an action failed; each constructor is one kind of raise in the source. */
  datatype Failure =
    | TimeoutError(message: string)
    | ClickFailed(sel: Selector)            // the last click attempt on `sel` raised
    | WaitTimedOut(sel: Selector)           // Playwright's `wait_for` gave up
    | ValueError(message: string)
    | RuntimeError(message: string)
    | Raised(message: string)               // a bare `Exception`
    | Wrapped(prefix: string, cause: Failure) // `RuntimeError(f"...{e}")` around another failure

  /** What the code did to the browser, in order. */
  datatype Step =
    | Launched(channel: Option<string>)
    | Visited(url: string)
    | Clicked(sel: Selector, mode: ClickMode)
    | Filled(sel: Selector, text: string)
    | Pressed(target: Option<Selector>, keys: string)
    | Typed(sel: Selector, text: string)
    | FilesSet(sel: Selector, path: string)
    | Screenshot(path: string)
    | SavedHtml(path: string)
    | SavedState(path: string)
    | ContextClosed
    | BrowserClosed

  /** The selectors clicked, in order. */
  function ClickedSelectors(trace: seq<Step>): (r: seq<Selector>)
    ensures |r| <= |trace|
  {
    if trace == [] then []
    else ClickedSelectors(trace[..|trace| - 1])
         + (if trace[|trace| - 1].Clicked? then [trace[|trace| - 1].sel] else [])
  }

  lemma {:induction false} ClickedSelectorsAppend(a: seq<Step>, b: seq<Step>)
    ensures ClickedSelectors(a + b) == ClickedSelectors(a) + ClickedSelectors(b)
    decreases |b|
  {
    if b != [] {
      var front := b[..|b| - 1];
      var last := if b[|b| - 1].Clicked? then [b[|b| - 1].sel] else [];
      assert (a + b)[..|a + b| - 1] == a + front;
      assert (a + b)[|a + b| - 1] == b[|b| - 1];
      ClickedSelectorsAppend(a, front);
      calc {
        ClickedSelectors(a + b);
        ClickedSelectors(a + front) + last;
        ClickedSelectors(a) + ClickedSelectors(front) + last;
        ClickedSelectors(a) + (ClickedSelectors(front) + last);
      }
    } else {
      assert a + b == a;
    }
  }

  /** No step of the trace clicks one of `sels`. */
  predicate ClicksNone(steps: seq<Step>, sels: seq<Selector>)
  {
    forall i :: 0 <= i < |steps| && steps[i].Clicked? ==> steps[i].sel !in sels
  }

  lemma ClicksNoneAppend(a: seq<Step>, b: seq<Step>, sels: seq<Selector>)
    requires ClicksNone(a, sels) && ClicksNone(b, sels)
    ensures ClicksNone(a + b, sels)
  {
    forall i | 0 <= i < |a + b| && (a + b)[i].Clicked?
      ensures (a + b)[i].sel !in sels
    {
      if i >= |a| {
        assert (a + b)[i] == b[i - |a|];
      }
    }
  }

  /** `wait_for(state=..., timeout=...)`: the instant the state is reached, or a timeout failure. */
  function WaitFor(page: Page, t: nat, sel: Selector, state: WaitState, timeoutMs: nat): (r: Result<nat, Failure>)
    ensures r.Ok? ==> t <= r.value <= t + timeoutMs
    ensures r.Err? ==> r.error == WaitTimedOut(sel)
    ensures r.Ok? <==> page.reach(t, sel, state).Some? && page.reach(t, sel, state).value <= timeoutMs
  {
    var d := page.reach(t, sel, state);
    if d.Some? && d.value <= timeoutMs then Ok(t + d.value) else Err(WaitTimedOut(sel))
  }

  /** A click of the first match that falls back to a forced click: `try: click() except: click(force=True)`. */
  function ClickOrForce(page: Page, t: nat, sel: Selector): (r: Result<ClickMode, Failure>)
    ensures r.Ok? <==> page.click(t, sel, Normal) || page.click(t, sel, Forced)
    ensures r == Ok(Normal) <==> page.click(t, sel, Normal)
    ensures r.Err? ==> r.error == ClickFailed(sel)
  {
    if page.click(t, sel, Normal) then Ok(Normal)
    else if page.click(t, sel, Forced) then Ok(Forced)
    else Err(ClickFailed(sel))
  }

  /** The steps of a plain `click()` on the first match; a failing click adds none. */
  function ClickStep(page: Page, t: nat, sel: Selector): Result<Step, Failure>
  {
    if page.click(t, sel, Normal) then Ok(Clicked(sel, Normal)) else Err(ClickFailed(sel))
  }

  /** The `j`-th poll of a loop that started at `t` and sleeps `step` ms between passes. */
  function PollAt(t: nat, step: nat, j: nat): nat
  {
    t + step * j
  }

  /**
   * A loop `while now < deadline: if p(): return ...; sleep(step)` started at
   * `t`: the first poll at which `p` holds, or None when no poll before the
   * deadline saw it.
   */
  function FirstPoll(p: Probe, t: nat, deadline: nat, step: nat): (r: Option<nat>)
    requires step > 0
    ensures r.Some? ==> t <= r.value < deadline && p(r.value)
    ensures p(t) && t < deadline ==> r == Some(t)
    decreases deadline - t
  {
    if t >= deadline then None
    else if p(t) then Some(t)
    else FirstPoll(p, t + step, deadline, step)
  }

  /** The instant such a loop gives up: its first poll at or after the deadline. */
  function PollsEnd(t: nat, deadline: nat, step: nat): (e: nat)
    requires step > 0
    ensures e >= deadline && e >= t
    decreases deadline - t
  {
    if t >= deadline then t else PollsEnd(t + step, deadline, step)
  }

  /**
   * The first poll is a poll before the deadline at which `p` holds and no
   * earlier poll saw it; None means no poll before the deadline saw it.
   */
  lemma {:induction false} FirstPollMeaning(p: Probe, t: nat, deadline: nat, step: nat)
    requires step > 0
    ensures var r := FirstPoll(p, t, deadline, step);
            && (r.Some? ==> t <= r.value < deadline && p(r.value)
                            && (exists j :: r.value == PollAt(t, step, j))
                            && forall j :: PollAt(t, step, j) < r.value ==> !p(PollAt(t, step, j)))
            && (r.None? ==> forall j :: PollAt(t, step, j) < deadline ==> !p(PollAt(t, step, j)))
    decreases deadline - t
  {
    var r := FirstPoll(p, t, deadline, step);
    if t < deadline {
      if p(t) {
        assert r.value == PollAt(t, step, 0);
      } else {
        var next := t + step;
        FirstPollMeaning(p, next, deadline, step);
        if r.Some? {
          var j0: nat :| r.value == PollAt(next, step, j0);
          assert r.value == PollAt(t, step, j0 + 1);
        }
        forall j: nat | PollAt(t, step, j) < (if r.Some? then r.value else deadline)
          ensures !p(PollAt(t, step, j))
        {
          if j > 0 {
            assert PollAt(t, step, j) == PollAt(next, step, j - 1);
          }
        }
      }
    }
  }

  /** The Chrome channel: `os.getenv("XSUITE_CHROME_CHANNEL", "").strip() or "chrome"`. */
  function ChromeChannel(env: string): (c: string)
    ensures c != []
    ensures Strip(env) != [] ==> c == Strip(env)
    ensures Strip(env) == [] ==> c == "chrome"
  {
    if Strip(env) == [] then "chrome" else Strip(env)
  }

  /**
   * `_launch_browser`: Chromium on the configured channel, or with no channel
   * when launching on that channel raised (`channelUp` is false).
   */
  function Launch(env: string, channelUp: bool): (s: Step)
    ensures s.Launched?
    ensures s.channel.Some? <==> channelUp
    ensures channelUp ==> s.channel == Some(ChromeChannel(env))
  {
    if channelUp then Launched(Some(ChromeChannel(env))) else Launched(None)
  }

  /** `finally: context.close(); browser.close()`. */
  const Closing: seq<Step> := [ContextClosed, BrowserClosed]

  /** The trace ends with the context and the browser being closed. */
  predicate ClosedAtEnd(trace: seq<Step>)
  {
    |trace| >= 2 && trace[|trace| - 2..] == Closing
  }

  /** The steps of an action between the launch and the closing of the context and the browser. */
  function Session(launch: Step, steps: seq<Step>): (trace: seq<Step>)
    ensures |trace| == |steps| + 3 && trace[0] == launch
    ensures trace[1..|trace| - 2] == steps && ClosedAtEnd(trace)
  {
    var trace := [launch] + steps + Closing;
    assert trace[|trace| - 2..] == Closing;
    trace
  }
}

=== FILE: content_generator.dfy ===
/**
 * The deterministic parts of the tweet-writing agent
 * (app/agents/content_generator_agent.py): prompt construction, clean-up of
 * the model's reply, topic suggestions and quality scoring. The language
 * model is a parameter.
 */
module ContentGenerator {
  import opened Wrappers
  import opened Text

  // ------------------------------------------------------------ _clean_content

  /** The characters stripped from both ends of a reply: the double and the single quote. */
  predicate IsQuote(c: char)
  {
    c == '"' || c == '\''
  }

  const TweetLabelAr := "التغريدة:"
  const TweetLabelEn := "Tweet:"
  const Ellipsis := "..."

  /** `s.split(":", 1)[1]` for a string holding a ':'. */
  function AfterFirstColon(s: string): string
    requires ':' in s
  {
    s[IndexOf(s, ':') + 1..]
  }

  /** The reply after quote stripping and label removal, before the length check. */
  function Unlabelled(content: string): string
  {
    var unquoted := Trim(content, IsQuote);
    if StartsWith(unquoted, TweetLabelAr) || StartsWith(unquoted, TweetLabelEn) then
      assert unquoted[|TweetLabelEn| - 1] == ':' || unquoted[|TweetLabelAr| - 1] == ':';
      Strip(AfterFirstColon(unquoted))
    else unquoted
  }

  /** Stripping text that ends in "..." only removes the whitespace in front of it. */
  lemma StripKeepsEllipsis(head: string)
    ensures Strip(head + Ellipsis) == TrimLeft(head, IsSpace) + Ellipsis
    ensures EndsWith(Strip(head + Ellipsis), Ellipsis)
  {
    TrimLeftBefore(head, Ellipsis, IsSpace);
    var left := TrimLeft(head, IsSpace) + Ellipsis;
    assert left[|left| - 1] == '.';
    var r := TrimRight(left, IsSpace);
    assert |r| == |left|;
    assert left[|left| - 3..] == Ellipsis;
  }

  /**
   * `_clean_content`: strip quotes, drop a leading "Tweet:" label, cut a reply
   * longer than `maxLength` to `maxLength - 3` characters plus "...", strip.
   */
  function CleanContent(content: string, maxLength: int): (r: string)
    ensures r == [] || (!IsSpace(r[0]) && !IsSpace(r[|r| - 1]))
    ensures maxLength >= 3 ==> |r| <= maxLength
    ensures |Unlabelled(content)| <= maxLength ==> r == Strip(Unlabelled(content))
    ensures |Unlabelled(content)| > maxLength ==> EndsWith(r, Ellipsis)
    ensures |Unlabelled(content)| > maxLength ==>
              r == TrimLeft(PyTake(Unlabelled(content), maxLength - 3), IsSpace) + Ellipsis
  {
    var text := Unlabelled(content);
    if |text| > maxLength then
      StripKeepsEllipsis(PyTake(text, maxLength - 3));
      Strip(PyTake(text, maxLength - 3) + Ellipsis)
    else Strip(text)
  }

  /** A reply that is already clean is kept as it is. */
  lemma CleanContentKeepsCleanText(content: string, maxLength: int)
    requires |content| <= maxLength
    requires content != [] ==> !IsQuote(content[0]) && !IsQuote(content[|content| - 1])
    requires content != [] ==> !IsSpace(content[0]) && !IsSpace(content[|content| - 1])
    requires !StartsWith(content, TweetLabelAr) && !StartsWith(content, TweetLabelEn)
    ensures CleanContent(content, maxLength) == content
  {
    TrimFixed(content, IsQuote);
    TrimFixed(content, IsSpace);
  }

  // ------------------------------------------------------------- suggest_topics

  const Motivational := "تحفيزي"
  const Religious := "ديني"
  const Technical := "تقني"
  const Social := "اجتماعي"
  const Cultural := "ثقافي"

  const MotivationalTopics := ["النجاح والإنجاز", "التغلب على الصعوبات", "الأحلام والطموحات", "قوة الإرادة", "التطوير الذاتي"]
  const ReligiousTopics := ["الشكر والحمد", "الصبر والرضا", "الدعاء والتضرع", "التفاؤل والأمل", "الأخلاق الحسنة"]
  const TechnicalTopics := ["الذكاء الاصطناعي", "البرمجة والتطوير", "التكنولوجيا الحديثة", "الأمن السيبراني", "مستقبل التقنية"]
  const SocialTopics := ["العلاقات الإنسانية", "التواصل الفعال", "الصداقة والأخوة", "العائلة والأسرة", "المجتمع والتعاون"]
  const CulturalTopics := ["القراءة والمعرفة", "الفن والإبداع", "التاريخ والحضارة", "اللغة والأدب", "الثقافة والتراث"]

  /** `suggest_topics`: the five listed topics of a known category, none otherwise. */
  function SuggestTopics(category: string): (topics: seq<string>)
    ensures category in {Motivational, Religious, Technical, Social, Cultural} <==> |topics| == 5
    ensures category !in {Motivational, Religious, Technical, Social, Cultural} ==> topics == []
    ensures category == Motivational ==> topics == MotivationalTopics
    ensures category == Religious ==> topics == ReligiousTopics
    ensures category == Technical ==> topics == TechnicalTopics
    ensures category == Social ==> topics == SocialTopics
    ensures category == Cultural ==> topics == CulturalTopics
  {
    if category == Motivational then MotivationalTopics
    else if category == Religious then ReligiousTopics
    else if category == Technical then TechnicalTopics
    else if category == Social then SocialTopics
    else if category == Cultural then CulturalTopics
    else []
  }

  // ------------------------------------------------------------- _build_prompt

  /** The arguments of `generate_tweet` that shape the prompt. */
  datatype TweetRequest = TweetRequest(
    topic: string, style: Option<string>, language: string, maxLength: int,
    tone: Option<string>, includeHashtags: bool, includeEmoji: bool)

  /** Python truthiness of an optional string. */
  predicate Given(o: Option<string>)
  {
    o.Some? && o.value != ""
  }

  /** One line of the prompt. */
  datatype PromptLine =
    | TopicLine(topic: string)
    | RequirementsHeading
    | LanguageLine(languageName: string)
    | MaxLengthLine(maxLength: int)
    | StyleLine(style: string)
    | ToneLine(tone: string)
    | EmojiLine
    | HashtagLine
    | Closing

  const TopicIntro := "اكتب تغريدة عن: "

  function Render(line: PromptLine): string
  {
    match line
    case TopicLine(topic) => TopicIntro + topic + "\n\n"
    case RequirementsHeading => "المتطلبات:\n"
    case LanguageLine(name) => "- اللغة: " + name + "\n"
    case MaxLengthLine(n) => "- الحد الأقصى: " + IntToString(n) + " حرف\n"
    case StyleLine(style) => "- الأسلوب: " + style + "\n"
    case ToneLine(tone) => "- النبرة: " + tone + "\n"
    case EmojiLine => "- أضف إيموجي مناسب\n"
    case HashtagLine => "- أضف 1-3 هاشتاقات ذات صلة\n"
    case Closing => "\nاكتب التغريدة مباشرة بدون مقدمات أو شروحات."
  }

  function RenderAll(lines: seq<PromptLine>): string
  {
    if lines == [] then "" else RenderAll(lines[..|lines| - 1]) + Render(lines[|lines| - 1])
  }

  function LanguageName(language: string): string
  {
    if language == "arabic" then "العربية" else "English"
  }

  /** The text of an optional string argument, `""` when it is absent. */
  function ValueOr(o: Option<string>): string
  {
    if o.Some? then o.value else ""
  }

  /** A line that appears only when `present`. */
  function Optional(present: bool, line: PromptLine): seq<PromptLine>
  {
    if present then [line] else []
  }

  /** The four lines every prompt opens with. */
  function BaseLines(q: TweetRequest): seq<PromptLine>
  {
    [TopicLine(q.topic), RequirementsHeading, LanguageLine(LanguageName(q.language)), MaxLengthLine(q.maxLength)]
  }

  /** The lines of the prompt in order; the optional ones appear only when requested. */
  function PromptLines(q: TweetRequest): seq<PromptLine>
  {
    BaseLines(q)
    + Optional(Given(q.style), StyleLine(ValueOr(q.style)))
    + Optional(Given(q.tone), ToneLine(ValueOr(q.tone)))
    + Optional(q.includeEmoji, EmojiLine)
    + Optional(q.includeHashtags, HashtagLine)
    + [Closing]
  }

  /** The mandatory lines are always there, first and in this order; the request closes the prompt. */
  lemma PromptFrame(q: TweetRequest)
    ensures var lines := PromptLines(q);
      && lines[..4] == [TopicLine(q.topic), RequirementsHeading, LanguageLine(LanguageName(q.language)), MaxLengthLine(q.maxLength)]
      && lines[|lines| - 1] == Closing
  {
  }

  /** Each optional line is present exactly when requested. */
  lemma PromptOptionalLines(q: TweetRequest)
    ensures var lines := PromptLines(q);
      && ((exists k :: 0 <= k < |lines| && lines[k].StyleLine?) <==> Given(q.style))
      && ((exists k :: 0 <= k < |lines| && lines[k].ToneLine?) <==> Given(q.tone))
      && ((exists k :: 0 <= k < |lines| && lines[k] == EmojiLine) <==> q.includeEmoji)
      && ((exists k :: 0 <= k < |lines| && lines[k] == HashtagLine) <==> q.includeHashtags)
  {
    var lines := PromptLines(q);
    if Given(q.style) { assert lines[4].StyleLine?; }
    var afterStyle := 4 + if Given(q.style) then 1 else 0;
    var afterTone := afterStyle + if Given(q.tone) then 1 else 0;
    if Given(q.tone) { assert lines[afterStyle].ToneLine?; }
    if q.includeEmoji { assert lines[afterTone] == EmojiLine; }
    if q.includeHashtags { assert lines[|lines| - 2] == HashtagLine; }
  }

  lemma {:induction false} RenderConcat(a: seq<PromptLine>, b: seq<PromptLine>)
    ensures RenderAll(a + b) == RenderAll(a) + RenderAll(b)
    decreases |b|
  {
    if b != [] {
      var init := b[..|b| - 1];
      assert (a + b)[..|a + b| - 1] == a + init;
      RenderConcat(a, init);
    } else {
      assert a + b == a;
    }
  }

  /** The text a line contributes when it is present. */
  function IfGiven(present: bool, line: PromptLine): string
  {
    if present then Render(line) else ""
  }

  lemma RenderOptional(present: bool, line: PromptLine)
    ensures RenderAll(Optional(present, line)) == IfGiven(present, line)
  {
    if present {
      assert [line][..0] == [];
    }
  }

  /** Appending one line appends its text. */
  lemma RenderSnoc(lines: seq<PromptLine>, line: PromptLine)
    ensures RenderAll(lines + [line]) == RenderAll(lines) + Render(line)
  {
    assert (lines + [line])[..|lines|] == lines;
  }

  /** Appending an optional line appends its text when it is present. */
  lemma RenderWithOptional(lines: seq<PromptLine>, present: bool, line: PromptLine)
    ensures RenderAll(lines + Optional(present, line)) == RenderAll(lines) + IfGiven(present, line)
  {
    RenderConcat(lines, Optional(present, line));
    RenderOptional(present, line);
  }

  /** The text of the four opening lines. */
  lemma BaseText(q: TweetRequest)
    ensures RenderAll(BaseLines(q)) == Render(TopicLine(q.topic)) + Render(RequirementsHeading)
        + Render(LanguageLine(LanguageName(q.language))) + Render(MaxLengthLine(q.maxLength))
  {
    var l0 := [TopicLine(q.topic)];
    var l1 := l0 + [RequirementsHeading];
    var l2 := l1 + [LanguageLine(LanguageName(q.language))];
    var l3 := l2 + [MaxLengthLine(q.maxLength)];
    assert l3 == BaseLines(q);
    assert RenderAll(l0) == Render(TopicLine(q.topic)) by { assert l0[..0] == []; }
    RenderSnoc(l0, RequirementsHeading);
    RenderSnoc(l1, LanguageLine(LanguageName(q.language)));
    RenderSnoc(l2, MaxLengthLine(q.maxLength));
  }

  /** The prompt text, piece by piece in the order the lines are appended. */
  lemma PromptText(q: TweetRequest)
    ensures RenderAll(PromptLines(q))
      == Render(TopicLine(q.topic)) + Render(RequirementsHeading) + Render(LanguageLine(LanguageName(q.language)))
         + Render(MaxLengthLine(q.maxLength))
         + IfGiven(Given(q.style), StyleLine(ValueOr(q.style)))
         + IfGiven(Given(q.tone), ToneLine(ValueOr(q.tone)))
         + IfGiven(q.includeEmoji, EmojiLine)
         + IfGiven(q.includeHashtags, HashtagLine)
         + Render(Closing)
  {
    var l3 := BaseLines(q);
    var s := Optional(Given(q.style), StyleLine(ValueOr(q.style)));
    var t := Optional(Given(q.tone), ToneLine(ValueOr(q.tone)));
    var e := Optional(q.includeEmoji, EmojiLine);
    var h := Optional(q.includeHashtags, HashtagLine);
    BaseText(q);
    RenderWithOptional(l3, Given(q.style), StyleLine(ValueOr(q.style)));
    RenderWithOptional(l3 + s, Given(q.tone), ToneLine(ValueOr(q.tone)));
    RenderWithOptional(l3 + s + t, q.includeEmoji, EmojiLine);
    RenderWithOptional(l3 + s + t + e, q.includeHashtags, HashtagLine);
    RenderSnoc(l3 + s + t + e + h, Closing);
  }

  /** `_build_prompt`: the text is assembled line after line. */
  method BuildPrompt(q: TweetRequest) returns (prompt: string)
    ensures prompt == RenderAll(PromptLines(q))
  {
    var langName := if q.language == "arabic" then "العربية" else "English";
    prompt := TopicIntro + q.topic + "\n\n";
    prompt := prompt + "المتطلبات:\n";
    prompt := prompt + ("- اللغة: " + langName + "\n");
    prompt := prompt + ("- الحد الأقصى: " + IntToString(q.maxLength) + " حرف\n");
    assert prompt == Render(TopicLine(q.topic)) + Render(RequirementsHeading) + Render(LanguageLine(LanguageName(q.language)))
         + Render(MaxLengthLine(q.maxLength));
    ghost var text := prompt;
    if q.style.Some? && q.style.value != "" {
      prompt := prompt + ("- الأسلوب: " + q.style.value + "\n");
    }
    text := text + IfGiven(Given(q.style), StyleLine(ValueOr(q.style)));
    assert prompt == text;
    if q.tone.Some? && q.tone.value != "" {
      prompt := prompt + ("- النبرة: " + q.tone.value + "\n");
    }
    text := text + IfGiven(Given(q.tone), ToneLine(ValueOr(q.tone)));
    assert prompt == text;
    if q.includeEmoji {
      prompt := prompt + "- أضف إيموجي مناسب\n";
    }
    text := text + IfGiven(q.includeEmoji, EmojiLine);
    assert prompt == text;
    if q.includeHashtags {
      prompt := prompt + "- أضف 1-3 هاشتاقات ذات صلة\n";
    }
    text := text + IfGiven(q.includeHashtags, HashtagLine);
    assert prompt == text;
    prompt := prompt + "\nاكتب التغريدة مباشرة بدون مقدمات أو شروحات.";
    assert prompt == text + Render(Closing);
    PromptText(q);
  }

  /** Every prompt names its topic. */
  lemma PromptMentionsTopic(q: TweetRequest)
    ensures Contains(RenderAll(PromptLines(q)), q.topic)
  {
    assert PromptLines(q)[0] == TopicLine(q.topic);
    TopicLineShown(PromptLines(q), q.topic);
  }

  /** Rendering a prompt that opens with a topic line shows the topic. */
  lemma TopicLineShown(lines: seq<PromptLine>, topic: string)
    requires lines != [] && lines[0] == TopicLine(topic)
    ensures Contains(RenderAll(lines), topic)
  {
    var tail := RenderAll(lines[1..]);
    assert RenderAll(lines) == Render(TopicLine(topic)) + tail by {
      var first := [lines[0]];
      assert first[..0] == [];
      assert RenderAll(first) == Render(TopicLine(topic));
      RenderConcat(first, lines[1..]);
      assert first + lines[1..] == lines;
    }
    ContainsPart(TopicIntro, topic, "\n\n");
    ContainsExtend(Render(TopicLine(topic)), tail, topic);
  }

  // ------------------------------------------------------------- generate_tweet

  const ArabicSystemPrompt :=
      "أنت كاتب محتوى محترف متخصص في كتابة تغريدات جذابة ومؤثرة باللغة العربية.\n"
      + "مهمتك هي كتابة تغريدات قصيرة، واضحة، وجذابة تناسب منصة X (تويتر).\n"
      + "اكتب بأسلوب طبيعي وجذاب، واستخدم الإيموجي بشكل مناسب.\n"
      + "تجنب الإطالة والتعقيد. اجعل التغريدة مباشرة ومؤثرة."

  const EnglishSystemPrompt :=
      "You are a professional content writer specialized in creating engaging and impactful tweets.\n"
      + "Your task is to write short, clear, and attractive tweets suitable for X (Twitter).\n"
      + "Write in a natural and engaging style, and use emojis appropriately.\n"
      + "Avoid being too long or complex. Make the tweet direct and impactful."

  /** The system message sent with the prompt, chosen by language; the comparison is case-sensitive. */
  function SystemPrompt(language: string): (r: string)
    ensures language == "arabic" ==> r == ArabicSystemPrompt
    ensures language != "arabic" ==> r == EnglishSystemPrompt
    ensures r == ArabicSystemPrompt <==> language == "arabic"
  {
    if language == "arabic" then ArabicSystemPrompt else EnglishSystemPrompt
  }

  /** How a chat-completion call can fail. */
  datatype ApiError = AuthenticationError | RateLimitError | OtherError(description: string)

  /** The first choice's text and the usage count of a successful completion. */
  datatype Completion = Completion(reply: string, totalTokens: nat)

  /** The chat-completion service: (system message, user message) to a reply or an error. */
  type ChatModel = (string, string) -> Result<Completion, ApiError>

  datatype TweetMetadata = TweetMetadata(
    topic: string, style: Option<string>, language: string, model: string, tokensUsed: nat)

  /** The dictionary `generate_tweet` returns. */
  datatype TweetResult = TweetResult(
    success: bool, message: string, content: Option<string>, metadata: Option<TweetMetadata>)

  const NoKeyMessage := "⚠️ مفتاح OpenAI API غير متوفر. يرجى إضافته في ملف .env"
  const SuccessMessage := "تم توليد المحتوى بنجاح"
  const BadKeyMessage := "❌ خطأ في مفتاح OpenAI API. تحقق من صحة المفتاح."
  const RateLimitMessage := "⚠️ تم تجاوز حد الاستخدام. حاول مرة أخرى لاحقاً."
  const FailurePrefix := "❌ خطأ في توليد المحتوى: "

  function ErrorMessage(e: ApiError): string
  {
    match e
    case AuthenticationError => BadKeyMessage
    case RateLimitError => RateLimitMessage
    case OtherError(d) => FailurePrefix + d
  }

  /**
   * `generate_tweet`: without an API key it fails at once; otherwise it sends
   * the built prompt and cleans the reply, turning each service error into a
   * failure message.
   */
  function GenerateTweet(apiKey: string, modelName: string, q: TweetRequest, chat: ChatModel): (r: TweetResult)
    ensures apiKey == "" ==> r == TweetResult(false, NoKeyMessage, None, None)
    ensures r.success <==> apiKey != "" && chat(SystemPrompt(q.language), RenderAll(PromptLines(q))).Ok?
    ensures var reply := chat(SystemPrompt(q.language), RenderAll(PromptLines(q)));
      apiKey != "" && reply.Ok? ==>
      && r.content == Some(CleanContent(Strip(reply.value.reply), q.maxLength))
      && r.metadata == Some(TweetMetadata(q.topic, q.style, q.language, modelName, reply.value.totalTokens))
    ensures !r.success ==> r.content == None && r.metadata == None
    ensures var reply := chat(SystemPrompt(q.language), RenderAll(PromptLines(q)));
      apiKey != "" && reply.Err? ==> r.message == ErrorMessage(reply.error)
  {
    if apiKey == "" then TweetResult(false, NoKeyMessage, None, None)
    else
      match chat(SystemPrompt(q.language), RenderAll(PromptLines(q)))
      case Ok(c) =>
        TweetResult(true, SuccessMessage, Some(CleanContent(Strip(c.reply), q.maxLength)),
          Some(TweetMetadata(q.topic, q.style, q.language, modelName, c.totalTokens)))
      case Err(e) => TweetResult(false, ErrorMessage(e), None, None)
  }

  /** Without a key the model is never consulted: the result is the same whatever it would answer. */
  lemma NoKeyIgnoresModel(modelName: string, q: TweetRequest, chat1: ChatModel, chat2: ChatModel)
    ensures GenerateTweet("", modelName, q, chat1) == GenerateTweet("", modelName, q, chat2)
  {
  }

  /** A generated tweet never exceeds the requested length (when that length leaves room for "..."). */
  lemma GeneratedTweetFits(apiKey: string, modelName: string, q: TweetRequest, chat: ChatModel)
    requires q.maxLength >= 3
    ensures var r := GenerateTweet(apiKey, modelName, q, chat);
      r.success ==> |r.content.value| <= q.maxLength
  {
  }

  // ------------------------------------------------------ analyze_tweet_quality

  /** The result dictionary of `analyze_tweet_quality`. */
  datatype Analysis = Analysis(
    length: nat, hasEmoji: bool, hasHashtag: bool, wordCount: nat, qualityScore: nat, qualityLevel: string)

  /** Characters above this code point count as emoji. */
  const EmojiFloor := 127000

  function HasEmoji(s: string): (r: bool)
    ensures r ==> s != []
    ensures r <==> exists c :: c in s && c as int > EmojiFloor
  {
    assert forall i | 0 <= i < |s| :: s[i] in s;
    exists i :: 0 <= i < |s| && s[i] as int > EmojiFloor
  }

  /** `len(content.split())`. */
  function WordCount(s: string): (r: nat)
    ensures r == 0 <==> forall i :: 0 <= i < |s| ==> IsSpace(s[i])
  {
    |Words(s)|
  }

  /** Points for the length: 30 in 100..250, 20 for any other length up to 280, none above. */
  function LengthPoints(n: nat): (r: nat)
    ensures r <= 30
    ensures r > 0 <==> n <= 280
    ensures r == 30 <==> 100 <= n <= 250
  {
    if 100 <= n <= 250 then 30 else if n <= 280 then 20 else 0
  }

  predicate GoodWordCount(w: nat)
  {
    10 <= w <= 40
  }

  /** The quality score of a tweet with the given features. */
  function QualityScore(length: nat, hasEmoji: bool, hasHashtag: bool, wordCount: nat): (r: nat)
    ensures r <= 100
    ensures r == 100 <==> 100 <= length <= 250 && hasEmoji && hasHashtag && 10 <= wordCount <= 40
  {
    LengthPoints(length) + (if hasEmoji then 20 else 0) + (if hasHashtag then 15 else 0)
    + (if GoodWordCount(wordCount) then 35 else 0)
  }

  const Excellent := "ممتاز"
  const VeryGood := "جيد جداً"
  const Good := "جيد"
  const Acceptable := "مقبول"

  function QualityLevel(score: int): (r: string)
    ensures r in {Excellent, VeryGood, Good, Acceptable}
    ensures r == Excellent <==> score >= 80
    ensures r == Acceptable <==> score < 40
  {
    if score >= 80 then Excellent else if score >= 60 then VeryGood else if score >= 40 then Good else Acceptable
  }

  /** The `any(...)` scan for a character above the emoji floor; it stops at the first one. */
  method ContainsEmoji(content: string) returns (found: bool)
    ensures found <==> HasEmoji(content)
  {
    found := false;
    var i := 0;
    while i < |content| && !found
      invariant 0 <= i <= |content|
      invariant found ==> HasEmoji(content)
      invariant !found ==> forall j :: 0 <= j < i ==> content[j] as int <= EmojiFloor
    {
      found := content[i] as int > EmojiFloor;
      i := i + 1;
    }
  }

  /** `analyze_tweet_quality`: measures the tweet, then accumulates the score criterion by criterion. */
  method AnalyzeTweetQuality(content: string) returns (a: Analysis)
    ensures a.length == |content|
    ensures a.hasEmoji <==> HasEmoji(content)
    ensures a.hasHashtag <==> '#' in content
    ensures a.wordCount == WordCount(content)
    ensures a.qualityScore == QualityScore(|content|, HasEmoji(content), '#' in content, WordCount(content))
    ensures a.qualityScore <= 100
    ensures a.qualityLevel == QualityLevel(a.qualityScore)
  {
    var hasEmoji := ContainsEmoji(content);
    var length := |content|;
    var hasHashtag := '#' in content;
    var wordCount := WordCount(content);
    var score := 0;
    if 100 <= length <= 250 {
      score := score + 30;
    } else if length <= 280 {
      score := score + 20;
    }
    if hasEmoji {
      score := score + 20;
    }
    if hasHashtag {
      score := score + 15;
    }
    if 10 <= wordCount <= 40 {
      score := score + 35;
    }
    var level := QualityLevel(score);
    a := Analysis(length, hasEmoji, hasHashtag, wordCount, score, level);
  }

  /** The full 100 points need the ideal length, an emoji, a hashtag and a good word count, and nothing less. */
  lemma PerfectScore(length: nat, hasEmoji: bool, hasHashtag: bool, wordCount: nat)
    ensures QualityScore(length, hasEmoji, hasHashtag, wordCount) == 100
      <==> 100 <= length <= 250 && hasEmoji && hasHashtag && GoodWordCount(wordCount)
  {
  }

  /**
   * A tweet is rated excellent exactly when its word count is good and either
   * its length is ideal with an emoji or a hashtag, or its length is merely
   * acceptable with both.
   */
  lemma ExcellentIff(length: nat, hasEmoji: bool, hasHashtag: bool, wordCount: nat)
    ensures QualityLevel(QualityScore(length, hasEmoji, hasHashtag, wordCount)) == Excellent
      <==> GoodWordCount(wordCount)
           && ((100 <= length <= 250 && (hasEmoji || hasHashtag))
               || ((length < 100 || 250 < length <= 280) && hasEmoji && hasHashtag))
  {
  }

  /** A tweet over 280 characters can never be rated excellent. */
  lemma OverlongNeverExcellent(length: nat, hasEmoji: bool, hasHashtag: bool, wordCount: nat)
    requires length > 280
    ensures QualityScore(length, hasEmoji, hasHashtag, wordCount) <= 70
  {
  }

  /** A higher score never gets a lower level. */
  lemma LevelMonotone(s1: int, s2: int)
    requires s1 <= s2
    ensures LevelRank(QualityLevel(s1)) <= LevelRank(QualityLevel(s2))
  {
  }

  function LevelRank(level: string): nat
  {
    if level == Excellent then 3 else if level == VeryGood then 2 else if level == Good then 1 else 0
  }
}

=== FILE: gemini.dfy ===
/**
 * The deterministic helpers of the image and bio generation service
 * (app/identity/services/gemini_service.py): input screening, the bio
 * style instruction, image prompt construction and the retention policy for
 * generated images. The calls to the generation models are not modelled.
 */
module Gemini {
  import opened Text
  import opened Utils

  // ------------------------------------------------------------ sanitize_input

  const MaxInputLength := 500

  /** Substrings that mark an input as an injection attempt. */
  const InjectionPatterns: seq<string> := [
    "ignore all", "ignore previous", "disregard", "forget your instructions",
    "system prompt", "reveal your", "show me your prompt", "api key",
    "api_key", "secret", "password", "override", "jailbreak",
    "DAN", "developer mode", "ignore the above"
  ]

  /**
   * `sanitize_input`: non-strings give ""; otherwise the stripped text cut to
   * `maxLength`, or "" when its lower-cased form contains a listed pattern.
   */
  function SanitizeInput(value: Json, maxLength: int): (r: string)
    ensures !value.JStr? ==> r == ""
    ensures value.JStr? ==> r == "" || r == PyTake(Strip(value.s), maxLength)
    ensures value.JStr? && !ContainsNone(Lower(PyTake(Strip(value.s), maxLength)), InjectionPatterns) ==> r == ""
    ensures value.JStr? && ContainsNone(Lower(PyTake(Strip(value.s), maxLength)), InjectionPatterns) ==>
      r == PyTake(Strip(value.s), maxLength)
    ensures r != "" ==> forall k :: 0 <= k < |InjectionPatterns| ==> !Contains(Lower(r), InjectionPatterns[k])
    ensures maxLength >= 0 ==> |r| <= maxLength
  {
    match value
    case JStr(s) =>
      var text := PyTake(Strip(s), maxLength);
      if ContainsNone(Lower(text), InjectionPatterns) then text else ""
    case _ => ""
  }

  /** Lower-cased text has no capital letters, so a mixed-case pattern such as "DAN" never matches it. */
  lemma UppercasePatternNeverMatches(s: string)
    ensures !Contains(Lower(s), "DAN")
  {
    assert forall i :: 0 <= i < |s| ==> Lower(s)[i] != 'D';
    NotContainsChar(Lower(s), "DAN", 'D');
  }

  /** Example, about the list itself: every listed pattern but "DAN" is longer than three characters. */
  lemma OnlyDanIsShort()
    ensures InjectionPatterns[13] == "DAN"
    ensures forall k :: 0 <= k < |InjectionPatterns| && k != 13 ==> |InjectionPatterns[k]| > 3
  {
  }

  /** Example: hence the input "DAN" itself is let through. */
  lemma DanIsAccepted()
    ensures SanitizeInput(JStr("DAN"), MaxInputLength) == "DAN"
  {
    TrimFixed("DAN", IsSpace);
    var lowered := Lower("DAN");
    assert |lowered| == 3;
    OnlyDanIsShort();
    UppercasePatternNeverMatches("DAN");
    assert ContainsNone(lowered, InjectionPatterns);
  }

  // ------------------------------------------------------- get_bio_instruction

  const Fusha := "فصحى"
  const Colloquial := "عامية"
  const ColloquialAndEnglish := "عامي وإنجليزي"
  const English := "إنجليزي"
  const EmojiOnly := "إيموجي فقط"

  const FushaInstruction := "The bio must be in formal Modern Standard Arabic (Fusha)."
  const EnglishInstruction := "The bio must be written entirely in English."
  const EmojiInstruction := "The bio must consist ONLY of a creative and relevant sequence of emojis, with no words."

  /** The instruction for the colloquial style, naming the nationality in quotes. */
  function ColloquialInstruction(nationality: string): (r: string)
    ensures Contains(r, "'" + nationality + "'")
  {
    ContainsPart("The bio MUST be written in the colloquial dialect of ", "'" + nationality + "'", ".");
    "The bio MUST be written in the colloquial dialect of " + ("'" + nationality + "'") + "."
  }

  /** The instruction for the mixed colloquial-and-English style, naming the nationality in quotes. */
  function MixedInstruction(nationality: string): (r: string)
    ensures Contains(r, "'" + nationality + "'")
  {
    var tail := " and English, reflecting a modern teenager's style. It can include slang and code-switching.";
    ContainsPart("The bio must be a mix of colloquial Arabic (based on ", "'" + nationality + "'", ")" + tail);
    "The bio must be a mix of colloquial Arabic (based on " + ("'" + nationality + "'") + (")" + tail)
  }

  /** `get_bio_instruction`: the instruction of a known style; the Fusha one for any other style. */
  function GetBioInstruction(bioStyle: string, nationality: string): (r: string)
    ensures bioStyle !in {Fusha, Colloquial, ColloquialAndEnglish, English, EmojiOnly} ==> r == FushaInstruction
    ensures bioStyle == Fusha ==> r == FushaInstruction
    ensures bioStyle == Colloquial ==> r == ColloquialInstruction(nationality)
    ensures bioStyle == ColloquialAndEnglish ==> r == MixedInstruction(nationality)
    ensures bioStyle == English ==> r == EnglishInstruction
    ensures bioStyle == EmojiOnly ==> r == EmojiInstruction
    ensures bioStyle in {Colloquial, ColloquialAndEnglish} ==> Contains(r, "'" + nationality + "'")
  {
    if bioStyle == Colloquial then ColloquialInstruction(nationality)
    else if bioStyle == ColloquialAndEnglish then MixedInstruction(nationality)
    else if bioStyle == English then EnglishInstruction
    else if bioStyle == EmojiOnly then EmojiInstruction
    else FushaInstruction
  }

  /** Only the two colloquial styles depend on the nationality. */
  lemma BioInstructionIgnoresNationality(bioStyle: string, n1: string, n2: string)
    requires bioStyle !in {Colloquial, ColloquialAndEnglish}
    ensures GetBioInstruction(bioStyle, n1) == GetBioInstruction(bioStyle, n2)
  {
  }

  // --------------------------------------------------- construct_image_prompts

  const AntiWatermark := "A hyper-realistic, professional photograph. CRITICAL RULE: Absolutely NO text, letters, watermarks, prompts, or any other writing should appear anywhere in the image. The image must be purely visual and completely clean of any text artifacts. This is the most important rule."
  const Headshot := "A high-quality, professional-looking headshot of a "
  const Person := "شخص"
  const AvoidText := " Avoid any text, letters, or words in the image."

  datatype ImagePrompts = ImagePrompts(profilePicPrompt: string, headerImagePrompt: string)

  /** `sanitize_input(params.get(key, ''), maxLength)`. */
  function Param(params: seq<(string, Json)>, key: string, maxLength: int): string
  {
    SanitizeInput(Get(params, key), maxLength)
  }

  /** The request fields after sanitising, with the length bound each one gets. */
  datatype ImageRequest = ImageRequest(
    useCustom: bool, customProfile: string, customHeader: string, description: string,
    nationality: string, imageType: string, headerImageType: string, gender: string,
    skinTone: string, headerText: string)

  function ReadImageRequest(params: seq<(string, Json)>): ImageRequest
  {
    ImageRequest(
      Truthy(Get(params, "useCustomPrompts")),
      Param(params, "customProfilePicPrompt", MaxInputLength),
      Param(params, "customHeaderImagePrompt", MaxInputLength),
      Param(params, "description", MaxInputLength),
      Param(params, "nationality", 100),
      Param(params, "imageType", 100),
      Param(params, "headerImageType", 100),
      Param(params, "gender", 50),
      Param(params, "skinTone", 50),
      Param(params, "headerText", 200))
  }

  function GenderEn(gender: string): (r: string)
    ensures r == "man" <==> gender == "رجل"
    ensures r == "man" || r == "woman"
  {
    if gender == "رجل" then "man" else "woman"
  }

  function SkinEn(skinTone: string): (r: string)
    ensures r == "light" <==> skinTone == "فاتح"
    ensures r == "tan" <==> skinTone == "حنطي"
    ensures r in {"light", "tan", "dark"}
  {
    if skinTone == "فاتح" then "light" else if skinTone == "حنطي" then "tan" else "dark"
  }

  /** The text clause of the header prompt: the requested text, or a request for no text at all. */
  function HeaderTextClause(headerText: string): (r: string)
    ensures headerText != "" ==> Contains(r, "\"" + headerText + "\"")
    ensures headerText == "" ==> r == AvoidText
  {
    if headerText != "" then
      var quoted := "\"" + headerText + "\"";
      ContainsPart(IncorporateText, quoted, TextStyled);
      IncorporateText + quoted + TextStyled
    else AvoidText
  }

  const IncorporateText := " The image should artistically incorporate the following English text: "
  const TextStyled := ". The text should be stylish and well-integrated into the design."

  /** Custom prompts are used only when requested and both survive sanitising. */
  predicate UsesCustomPrompts(q: ImageRequest)
  {
    q.useCustom && q.customProfile != "" && q.customHeader != ""
  }

  /** The profile picture prompt when no custom prompt applies. */
  function ProfilePrompt(q: ImageRequest): (r: string)
    ensures EndsWith(r, AntiWatermark)
    ensures q.imageType == Person ==> StartsWith(r, Headshot + GenderEn(q.gender) + " who is " + q.description)
    ensures q.imageType != Person ==> StartsWith(r, Headshot + "An image that represents: " + q.description)
    ensures q.imageType == Person ==>
      Contains(r, "The person is from " + q.nationality)
      && Contains(r, "The person has a " + SkinEn(q.skinTone) + " skin tone.")
    ensures Contains(r, StyleClause(q.imageType))
  {
    var lead :=
      if q.imageType == Person then Headshot + GenderEn(q.gender) + " who is " + q.description
      else Headshot + "An image that represents: " + q.description;
    var from := "The person is from " + q.nationality;
    var skin := "The person has a " + SkinEn(q.skinTone) + " skin tone.";
    var attire := " with authentic cultural features and attire. ";
    var middle := if q.imageType == Person then ". " + from + attire + skin else ".";
    var style := StyleClause(q.imageType);
    PromptShape(lead, middle, style, AntiWatermark);
    if q.imageType != Person then lead + middle + style + AntiWatermark
    else
      PersonPromptParts(lead, from, attire, skin, style, AntiWatermark);
      lead + middle + style + AntiWatermark
  }

  /** A prompt assembled from parts starts with the first, ends with the last and contains the third. */
  lemma PromptShape(lead: string, middle: string, style: string, tail: string)
    ensures StartsWith(lead + middle + style + tail, lead)
    ensures EndsWith(lead + middle + style + tail, tail)
    ensures Contains(lead + middle + style + tail, style)
  {
    AppendEnds(lead + middle + style, tail);
    ContainsPart(lead + middle, style, tail);
    assert lead + middle + style + tail == lead + (middle + style + tail);
  }

  /** The nationality and skin-tone sentences both survive in a person's profile prompt. */
  lemma PersonPromptParts(lead: string, from: string, attire: string, skin: string, style: string, tail: string)
    ensures Contains(lead + (". " + from + attire + skin) + style + tail, from)
    ensures Contains(lead + (". " + from + attire + skin) + style + tail, skin)
  {
    var r := lead + (". " + from + attire + skin) + style + tail;
    ContainsPart(lead + ". ", from, attire + skin + style + tail);
    assert r == lead + ". " + from + (attire + skin + style + tail);
    ContainsPart(lead + ". " + from + attire, skin, style + tail);
    assert r == lead + ". " + from + attire + skin + (style + tail);
  }

  /** The clause naming the image style. */
  function StyleClause(imageType: string): (r: string)
    ensures StartsWith(r, " The style of the image should be: ") && EndsWith(r, ". ")
    ensures Contains(r, imageType)
  {
    ContainsPart(" The style of the image should be: ", imageType, ". ");
    AppendEnds(" The style of the image should be: " + imageType, ". ");
    " The style of the image should be: " + imageType + ". "
  }

  /** The header image prompt when no custom prompt applies. */
  function HeaderPrompt(q: ImageRequest): (r: string)
    ensures EndsWith(r, AntiWatermark)
    ensures Contains(r, HeaderTextClause(q.headerText))
  {
    var headerBase := "An artistic header image that directly represents: " + q.description
      + ". The style of the image should be: " + q.headerImageType + ". The person is from " + q.nationality
      + ". The image should visually reflect the theme of '" + q.description + "' with relevant symbols and elements.";
    var clause := HeaderTextClause(q.headerText);
    ContainsPart(headerBase, clause, " " + AntiWatermark);
    AppendEnds(headerBase + clause, " " + AntiWatermark);
    AppendEnds(" ", AntiWatermark);
    EndsWithTrans(headerBase + clause + (" " + AntiWatermark), " " + AntiWatermark, AntiWatermark);
    headerBase + clause + (" " + AntiWatermark)
  }

  /**
   * `construct_image_prompts`: the custom prompts when requested and both
   * survive sanitising, otherwise prompts built from the fields; every prompt
   * ends with the anti-watermark clause.
   */
  function ConstructImagePrompts(params: seq<(string, Json)>): (r: ImagePrompts)
    ensures var q := ReadImageRequest(params);
      && EndsWith(r.profilePicPrompt, AntiWatermark) && EndsWith(r.headerImagePrompt, AntiWatermark)
      && (UsesCustomPrompts(q) ==>
            StartsWith(r.profilePicPrompt, q.customProfile + ". ")
            && StartsWith(r.headerImagePrompt, q.customHeader + ". "))
      && (!UsesCustomPrompts(q) ==> r == ImagePrompts(ProfilePrompt(q), HeaderPrompt(q)))
  {
    var q := ReadImageRequest(params);
    if UsesCustomPrompts(q) then
      AppendEnds(q.customProfile + ". ", AntiWatermark);
      AppendEnds(q.customHeader + ". ", AntiWatermark);
      ImagePrompts(q.customProfile + ". " + AntiWatermark, q.customHeader + ". " + AntiWatermark)
    else ImagePrompts(ProfilePrompt(q), HeaderPrompt(q))
  }

  // ------------------------------------------------------- _cleanup_old_images

  const MaxGeneratedFiles := 200
  const ImageMaxAgeSeconds := 3600

  /** A regular file of the generated-images directory, with its modification time in whole seconds. */
  datatype ImageFile = ImageFile(path: string, mtime: int)

  /** Older than an hour: modified before the instant one hour ago. */
  function Expired(f: ImageFile, now: int): (r: bool)
    ensures r <==> f.mtime < now - ImageMaxAgeSeconds
  {
    now - f.mtime > ImageMaxAgeSeconds
  }

  /** The expired files, in listing order. */
  function ExpiredFiles(files: seq<ImageFile>, now: int): seq<ImageFile>
  {
    if files == [] then []
    else
      var last := files[|files| - 1];
      ExpiredFiles(files[..|files| - 1], now) + (if Expired(last, now) then [last] else [])
  }

  /** The files that are not expired, in listing order. */
  function FreshFiles(files: seq<ImageFile>, now: int): seq<ImageFile>
  {
    if files == [] then []
    else
      var last := files[|files| - 1];
      FreshFiles(files[..|files| - 1], now) + (if Expired(last, now) then [] else [last])
  }

  /** The expired files are exactly the files older than an hour, and the young ones the rest. */
  lemma {:induction false} ExpiredFreshMembers(files: seq<ImageFile>, now: int)
    ensures forall f :: f in ExpiredFiles(files, now) <==> f in files && Expired(f, now)
    ensures forall f :: f in FreshFiles(files, now) <==> f in files && !Expired(f, now)
  {
    if files != [] {
      ExpiredFreshMembers(files[..|files| - 1], now);
      assert files == files[..|files| - 1] + [files[|files| - 1]];
    }
  }

  /** Every file is either expired or young. */
  lemma {:induction false} ExpiredFreshSplit(files: seq<ImageFile>, now: int)
    ensures |ExpiredFiles(files, now)| + |FreshFiles(files, now)| == |files|
  {
    if files != [] {
      ExpiredFreshSplit(files[..|files| - 1], now);
    }
  }

  /** The expired files of a prefix are a prefix of the expired files. */
  lemma {:induction false} ExpiredOfPrefix(files: seq<ImageFile>, now: int, i: nat)
    requires i <= |files|
    ensures ExpiredFiles(files[..i], now) <= ExpiredFiles(files, now)
    decreases |files|
  {
    if i < |files| {
      ExpiredOfPrefix(files[..|files| - 1], now, i);
      assert files[..|files| - 1][..i] == files[..i];
    } else {
      assert files[..i] == files;
    }
  }

  function Paths(files: seq<ImageFile>): (r: seq<string>)
    ensures |r| == |files|
  {
    seq(|files|, i requires 0 <= i < |files| => files[i].path)
  }

  lemma PathsAppend(a: seq<ImageFile>, b: seq<ImageFile>)
    ensures Paths(a + b) == Paths(a) + Paths(b)
  {
    assert forall i :: 0 <= i < |a + b| ==> Paths(a + b)[i] == (Paths(a) + Paths(b))[i];
  }

  lemma PathsPrefix(a: seq<ImageFile>, b: seq<ImageFile>)
    requires a <= b
    ensures Paths(a) <= Paths(b)
  {
    assert Paths(a) == Paths(b)[..|a|];
  }

  predicate SortedByMtime(s: seq<ImageFile>)
  {
    forall i, j :: 0 <= i < j < |s| ==> s[i].mtime <= s[j].mtime
  }

  /** Inserts `f` after every entry that is not newer than it. */
  function InsertByMtime(f: ImageFile, s: seq<ImageFile>): (r: seq<ImageFile>)
    requires SortedByMtime(s)
    ensures |r| == |s| + 1
    ensures forall x :: x in r ==> x == f || x in s
    ensures multiset(r) == multiset(s) + multiset{f}
    ensures SortedByMtime(r)
  {
    if s == [] then [f]
    else if f.mtime < s[0].mtime then
      assert forall x :: x in s ==> f.mtime <= x.mtime by {
        assert forall k :: 0 <= k < |s| ==> s[0].mtime <= s[k].mtime;
      }
      SortedCons(f, s);
      [f] + s
    else
      var rest := InsertByMtime(f, s[1..]);
      assert forall x :: x in s[1..] ==> s[0].mtime <= x.mtime;
      SortedCons(s[0], rest);
      assert s == [s[0]] + s[1..];
      [s[0]] + rest
  }

  lemma SortedCons(h: ImageFile, s: seq<ImageFile>)
    requires SortedByMtime(s) && forall x :: x in s ==> h.mtime <= x.mtime
    ensures SortedByMtime([h] + s)
  {
    forall i, j | 0 <= i < j < |[h] + s| ensures ([h] + s)[i].mtime <= ([h] + s)[j].mtime {
      if i > 0 {
        assert ([h] + s)[i] == s[i - 1];
      }
      assert ([h] + s)[j] == s[j - 1];
    }
  }

  /** `files.sort(key=lambda x: x[1])`: a sort by modification time, oldest first. */
  function SortByMtime(s: seq<ImageFile>): (r: seq<ImageFile>)
    ensures |r| == |s|
    ensures SortedByMtime(r)
    ensures multiset(r) == multiset(s)
  {
    if s == [] then []
    else
      assert s == s[..|s| - 1] + [s[|s| - 1]];
      InsertByMtime(s[|s| - 1], SortByMtime(s[..|s| - 1]))
  }

  /** The files removed for exceeding the cap: the oldest young files beyond the newest 200. */
  function Excess(young: seq<ImageFile>): (r: seq<ImageFile>)
    ensures |r| == if |young| > MaxGeneratedFiles then |young| - MaxGeneratedFiles else 0
  {
    if |young| > MaxGeneratedFiles then SortByMtime(young)[..|young| - MaxGeneratedFiles] else []
  }

  /** Every removal the clean-up attempts, in order: the expired files, then the excess. */
  function RemovalPlan(files: seq<ImageFile>, now: int): (r: seq<string>)
    ensures Paths(ExpiredFiles(files, now)) <= r
    ensures |r| == |ExpiredFiles(files, now)|
                   + (if |FreshFiles(files, now)| > MaxGeneratedFiles then |FreshFiles(files, now)| - MaxGeneratedFiles else 0)
  {
    Paths(ExpiredFiles(files, now)) + Paths(Excess(FreshFiles(files, now)))
  }

  /** The removals carried out when the first failing `os.remove` aborts the rest. */
  function Attempted(paths: seq<string>, removeFails: string -> bool): (r: seq<string>)
    ensures r <= paths
    ensures forall i :: 0 <= i < |r| ==> !removeFails(r[i])
    ensures |r| < |paths| ==> removeFails(paths[|r|])
  {
    if paths == [] || removeFails(paths[0]) then []
    else [paths[0]] + Attempted(paths[1..], removeFails)
  }

  /** The removals stop at the first failing one. */
  lemma AttemptedUpTo(paths: seq<string>, removeFails: string -> bool, done: seq<string>)
    requires done <= paths
    requires forall i :: 0 <= i < |done| ==> !removeFails(done[i])
    requires |done| == |paths| || removeFails(paths[|done|])
    ensures Attempted(paths, removeFails) == done
  {
  }

  /** Removals over a concatenation: the second part is reached only when the first completes. */
  lemma {:induction false} AttemptedAppend(a: seq<string>, b: seq<string>, removeFails: string -> bool)
    ensures Attempted(a + b, removeFails)
            == if |Attempted(a, removeFails)| < |a| then Attempted(a, removeFails) else a + Attempted(b, removeFails)
  {
    if a != [] {
      assert (a + b)[0] == a[0] && (a + b)[1..] == a[1..] + b;
      AttemptedAppend(a[1..], b, removeFails);
    } else {
      assert a + b == b;
    }
  }

  /** The first loop of the clean-up: removes each expired file in listing order, stopping at a failure. */
  method RemoveExpired(files: seq<ImageFile>, now: int, removeFails: string -> bool) returns (removed: seq<string>, complete: bool)
    ensures removed == Attempted(Paths(ExpiredFiles(files, now)), removeFails)
    ensures complete <==> |removed| == |ExpiredFiles(files, now)|
  {
    ghost var expired := Paths(ExpiredFiles(files, now));
    removed := [];
    var i := 0;
    while i < |files|
      invariant 0 <= i <= |files|
      invariant removed == Paths(ExpiredFiles(files[..i], now))
      invariant forall j :: 0 <= j < |removed| ==> !removeFails(removed[j])
    {
      var f := files[i];
      assert ExpiredFiles(files[..i + 1], now) == ExpiredFiles(files[..i], now) + (if Expired(f, now) then [f] else []) by {
        assert files[..i + 1][..i] == files[..i];
      }
      if now - f.mtime > ImageMaxAgeSeconds {
        assert Paths(ExpiredFiles(files[..i + 1], now)) == removed + [f.path] by {
          PathsAppend(ExpiredFiles(files[..i], now), [f]);
        }
        if removeFails(f.path) {
          assert removed + [f.path] <= expired by {
            ExpiredOfPrefix(files, now, i + 1);
            PathsPrefix(ExpiredFiles(files[..i + 1], now), ExpiredFiles(files, now));
          }
          AttemptedUpTo(expired, removeFails, removed);
          complete := false;
          return;
        }
        removed := removed + [f.path];
      }
      i := i + 1;
    }
    assert files[..i] == files;
    AttemptedUpTo(expired, removeFails, removed);
    complete := true;
  }

  /** The second loop: removes the oldest young files beyond the cap, stopping at a failure. */
  method RemoveExcess(young: seq<ImageFile>, removeFails: string -> bool) returns (removed: seq<string>)
    ensures removed == Attempted(Paths(Excess(young)), removeFails)
  {
    ghost var excess := Paths(Excess(young));
    removed := [];
    if |young| > MaxGeneratedFiles {
      var sorted := SortByMtime(young);
      var j := 0;
      while j < |young| - MaxGeneratedFiles
        invariant 0 <= j <= |young| - MaxGeneratedFiles
        invariant removed == Paths(sorted[..j])
        invariant forall k :: 0 <= k < |removed| ==> !removeFails(removed[k])
      {
        assert Paths(sorted[..j + 1]) == removed + [sorted[j].path] by {
          assert sorted[..j + 1] == sorted[..j] + [sorted[j]];
          PathsAppend(sorted[..j], [sorted[j]]);
        }
        if removeFails(sorted[j].path) {
          assert removed + [sorted[j].path] <= excess by {
            PathsPrefix(sorted[..j + 1], Excess(young));
          }
          AttemptedUpTo(excess, removeFails, removed);
          return;
        }
        removed := removed + [sorted[j].path];
        j := j + 1;
      }
      assert sorted[..j] == Excess(young);
    }
    AttemptedUpTo(excess, removeFails, removed);
  }

  /**
   * `_cleanup_old_images`, over the listed files and the current time: removes
   * the expired files, then, if more than 200 remain, the oldest until 200 are
   * left. A failing removal ends the clean-up silently. Returns the paths
   * removed, in order.
   */
  method CleanupOldImages(files: seq<ImageFile>, now: int, removeFails: string -> bool) returns (removed: seq<string>)
    ensures removed == Attempted(RemovalPlan(files, now), removeFails)
  {
    ghost var expired := Paths(ExpiredFiles(files, now));
    var complete;
    removed, complete := RemoveExpired(files, now, removeFails);
    AttemptedAppend(expired, Paths(Excess(FreshFiles(files, now))), removeFails);
    if !complete {
      return;
    }
    assert removed == expired;
    var more := RemoveExcess(FreshFiles(files, now), removeFails);
    removed := removed + more;
  }

  /** With every removal succeeding, the number of files left is the young count capped at 200. */
  lemma CleanupKeepsAtMostCap(files: seq<ImageFile>, now: int)
    ensures var left := |files| - |RemovalPlan(files, now)|;
            var young := |FreshFiles(files, now)|;
            left == if young > MaxGeneratedFiles then MaxGeneratedFiles else young
  {
    ExpiredFreshSplit(files, now);
  }

  /** Each file removed for the cap is at least as old as each young file that stays. */
  lemma ExcessIsOldest(young: seq<ImageFile>)
    requires |young| > MaxGeneratedFiles
    ensures var sorted := SortByMtime(young);
            var cut := |young| - MaxGeneratedFiles;
            multiset(sorted[..cut]) + multiset(sorted[cut..]) == multiset(young)
            && forall a, b :: a in sorted[..cut] && b in sorted[cut..] ==> a.mtime <= b.mtime
  {
    var sorted := SortByMtime(young);
    var cut := |young| - MaxGeneratedFiles;
    assert sorted == sorted[..cut] + sorted[cut..];
    assert multiset(sorted) == multiset(sorted[..cut]) + multiset(sorted[cut..]);
    forall a, b | a in sorted[..cut] && b in sorted[cut..] ensures a.mtime <= b.mtime {
      var i :| 0 <= i < cut && sorted[i] == a;
      var j :| cut <= j < |sorted| && sorted[j] == b;
    }
  }
}

=== FILE: profile_agent.dfy ===
/**
 * The deterministic parts of the profile agent (app/agents/profile_agent.py):
 * intent detection with its account-name and niche extraction, the fallback
 * builders for name, bio, location and website, bio truncation, and the
 * routing of `process_request`. Gemini and GPT are parameters that answer a
 * request with a reply or fail.
 */
module ProfileAgent {
  import opened Wrappers
  import opened Text

  // -------------------------------------------------------------- detect_intent

  datatype Intent = CreateProfile | GenerateName | GenerateBio | Unknown

  /** The dictionary `detect_intent` returns. */
  datatype IntentData = IntentData(intent: Intent, accountName: Option<string>, niche: Option<string>, originalText: string)

  const CreateKeywords: seq<string> := [
    "أنشئ هوية", "إنشاء هوية", "هوية جديدة", "اصنع هوية",
    "create profile", "new profile", "generate profile",
    "عدل الهوية", "تعديل الهوية", "غير الهوية", "حدث الهوية"]
  const NameKeywords: seq<string> := ["اسم", "name", "توليد اسم", "generate name", "اقترح اسم"]
  const BioKeywords: seq<string> := ["بايو", "bio", "نبذة", "وصف", "description", "about"]
  const AccountMarkers: seq<string> := ["حساب", "account", "بحساب", "للحساب"]
  const NicheKeywords: seq<string> := ["مجال", "نيش", "niche", "تخصص", "موضوع", "عن"]

  /** The punctuation stripped from an extracted account name. */
  predicate IsNamePunct(c: char)
  {
    c == '.' || c == ',' || c == '!' || c == '?' || c == '؛' || c == '،'
  }

  /** `any(k in text for k in keywords)`. */
  predicate AnyIn(text: string, keywords: seq<string>)
  {
    !ContainsNone(text, keywords)
  }

  /** The intent, by keyword priority: create-profile, then name, then bio. */
  function IntentOf(input: string): (r: Intent)
    ensures r == CreateProfile <==> AnyIn(Lower(input), CreateKeywords)
    ensures r == GenerateName <==> !AnyIn(Lower(input), CreateKeywords) && AnyIn(Lower(input), NameKeywords)
    ensures r == GenerateBio <==>
      !AnyIn(Lower(input), CreateKeywords) && !AnyIn(Lower(input), NameKeywords) && AnyIn(Lower(input), BioKeywords)
  {
    var lower := Lower(input);
    if AnyIn(lower, CreateKeywords) then CreateProfile
    else if AnyIn(lower, NameKeywords) then GenerateName
    else if AnyIn(lower, BioKeywords) then GenerateBio
    else Unknown
  }

  /** Word `j` is a marker word with a successor. */
  predicate MarkerAt(words: seq<string>, j: nat)
  {
    j + 1 < |words| && words[j] in AccountMarkers
  }

  /** An extracted account name loses its edge punctuation. */
  function CleanAccount(word: string): string
  {
    Trim(word, IsNamePunct)
  }

  /**
   * The account name after scanning the first `n` words: the cleaned
   * successor of the last marker word among them that has a successor.
   */
  function MarkedAccount(words: seq<string>, n: nat): Option<string>
    requires n <= |words|
  {
    MarkedBy(words, n, CleanAccount)
  }

  /** The scan of `MarkedAccount` with the cleaning as a parameter. */
  function MarkedBy(words: seq<string>, n: nat, clean: string -> string): Option<string>
    requires n <= |words|
  {
    if n == 0 then None
    else if MarkerAt(words, n - 1) then Some(clean(words[n]))
    else MarkedBy(words, n - 1, clean)
  }

  /** The account name is looked for only when the text mentions "حساب" or "account". */
  function AccountNameOf(input: string): (r: Option<string>)
    ensures !Contains(input, "حساب") && !Contains(input, "account") ==> r.None?
    ensures r.Some? ==>
      exists j: nat :: j + 1 < |Words(input)| && Words(input)[j] in AccountMarkers
        && r.value == Trim(Words(input)[j + 1], IsNamePunct)
  {
    if Contains(input, "حساب") || Contains(input, "account") then
      var words := Words(input);
      MarkedAccountIsLast(words, |words|);
      MarkedAccount(words, |words|)
    else None
  }

  /** Word `j` is the last marker word with a successor among the first `n`. */
  predicate LastMarkerAt(words: seq<string>, n: nat, j: nat)
  {
    j < n && MarkerAt(words, j) && forall k: nat :: j < k < n ==> !MarkerAt(words, k)
  }

  lemma {:induction false} MarkedByIsLast(words: seq<string>, n: nat, clean: string -> string)
    requires n <= |words|
    ensures MarkedBy(words, n, clean).None? <==> forall j: nat :: j < n ==> !MarkerAt(words, j)
    ensures MarkedBy(words, n, clean).Some? ==>
      exists j: nat :: LastMarkerAt(words, n, j) && MarkedBy(words, n, clean).value == clean(words[j + 1])
  {
    if n > 0 {
      if MarkerAt(words, n - 1) {
        assert LastMarkerAt(words, n, n - 1);
      } else {
        MarkedByIsLast(words, n - 1, clean);
        if MarkedBy(words, n - 1, clean).Some? {
          var j: nat :| LastMarkerAt(words, n - 1, j) && MarkedBy(words, n - 1, clean).value == clean(words[j + 1]);
          assert LastMarkerAt(words, n, j);
        }
      }
    }
  }

  /** The scan finds a name exactly when some marker word has a successor, and then it is the last such one. */
  lemma MarkedAccountIsLast(words: seq<string>, n: nat)
    requires n <= |words|
    ensures MarkedAccount(words, n).None? <==> forall j: nat :: j < n ==> !MarkerAt(words, j)
    ensures MarkedAccount(words, n).Some? ==>
      exists j: nat :: j < n && MarkerAt(words, j)
        && MarkedAccount(words, n).value == Trim(words[j + 1], IsNamePunct)
        && forall k: nat :: j < k < n ==> !MarkerAt(words, k)
  {
    MarkedByIsLast(words, n, CleanAccount);
    if MarkedAccount(words, n).Some? {
      var j: nat :| LastMarkerAt(words, n, j) && MarkedAccount(words, n).value == CleanAccount(words[j + 1]);
      assert MarkedAccount(words, n).value == Trim(words[j + 1], IsNamePunct);
    }
  }

  /** Index of the first word that contains `keyword` once lowercased, or `|words|`. */
  function FirstContaining(words: seq<string>, keyword: string): (j: nat)
    ensures j <= |words|
    ensures j < |words| ==> Contains(Lower(words[j]), keyword)
    ensures forall m :: 0 <= m < j ==> !Contains(Lower(words[m]), keyword)
  {
    if words == [] then 0
    else if Contains(Lower(words[0]), keyword) then 0
    else 1 + FirstContaining(words[1..], keyword)
  }

  /** `" ".join(words[i + 1:i + 4])` after the first word containing `keyword`, when it has a successor. */
  function NicheAfter(words: seq<string>, keyword: string): (r: Option<string>)
    ensures r.Some? <==> FirstContaining(words, keyword) + 1 < |words|
    ensures var j := FirstContaining(words, keyword);
            r.Some? ==> r.value == Join(" ", words[j + 1..if j + 4 < |words| then j + 4 else |words|])
  {
    var j := FirstContaining(words, keyword);
    if j + 1 < |words| then Some(Join(" ", words[j + 1..if j + 4 < |words| then j + 4 else |words|])) else None
  }

  /** What one niche keyword contributes: nothing unless it occurs in the lowercased text. */
  function NicheFor(input: string, keyword: string): (r: Option<string>)
    ensures r.Some? <==> Contains(Lower(input), keyword) && FirstContaining(Words(input), keyword) + 1 < |Words(input)|
  {
    if Contains(Lower(input), keyword) then NicheAfter(Words(input), keyword) else None
  }

  /** Trying `xs` in order, where a later `Some` overwrites an earlier one: the last `Some` that `f` gives. */
  function LastGiven(f: string -> Option<string>, xs: seq<string>): Option<string>
  {
    if xs == [] then None
    else if f(xs[|xs| - 1]).Some? then f(xs[|xs| - 1])
    else LastGiven(f, xs[..|xs| - 1])
  }

  /** `xs[k]` gives the result, and no later element gives anything. */
  predicate LastGivenAt(f: string -> Option<string>, xs: seq<string>, k: int)
  {
    && 0 <= k < |xs| && f(xs[k]) == LastGiven(f, xs)
    && forall m :: k < m < |xs| ==> f(xs[m]).None?
  }

  lemma {:induction false} LastGivenWins(f: string -> Option<string>, xs: seq<string>)
    ensures LastGiven(f, xs).None? <==> forall k :: 0 <= k < |xs| ==> f(xs[k]).None?
    ensures LastGiven(f, xs).Some? ==> exists k :: LastGivenAt(f, xs, k)
  {
    if xs != [] {
      var last := |xs| - 1;
      var init := xs[..last];
      if f(xs[last]).Some? {
        assert LastGivenAt(f, xs, last);
      } else {
        LastGivenWins(f, init);
        assert forall k :: 0 <= k < |init| ==> init[k] == xs[k];
        if LastGiven(f, init).Some? {
          var k :| LastGivenAt(f, init, k);
          assert LastGivenAt(f, xs, k);
        }
      }
    }
  }

  /** The niche after trying `keywords` in order: a later keyword that yields a niche overwrites an earlier one. */
  function NicheOver(input: string, keywords: seq<string>): Option<string>
  {
    LastGiven(k => NicheFor(input, k), keywords)
  }

  /** The niche is what the last keyword with a result gives, and there is none only if no keyword gives one. */
  lemma NicheLastKeywordWins(input: string, keywords: seq<string>)
    ensures NicheOver(input, keywords).None? <==> forall k :: 0 <= k < |keywords| ==> NicheFor(input, keywords[k]).None?
    ensures NicheOver(input, keywords).Some? ==>
      exists k :: 0 <= k < |keywords| && NicheFor(input, keywords[k]) == NicheOver(input, keywords)
        && forall m :: k < m < |keywords| ==> NicheFor(input, keywords[m]).None?
  {
    var f := k => NicheFor(input, k);
    LastGivenWins(f, keywords);
    if NicheOver(input, keywords).Some? {
      var k :| LastGivenAt(f, keywords, k);
      assert NicheFor(input, keywords[k]) == NicheOver(input, keywords);
    }
  }

  /** The result of `detect_intent`. */
  function Detected(input: string): (d: IntentData)
    ensures d.intent == IntentOf(input) && d.originalText == input
    ensures d.accountName.Some? ==> Contains(input, "حساب") || Contains(input, "account")
    ensures d.niche.Some? ==> exists k :: 0 <= k < |NicheKeywords| && Contains(Lower(input), NicheKeywords[k])
  {
    NicheLastKeywordWins(input, NicheKeywords);
    IntentData(IntentOf(input), AccountNameOf(input), NicheOver(input, NicheKeywords), input)
  }

  /** `detect_intent`: account-name scan, niche scan over the keywords, then the intent by priority. */
  method DetectIntent(input: string) returns (d: IntentData)
    ensures d == Detected(input)
  {
    var lower := Lower(input);
    var accountName: Option<string> := None;
    if Contains(input, "حساب") || Contains(input, "account") {
      var words := Words(input);
      var i := 0;
      while i < |words|
        invariant 0 <= i <= |words|
        invariant accountName == MarkedAccount(words, i)
      {
        if words[i] in AccountMarkers {
          if i + 1 < |words| {
            accountName := Some(CleanAccount(words[i + 1]));
          }
        }
        i := i + 1;
      }
    }
    var niche := ScanNiche(input, NicheKeywords);
    var intent := Unknown;
    if AnyIn(lower, CreateKeywords) {
      intent := CreateProfile;
    } else if AnyIn(lower, NameKeywords) {
      intent := GenerateName;
    } else if AnyIn(lower, BioKeywords) {
      intent := GenerateBio;
    }
    d := IntentData(intent, accountName, niche, input);
  }

  /** The niche loop of `detect_intent` over `keywords`: each keyword present in the text scans the words for its first holder. */
  method ScanNiche(input: string, keywords: seq<string>) returns (niche: Option<string>)
    ensures niche == NicheOver(input, keywords)
  {
    niche := None;
    var k := 0;
    while k < |keywords|
      invariant 0 <= k <= |keywords|
      invariant niche == NicheOver(input, keywords[..k])
    {
      var keyword := keywords[k];
      assert keywords[..k + 1][..k] == keywords[..k];
      if Contains(Lower(input), keyword) {
        var after := ScanWords(Words(input), keyword);
        if after.Some? {
          niche := after;
        }
      }
      k := k + 1;
    }
    assert keywords[..|keywords|] == keywords;
  }

  /** The inner word loop: the words after the first one holding `keyword`, stopping there. */
  method ScanWords(words: seq<string>, keyword: string) returns (niche: Option<string>)
    ensures niche == NicheAfter(words, keyword)
  {
    niche := None;
    var i := 0;
    while i < |words|
      invariant 0 <= i <= |words|
      invariant forall m :: 0 <= m < i && m + 1 < |words| ==> !Contains(Lower(words[m]), keyword)
    {
      if Contains(Lower(words[i]), keyword) {
        if i + 1 < |words| {
          assert FirstContaining(words, keyword) == i;
          niche := Some(Join(" ", words[i + 1..if i + 4 < |words| then i + 4 else |words|]));
          return;
        }
      }
      i := i + 1;
    }
  }

  // -------------------------------------------------- fallbacks and generators

  /** Python truthiness of an optional string. */
  predicate Given(o: Option<string>)
  {
    o.Some? && o.value != ""
  }

  /** `_generate_name_fallback`: "{niche} Expert", or "Content Creator" without a niche. */
  function NameFallback(niche: Option<string>): (name: string)
    ensures Given(niche) ==> StartsWith(name, niche.value) && EndsWith(name, " Expert")
    ensures Given(niche) ==> name == niche.value + " Expert"
    ensures !Given(niche) ==> name == "Content Creator"
  {
    if Given(niche) then
      AppendEnds(niche.value, " Expert");
      niche.value + " Expert"
    else "Content Creator"
  }

  const NicheBioPrefix := "🌟 "
  const NicheBioMiddle := " | متخصص في "
  const NicheBioEnd := " | مشاركة محتوى قيم يومياً"
  const PlainBioPrefix := "✨ "
  const PlainBioEnd := " | Content Creator | Sharing valuable insights"

  /** `_generate_bio_fallback`: a template naming the niche when one is given, a generic one otherwise. */
  function BioFallback(name: string, niche: Option<string>): string
  {
    if Given(niche) then NicheBioPrefix + name + NicheBioMiddle + niche.value + NicheBioEnd
    else PlainBioPrefix + name + PlainBioEnd
  }

  /** A three-slot template `a + x + b + y + c` shows both of its slots and opens with `a`. */
  lemma TemplateShows(a: string, x: string, b: string, y: string, c: string)
    ensures Contains(a + x + b + y + c, x) && Contains(a + x + b + y + c, y)
    ensures StartsWith(a + x + b + y + c, a)
  {
    ContainsPart(a, x, b);
    ContainsExtend(a + x + b, y, x);
    ContainsExtend(a + x + b + y, c, x);
    ContainsPart(a + x + b, y, c);
    assert a + x + b + y + c == a + (x + b + y + c);
  }

  /** Both templates name the account; the niche template names the niche too; each opens with its own emoji. */
  lemma BioFallbackNames(name: string, niche: Option<string>)
    ensures Contains(BioFallback(name, niche), name)
    ensures Given(niche) ==> StartsWith(BioFallback(name, niche), NicheBioPrefix) && Contains(BioFallback(name, niche), niche.value)
    ensures !Given(niche) ==> StartsWith(BioFallback(name, niche), PlainBioPrefix) && EndsWith(BioFallback(name, niche), PlainBioEnd)
  {
    if Given(niche) {
      TemplateShows(NicheBioPrefix, name, NicheBioMiddle, niche.value, NicheBioEnd);
    } else {
      TemplateShows(PlainBioPrefix, name, "", "", PlainBioEnd);
      assert PlainBioPrefix + name + "" + "" + PlainBioEnd == BioFallback(name, niche);
      AppendEnds(PlainBioPrefix + name, PlainBioEnd);
    }
  }

  const Locations: seq<string> := [
    "الرياض، المملكة العربية السعودية",
    "دبي، الإمارات العربية المتحدة",
    "القاهرة، مصر",
    "عمّان، الأردن",
    "بيروت، لبنان"]

  /** `_generate_location`: always the first listed city, whatever the niche. */
  function Location(niche: Option<string>): (loc: string)
    ensures loc in Locations
  {
    Locations[0]
  }

  /** The niche never influences the location. */
  lemma LocationIgnoresNiche(a: Option<string>, b: Option<string>)
    ensures Location(a) == Location(b) == "الرياض، المملكة العربية السعودية"
  {
  }

  /** `_generate_website`: "https://" + the lowercased name without spaces + ".com". */
  function Website(name: string): (url: string)
    ensures StartsWith(url, "https://") && EndsWith(url, ".com")
    ensures |url| == |"https://"| + |ReplaceAll(Lower(name), " ", "")| + |".com"|
  {
    var url := "https://" + ReplaceAll(Lower(name), " ", "") + ".com";
    AppendEnds("https://" + ReplaceAll(Lower(name), " ", ""), ".com");
    AppendEnds("https://", ReplaceAll(Lower(name), " ", "") + ".com");
    assert url == "https://" + (ReplaceAll(Lower(name), " ", "") + ".com");
    url
  }

  /** The host part of a generated website holds no space and every other character of the lowercased name. */
  lemma WebsiteHost(name: string)
    ensures var host := Website(name)[8..|Website(name)| - 4];
      && ' ' !in host
      && forall c :: c != ' ' ==> (c in host <==> c in Lower(name))
  {
    var host := ReplaceAll(Lower(name), " ", "");
    assert Website(name)[8..|Website(name)| - 4] == host;
    ReplaceCharByNothing(Lower(name), ' ');
  }

  const BioLimit := 160

  /** The bio length check: a bio over 160 characters becomes its first 157 plus "...". */
  function TruncateBio(bio: string): (r: string)
    ensures |r| <= BioLimit
    ensures |bio| > BioLimit ==> |r| == BioLimit && r[..157] == bio[..157] && EndsWith(r, "...")
    ensures |bio| <= BioLimit ==> r == bio
  {
    if |bio| > BioLimit then
      AppendEnds(bio[..157], "...");
      bio[..157] + "..."
    else bio
  }

  /** `.replace('"', '').replace("'", '').strip()` after a `strip()` of the raw reply. */
  function CleanReply(reply: string): string
  {
    Strip(ReplaceAll(ReplaceAll(Strip(reply), "\"", ""), "'", ""))
  }

  /** Characters of a stripped string are characters of the original. */
  lemma TrimChars(s: string, drop: char -> bool)
    ensures forall c :: c in Trim(s, drop) ==> c in s
  {
    var left := TrimLeft(s, drop);
    assert forall c :: c in TrimRight(left, drop) ==> c in left;
    assert forall c :: c in left ==> c in s;
  }

  /** A cleaned reply holds no quote characters and no edge whitespace. */
  lemma CleanReplyHasNoQuotes(reply: string)
    ensures '"' !in CleanReply(reply) && '\'' !in CleanReply(reply)
    ensures CleanReply(reply) == [] || (!IsSpace(CleanReply(reply)[0]) && !IsSpace(CleanReply(reply)[|CleanReply(reply)| - 1]))
  {
    var once := ReplaceAll(Strip(reply), "\"", "");
    ReplaceCharByNothing(Strip(reply), '"');
    var twice := ReplaceAll(once, "'", "");
    ReplaceCharByNothing(once, '\'');
    TrimChars(twice, IsSpace);
  }

  /** What the agent asks a language model for. */
  datatype ContentKind = NameText | BioText
  datatype Ask =
    | AskName(style: string, niche: Option<string>)
    | AskBio(tone: string, name: string, niche: Option<string>)
    | AskRefine(kind: ContentKind, content: string)

  /** A language model: the reply to a request, or `None` when the call raises. */
  type TextModel = Ask -> Option<string>

  /** `generate_name_with_gemini`: the cleaned reply, or the fallback when there is no model or the call fails. */
  function NameWithGemini(gemini: Option<TextModel>, niche: Option<string>, style: string): (name: string)
    ensures gemini.None? ==> name == NameFallback(niche)
    ensures gemini.Some? && gemini.value(AskName(style, niche)).None? ==> name == NameFallback(niche)
    ensures gemini.Some? && gemini.value(AskName(style, niche)).Some? ==>
      name == CleanReply(gemini.value(AskName(style, niche)).value)
  {
    if gemini.None? then NameFallback(niche)
    else
      var reply := gemini.value(AskName(style, niche));
      if reply.Some? then CleanReply(reply.value) else NameFallback(niche)
  }

  /** `generate_bio_with_gemini`: the cleaned, truncated reply, or the fallback bio. */
  function BioWithGemini(gemini: Option<TextModel>, name: string, niche: Option<string>, tone: string): (bio: string)
    ensures gemini.None? || gemini.value(AskBio(tone, name, niche)).None? ==> bio == BioFallback(name, niche)
    ensures gemini.Some? && gemini.value(AskBio(tone, name, niche)).Some? ==>
      bio == TruncateBio(CleanReply(gemini.value(AskBio(tone, name, niche)).value))
  {
    if gemini.None? then BioFallback(name, niche)
    else
      var reply := gemini.value(AskBio(tone, name, niche));
      if reply.Some? then TruncateBio(CleanReply(reply.value)) else BioFallback(name, niche)
  }

  /** A bio written by the model is at most 160 characters long. */
  lemma ModelBioFits(gemini: TextModel, name: string, niche: Option<string>, tone: string)
    requires gemini(AskBio(tone, name, niche)).Some?
    ensures |BioWithGemini(Some(gemini), name, niche, tone)| <= BioLimit
  {
  }

  /** `refine_with_gpt`: the cleaned reply, or the content unchanged when there is no client or the call fails. */
  function RefineWithGpt(gpt: Option<TextModel>, content: string, kind: ContentKind): (r: string)
    ensures gpt.None? || gpt.value(AskRefine(kind, content)).None? ==> r == content
    ensures gpt.Some? && gpt.value(AskRefine(kind, content)).Some? ==>
      r == CleanReply(gpt.value(AskRefine(kind, content)).value)
  {
    if gpt.None? then content
    else
      var reply := gpt.value(AskRefine(kind, content));
      if reply.Some? then CleanReply(reply.value) else content
  }

  /** The profile `generate_complete_profile` returns. */
  datatype Profile = Profile(
    name: string, bio: string, location: Option<string>, website: Option<string>, niche: Option<string>, style: string)

  /** `generate_complete_profile`: name, refined name, bio for that name, refined bio, then the optional extras. */
  function CompleteProfile(gemini: Option<TextModel>, gpt: Option<TextModel>, niche: Option<string>, style: string,
                           includeLocation: bool, includeWebsite: bool): (p: Profile)
    ensures p.name == RefineWithGpt(gpt, NameWithGemini(gemini, niche, style), NameText)
    ensures p.bio == RefineWithGpt(gpt, BioWithGemini(gemini, p.name, niche, style), BioText)
    ensures p.location.Some? <==> includeLocation
    ensures p.website.Some? <==> includeWebsite
    ensures includeWebsite ==> p.website == Some(Website(p.name))
    ensures p.niche == niche && p.style == style
  {
    var name := RefineWithGpt(gpt, NameWithGemini(gemini, niche, style), NameText);
    var bio := RefineWithGpt(gpt, BioWithGemini(gemini, name, niche, style), BioText);
    Profile(name, bio, if includeLocation then Some(Location(niche)) else None,
      if includeWebsite then Some(Website(name)) else None, niche, style)
  }

  /** Without either model the profile is made entirely of the fallbacks. */
  lemma OfflineProfile(niche: Option<string>, style: string)
    ensures var p := CompleteProfile(None, None, niche, style, true, false);
      && p.name == NameFallback(niche)
      && p.bio == BioFallback(NameFallback(niche), niche)
      && p.location == Some(Locations[0])
      && p.website == None
  {
  }

  // ------------------------------------------------------------ process_request

  /** The dictionary `process_request` returns, one shape per intent. */
  datatype Response =
    | ProfileCreated(profile: Profile, accountName: Option<string>, message: string)
    | NameSuggested(name: string, message: string)
    | BioSuggested(bio: string, message: string)
    | NotUnderstood(message: string)
  {
    predicate Success()
    {
      !NotUnderstood?
    }
  }

  const CreatedMessage := "✅ تم إنشاء الهوية بنجاح!"
  const NameMessagePrefix := "✅ الاسم المقترح: "
  const BioMessagePrefix := "✅ البايو المقترح: "
  const NotUnderstoodMessage := "❌ لم أتمكن من فهم الطلب. يرجى توضيح ما تريد (إنشاء هوية، توليد اسم، توليد بايو)"
  const DefaultBioName := "المستخدم"

  /** How a Python f-string shows an optional string: its text, or "None". */
  function Shown(o: Option<string>): string
  {
    if o.Some? then o.value else "None"
  }

  /** The account name the generate-bio branch writes the bio for, as the source computes it. */
  function BioSubjectAsWritten(d: IntentData): (name: string)
    ensures d.accountName.Some? ==> name == d.accountName.value
    ensures d.accountName.None? ==> name == "None"
  {
    // the key is always present, so `.get(key, default)` yields the stored None
    Shown(d.accountName)
  }

  /** The account name the generate-bio branch was meant to use: the extracted one, or "المستخدم". */
  function BioSubject(d: IntentData): (name: string)
    ensures d.accountName.Some? ==> name == d.accountName.value
    ensures d.accountName.None? ==> name == DefaultBioName
  {
    d.accountName.GetOr(DefaultBioName)
  }

  /** The routing of `process_request`, with the bio subject as a parameter. */
  function Route(gemini: Option<TextModel>, gpt: Option<TextModel>, d: IntentData, bioSubject: string): (r: Response)
    ensures r.Success() <==> d.intent != Unknown
    ensures d.intent == CreateProfile ==>
      && r.ProfileCreated? && r.accountName == d.accountName
      && r.profile == CompleteProfile(gemini, gpt, d.niche, "professional", true, false)
      && r.message == CreatedMessage
    ensures d.intent == GenerateName ==>
      && r.NameSuggested?
      && r.name == RefineWithGpt(gpt, NameWithGemini(gemini, d.niche, "professional"), NameText)
      && r.message == NameMessagePrefix + r.name
    ensures d.intent == GenerateBio ==>
      && r.BioSuggested?
      && r.bio == RefineWithGpt(gpt, BioWithGemini(gemini, bioSubject, d.niche, "professional"), BioText)
      && r.message == BioMessagePrefix + r.bio
    ensures d.intent == Unknown ==> r == NotUnderstood(NotUnderstoodMessage)
  {
    match d.intent
    case CreateProfile =>
      ProfileCreated(CompleteProfile(gemini, gpt, d.niche, "professional", true, false), d.accountName, CreatedMessage)
    case GenerateName =>
      var name := RefineWithGpt(gpt, NameWithGemini(gemini, d.niche, "professional"), NameText);
      NameSuggested(name, NameMessagePrefix + name)
    case GenerateBio =>
      var bio := RefineWithGpt(gpt, BioWithGemini(gemini, bioSubject, d.niche, "professional"), BioText);
      BioSuggested(bio, BioMessagePrefix + bio)
    case Unknown => NotUnderstood(NotUnderstoodMessage)
  }

  /** `process_request` as the source writes it. */
  function ProcessRequestAsWritten(gemini: Option<TextModel>, gpt: Option<TextModel>, input: string): (r: Response)
    ensures r.Success() <==> IntentOf(input) != Unknown
    ensures IntentOf(input) == GenerateBio && AccountNameOf(input).None? ==>
      && r.BioSuggested?
      && r.bio == RefineWithGpt(gpt, BioWithGemini(gemini, "None", Detected(input).niche, "professional"), BioText)
  {
    Route(gemini, gpt, Detected(input), BioSubjectAsWritten(Detected(input)))
  }

  /** `process_request` with the default bio subject applied. */
  function ProcessRequest(gemini: Option<TextModel>, gpt: Option<TextModel>, input: string): (r: Response)
    ensures r.Success() <==> IntentOf(input) != Unknown
    ensures IntentOf(input) == CreateProfile ==> r.ProfileCreated? && r.accountName == AccountNameOf(input)
  {
    Route(gemini, gpt, Detected(input), BioSubject(Detected(input)))
  }

  /** The corrected generate-bio branch always names a real subject in an offline bio, never "None". */
  lemma BioNamesSubject(input: string)
    requires IntentOf(input) == GenerateBio
    ensures var r := ProcessRequest(None, None, input);
      && r.BioSuggested?
      && Contains(r.bio, AccountNameOf(input).GetOr(DefaultBioName))
  {
    BioFallbackNames(BioSubject(Detected(input)), Detected(input).niche);
  }

  /** "bio" asks for a bio, names no account and no niche. */
  lemma BioRequestDetected()
    ensures Detected("bio") == IntentData(GenerateBio, None, None, "bio")
  {
    assert Lower("bio") == "bio";
    NotContainsChar("bio", "حساب", 'ح');
    NotContainsChar("bio", "account", 'a');
    forall m | 0 <= m < |CreateKeywords|
      ensures !Contains("bio", CreateKeywords[m])
    {
      NotContainsChar("bio", CreateKeywords[m], CreateKeywords[m][|CreateKeywords[m]| - 1]);
    }
    forall m | 0 <= m < |NameKeywords|
      ensures !Contains("bio", NameKeywords[m])
    {
      NotContainsChar("bio", NameKeywords[m], NameKeywords[m][|NameKeywords[m]| - 1]);
    }
    assert OccursAt("bio", BioKeywords[1], 0);
    forall m | 0 <= m < |NicheKeywords|
      ensures NicheFor("bio", NicheKeywords[m]).None?
    {
      NotContainsChar("bio", NicheKeywords[m], NicheKeywords[m][|NicheKeywords[m]| - 1]);
    }
    NicheLastKeywordWins("bio", NicheKeywords);
  }

  /**
   * As written, the request "bio" gets an offline bio about "None": the
   * default subject is never used because the account-name key is always present.
   */
  lemma BioAboutNone()
    ensures Detected("bio") == IntentData(GenerateBio, None, None, "bio")
    ensures ProcessRequestAsWritten(None, None, "bio").bio == PlainBioPrefix + "None" + PlainBioEnd
    ensures ProcessRequest(None, None, "bio").bio == PlainBioPrefix + DefaultBioName + PlainBioEnd
  {
    BioRequestDetected();
    OfflineBioRequest("bio");
  }

  /** Offline, a bio request without account name or niche gets the generic template about its subject. */
  lemma OfflineBioRequest(input: string)
    requires Detected(input) == IntentData(GenerateBio, None, None, input)
    ensures ProcessRequestAsWritten(None, None, input).bio == PlainBioPrefix + "None" + PlainBioEnd
    ensures ProcessRequest(None, None, input).bio == PlainBioPrefix + DefaultBioName + PlainBioEnd
  {
  }
}

=== FILE: secure_logger.dfy ===
/**
 * Redaction of sensitive data before logging (app/utils/secure_logger.py).
 *
 * Regular-expression substitution is not modelled character by character: a
 * `Substitute` value stands for `re.sub(pattern, replacement, text,
 * flags=re.IGNORECASE)`, and the model proves what the code does with it.
 */
module SecureLogger {
  import opened Text

  /** `re.sub(pattern, replacement, text, flags=re.IGNORECASE)`. */
  type Substitute = (string, string, string) -> string

  /** The seven (pattern, replacement) pairs, applied in this order. */
  const SensitivePatterns: seq<(string, string)> := [
    ("password[\"']?\\s*[:=]\\s*[\"']?([^\"'\\s,}]+)", "password=***"),
    ("token[\"']?\\s*[:=]\\s*[\"']?([^\"'\\s,}]+)", "token=***"),
    ("secret[\"']?\\s*[:=]\\s*[\"']?([^\"'\\s,}]+)", "secret=***"),
    ("api_key[\"']?\\s*[:=]\\s*[\"']?([^\"'\\s,}]+)", "api_key=***"),
    ("Bearer\\s+([A-Za-z0-9\\-._~+/]+=*)", "Bearer ***"),
    ("user_id[\"']?\\s*[:=]\\s*(\\d+)", "user_id=***"),
    ("email[\"']?\\s*[:=]\\s*[\"']?([^\"'\\s,}]+@[^\"'\\s,}]+)", "email=***@***")
  ]

  /** The placeholder that replaces a sensitive value. */
  const Mask: string := "***"

  /** The substitutions of `patterns` applied to `s` one after another. */
  function Fold(sub: Substitute, s: string, patterns: seq<(string, string)>): string
    decreases |patterns|
  {
    if patterns == [] then s else Fold(sub, sub(patterns[0].0, patterns[0].1, s), patterns[1..])
  }

  /** Applying a list of substitutions and then one more is the fold of the longer list. */
  lemma {:induction false} FoldStep(sub: Substitute, s: string, patterns: seq<(string, string)>, p: (string, string))
    ensures Fold(sub, s, patterns + [p]) == sub(p.0, p.1, Fold(sub, s, patterns))
    decreases |patterns|
  {
    if patterns != [] {
      assert (patterns + [p])[1..] == patterns[1..] + [p];
      FoldStep(sub, sub(patterns[0].0, patterns[0].1, s), patterns[1..], p);
    }
  }

  /** Text in which no pattern finds anything to replace comes back unchanged. */
  lemma {:induction false} FoldNoMatch(sub: Substitute, s: string, patterns: seq<(string, string)>)
    requires forall k :: 0 <= k < |patterns| ==> sub(patterns[k].0, patterns[k].1, s) == s
    ensures Fold(sub, s, patterns) == s
    decreases |patterns|
  {
    if patterns != [] {
      assert forall k :: 1 <= k < |patterns| ==> patterns[k] == patterns[1..][k - 1];
      FoldNoMatch(sub, s, patterns[1..]);
    }
  }

  /**
   * The string branch of `sanitize_log_data` and the body of
   * `SecureFormatter.format` (applied there to the record as the base
   * formatter renders it): every pattern in list order.
   */
  method RedactText(sub: Substitute, s: string) returns (sanitized: string)
    ensures sanitized == Fold(sub, s, SensitivePatterns)
  {
    sanitized := s;
    var i := 0;
    while i < |SensitivePatterns|
      invariant 0 <= i <= |SensitivePatterns|
      invariant sanitized == Fold(sub, s, SensitivePatterns[..i])
    {
      var (pattern, replacement) := SensitivePatterns[i];
      FoldStep(sub, s, SensitivePatterns[..i], SensitivePatterns[i]);
      assert SensitivePatterns[..i + 1] == SensitivePatterns[..i] + [SensitivePatterns[i]];
      sanitized := sub(pattern, replacement, sanitized);
      i := i + 1;
    }
    assert SensitivePatterns[..i] == SensitivePatterns;
  }

  /** A value handed to the logger: strings, lists or tuples, dicts with string keys, and anything else. */
  datatype Data =
    | Str(s: string)
    | Items(items: seq<Data>, isTuple: bool)
    | Dict(entries: seq<(string, Data)>)
    | Other(id: int)

  /** The keys whose values are masked, compared after `lower()`. */
  const SensitiveKeys: seq<string> := ["password", "token", "secret", "api_key", "credentials", "user_id", "email", "username"]

  function IsSensitiveKey(key: string): (r: bool)
    ensures r ==> 5 <= |key| <= 11
    ensures r <==> exists k :: 0 <= k < |SensitiveKeys| && Lower(key) == SensitiveKeys[k]
  {
    Lower(key) in SensitiveKeys
  }

  /** The comparison ignores letter case: a key and its lower-cased form are masked alike. */
  lemma SensitiveKeyAnyCase(key: string)
    ensures IsSensitiveKey(key) == IsSensitiveKey(Lower(key))
  {
    LowerIdempotent(key);
  }

  function Keys(entries: seq<(string, Data)>): seq<string>
  {
    seq(|entries|, i requires 0 <= i < |entries| => entries[i].0)
  }

  /**
   * `sanitize_log_data` as a value: what the code returns for `data`. The
   * structure survives: same kind, same keys in the same order, same list
   * length; tuples become lists.
   */
  function Sanitized(sub: Substitute, data: Data): (r: Data)
    ensures data.Dict? <==> r.Dict?
    ensures data.Dict? ==> Keys(r.entries) == Keys(data.entries)
    ensures data.Items? <==> r.Items?
    ensures data.Items? ==> |r.items| == |data.items| && !r.isTuple
    ensures data.Str? <==> r.Str?
    ensures data.Other? ==> r == data
  {
    match data
    case Dict(es) =>
      Dict(seq(|es|, i requires 0 <= i < |es| => SanitizedEntry(sub, es[i])))
    case Items(xs, _) => Items(seq(|xs|, i requires 0 <= i < |xs| => Sanitized(sub, xs[i])), false)
    case Str(s) => Str(Fold(sub, s, SensitivePatterns))
    case Other(_) => data
  }

  /** The entry a dict holds after sanitising: the mask for a sensitive key, the sanitised value otherwise. */
  function SanitizedEntry(sub: Substitute, e: (string, Data)): (string, Data)
  {
    (e.0, if IsSensitiveKey(e.0) then Str(Mask) else Sanitized(sub, e.1))
  }

  /**
   * `sanitize_log_data`: a dict is rebuilt key by key in a loop, masking the
   * sensitive keys and sanitising the other values recursively; lists and
   * tuples become lists; strings are redacted; anything else is returned as is.
   */
  method SanitizeLogData(sub: Substitute, data: Data) returns (r: Data)
    ensures r == Sanitized(sub, data)
    decreases data, 1
  {
    match data
    case Dict(es) =>
      var sanitized := SanitizeEntries(sub, es);
      r := Dict(sanitized);
      assert r.entries == Sanitized(sub, data).entries;
    case Items(xs, _) =>
      r := Items(seq(|xs|, i requires 0 <= i < |xs| => Sanitized(sub, xs[i])), false);
    case Str(s) =>
      var t := RedactText(sub, s);
      r := Str(t);
    case Other(_) =>
      r := data;
  }

  /** The dict loop of `sanitize_log_data`: each entry in order, masked or sanitised. */
  method SanitizeEntries(sub: Substitute, es: seq<(string, Data)>) returns (sanitized: seq<(string, Data)>)
    ensures |sanitized| == |es|
    ensures forall j :: 0 <= j < |es| ==> sanitized[j] == SanitizedEntry(sub, es[j])
    decreases Dict(es), 0
  {
    sanitized := [];
    var i := 0;
    while i < |es|
      invariant 0 <= i <= |es| && |sanitized| == i
      invariant forall j :: 0 <= j < i ==> sanitized[j] == SanitizedEntry(sub, es[j])
    {
      var (key, value) := es[i];
      var v: Data;
      if IsSensitiveKey(key) {
        v := Str(Mask);
      } else {
        assert es[i] in es;
        v := SanitizeLogData(sub, value);
      }
      sanitized := sanitized + [(key, v)];
      i := i + 1;
    }
  }

  /** No sensitive key, at any depth, holds anything but the mask. */
  predicate Redacted(data: Data)
  {
    match data
    case Dict(es) =>
      forall i :: 0 <= i < |es| ==>
        (IsSensitiveKey(es[i].0) ==> es[i].1 == Str(Mask)) && Redacted(es[i].1)
    case Items(xs, _) => forall i :: 0 <= i < |xs| ==> Redacted(xs[i])
    case Str(_) => true
    case Other(_) => true
  }

  /** Sanitised data is redacted, whatever the substitution does to strings. */
  lemma {:induction false} SanitizedIsRedacted(sub: Substitute, data: Data)
    ensures Redacted(Sanitized(sub, data))
    decreases data
  {
    match data
    case Dict(es) =>
      var r := Sanitized(sub, data);
      forall i | 0 <= i < |es|
        ensures (IsSensitiveKey(r.entries[i].0) ==> r.entries[i].1 == Str(Mask)) && Redacted(r.entries[i].1)
      {
        assert r.entries[i] == SanitizedEntry(sub, es[i]);
        assert es[i] in es;
        SanitizedIsRedacted(sub, es[i].1);
      }
    case Items(xs, _) =>
      forall i | 0 <= i < |xs| ensures Redacted(Sanitized(sub, xs[i])) {
        SanitizedIsRedacted(sub, xs[i]);
      }
    case Str(_) =>
    case Other(_) =>
  }

  /** Sanitising again changes nothing when redaction of strings is itself stable. */
  lemma {:induction false} SanitizedIdempotent(sub: Substitute, data: Data)
    requires forall s :: Fold(sub, Fold(sub, s, SensitivePatterns), SensitivePatterns) == Fold(sub, s, SensitivePatterns)
    ensures Sanitized(sub, Sanitized(sub, data)) == Sanitized(sub, data)
    decreases data
  {
    match data
    case Dict(es) =>
      var once := Sanitized(sub, data);
      var twice := Sanitized(sub, once);
      assert |twice.entries| == |es|;
      forall i | 0 <= i < |es| ensures twice.entries[i] == once.entries[i] {
        assert once.entries[i] == SanitizedEntry(sub, es[i]);
        assert twice.entries[i] == SanitizedEntry(sub, once.entries[i]);
        if !IsSensitiveKey(es[i].0) {
          assert es[i] in es;
          SanitizedIdempotent(sub, es[i].1);
        }
      }
    case Items(xs, _) =>
      var once := Sanitized(sub, data);
      forall i | 0 <= i < |xs| ensures Sanitized(sub, once.items[i]) == once.items[i] {
        SanitizedIdempotent(sub, xs[i]);
      }
    case Str(_) =>
    case Other(_) =>
  }
}

=== FILE: text.dfy ===
/**
 * The handful of Python `str` operations the modelled code relies on, written
 * over `seq<char>` (Dafny characters are Unicode scalar values, as Python's are).
 */
module Text {
  /** Python's `str.isspace()`; `strip()` and `split()` with no argument drop these characters. */
  predicate IsSpace(c: char)
  {
    c == ' ' || ('\t' <= c <= '\r') || ('\U{1C}' <= c <= '\U{1F}') || c == '\U{85}' || c == '\U{A0}'
    || c == '\U{1680}' || ('\U{2000}' <= c <= '\U{200A}') || c == '\U{2028}' || c == '\U{2029}'
    || c == '\U{202F}' || c == '\U{205F}' || c == '\U{3000}'
  }

  /** `s.lstrip(chars)`: drops the leading characters for which `drop` holds. */
  function TrimLeft(s: string, drop: char -> bool): (r: string)
    ensures |r| <= |s| && r == s[|s| - |r|..]
    ensures r == [] || !drop(r[0])
    ensures forall i :: 0 <= i < |s| - |r| ==> drop(s[i])
  {
    if s != [] && drop(s[0]) then TrimLeft(s[1..], drop) else s
  }

  /** `s.rstrip(chars)`: drops the trailing characters for which `drop` holds. */
  function TrimRight(s: string, drop: char -> bool): (r: string)
    ensures |r| <= |s| && r == s[..|r|]
    ensures r == [] || !drop(r[|r| - 1])
    ensures forall i :: |r| <= i < |s| ==> drop(s[i])
  {
    if s != [] && drop(s[|s| - 1]) then TrimRight(s[..|s| - 1], drop) else s
  }

  /** `s.strip(chars)`. */
  function Trim(s: string, drop: char -> bool): (r: string)
    ensures |r| <= |s|
    ensures r == [] || (!drop(r[0]) && !drop(r[|r| - 1]))
  {
    TrimRight(TrimLeft(s, drop), drop)
  }

  /** Characters `drop` removes in front of `s` make no difference to `lstrip`. */
  lemma {:induction false} TrimLeftSkips(w: string, s: string, drop: char -> bool)
    requires forall i :: 0 <= i < |w| ==> drop(w[i])
    ensures TrimLeft(w + s, drop) == TrimLeft(s, drop)
    decreases |w|
  {
    if w == [] {
      assert w + s == s;
    } else {
      assert (w + s)[0] == w[0];
      assert (w + s)[1..] == w[1..] + s;
      TrimLeftSkips(w[1..], s, drop);
    }
  }

  /** `s.strip()`. */
  function Strip(s: string): string
  {
    Trim(s, IsSpace)
  }

  /** A string that has nothing to trim is left as it is. */
  lemma TrimFixed(s: string, drop: char -> bool)
    requires s == [] || (!drop(s[0]) && !drop(s[|s| - 1]))
    ensures Trim(s, drop) == s
  {
  }

  /** Trimming the front of `x + e` stops inside `x` when `e` starts with a kept character. */
  lemma {:induction false} TrimLeftBefore(x: string, e: string, drop: char -> bool)
    requires e != [] && !drop(e[0])
    ensures TrimLeft(x + e, drop) == TrimLeft(x, drop) + e
    decreases |x|
  {
    if x == [] {
      assert x + e == e;
    } else if drop(x[0]) {
      assert (x + e)[1..] == x[1..] + e;
      TrimLeftBefore(x[1..], e, drop);
    }
  }

  /** Stripping twice is stripping once. */
  lemma TrimIdempotent(s: string, drop: char -> bool)
    ensures Trim(Trim(s, drop), drop) == Trim(s, drop)
  {
    TrimFixed(Trim(s, drop), drop);
  }

  /** `c.lower()` for the ASCII capitals; every other character is its own lower case here. */
  function LowerChar(c: char): char
  {
    if 'A' <= c <= 'Z' then (c as int + 32) as char else c
  }

  /** `s.lower()`, character by character. */
  function Lower(s: string): (r: string)
    ensures |r| == |s|
  {
    seq(|s|, i requires 0 <= i < |s| => LowerChar(s[i]))
  }

  /** Lower-casing twice is lower-casing once. */
  lemma LowerIdempotent(t: string)
    ensures Lower(Lower(t)) == Lower(t)
  {
    assert forall i :: 0 <= i < |t| ==> Lower(Lower(t))[i] == Lower(t)[i];
  }

  /** `p` occurs in `s` starting at index `i`. */
  predicate OccursAt(s: string, p: string, i: nat)
  {
    i + |p| <= |s| && s[i..i + |p|] == p
  }

  /** `p in s` for strings. */
  predicate Contains(s: string, p: string)
  {
    exists i: nat :: i <= |s| && OccursAt(s, p, i)
  }

  /** Lower-casing keeps an occurrence, lower-cased. */
  lemma ContainsLower(s: string, p: string)
    requires Contains(s, p)
    ensures Contains(Lower(s), Lower(p))
  {
    var i: nat :| i <= |s| && OccursAt(s, p, i);
    assert Lower(s)[i..i + |p|] == Lower(p);
    assert OccursAt(Lower(s), Lower(p), i);
  }

  /** Lower-casing keeps a prefix, lower-cased. */
  lemma PrefixLower(p: string, s: string)
    requires p <= s
    ensures Lower(p) <= Lower(s)
  {
    assert Lower(s)[..|p|] == Lower(p);
  }

  /** Stripping keeps a prefix that starts and ends with a non-space character. */
  lemma StripKeepsPrefix(p: string, s: string)
    requires p <= s && p != [] && !IsSpace(p[0]) && !IsSpace(p[|p| - 1])
    ensures p <= Strip(s)
  {
    assert TrimLeft(s, IsSpace) == s;
    var r := TrimRight(s, IsSpace);
    assert s[|p| - 1] == p[|p| - 1];
    assert |p| <= |r|;
  }

  /** Index of the first occurrence of `c`, or `|s|` when there is none. */
  function IndexOf(s: string, c: char): (i: nat)
    ensures i <= |s|
    ensures i < |s| ==> s[i] == c
    ensures forall j :: 0 <= j < i ==> s[j] != c
  {
    if s == [] || s[0] == c then 0 else 1 + IndexOf(s[1..], c)
  }

  /** The first occurrence of a character is the one with none before it. */
  lemma IndexOfAt(s: string, c: char, i: nat)
    requires i <= |s| && (i < |s| ==> s[i] == c)
    requires forall j :: 0 <= j < i ==> s[j] != c
    ensures IndexOf(s, c) == i
  {
  }

  /** Index of the last occurrence of `c` in `s`, or -1 (`str.rfind`). */
  function LastIndexOf(s: string, c: char): (i: int)
    ensures -1 <= i < |s|
    ensures i >= 0 ==> s[i] == c
    ensures forall j :: i < j < |s| ==> s[j] != c
  {
    if s == [] then -1
    else if s[|s| - 1] == c then |s| - 1
    else LastIndexOf(s[..|s| - 1], c)
  }

  /** The last occurrence of a character is the one with none after it. */
  lemma {:induction false} LastIndexOfAt(s: string, c: char, i: int)
    requires -1 <= i < |s|
    requires i >= 0 ==> s[i] == c
    requires forall j :: i < j < |s| ==> s[j] != c
    ensures LastIndexOf(s, c) == i
    decreases |s|
  {
    if s != [] && i < |s| - 1 {
      LastIndexOfAt(s[..|s| - 1], c, i);
    }
  }

  /** `s.startswith(p)`. */
  predicate StartsWith(s: string, p: string)
  {
    p <= s
  }

  /** `s.endswith(p)`. */
  predicate EndsWith(s: string, p: string)
  {
    |p| <= |s| && s[|s| - |p|..] == p
  }

  lemma EndsWithTrans(s: string, p: string, q: string)
    requires EndsWith(s, p) && EndsWith(p, q)
    ensures EndsWith(s, q)
  {
    assert s[|s| - |q|..] == s[|s| - |p|..][|p| - |q|..];
  }

  lemma PrefixExtend(a: string, b: string)
    ensures StartsWith(a + b, a)
  {
  }

  lemma AppendEnds(a: string, b: string)
    ensures StartsWith(a + b, a) && EndsWith(a + b, b)
  {
    assert (a + b)[|a + b| - |b|..] == b;
  }

  /** The any-search `for p in patterns: if p in s: ...`: true iff no pattern occurs in `s`. */
  function ContainsNone(s: string, patterns: seq<string>): (none: bool)
    ensures none <==> forall k :: 0 <= k < |patterns| ==> !Contains(s, patterns[k])
  {
    if patterns == [] then true
    else if Contains(s, patterns[0]) then false
    else
      assert forall k :: 1 <= k < |patterns| ==> patterns[k] == patterns[1..][k - 1];
      ContainsNone(s, patterns[1..])
  }

  /** A pattern holding a character the text lacks does not occur in it. */
  lemma NotContainsChar(s: string, p: string, c: char)
    requires c in p && c !in s
    ensures !Contains(s, p)
  {
  }

  /** A string contains each of its slices. */
  lemma ContainsSlice(s: string, i: nat, j: nat)
    requires i <= j <= |s|
    ensures Contains(s, s[i..j])
  {
    assert OccursAt(s, s[i..j], i);
  }

  /** A string contains each part of a concatenation it is built from. */
  lemma ContainsPart(a: string, b: string, c: string)
    ensures Contains(a + b + c, b)
  {
    ContainsSlice(a + b + c, |a|, |a| + |b|);
    assert (a + b + c)[|a|..|a| + |b|] == b;
  }

  /** What a string contains, any extension of it contains too. */
  lemma ContainsExtend(a: string, b: string, p: string)
    requires Contains(a, p)
    ensures Contains(a + b, p)
  {
    var i: nat :| i <= |a| && OccursAt(a, p, i);
    assert (a + b)[i..i + |p|] == a[i..i + |p|];
    assert OccursAt(a + b, p, i);
  }

  /** `s.replace(pat, rep)`: every non-overlapping occurrence, scanning from the left. */
  function ReplaceAll(s: string, pat: string, rep: string): string
    requires pat != []
    decreases |s|
  {
    if |s| < |pat| then s
    else if s[..|pat|] == pat then rep + ReplaceAll(s[|pat|..], pat, rep)
    else [s[0]] + ReplaceAll(s[1..], pat, rep)
  }

  /** Replacing a pattern that does not occur changes nothing. */
  lemma {:induction false} ReplaceAbsent(s: string, pat: string, rep: string)
    requires pat != [] && !Contains(s, pat)
    ensures ReplaceAll(s, pat, rep) == s
    decreases |s|
  {
    if |s| >= |pat| {
      ContainsSlice(s, 0, |pat|);
      ContainsInTail(s, pat);
      ReplaceAbsent(s[1..], pat, rep);
    }
  }

  /** What the tail of a string contains, the string contains too. */
  lemma ContainsInTail(s: string, p: string)
    requires s != []
    ensures Contains(s[1..], p) ==> Contains(s, p)
  {
    if Contains(s[1..], p) {
      var i: nat :| i <= |s[1..]| && OccursAt(s[1..], p, i);
      assert s[i + 1..i + 1 + |p|] == s[1..][i..i + |p|];
      assert OccursAt(s, p, i + 1);
    }
  }

  /**
   * Text that does not contain a pattern whose first character does not recur
   * in it, followed by that pattern, does not start with the pattern.
   */
  lemma NoMatchAtStart(p: string, pat: string)
    requires pat != [] && forall k :: 0 < k < |pat| ==> pat[k] != pat[0]
    requires p != [] && !Contains(p, pat)
    ensures (p + pat)[..|pat|] != pat
  {
    var s := p + pat;
    if |p| >= |pat| {
      assert !OccursAt(p, pat, 0);
      assert s[..|pat|] == p[..|pat|];
    } else {
      assert s[|p|] == pat[0] && pat[|p|] != pat[0];
    }
  }

  /** Where the pattern does not start, its first character is kept as it is. */
  lemma ReplaceSkipsOne(s: string, pat: string, rep: string)
    requires pat != [] && |s| >= |pat| && s[..|pat|] != pat
    ensures ReplaceAll(s, pat, rep) == [s[0]] + ReplaceAll(s[1..], pat, rep)
  {
  }

  /**
   * A pattern whose first character does not recur in it, appended to text
   * that does not contain it, is replaced only there.
   */
  lemma {:induction false} ReplaceAtEnd(p: string, pat: string, rep: string)
    requires pat != [] && forall k :: 0 < k < |pat| ==> pat[k] != pat[0]
    requires !Contains(p, pat)
    ensures ReplaceAll(p + pat, pat, rep) == p + rep
    decreases |p|
  {
    var s := p + pat;
    if p == [] {
      assert s == pat && s[|pat|..] == [];
    } else {
      NoMatchAtStart(p, pat);
      ContainsInTail(p, pat);
      ReplaceAtEnd(p[1..], pat, rep);
      assert s[0] == p[0] && s[1..] == p[1..] + pat;
      ReplaceSkipsOne(s, pat, rep);
      assert [p[0]] + (p[1..] + rep) == p + rep;
    }
  }

  /** Removing a character (`replace(" ", "")`) leaves none of it behind and nothing else out. */
  lemma {:induction false} ReplaceCharByNothing(s: string, c: char)
    ensures c !in ReplaceAll(s, [c], "")
    ensures forall d :: d != c ==> (d in ReplaceAll(s, [c], "") <==> d in s)
    decreases |s|
  {
    if |s| >= 1 {
      ReplaceCharByNothing(s[1..], c);
      assert s == [s[0]] + s[1..];
    }
  }

  /** Index just past the first word of `t`, i.e. of its first whitespace character or its end. */
  function WordEnd(t: string): (n: nat)
    ensures n <= |t|
    ensures forall i :: 0 <= i < n ==> !IsSpace(t[i])
    ensures n == |t| || IsSpace(t[n])
  {
    if t == [] || IsSpace(t[0]) then 0 else 1 + WordEnd(t[1..])
  }

  /** `s.split()`: the maximal runs of non-whitespace characters, in order. */
  function Words(s: string): seq<string>
    decreases |s|
  {
    var t := TrimLeft(s, IsSpace);
    if t == [] then []
    else
      var n := WordEnd(t);
      [t[..n]] + Words(t[n..])
  }

  /** `sep.join(ws)`. */
  function Join(sep: string, ws: seq<string>): string
  {
    if ws == [] then []
    else if |ws| == 1 then ws[0]
    else ws[0] + sep + Join(sep, ws[1..])
  }

  /** Python's prefix slice `s[:n]`, where a negative `n` counts from the end. */
  function PyTake(s: string, n: int): (r: string)
    ensures r <= s
    ensures n >= 0 ==> |r| == if n < |s| then n else |s|
    ensures n < 0 ==> |r| == if |s| + n > 0 then |s| + n else 0
  {
    if n >= 0 then (if n < |s| then s[..n] else s)
    else (if |s| + n > 0 then s[..|s| + n] else [])
  }

  function DigitChar(d: nat): char
    requires d < 10
  {
    "0123456789"[d]
  }

  /** `str(n)` for an integer. */
  function IntToString(i: int): string
    decreases if i < 0 then 1 - i else i
  {
    if i < 0 then "-" + IntToString(-i)
    else if i < 10 then [DigitChar(i)]
    else IntToString(i / 10) + [DigitChar(i % 10)]
  }

  /** Keeps the characters for which `keep` holds, in order (a `re.sub` of a character class by ''). */
  function Filter(s: string, keep: char -> bool): (r: string)
    ensures |r| <= |s|
    ensures forall i :: 0 <= i < |r| ==> keep(r[i])
    ensures forall c :: c in r ==> c in s && keep(c)
  {
    if s == [] then [] else (if keep(s[0]) then [s[0]] else []) + Filter(s[1..], keep)
  }

  /** Text whose every character is kept passes the filter unchanged. */
  lemma {:induction false} FilterKeepsAll(s: string, keep: char -> bool)
    requires forall i :: 0 <= i < |s| ==> keep(s[i])
    ensures Filter(s, keep) == s
  {
    if s != [] {
      FilterKeepsAll(s[1..], keep);
    }
  }

  /** Filtering distributes over concatenation. */
  lemma {:induction false} FilterAppend(a: string, b: string, keep: char -> bool)
    ensures Filter(a + b, keep) == Filter(a, keep) + Filter(b, keep)
    decreases |a|
  {
    if a != [] {
      assert (a + b)[1..] == a[1..] + b;
      FilterAppend(a[1..], b, keep);
    } else {
      assert a + b == b;
    }
  }

  predicate IsAsciiLetter(c: char)
  {
    ('a' <= c <= 'z') || ('A' <= c <= 'Z')
  }

  predicate IsAsciiDigit(c: char)
  {
    '0' <= c <= '9'
  }

  /**
   * The part of Python's Unicode database that the regular-expression classes
   * `\w` and `\d` consult for characters beyond ASCII: `alnum` is
   * `str.isalnum()` and `decimal` is membership of category Nd.
   */
  datatype CharDb = CharDb(alnum: char -> bool, decimal: char -> bool)

  /** `\w`: letters, digits and the underscore. */
  predicate IsWordChar(db: CharDb, c: char)
  {
    c == '_' || (if c <= '\U{7F}' then IsAsciiLetter(c) || IsAsciiDigit(c) else db.alnum(c))
  }

  /** `\d`: a decimal digit. */
  predicate IsDecimal(db: CharDb, c: char)
  {
    if c <= '\U{7F}' then IsAsciiDigit(c) else db.decimal(c)
  }
}

=== FILE: utils.dfy ===
/**
 * URL recognition, file-extension guessing, account labels and the cookie
 * normaliser that turns any supported export into one storage-state record
 * (app/x/modules/utils.py).
 */
module Utils {
  import opened Wrappers
  import opened Text

  // ---------------------------------------------------------------- is_url

  /** `is_url`: the stripped text starts with `http://` or `https://`, letters compared case-insensitively. */
  function IsUrl(s: string): (r: bool)
    ensures r ==> 7 <= |Strip(s)|
    ensures StartsWith(s, "http://") || StartsWith(s, "https://") ==> r
    ensures !StartsWith(Lower(Strip(s)), "http") ==> !r
  {
    var t := Lower(Strip(s));
    SchemeKept(s, "http://");
    SchemeKept(s, "https://");
    StartsWith(t, "http://") || StartsWith(t, "https://")
  }

  /** Whitespace in front of the text does not change whether it is a URL. */
  lemma IsUrlIgnoresLeadingSpace(w: string, s: string)
    requires forall i :: 0 <= i < |w| ==> IsSpace(w[i])
    ensures IsUrl(w + s) == IsUrl(s)
  {
    TrimLeftSkips(w, s, IsSpace);
  }

  /** A URL that starts with a lower-case scheme keeps it through stripping and lower-casing. */
  lemma SchemeKept(s: string, scheme: string)
    requires scheme == "http://" || scheme == "https://"
    ensures StartsWith(s, scheme) ==> StartsWith(Lower(Strip(s)), scheme)
  {
    if StartsWith(s, scheme) {
      assert scheme[0] == 'h' && scheme[|scheme| - 1] == '/';
      StripKeepsPrefix(scheme, s);
      PrefixLower(scheme, Strip(s));
      assert forall i :: 0 <= i < |scheme| ==> !('A' <= scheme[i] <= 'Z');
      assert Lower(scheme) == scheme;
    }
  }

  lemma {:induction false} TrimLeftLower(s: string)
    ensures TrimLeft(Lower(s), IsSpace) == Lower(TrimLeft(s, IsSpace))
    decreases |s|
  {
    if s != [] {
      assert Lower(s)[1..] == Lower(s[1..]);
      LowerKeepsSpace(s[0]);
      TrimLeftLower(s[1..]);
    }
  }

  /** Lower-casing turns no character into whitespace and no whitespace into anything else. */
  lemma LowerKeepsSpace(c: char)
    ensures IsSpace(LowerChar(c)) == IsSpace(c)
  {
    if 'A' <= c <= 'Z' {
      assert !IsSpace(c) && !IsSpace(LowerChar(c));
    }
  }

  lemma {:induction false} TrimRightLower(s: string)
    ensures TrimRight(Lower(s), IsSpace) == Lower(TrimRight(s, IsSpace))
    decreases |s|
  {
    if s != [] {
      assert Lower(s)[..|s| - 1] == Lower(s[..|s| - 1]);
      LowerKeepsSpace(s[|s| - 1]);
      TrimRightLower(s[..|s| - 1]);
    }
  }

  /** The `re.I` flag: a URL is recognised whatever the case of its letters. */
  lemma UrlCaseInsensitive(s: string)
    ensures IsUrl(Lower(s)) == IsUrl(s)
  {
    TrimLeftLower(s);
    TrimRightLower(TrimLeft(s, IsSpace));
    var t := Strip(s);
    assert Strip(Lower(s)) == Lower(t);
    LowerIdempotent(t);
  }

  // ------------------------------------------------- guess_ext_from_url_or_ct

  /** The part of `s` before its first occurrence of `c` (`s.split(c)[0]`). */
  function Before(s: string, c: char): (r: string)
    ensures r <= s && c !in r
  {
    if s == [] || s[0] == c then [] else [s[0]] + Before(s[1..], c)
  }

  /** `PurePath(p).name`: the last component, ignoring empty and `.` components. */
  function PathName(p: string): (name: string)
    ensures '/' !in name
    ensures forall c :: c in name ==> c in p
    decreases |p|
  {
    var k := LastIndexOf(p, '/');
    var seg := p[k + 1..];
    if seg == "" || seg == "." then (if k < 0 then "" else PathName(p[..k])) else seg
  }

  /** The name of a path is what follows its directory part, up to and including its last '/'. */
  lemma PathNameAfter(dir: string, name: string)
    requires dir == [] || dir[|dir| - 1] == '/'
    requires '/' !in name && name != [] && name != "."
    ensures PathName(dir + name) == name
  {
    var p := dir + name;
    forall j | |dir| - 1 < j < |p|
      ensures p[j] != '/'
    {
      assert p[j] == name[j - |dir|];
    }
    if dir != [] {
      assert p[|dir| - 1] == dir[|dir| - 1];
    }
    LastIndexOfAt(p, '/', |dir| - 1);
    var seg := p[|dir|..];
    assert seg == name;
    assert seg != "" && seg != ".";
  }

  /** `PurePath(p).suffix`: from the last dot of the name, if that dot is neither first nor last. */
  function PathSuffix(p: string): (ext: string)
    ensures ext == [] || (|ext| >= 2 && ext[0] == '.' && '.' !in ext[1..] && '/' !in ext)
  {
    var name := PathName(p);
    var i := LastIndexOf(name, '.');
    if 0 < i < |name| - 1 then name[i..] else ""
  }

  /**
   * `guess_ext_from_url_or_ct`. The MIME-table lookup is a library call and is
   * given as `mimeExt`: what `mimetypes.guess_extension` returned, or None when
   * there was no content type or the type is unknown.
   */
  function GuessExt(url: string, mimeExt: Option<string>): (ext: string)
    ensures mimeExt.Some? && mimeExt.value != "" ==> ext == mimeExt.value
    ensures (mimeExt.None? || mimeExt.value == "") ==>
              ext == ".bin" || (|ext| >= 2 && ext[0] == '.' && '.' !in ext[1..] && '/' !in ext && '?' !in ext)
    ensures (mimeExt.None? || mimeExt.value == "") ==>
              ext == (if PathSuffix(Before(url, '?')) != "" then PathSuffix(Before(url, '?')) else ".bin")
  {
    if mimeExt.Some? && mimeExt.value != "" then mimeExt.value
    else
      var path := Before(url, '?');
      var suffix := PathSuffix(path);
      SuffixOfPart(path);
      if suffix != "" then suffix else ".bin"
  }

  /** The part before the first '?' of `p + "?" + q` is `p` when `p` holds no '?'. */
  lemma {:induction false} BeforeQuery(p: string, q: string)
    requires '?' !in p
    ensures Before(p + "?" + q, '?') == p
    decreases |p|
  {
    if p != [] {
      assert (p + "?" + q)[1..] == p[1..] + "?" + q;
      BeforeQuery(p[1..], q);
    }
  }

  /**
   * Without a usable content type, a URL whose last path component is
   * `stem + ext` gets `ext`, whatever query string follows.
   */
  lemma GuessExtFromName(dir: string, stem: string, ext: string, query: string)
    requires dir == [] || dir[|dir| - 1] == '/'
    requires '?' !in dir && '?' !in stem && '?' !in ext
    requires stem != [] && '/' !in stem
    requires |ext| >= 2 && ext[0] == '.' && '.' !in ext[1..] && '/' !in ext
    ensures GuessExt(dir + stem + ext + "?" + query, None) == ext
  {
    var name := stem + ext;
    assert '?' !in dir + name;
    BeforeQuery(dir + name, query);
    assert dir + stem + ext + "?" + query == (dir + name) + "?" + query;
    assert '/' !in name by {
      forall k | 0 <= k < |name| ensures name[k] != '/' {
        if k >= |stem| { assert name[k] == ext[k - |stem|]; }
      }
    }
    PathNameAfter(dir, name);
    forall j | |stem| < j < |name| ensures name[j] != '.' {
      assert name[j] == ext[1..][j - |stem| - 1];
    }
    LastIndexOfAt(name, '.', |stem|);
    assert name[|stem|..] == ext;
  }

  lemma SuffixOfPart(path: string)
    requires '?' !in path
    ensures '?' !in PathSuffix(path)
  {
    var name := PathName(path);
    var i := LastIndexOf(name, '.');
    if 0 < i < |name| - 1 {
      assert forall c :: c in name[i..] ==> c in name;
    }
  }

  // ------------------------------------------------------------- safe_label

  /** The characters a label may keep: `[A-Za-z0-9_.-]`. */
  predicate IsLabelChar(c: char)
  {
    ('a' <= c <= 'z') || ('A' <= c <= 'Z') || ('0' <= c <= '9') || c == '_' || c == '-' || c == '.'
  }

  predicate AllLabelChars(s: string)
  {
    forall i :: 0 <= i < |s| ==> IsLabelChar(s[i])
  }

  /** Drops a leading run of characters outside the label set. */
  function SkipUnsafe(s: string): (r: string)
    ensures |r| <= |s| && r == s[|s| - |r|..]
    ensures r == [] || IsLabelChar(r[0])
  {
    if s != [] && !IsLabelChar(s[0]) then
      var r := SkipUnsafe(s[1..]);
      assert s[1..][|s| - 1 - |r|..] == s[|s| - |r|..];
      r
    else s
  }

  /** `re.sub(r'[^a-zA-Z0-9_\-\.]+', '_', s)`: each maximal run of other characters becomes one `_`. */
  function CollapseUnsafe(s: string): (r: string)
    ensures AllLabelChars(r)
    ensures s != [] ==> r != []
    ensures |r| <= |s|
    decreases |s|
  {
    if s == [] then []
    else if IsLabelChar(s[0]) then [s[0]] + CollapseUnsafe(s[1..])
    else "_" + CollapseUnsafe(SkipUnsafe(s[1..]))
  }

  /** Text already inside the label set passes the substitution unchanged. */
  lemma {:induction false} CollapseKeepsSafe(s: string)
    ensures AllLabelChars(s) ==> CollapseUnsafe(s) == s
    decreases |s|
  {
    if s != [] && AllLabelChars(s) {
      CollapseKeepsSafe(s[1..]);
    }
  }

  /** `safe_label`: strip, collapse unsafe runs to `_`, cut to 80 characters, or "account" when nothing is left. */
  function SafeLabel(text: string): (r: string)
    ensures AllLabelChars(r) && 0 < |r| <= 80
    ensures Strip(text) == [] ==> r == "account"
    ensures Strip(text) != [] ==> r <= CollapseUnsafe(Strip(text))
    ensures Strip(text) != [] && AllLabelChars(Strip(text)) ==> r <= Strip(text)
    ensures Strip(text) != [] ==>
              |r| == if |CollapseUnsafe(Strip(text))| < 80 then |CollapseUnsafe(Strip(text))| else 80
  {
    var t := Strip(text);
    var u := CollapseUnsafe(t);
    CollapseKeepsSafe(t);
    if u != [] then PyTake(u, 80) else "account"
  }

  /** Label characters are never whitespace, so such text has nothing to strip. */
  lemma StripLabel(s: string)
    requires AllLabelChars(s)
    ensures Strip(s) == s
  {
    if s != [] {
      assert IsLabelChar(s[0]) && IsLabelChar(s[|s| - 1]);
      TrimFixed(s, IsSpace);
    }
  }

  /** A label is already safe: applying `safe_label` again changes nothing. */
  lemma SafeLabelIdempotent(text: string)
    ensures SafeLabel(SafeLabel(text)) == SafeLabel(text)
  {
    var r := SafeLabel(text);
    StripLabel(r);
    CollapseKeepsSafe(r);
  }

  // ------------------------------------------------------- normalize_cookies

  /** A decoded JSON value; an object keeps its keys in insertion order. */
  datatype Json =
    | JNull
    | JBool(b: bool)
    | JInt(i: int)
    | JReal(r: real)
    | JStr(s: string)
    | JList(items: seq<Json>)
    | JObj(fields: seq<(string, Json)>)

  /** Python truthiness. */
  predicate Truthy(v: Json)
  {
    match v
    case JNull => false
    case JBool(b) => b
    case JInt(i) => i != 0
    case JReal(r) => r != 0.0
    case JStr(s) => s != []
    case JList(items) => items != []
    case JObj(fields) => fields != []
  }

  /** `key in d`. */
  predicate HasKey(fields: seq<(string, Json)>, key: string)
  {
    exists i :: 0 <= i < |fields| && fields[i].0 == key
  }

  /** `d.get(key)`: the value stored under `key`, None when the key is absent. */
  function Lookup(fields: seq<(string, Json)>, key: string): (v: Option<Json>)
    ensures v.Some? <==> HasKey(fields, key)
  {
    if fields == [] then None
    else if fields[0].0 == key then Some(fields[0].1)
    else Lookup(fields[1..], key)
  }

  /** `d.get(key)` where a missing key reads as `None`. */
  function Get(fields: seq<(string, Json)>, key: string): Json
  {
    Lookup(fields, key).GetOr(JNull)
  }

  /** Python's `a or b`. */
  function Or(a: Json, b: Json): Json
  {
    if Truthy(a) then a else b
  }

  /** A cookie in the canonical storage-state form; `httpOnly` and `secure` went through `bool()`. */
  datatype Cookie = Cookie(
    name: Json, value: Json, domain: Json, path: Json,
    expires: Json, httpOnly: bool, secure: bool, sameSite: Json)

  /** The canonical session file: `{"cookies": [...], "origins": [...]}`. */
  datatype StorageState = StorageState(cookies: seq<Cookie>, origins: seq<Json>)

  /** The exceptions `normalize_cookies` can raise on ill-typed input. */
  datatype CookieError =
    | NotIterable      // the "cookies" entry is None, a number or a boolean (TypeError)
    | DomainNotString  // the domain is a truthy number or boolean, or a list/object holding "x.com"/"twitter.com"

  const YearSeconds: int := 365 * 24 * 60 * 60

  /** The domain rewrite: x.com and twitter.com domains are dot-prefixed and moved to x.com. */
  function NormDomain(raw: Json): (r: Result<Json, CookieError>)
    ensures !Truthy(raw) ==> r == Ok(JStr(".x.com"))
    ensures raw.JStr? && Truthy(raw) && !Contains(raw.s, "x.com") && !Contains(raw.s, "twitter.com") ==> r == Ok(raw)
    ensures raw.JStr? && (Contains(raw.s, "x.com") || Contains(raw.s, "twitter.com")) ==>
              r.Ok? && r.value.JStr? && r.value.s != [] && r.value.s[0] == '.'
    ensures raw.JStr? ==> r.Ok?
    ensures raw.JStr? && (Contains(raw.s, "x.com") || Contains(raw.s, "twitter.com")) ==>
              r == Ok(JStr(ReplaceAll(if StartsWith(raw.s, ".") then raw.s else "." + raw.s, "twitter.com", "x.com")))
  {
    if !Truthy(raw) then Ok(JStr(".x.com"))
    else match raw
      case JStr(d) =>
        if Contains(d, "x.com") || Contains(d, "twitter.com") then
          var dotted := if StartsWith(d, ".") then d else "." + d;
          ReplaceKeepsDot(dotted);
          Ok(JStr(ReplaceAll(dotted, "twitter.com", "x.com")))
        else Ok(raw)
      case JList(items) =>
        if JStr("x.com") in items || JStr("twitter.com") in items then Err(DomainNotString) else Ok(raw)
      case JObj(fields) =>
        if HasKey(fields, "x.com") || HasKey(fields, "twitter.com") then Err(DomainNotString) else Ok(raw)
      case _ => Err(DomainNotString)
  }

  /** The twitter.com rewrite cannot remove a leading dot. */
  lemma ReplaceKeepsDot(s: string)
    requires s != [] && s[0] == '.'
    ensures var r := ReplaceAll(s, "twitter.com", "x.com"); r != [] && r[0] == '.'
  {
    if |s| >= 11 {
      assert s[..11] != "twitter.com" by { assert s[..11][0] == '.'; }
    }
  }

  /** `elif isinstance(expires, int): expires = float(expires)`; a bool is an int in Python. */
  function IntToFloat(v: Json): (r: Json)
    ensures v.JInt? ==> r == JReal(v.i as real)
    ensures v.JBool? ==> r == JReal(if v.b then 1.0 else 0.0)
    ensures !v.JInt? && !v.JBool? ==> r == v
  {
    match v
    case JInt(i) => JReal(i as real)
    case JBool(b) => JReal(if b then 1.0 else 0.0)
    case _ => v
  }

  /** `expires`: the first truthy of expires/expirationDate/expiry, a year from `now` when that is None. */
  function NormExpires(c: seq<(string, Json)>, now: int): (r: Json)
    ensures Truthy(Get(c, "expires")) ==> r == IntToFloat(Get(c, "expires"))
    ensures !Truthy(Get(c, "expires")) && Truthy(Get(c, "expirationDate")) ==> r == IntToFloat(Get(c, "expirationDate"))
    ensures !Truthy(Get(c, "expires")) && !Truthy(Get(c, "expirationDate")) && Get(c, "expiry") != JNull ==>
              r == IntToFloat(Get(c, "expiry"))
    ensures !Truthy(Get(c, "expires")) && !Truthy(Get(c, "expirationDate")) && Get(c, "expiry") == JNull ==>
              r == JReal((now + YearSeconds) as real)
  {
    var e := Or(Or(Get(c, "expires"), Get(c, "expirationDate")), Get(c, "expiry"));
    if e == JNull then JReal((now + YearSeconds) as real) else IntToFloat(e)
  }

  /** A string flag counts as true only for "true", "1" or "yes" in any letter case. */
  predicate FlagText(s: string)
  {
    Lower(s) in {"true", "1", "yes"}
  }

  /**
   * `httpOnly`: the first truthy of httpOnly/httponly/HttpOnly, or the last
   * one when none is; a string is read as a flag, None means false, any
   * other truthy value means true.
   */
  function NormHttpOnly(c: seq<(string, Json)>): (r: bool)
    ensures !Truthy(Get(c, "httpOnly")) && !Truthy(Get(c, "httponly")) && !Truthy(Get(c, "HttpOnly")) ==> !r
    ensures Truthy(Get(c, "httpOnly")) && Get(c, "httpOnly").JStr? ==> r == FlagText(Get(c, "httpOnly").s)
    ensures Truthy(Get(c, "httpOnly")) && !Get(c, "httpOnly").JStr? ==> r
    ensures !Truthy(Get(c, "httpOnly")) && Truthy(Get(c, "httponly"))
            ==> r == (if Get(c, "httponly").JStr? then FlagText(Get(c, "httponly").s) else true)
    ensures !Truthy(Get(c, "httpOnly")) && !Truthy(Get(c, "httponly")) && Truthy(Get(c, "HttpOnly"))
            ==> r == (if Get(c, "HttpOnly").JStr? then FlagText(Get(c, "HttpOnly").s) else true)
  {
    var v := Or(Or(Get(c, "httpOnly"), Get(c, "httponly")), Get(c, "HttpOnly"));
    match v
    case JNull => false
    case JStr(s) => FlagText(s)
    case _ => Truthy(v)
  }

  /**
   * `secure`: the first truthy of secure/Secure, else the value of Secure; a
   * string is read as a flag and None means TRUE, so a lone `secure: false`
   * comes out true while a falsy `Secure` that is present comes out false.
   */
  function NormSecure(c: seq<(string, Json)>): (r: bool)
    ensures !Truthy(Get(c, "secure")) && Get(c, "Secure") == JNull ==> r
    ensures Truthy(Get(c, "secure")) && Get(c, "secure").JStr? ==> r == FlagText(Get(c, "secure").s)
    ensures Truthy(Get(c, "secure")) && !Get(c, "secure").JStr? ==> r
    ensures !Truthy(Get(c, "secure")) && Truthy(Get(c, "Secure"))
            ==> r == (if Get(c, "Secure").JStr? then FlagText(Get(c, "Secure").s) else true)
    ensures !Truthy(Get(c, "secure")) && !Truthy(Get(c, "Secure")) && Get(c, "Secure") != JNull ==> !r
  {
    var v := Or(Get(c, "secure"), Get(c, "Secure"));
    match v
    case JNull => true
    case JStr(s) => FlagText(s)
    case _ => Truthy(v)
  }

  /** `sameSite`: lax and strict in any case become "Lax" and "Strict"; other text and None become "None". */
  function NormSameSite(c: seq<(string, Json)>): (r: Json)
    ensures var v := Or(Or(Get(c, "sameSite"), Get(c, "samesite")), Get(c, "SameSite"));
            (v.JNull? || v.JStr?) ==> r in {JStr("Lax"), JStr("Strict"), JStr("None")}
    ensures var v := Or(Or(Get(c, "sameSite"), Get(c, "samesite")), Get(c, "SameSite"));
            v.JStr? ==> (r == JStr("Lax") <==> Lower(v.s) == "lax") && (r == JStr("Strict") <==> Lower(v.s) == "strict")
    ensures var v := Or(Or(Get(c, "sameSite"), Get(c, "samesite")), Get(c, "SameSite"));
            v.JNull? ==> r == JStr("None")
    ensures var v := Or(Or(Get(c, "sameSite"), Get(c, "samesite")), Get(c, "SameSite"));
            !v.JNull? && !v.JStr? ==> r == v
  {
    var v := Or(Or(Get(c, "sameSite"), Get(c, "samesite")), Get(c, "SameSite"));
    match v
    case JNull => JStr("None")
    case JStr(s) =>
      var l := Lower(s);
      if l == "lax" then JStr("Lax")
      else if l == "strict" then JStr("Strict")
      else JStr("None")
    case _ => v
  }

  /** `path`: "/" when missing or falsy. */
  function NormPath(c: seq<(string, Json)>): (r: Json)
    ensures Truthy(r)
    ensures Truthy(Get(c, "path")) ==> r == Get(c, "path")
    ensures !Truthy(Get(c, "path")) ==> r == JStr("/")
  {
    var p := Lookup(c, "path").GetOr(JStr("/"));
    if Truthy(p) then p else JStr("/")
  }

  /** One dict entry with a truthy name, brought to the canonical eight fields. */
  function NormalizeCookie(c: seq<(string, Json)>, now: int): (r: Result<Cookie, CookieError>)
    ensures r.Ok? ==> r.value.name == Get(c, "name") && Truthy(r.value.path)
    ensures r.Ok? ==> r.value.value == Lookup(c, "value").GetOr(JStr(""))
    ensures r.Err? <==> NormDomain(Lookup(c, "domain").GetOr(JStr(".x.com"))).Err?
    ensures r.Ok? ==> r.value.domain == NormDomain(Lookup(c, "domain").GetOr(JStr(".x.com"))).value
    ensures r.Ok? ==> r.value.path == NormPath(c) && r.value.expires == NormExpires(c, now)
    ensures r.Ok? ==> r.value.httpOnly == NormHttpOnly(c) && r.value.secure == NormSecure(c)
    ensures r.Ok? ==> r.value.sameSite == NormSameSite(c)
  {
    match NormDomain(Lookup(c, "domain").GetOr(JStr(".x.com")))
    case Err(e) => Err(e)
    case Ok(domain) =>
      Ok(Cookie(
        Get(c, "name"), Lookup(c, "value").GetOr(JStr("")), domain, NormPath(c),
        NormExpires(c, now), NormHttpOnly(c), NormSecure(c), NormSameSite(c)))
  }

  /** Is this list element a cookie the loop keeps: a dict whose name is truthy. */
  predicate IsCandidate(v: Json)
  {
    v.JObj? && Truthy(Get(v.fields, "name"))
  }

  /** The elements the loop keeps, in order. */
  function Candidates(items: seq<Json>): (cs: seq<Json>)
    ensures |cs| <= |items|
    ensures forall k :: 0 <= k < |cs| ==> IsCandidate(cs[k])
  {
    if items == [] then []
    else if IsCandidate(items[0]) then [items[0]] + Candidates(items[1..])
    else Candidates(items[1..])
  }

  /** The sequence `normalize_cookies` iterates over, or the TypeError iterating it raises. */
  function CookieList(data: Json): (r: Result<seq<Json>, CookieError>)
    ensures data.JList? ==> r == Ok(data.items)
    ensures data.JObj? && !HasKey(data.fields, "cookies") && !(HasKey(data.fields, "name") && HasKey(data.fields, "value")) ==> r == Ok([])
    ensures data.JObj? && !HasKey(data.fields, "cookies") && HasKey(data.fields, "name") && HasKey(data.fields, "value") ==> r == Ok([data])
    ensures data.JObj? && HasKey(data.fields, "cookies") && Get(data.fields, "cookies").JList?
            ==> r == Ok(Get(data.fields, "cookies").items)
    ensures data.JObj? && HasKey(data.fields, "cookies") && (Get(data.fields, "cookies").JStr? || Get(data.fields, "cookies").JObj?)
            ==> r == Ok([])
    ensures data.JObj? && HasKey(data.fields, "cookies")
            && !Get(data.fields, "cookies").JList? && !Get(data.fields, "cookies").JStr? && !Get(data.fields, "cookies").JObj?
            ==> r == Err(NotIterable)
    ensures !data.JList? && !data.JObj? ==> r == Ok([])
  {
    match data
    case JList(items) => Ok(items)
    case JObj(fields) =>
      if HasKey(fields, "cookies") then
        match Get(fields, "cookies")
        case JList(items) => Ok(items)
        case JStr(s) => Ok([])       // iterating a string yields characters, none of them a dict
        case JObj(fs) => Ok([])      // iterating a dict yields its keys, none of them a dict
        case _ => Err(NotIterable)
      else if HasKey(fields, "name") && HasKey(fields, "value") then Ok([data])
      else Ok([])
    case _ => Ok([])
  }

  /** The candidates of a list normalised by `norm` in order, or the first error `norm` gives among them. */
  function NormalizeWith(items: seq<Json>, norm: seq<(string, Json)> -> Result<Cookie, CookieError>): Result<seq<Cookie>, CookieError>
  {
    if items == [] then Ok([])
    else if !IsCandidate(items[0]) then NormalizeWith(items[1..], norm)
    else
      match norm(items[0].fields)
      case Err(e) => Err(e)
      case Ok(c) =>
        match NormalizeWith(items[1..], norm)
        case Err(e) => Err(e)
        case Ok(tail) => Ok([c] + tail)
  }

  /** A successful pass yields exactly one result of `norm` per candidate, in order. */
  lemma {:induction false} NormalizeWithOk(items: seq<Json>, norm: seq<(string, Json)> -> Result<Cookie, CookieError>)
    requires NormalizeWith(items, norm).Ok?
    ensures var cookies := NormalizeWith(items, norm).value;
            |cookies| == |Candidates(items)| &&
            forall k :: 0 <= k < |cookies| ==> norm(Candidates(items)[k].fields) == Ok(cookies[k])
  {
    if items != [] {
      NormalizeWithOk(items[1..], norm);
      var tail := NormalizeWith(items[1..], norm).value;
      var rest := Candidates(items[1..]);
      if IsCandidate(items[0]) {
        var c := norm(items[0].fields).value;
        var cs := Candidates(items);
        assert cs == [items[0]] + rest;
        assert NormalizeWith(items, norm).value == [c] + tail;
        forall k | 0 <= k < 1 + |tail| ensures norm(cs[k].fields) == Ok(([c] + tail)[k]) {
          if k > 0 { assert cs[k] == rest[k - 1]; }
        }
      } else {
        assert Candidates(items) == rest;
      }
    }
  }

  /** A failing pass fails with the error of the first candidate `norm` rejects. */
  lemma {:induction false} NormalizeWithErr(items: seq<Json>, norm: seq<(string, Json)> -> Result<Cookie, CookieError>)
    requires NormalizeWith(items, norm).Err?
    ensures var e := NormalizeWith(items, norm).error;
            exists k :: 0 <= k < |Candidates(items)| && norm(Candidates(items)[k].fields) == Err(e) &&
              forall j :: 0 <= j < k ==> norm(Candidates(items)[j].fields).Ok?
  {
    var e := NormalizeWith(items, norm).error;
    var rest := Candidates(items[1..]);
    var cs := Candidates(items);
    if !IsCandidate(items[0]) {
      assert cs == rest;
      NormalizeWithErr(items[1..], norm);
    } else if norm(items[0].fields).Err? {
      assert cs[0] == items[0];
      assert norm(cs[0].fields) == Err(e);
    } else {
      assert cs == [items[0]] + rest;
      NormalizeWithErr(items[1..], norm);
      var k :| 0 <= k < |rest| && norm(rest[k].fields) == Err(e) &&
               forall j :: 0 <= j < k ==> norm(rest[j].fields).Ok?;
      assert cs[k + 1] == rest[k];
      forall j | 0 <= j < k + 1 ensures norm(cs[j].fields).Ok? {
        if j > 0 { assert cs[j] == rest[j - 1]; }
      }
    }
  }

  /** The normalisation of one cookie entry at the clock reading `now`. */
  function CookieNorm(now: int): seq<(string, Json)> -> Result<Cookie, CookieError>
  {
    fields => NormalizeCookie(fields, now)
  }

  /** The normalised cookies of a list: the candidates in order, or the first domain error among them. */
  function NormalizeAll(items: seq<Json>, now: int): Result<seq<Cookie>, CookieError>
  {
    NormalizeWith(items, CookieNorm(now))
  }

  /** What the list loop produces: exactly one normalised cookie per kept entry, in input order. */
  lemma NormalizeAllOk(items: seq<Json>, now: int)
    requires NormalizeAll(items, now).Ok?
    ensures var cookies := NormalizeAll(items, now).value;
            |cookies| == |Candidates(items)| &&
            forall k :: 0 <= k < |cookies| ==> NormalizeCookie(Candidates(items)[k].fields, now) == Ok(cookies[k])
  {
    NormalizeWithOk(items, CookieNorm(now));
  }

  /** When some kept entry has an unusable domain, the loop stops with the error of the first such entry. */
  lemma NormalizeAllErr(items: seq<Json>, now: int)
    requires NormalizeAll(items, now).Err?
    ensures var e := NormalizeAll(items, now).error;
            exists k :: 0 <= k < |Candidates(items)| && NormalizeCookie(Candidates(items)[k].fields, now) == Err(e) &&
              forall j :: 0 <= j < k ==> NormalizeCookie(Candidates(items)[j].fields, now).Ok?
  {
    NormalizeWithErr(items, CookieNorm(now));
    var norm := CookieNorm(now);
    var e := NormalizeAll(items, now).error;
    var k :| 0 <= k < |Candidates(items)| && norm(Candidates(items)[k].fields) == Err(e) &&
             forall j :: 0 <= j < k ==> norm(Candidates(items)[j].fields).Ok?;
    assert NormalizeCookie(Candidates(items)[k].fields, now) == Err(e);
  }

  /** Prepends the cookies already produced to the outcome of the rest of the list. */
  function After(done: seq<Cookie>, rest: Result<seq<Cookie>, CookieError>): Result<seq<Cookie>, CookieError>
  {
    match rest
    case Ok(tail) => Ok(done + tail)
    case Err(e) => Err(e)
  }

  /** The whole of `normalize_cookies` as a value: the cookies of the iterated list, never any origins. */
  function Normalized(data: Json, now: int): Result<StorageState, CookieError>
  {
    if !Truthy(data) then Ok(StorageState([], []))
    else
      match CookieList(data)
      case Err(e) => Err(e)
      case Ok(items) =>
        match NormalizeAll(items, now)
        case Err(e) => Err(e)
        case Ok(cookies) => Ok(StorageState(cookies, []))
  }

  /** Falsy input and a dict with no cookie shape both come out as an empty session. */
  lemma EmptyShapes(data: Json, now: int)
    requires !Truthy(data) ||
             (data.JObj? && !HasKey(data.fields, "cookies") && !(HasKey(data.fields, "name") && HasKey(data.fields, "value")))
    ensures Normalized(data, now) == Ok(StorageState([], []))
  {
  }

  /** Every kept cookie has a name, a truthy path and the canonical flags; no origin is ever carried over. */
  lemma {:induction false} NormalizedShape(data: Json, now: int)
    ensures Normalized(data, now).Ok? ==>
              var st := Normalized(data, now).value;
              st.origins == [] &&
              forall k :: 0 <= k < |st.cookies| ==> Truthy(st.cookies[k].name) && Truthy(st.cookies[k].path)
  {
    if Truthy(data) && CookieList(data).Ok? && NormalizeAll(CookieList(data).value, now).Ok? {
      var items := CookieList(data).value;
      NormalizeAllOk(items, now);
      var cs := NormalizeAll(items, now).value;
      forall k | 0 <= k < |cs| ensures Truthy(cs[k].name) && Truthy(cs[k].path) {
        assert NormalizeCookie(Candidates(items)[k].fields, now) == Ok(cs[k]);
        assert IsCandidate(Candidates(items)[k]);
      }
    }
  }

  /** One turn of the list loop: a skipped entry leaves the outcome alone, a kept one moves into `done`. */
  lemma AfterStep(done: seq<Cookie>, items: seq<Json>, i: nat, now: int)
    requires i < |items|
    ensures !IsCandidate(items[i]) ==>
              After(done, NormalizeAll(items[i..], now)) == After(done, NormalizeAll(items[i + 1..], now))
    ensures IsCandidate(items[i]) && NormalizeCookie(items[i].fields, now).Err? ==>
              After(done, NormalizeAll(items[i..], now)) == Err(NormalizeCookie(items[i].fields, now).error)
    ensures IsCandidate(items[i]) && NormalizeCookie(items[i].fields, now).Ok? ==>
              After(done, NormalizeAll(items[i..], now)) ==
              After(done + [NormalizeCookie(items[i].fields, now).value], NormalizeAll(items[i + 1..], now))
  {
    assert items[i..][0] == items[i] && items[i..][1..] == items[i + 1..];
    if IsCandidate(items[i]) && NormalizeCookie(items[i].fields, now).Ok? {
      var c := NormalizeCookie(items[i].fields, now).value;
      match NormalizeAll(items[i + 1..], now)
      case Err(e) =>
      case Ok(t) => assert done + ([c] + t) == (done + [c]) + t;
    }
  }

  /**
   * `normalize_cookies`. `now` is the clock reading used for the default
   * expiry. The loop visits the list in order, skips non-dicts and nameless
   * entries, and stops at the first entry whose domain cannot be handled.
   */
  method NormalizeCookies(data: Json, now: int) returns (r: Result<StorageState, CookieError>)
    ensures r == Normalized(data, now)
  {
    if !Truthy(data) {
      return Ok(StorageState([], []));
    }
    var list := CookieList(data);
    if list.Err? {
      return Err(list.error);
    }
    var items := list.value;
    var normalized: seq<Cookie> := [];
    var i := 0;
    assert items[i..] == items;
    assert NormalizeAll(items, now).Ok? ==> [] + NormalizeAll(items, now).value == NormalizeAll(items, now).value;
    while i < |items|
      invariant 0 <= i <= |items|
      invariant NormalizeAll(items, now) == After(normalized, NormalizeAll(items[i..], now))
    {
      AfterStep(normalized, items, i, now);
      var cookie := items[i];
      if IsCandidate(cookie) {
        var c := NormalizeCookie(cookie.fields, now);
        if c.Err? {
          return Err(c.error);
        }
        normalized := normalized + [c.value];
      }
      i := i + 1;
    }
    assert items[i..] == [];
    assert normalized + [] == normalized;
    return Ok(StorageState(normalized, []));
  }

  /** Filtering distributes over a split point. */
  lemma CandidatesSplit(items: seq<Json>, i: nat)
    requires i < |items|
    ensures Candidates(items[..i + 1]) == Candidates(items[..i]) + Candidates([items[i]])
    ensures Candidates(items[i..]) == Candidates([items[i]]) + Candidates(items[i + 1..])
  {
    CandidatesAppend(items[..i], [items[i]]);
    assert items[..i] + [items[i]] == items[..i + 1];
    assert items[i..] == [items[i]] + items[i + 1..];
  }

  lemma {:induction false} CandidatesAppend(a: seq<Json>, b: seq<Json>)
    ensures Candidates(a + b) == Candidates(a) + Candidates(b)
    decreases |a|
  {
    if a != [] {
      assert (a + b)[0] == a[0];
      assert (a + b)[1..] == a[1..] + b;
      CandidatesAppend(a[1..], b);
    } else {
      assert a + b == b;
    }
  }
}

=== FILE: validators.dfy ===
/** Input validation and sanitisation helpers (app/utils/validators.py). */
module Validators {
  import opened Wrappers
  import opened Text

  // ----------------------------------------------------------- sanitize_text

  /** What `html.escape` does to one character. */
  function EscapeChar(c: char): (e: string)
    ensures '<' !in e && '>' !in e && '"' !in e && '\'' !in e
    ensures forall d :: d in e && d !in "&#;" && !IsAsciiLetter(d) && !IsAsciiDigit(d) ==> d == c
  {
    if c == '&' then "&amp;"
    else if c == '<' then "&lt;"
    else if c == '>' then "&gt;"
    else if c == '"' then "&quot;"
    else if c == '\'' then "&#x27;"
    else [c]
  }

  /** `html.escape(s)` (with `quote=True`). */
  function HtmlEscape(s: string): (r: string)
    ensures '<' !in r && '>' !in r && '"' !in r && '\'' !in r
    ensures forall c :: c in r && c !in "&#;" && !IsAsciiLetter(c) && !IsAsciiDigit(c) ==> c in s
  {
    if s == [] then []
    else
      var head, rest := EscapeChar(s[0]), HtmlEscape(s[1..]);
      assert forall c :: c in head + rest <==> c in head || c in rest;
      head + rest
  }

  /** Text free of the characters `html.escape` rewrites is left alone. */
  lemma {:induction false} EscapeNothing(s: string)
    requires forall i :: 0 <= i < |s| ==> s[i] !in "&<>\"'"
    ensures HtmlEscape(s) == s
  {
    if s != [] {
      EscapeNothing(s[1..]);
    }
  }

  /** The control characters the first substitution removes: `[\x00-\x08\x0B-\x0C\x0E-\x1F\x7F]`. */
  predicate IsControl(c: char)
  {
    c <= '\U{08}' || ('\U{0B}' <= c <= '\U{0C}') || ('\U{0E}' <= c <= '\U{1F}') || c == '\U{7F}'
  }

  /** The Arabic blocks the permissive class lists. */
  predicate InArabicBlocks(c: char)
  {
    ('\U{0600}' <= c <= '\U{06FF}') || ('\U{0750}' <= c <= '\U{077F}') || ('\U{08A0}' <= c <= '\U{08FF}')
    || ('\U{FB50}' <= c <= '\U{FDFF}') || ('\U{FE70}' <= c <= '\U{FEFF}')
  }

  /** The characters the second substitution keeps. */
  function TextAllowed(db: CharDb, allowArabic: bool, c: char): (r: bool)
    ensures c == '<' || c == '>' || c == '&' ==> !r
    ensures IsAsciiLetter(c) || IsAsciiDigit(c) || IsSpace(c) ==> r
    ensures allowArabic && InArabicBlocks(c) ==> r
  {
    IsWordChar(db, c) || IsSpace(c) || (allowArabic && InArabicBlocks(c)) || c in "@._-!?,;:'\"\n"
  }


  /** The first substitution: the control characters removed. */
  function DropControls(s: string): (r: string)
    ensures forall i :: 0 <= i < |r| ==> !IsControl(r[i]) && r[i] in s
  {
    Filter(s, c => !IsControl(c))
  }

  /** The second substitution: everything outside the allowed class removed. */
  function KeepAllowed(db: CharDb, allowArabic: bool, s: string): (r: string)
    ensures forall i :: 0 <= i < |r| ==> TextAllowed(db, allowArabic, r[i]) && r[i] in s
  {
    Filter(s, c => TextAllowed(db, allowArabic, c))
  }

  /**
   * `sanitize_text`: escape HTML, drop control characters, drop everything
   * outside the allowed class, then cut to `maxLength` (a Python slice, so a
   * negative bound counts from the end).
   */
  function SanitizeText(db: CharDb, text: string, maxLength: int, allowArabic: bool): (r: string)
    ensures text == "" ==> r == ""
    ensures maxLength >= 0 ==> |r| <= maxLength
    ensures '<' !in r && '>' !in r && '&' !in r && '"' !in r && '\'' !in r
    ensures forall i :: 0 <= i < |r| ==> TextAllowed(db, allowArabic, r[i]) && !IsControl(r[i])
  {
    if text == "" then ""
    else
      var escaped := HtmlEscape(text);
      var kept := KeepAllowed(db, allowArabic, DropControls(escaped));
      var r := PyTake(kept, maxLength);
      assert forall i :: 0 <= i < |r| ==> r[i] == kept[i];
      r
  }

  /**
   * Text that is already safe -- every character allowed, none a control
   * character, none that `html.escape` rewrites -- only gets cut to length.
   */
  lemma SanitizeTextKeepsSafe(db: CharDb, text: string, maxLength: int, allowArabic: bool)
    requires forall i :: 0 <= i < |text| ==> TextAllowed(db, allowArabic, text[i]) && !IsControl(text[i]) && text[i] !in "&<>\"'"
    ensures SanitizeText(db, text, maxLength, allowArabic) == PyTake(text, maxLength)
  {
    if text != "" {
      EscapeNothing(text);
      FilterKeepsAll(text, c => !IsControl(c));
      assert DropControls(text) == text;
      FilterKeepsAll(text, c => TextAllowed(db, allowArabic, c));
      assert KeepAllowed(db, allowArabic, text) == text;
    }
  }

  /** Sanitised text is a fixed point: a second pass with the same bound changes nothing. */
  lemma SanitizeTextIdempotent(db: CharDb, text: string, maxLength: int, allowArabic: bool)
    requires maxLength >= 0
    ensures var r := SanitizeText(db, text, maxLength, allowArabic);
            SanitizeText(db, r, maxLength, allowArabic) == r
  {
    var r := SanitizeText(db, text, maxLength, allowArabic);
    SanitizeTextKeepsSafe(db, r, maxLength, allowArabic);
  }

  // ------------------------------------------------------- sanitize_username

  /** The characters `sanitize_username` keeps: `[\w\-]`. */
  predicate UsernameChar(db: CharDb, c: char)
  {
    IsWordChar(db, c) || c == '-'
  }

  /** `sanitize_username`: keep `\w` and '-', at most 50 characters; no minimum is enforced. */
  function SanitizeUsername(db: CharDb, username: string): (r: string)
    ensures |r| <= 50
    ensures forall i :: 0 <= i < |r| ==> UsernameChar(db, r[i])
    ensures forall c :: c in r ==> c in username
    ensures var kept := UsernameChars(db, username);
            r <= kept && |r| == if |kept| < 50 then |kept| else 50
  {
    if username == "" then ""
    else PyTake(UsernameChars(db, username), 50)
  }

  /** The characters of a username that `[\w\-]` allows, in order. */
  function UsernameChars(db: CharDb, username: string): string
  {
    Filter(username, c => UsernameChar(db, c))
  }

  /** A username made only of allowed characters is merely cut to 50 characters. */
  lemma UsernameKeepsAllowed(db: CharDb, username: string)
    requires forall i :: 0 <= i < |username| ==> UsernameChar(db, username[i])
    ensures SanitizeUsername(db, username) == PyTake(username, 50)
  {
    FilterKeepsAll(username, c => UsernameChar(db, c));
  }

  /** A character outside `[\w\-]` makes no difference, wherever it stands. */
  lemma UsernameDropsForbidden(db: CharDb, a: string, c: char, b: string)
    requires !UsernameChar(db, c)
    ensures SanitizeUsername(db, a + [c] + b) == SanitizeUsername(db, a + b)
  {
    var keep := c => UsernameChar(db, c);
    assert a + [c] + b == a + ([c] + b);
    FilterAppend(a, [c] + b, keep);
    FilterAppend(a, b, keep);
    assert ([c] + b)[1..] == b;
    assert Filter([c] + b, keep) == Filter(b, keep);
  }

  /** A single-character username survives: the "3-50" range in the comment has no lower bound in the code. */
  lemma UsernameHasNoMinimum(db: CharDb)
    ensures SanitizeUsername(db, "a") == "a"
  {
    FilterKeepsAll("a", c => UsernameChar(db, c));
  }

  lemma SanitizeUsernameIdempotent(db: CharDb, username: string)
    ensures SanitizeUsername(db, SanitizeUsername(db, username)) == SanitizeUsername(db, username)
  {
    var r := SanitizeUsername(db, username);
    FilterKeepsAll(r, c => UsernameChar(db, c));
  }

  // ---------------------------------------------------------- sanitize_email

  predicate IsLocalChar(c: char)
  {
    IsAsciiLetter(c) || IsAsciiDigit(c) || c in "._%+-"
  }

  predicate IsHostChar(c: char)
  {
    IsAsciiLetter(c) || IsAsciiDigit(c) || c == '.' || c == '-'
  }

  /** `[a-zA-Z0-9.-]+\.[a-zA-Z]{2,}` matched against the whole of `h`. */
  predicate IsHost(h: string)
  {
    (forall i :: 0 <= i < |h| ==> IsHostChar(h[i])) &&
    var j := LastIndexOf(h, '.');
    j >= 1 && |h| - j - 1 >= 2 && forall i :: j < i < |h| ==> IsAsciiLetter(h[i])
  }

  /** `^[a-zA-Z0-9._%+-]+@[a-zA-Z0-9.-]+\.[a-zA-Z]{2,}$`; the local class has no '@', so the first '@' splits. */
  function IsEmail(e: string): (r: bool)
    ensures r ==> 6 <= |e| && IsLocalChar(e[0]) && '@' in e
  {
    var at := IndexOf(e, '@');
    at >= 1 && at < |e| &&
    (forall i :: 0 <= i < at ==> IsLocalChar(e[i])) &&
    IsHost(e[at + 1..])
  }

  /** `sanitize_email`: None for empty or malformed input, else the stripped lower-cased address. */
  function SanitizeEmail(email: string): (r: Option<string>)
    ensures email == "" ==> r == None
    ensures r.Some? ==> r.value == Lower(Strip(email)) && IsEmail(r.value)
    ensures email != "" && IsEmail(Lower(Strip(email))) ==> r.Some?
  {
    if email == "" then None
    else
      var e := Lower(Strip(email));
      if IsEmail(e) then Some(e) else None
  }

  /** A valid address has exactly one '@', and its top-level domain has at least two letters. */
  lemma EmailShape(e: string)
    requires IsEmail(e)
    ensures exists k :: 0 <= k < |e| && e[k] == '@' && forall j :: 0 <= j < |e| && j != k ==> e[j] != '@'
    ensures var h := e[IndexOf(e, '@') + 1..];
            var j := LastIndexOf(h, '.');
            |h| - j - 1 >= 2 && forall i :: j < i < |h| ==> IsAsciiLetter(h[i])
  {
    var at := IndexOf(e, '@');
    var h := e[at + 1..];
    forall j | 0 <= j < |e| && j != at
      ensures e[j] != '@'
    {
      if j > at {
        assert e[j] == h[j - at - 1] && IsHostChar(h[j - at - 1]);
      }
    }
    assert 0 <= at < |e| && e[at] == '@';
  }

  /** A valid address starts with a local character and ends with a letter, so nothing strips off it. */
  lemma EmailEnds(e: string)
    requires IsEmail(e)
    ensures e != [] && IsLocalChar(e[0]) && IsAsciiLetter(e[|e| - 1])
  {
    var at := IndexOf(e, '@');
    var h := e[at + 1..];
    assert IsLocalChar(e[0]) && IsAsciiLetter(h[|h| - 1]);
    assert e[|e| - 1] == h[|h| - 1];
  }

  /** A sanitised address is returned unchanged by a second call. */
  lemma SanitizeEmailIdempotent(email: string)
    requires SanitizeEmail(email).Some?
    ensures SanitizeEmail(SanitizeEmail(email).value) == SanitizeEmail(email)
  {
    var t := Strip(email);
    var e := Lower(t);
    assert IsEmail(e);
    EmailEnds(e);
    TrimFixed(e, IsSpace);
    assert Strip(e) == e;
    LowerIdempotent(t);
  }

  // ------------------------------------------------------------ sanitize_url

  /** `(/.*)?` after the host: empty, or a path from the first '/' with no newline in it. */
  predicate IsHostAndPath(v: string)
  {
    var k := IndexOf(v, '/');
    IsHost(v[..k]) && '\n' !in v[k..]
  }

  /** A host, and so a URL's text after the scheme, holds a dot and at least four characters. */
  lemma HostAndPathHasDot(v: string)
    ensures IsHostAndPath(v) ==> '.' in v && 4 <= |v|
  {
    if IsHostAndPath(v) {
      var k := IndexOf(v, '/');
      var h := v[..k];
      var j := LastIndexOf(h, '.');
      assert h[j] == v[j];
    }
  }

  /** The text after the scheme that `^https?://` consumed. */
  function AfterScheme(url: string): string
    requires StartsWith(url, "http://") || StartsWith(url, "https://")
  {
    if StartsWith(url, "https://") then url[8..] else url[7..]
  }

  /** The whole URL pattern; `$` also matches just before one final newline. */
  function IsWebUrl(url: string): (r: bool)
    requires StartsWith(url, "http://") || StartsWith(url, "https://")
    ensures r ==> '.' in AfterScheme(url) && 4 <= |AfterScheme(url)|
  {
    var rest := AfterScheme(url);
    HostAndPathHasDot(rest);
    HostAndPathHasDot(rest[..if rest == [] then 0 else |rest| - 1]);
    IsHostAndPath(rest) || (rest != [] && rest[|rest| - 1] == '\n' && IsHostAndPath(rest[..|rest| - 1]))
  }

  /** `sanitize_url`: None unless http(s) and well-formed; otherwise the first 500 characters. */
  function SanitizeUrl(url: string): (r: Option<string>)
    ensures !(StartsWith(url, "http://") || StartsWith(url, "https://")) ==> r == None
    ensures r.Some? ==> r.value <= url && |r.value| <= 500 && (|url| <= 500 ==> r.value == url)
    ensures r.Some? ==> StartsWith(r.value, "http://") || StartsWith(r.value, "https://")
    ensures r.Some? <==> (StartsWith(url, "http://") || StartsWith(url, "https://")) && IsWebUrl(url)
    ensures r.Some? ==> r.value == PyTake(url, 500)
  {
    if url == "" then None
    else if !(StartsWith(url, "http://") || StartsWith(url, "https://")) then None
    else if !IsWebUrl(url) then None
    else Some(PyTake(url, 500))
  }

  /** A host, then nothing or a path from a '/' with no newline, matches the part after the scheme. */
  lemma HostAndPath(host: string, path: string)
    requires IsHost(host) && '/' !in host
    requires (path == [] || path[0] == '/') && '\n' !in path
    ensures IsHostAndPath(host + path)
  {
    var rest := host + path;
    assert forall j :: 0 <= j < |host| ==> rest[j] == host[j];
    IndexOfAt(rest, '/', |host|);
    assert rest[..|host|] == host && rest[|host|..] == path;
  }

  /** An https URL whose host is followed by nothing or by a path is accepted whole when it fits in 500 characters. */
  lemma UrlWithPath(host: string, path: string)
    requires IsHost(host) && '/' !in host
    requires (path == [] || path[0] == '/') && '\n' !in path
    requires 8 + |host| + |path| <= 500
    ensures SanitizeUrl("https://" + host + path) == Some("https://" + host + path)
  {
    var url := "https://" + host + path;
    assert url == "https://" + (host + path);
    assert StartsWith(url, "https://");
    assert AfterScheme(url) == host + path;
    HostAndPath(host, path);
  }

  /** A host without a dot has no top-level domain, so such a URL is refused. */
  lemma UrlWithoutDotRefused(host: string)
    requires '.' !in host && '/' !in host && '\n' !in host
    ensures SanitizeUrl("https://" + host) == None
  {
    var url := "https://" + host;
    assert StartsWith(url, "https://");
    assert AfterScheme(url) == host;
    IndexOfAt(host, '/', |host|);
    assert host[..|host|] == host;
    LastIndexOfAt(host, '.', -1);
    assert !IsHost(host);
    assert host == [] || host[|host| - 1] != '\n';
  }

  /**
   * `$` also matches before one final newline, so such a URL followed by "\n"
   * is accepted too, and returned with the newline.
   */
  lemma UrlWithTrailingNewline(host: string, path: string)
    requires IsHost(host) && '/' !in host
    requires (path == [] || path[0] == '/') && '\n' !in path
    requires 9 + |host| + |path| <= 500
    ensures SanitizeUrl("https://" + host + path + "\n") == Some("https://" + host + path + "\n")
  {
    var url := "https://" + host + path + "\n";
    var rest := host + path + "\n";
    assert url == "https://" + rest;
    assert StartsWith(url, "https://");
    assert AfterScheme(url) == rest;
    assert rest[..|rest| - 1] == host + path;
    HostAndPath(host, path);
  }

  // ----------------------------------------------- validate_password_strength

  /** The rules in the order they are checked. */
  datatype PasswordRule = TooShort | TooLong | NoLowercase | NoUppercase | NoDigit

  /** The message reported for each rule. */
  function RuleMessage(rule: PasswordRule): (m: string)
    ensures StartsWith(m, PasswordWord)
  {
    match rule
    case TooShort => "كلمة المرور يجب أن تكون 8 أحرف على الأقل"
    case TooLong => "كلمة المرور طويلة جداً"
    case NoLowercase => "كلمة المرور يجب أن تحتوي على حرف صغير"
    case NoUppercase => "كلمة المرور يجب أن تحتوي على حرف كبير"
    case NoDigit => "كلمة المرور يجب أن تحتوي على رقم"
  }

  /** "The password", with which every message opens. */
  const PasswordWord := "كلمة المرور "

  /** Each rule has its own message, so the message tells which rule was broken. */
  lemma RuleMessagesDistinct(a: PasswordRule, b: PasswordRule)
    ensures RuleMessage(a) == RuleMessage(b) ==> a == b
  {
    var ma, mb := RuleMessage(a), RuleMessage(b);
    if a != b && |ma| == |mb| {
      // only the lower-case and upper-case messages have the same length; they differ in the letter's size
      assert ma[|ma| - 3] != mb[|mb| - 3];
    }
  }

  predicate HasLower(p: string) { exists i :: 0 <= i < |p| && 'a' <= p[i] <= 'z' }
  predicate HasUpper(p: string) { exists i :: 0 <= i < |p| && 'A' <= p[i] <= 'Z' }
  predicate HasDigit(db: CharDb, p: string) { exists i :: 0 <= i < |p| && IsDecimal(db, p[i]) }

  /** Does `password` break `rule`. */
  predicate Breaks(db: CharDb, password: string, rule: PasswordRule)
  {
    match rule
    case TooShort => |password| < 8
    case TooLong => |password| > 128
    case NoLowercase => !HasLower(password)
    case NoUppercase => !HasUpper(password)
    case NoDigit => !HasDigit(db, password)
  }

  const PasswordRules: seq<PasswordRule> := [TooShort, TooLong, NoLowercase, NoUppercase, NoDigit]

  /** The first rule, in checking order, that `password` breaks. */
  function FirstBroken(db: CharDb, password: string, rules: seq<PasswordRule>): (r: Option<PasswordRule>)
    ensures r.None? <==> forall k :: 0 <= k < |rules| ==> !Breaks(db, password, rules[k])
    ensures r.Some? ==> exists k :: 0 <= k < |rules| && rules[k] == r.value && Breaks(db, password, rules[k]) &&
                          forall j :: 0 <= j < k ==> !Breaks(db, password, rules[j])
  {
    if rules == [] then None
    else if Breaks(db, password, rules[0]) then Some(rules[0])
    else
      var r := FirstBroken(db, password, rules[1..]);
      assert forall k :: 1 <= k < |rules| ==> rules[k] == rules[1..][k - 1];
      r
  }

  /** `validate_password_strength`: (True, "") when every rule holds, else False with the first failure's message. */
  function ValidatePasswordStrength(db: CharDb, password: string): (r: (bool, string))
    ensures r.0 <==> 8 <= |password| <= 128 && HasLower(password) && HasUpper(password) && HasDigit(db, password)
    ensures r.0 ==> r.1 == ""
    ensures |password| < 8 ==> r == (false, RuleMessage(TooShort))
    ensures |password| > 128 ==> r == (false, RuleMessage(TooLong))
    ensures 8 <= |password| <= 128 && !HasLower(password) ==> r == (false, RuleMessage(NoLowercase))
    ensures 8 <= |password| <= 128 && HasLower(password) && !HasUpper(password) ==>
              r == (false, RuleMessage(NoUppercase))
    ensures 8 <= |password| <= 128 && HasLower(password) && HasUpper(password) && !HasDigit(db, password) ==>
              r == (false, RuleMessage(NoDigit))
  {
    var broken := FirstBroken(db, password, PasswordRules);
    assert PasswordRules[0] == TooShort && PasswordRules[1] == TooLong && PasswordRules[2] == NoLowercase;
    assert PasswordRules[3] == NoUppercase && PasswordRules[4] == NoDigit;
    match broken
    case None => (true, "")
    case Some(rule) => (false, RuleMessage(rule))
  }

  // --------------------------------------------------- sanitize_account_name

  /** `sanitize_account_name`: drop leading '@'s, keep `\w`, at most 50 characters. */
  function SanitizeAccountName(db: CharDb, name: string): (r: string)
    ensures |r| <= 50
    ensures forall i :: 0 <= i < |r| ==> IsWordChar(db, r[i])
    ensures '@' !in r
    ensures var kept := AccountWordChars(db, name);
            r <= kept && |r| == if |kept| < 50 then |kept| else 50
  {
    if name == "" then ""
    else PyTake(AccountWordChars(db, name), 50)
  }

  /** The word characters of an account name after its leading '@'s, in order. */
  function AccountWordChars(db: CharDb, name: string): string
  {
    Filter(TrimLeft(name, c => c == '@'), c => IsWordChar(db, c))
  }

  /** A leading handle marker is ignored: "@name" and "name" sanitise alike. */
  lemma AccountNameIgnoresAt(db: CharDb, name: string)
    requires name != "" && name[0] != '@'
    ensures SanitizeAccountName(db, "@" + name) == SanitizeAccountName(db, name)
  {
    assert ("@" + name)[1..] == name;
  }

  /** A name made only of word characters is merely cut to 50 characters. */
  lemma AccountNameKeepsWordChars(db: CharDb, name: string)
    requires forall i :: 0 <= i < |name| ==> IsWordChar(db, name[i])
    ensures SanitizeAccountName(db, name) == PyTake(name, 50)
  {
    if name != "" {
      assert !IsWordChar(db, '@');
      assert TrimLeft(name, c => c == '@') == name;
      FilterKeepsAll(name, c => IsWordChar(db, c));
    }
  }

  /** After a first character that is no '@', a character outside `\w` makes no difference. */
  lemma AccountNameDropsForbidden(db: CharDb, a: string, c: char, b: string)
    requires a != [] && a[0] != '@' && !IsWordChar(db, c)
    ensures SanitizeAccountName(db, a + [c] + b) == SanitizeAccountName(db, a + b)
  {
    var keep := c => IsWordChar(db, c);
    var s, t := a + [c] + b, a + b;
    assert s[0] == a[0] && t[0] == a[0];
    assert TrimLeft(s, c => c == '@') == s;
    assert TrimLeft(t, c => c == '@') == t;
    assert s == a + ([c] + b);
    FilterAppend(a, [c] + b, keep);
    FilterAppend(a, b, keep);
    assert ([c] + b)[1..] == b;
    assert Filter([c] + b, keep) == Filter(b, keep);
  }

  // ------------------------------------------------------------ is_safe_path

  /** The blacklist, in order: `..`, `~`, `/etc/`, `/root/`, `C:\` and `\\`. */
  const DangerousPatterns: seq<string> := ["..", "~", "/etc/", "/root/", "C:\\", "\\\\"]

  /** `is_safe_path`: a path is safe iff it contains none of the dangerous patterns. */
  function IsSafePath(path: string): (safe: bool)
    ensures safe <==> forall k :: 0 <= k < |DangerousPatterns| ==> !Contains(path, DangerousPatterns[k])
  {
    ContainsNone(path, DangerousPatterns)
  }

  /** A path with ".." anywhere in it is refused. */
  lemma ParentPathUnsafe(path: string, i: nat)
    requires i + 2 <= |path| && path[i] == '.' && path[i + 1] == '.'
    ensures !IsSafePath(path)
  {
    ContainsSlice(path, i, i + 2);
    assert path[i..i + 2] == "..";
  }

  /** Example: only the listed substrings matter, so "/etc" without its trailing slash passes. */
  lemma EtcWithoutSlashSafe()
    ensures IsSafePath("/etc")
  {
    var p := "/etc";
    forall k | 0 <= k < |DangerousPatterns| ensures !Contains(p, DangerousPatterns[k]) {
      var d := DangerousPatterns[k];
      if |d| <= |p| {
        assert d == ".." || d == "~" || d == "C:\\" || d == "\\\\";
        NotContainsChar(p, d, d[0]);
      }
    }
  }
}

=== FILE: wrappers.dfy ===
/** Optional values and results shared by every module of the model. */
module Wrappers {
  /** Python's `None` or a value. */
  datatype Option<T> = None | Some(value: T)
  {
    function GetOr(default: T): T
    {
      match this
      case Some(v) => v
      case None => default
    }
  }

  /** A return value, or the exception the Python code raises instead. */
  datatype Result<T, E> = Ok(value: T) | Err(error: E)
}

=== FILE: x_actions.dfy ===
/**
 * Tweet actions driven through the browser (app/x/modules/x_actions.py): the
 * tweet-URL normaliser, the deadline-bounded pollers that click the first
 * clickable candidate, wait for a menu, pick a file input, wait for an upload to
 * settle and wait for the publish button, and the step sequences of replying,
 * quoting, reposting and unfollowing.
 *
 * Each poller is a method with a `while` loop, proved equal to a recursive
 * function over the clock; the lemmas about those functions state what a
 * result means.
 */
module XActions {
  import opened Wrappers
  import opened Text
  import opened Browser

  // ---------------------------------------------------------------------------
  // Tweet URLs
  // ---------------------------------------------------------------------------

  const TwitterPrefix := "https://twitter.com/"
  const XPrefix := "https://x.com/"

  /**
   * `_norm_tweet_url`: strips the URL and rewrites a leading twitter.com host
   * to x.com. `replace(..., 1)` rewrites the first occurrence, which is the
   * leading one whenever the guard holds. A missing URL is the empty string.
   */
  function NormTweetUrl(url: string): (r: string)
    ensures r == [] <==> Strip(url) == []
    ensures !StartsWith(r, TwitterPrefix)
  {
    var u := Strip(url);
    if StartsWith(u, TwitterPrefix) then
      var r := XPrefix + u[|TwitterPrefix|..];
      assert r[8] != TwitterPrefix[8];
      r
    else u
  }

  /** Only the host prefix changes: everything after it is kept, and a URL without it is only stripped. */
  lemma NormTweetUrlKeepsPath(url: string)
    ensures StartsWith(Strip(url), TwitterPrefix)
            ==> StartsWith(NormTweetUrl(url), XPrefix)
                && NormTweetUrl(url)[|XPrefix|..] == Strip(url)[|TwitterPrefix|..]
    ensures !StartsWith(Strip(url), TwitterPrefix) ==> NormTweetUrl(url) == Strip(url)
  {
  }

  /** Normalising a normalised URL changes nothing. */
  lemma NormTweetUrlIdempotent(url: string)
    ensures NormTweetUrl(NormTweetUrl(url)) == NormTweetUrl(url)
  {
    var u := Strip(url);
    var r := NormTweetUrl(url);
    assert Strip(r) == r by {
      if StartsWith(u, TwitterPrefix) {
        assert r[0] == 'h';
        assert r[|r| - 1] == if |u| > |TwitterPrefix| then u[|u| - 1] else '/';
        TrimFixed(r, IsSpace);
      } else {
        TrimIdempotent(url, IsSpace);
      }
    }
    NormTweetUrlFixed(r);
  }

  /** A stripped URL without the twitter.com host is already normalised. */
  lemma NormTweetUrlFixed(r: string)
    requires Strip(r) == r && !StartsWith(r, TwitterPrefix)
    ensures NormTweetUrl(r) == r
  {
  }

  const ArticleSel := "article"
  const TweetUrlRequired := "tweet_url required"
  /** The fixed pause after navigating to a tweet. */
  const SettleMs := 6200
  const ArticleTimeoutMs := 60000

  /**
   * `_goto_tweet`: an empty normalised URL is a ValueError before any
   * navigation; otherwise the tweet is visited, the page settles for 6.2 s and
   * the first article must become visible within 60 s. The result is the
   * instant the article showed.
   */
  function GotoTweet(page: Page, t: nat, url: string): (r: Result<nat, Failure>)
    ensures url == [] ==> r == Err(ValueError(TweetUrlRequired))
    ensures r.Ok? ==> t + SettleMs <= r.value <= t + SettleMs + ArticleTimeoutMs
    ensures r.Err? && url != [] ==> r.error == WaitTimedOut(ArticleSel)
  {
    if url == [] then Err(ValueError(TweetUrlRequired))
    else WaitFor(page, t + SettleMs, ArticleSel, Visible, ArticleTimeoutMs)
  }

  /** The steps `_goto_tweet` takes: one visit, unless the URL was empty. */
  function GotoSteps(url: string): (s: seq<Step>)
    ensures s == [] <==> url == []
    ensures s != [] ==> s == [Visited(url)]
  {
    if url == [] then [] else [Visited(url)]
  }

  // ---------------------------------------------------------------------------
  // _click_first_visible
  // ---------------------------------------------------------------------------

  /** Which element was clicked, how, and when. */
  datatype Click = Click(sel: Selector, mode: ClickMode, at: nat)

  const NoClickableMessage := "Could not find a clickable element"
  const ClickPollMs := 250

  /** A candidate that is shown and takes a normal or a forced click. */
  predicate Clickable(page: Page, t: nat, s: Selector)
  {
    Shown(page, t, s) && (page.click(t, s, Normal) || page.click(t, s, Forced))
  }

  predicate NoneShown(page: Page, t: nat, sels: seq<Selector>)
  {
    forall k :: 0 <= k < |sels| ==> !Shown(page, t, sels[k])
  }

  predicate NoneClickable(page: Page, t: nat, sels: seq<Selector>)
  {
    forall k :: 0 <= k < |sels| ==> !Clickable(page, t, sels[k])
  }

  /** The outcome of one pass over the candidates. */
  datatype ScanResult = Hit(sel: Selector, mode: ClickMode) | Miss(lastErr: Option<Failure>)

  /**
   * One pass of the inner `for` loop at instant `t`: the first shown candidate
   * is clicked, normally and else forcibly; when both raise the error is
   * recorded and the pass goes on.
   */
  function Scan(page: Page, t: nat, sels: seq<Selector>, lastErr: Option<Failure>): ScanResult
    decreases |sels|
  {
    if sels == [] then Miss(lastErr)
    else if !Shown(page, t, sels[0]) then Scan(page, t, sels[1..], lastErr)
    else if page.click(t, sels[0], Normal) then Hit(sels[0], Normal)
    else if page.click(t, sels[0], Forced) then Hit(sels[0], Forced)
    else Scan(page, t, sels[1..], Some(ClickFailed(sels[0])))
  }

  /** A hit is the first clickable candidate, clicked forcibly only when the normal click raised. */
  lemma {:induction false} ScanHit(page: Page, t: nat, sels: seq<Selector>, lastErr: Option<Failure>)
    requires Scan(page, t, sels, lastErr).Hit?
    ensures exists k :: 0 <= k < |sels| && sels[k] == Scan(page, t, sels, lastErr).sel
                        && Clickable(page, t, sels[k]) && NoneClickable(page, t, sels[..k])
    ensures var h := Scan(page, t, sels, lastErr);
            page.click(t, h.sel, h.mode) && (h.mode == Normal <==> page.click(t, h.sel, Normal))
    decreases |sels|
  {
    if Shown(page, t, sels[0]) && (page.click(t, sels[0], Normal) || page.click(t, sels[0], Forced)) {
      assert sels[..0] == [];
    } else {
      var e := if Shown(page, t, sels[0]) then Some(ClickFailed(sels[0])) else lastErr;
      ScanHit(page, t, sels[1..], e);
      var k :| 0 <= k < |sels[1..]| && sels[1..][k] == Scan(page, t, sels[1..], e).sel
               && Clickable(page, t, sels[1..][k]) && NoneClickable(page, t, sels[1..][..k]);
      assert sels[..k + 1] == [sels[0]] + sels[1..][..k];
    }
  }

  /** A miss means no candidate was clickable, and the error kept is the one passed in or a click failure on a shown candidate. */
  lemma {:induction false} ScanMiss(page: Page, t: nat, sels: seq<Selector>, lastErr: Option<Failure>)
    requires Scan(page, t, sels, lastErr).Miss?
    ensures NoneClickable(page, t, sels)
    ensures var e := Scan(page, t, sels, lastErr).lastErr;
            e == lastErr || exists k :: 0 <= k < |sels| && Shown(page, t, sels[k]) && e == Some(ClickFailed(sels[k]))
    ensures NoneShown(page, t, sels) ==> Scan(page, t, sels, lastErr).lastErr == lastErr
    decreases |sels|
  {
    if sels != [] {
      var e := if Shown(page, t, sels[0]) then Some(ClickFailed(sels[0])) else lastErr;
      ScanMiss(page, t, sels[1..], e);
      var e' := Scan(page, t, sels, lastErr).lastErr;
      if e' != lastErr && e' != e {
        var k :| 0 <= k < |sels[1..]| && Shown(page, t, sels[1..][k]) && e' == Some(ClickFailed(sels[1..][k]));
        assert sels[k + 1] == sels[1..][k];
      }
    }
  }

  /** In a pass that clicks nothing, the error kept is the click failure of the last shown candidate. */
  lemma {:induction false} ScanMissLast(page: Page, t: nat, sels: seq<Selector>, lastErr: Option<Failure>, k: nat)
    requires Scan(page, t, sels, lastErr).Miss?
    requires k < |sels| && Shown(page, t, sels[k])
    requires forall m :: k < m < |sels| ==> !Shown(page, t, sels[m])
    ensures Scan(page, t, sels, lastErr).lastErr == Some(ClickFailed(sels[k]))
    decreases |sels|
  {
    var e := if Shown(page, t, sels[0]) then Some(ClickFailed(sels[0])) else lastErr;
    assert Scan(page, t, sels, lastErr) == Scan(page, t, sels[1..], e);
    if k == 0 {
      forall m | 0 <= m < |sels[1..]|
        ensures !Shown(page, t, sels[1..][m])
      {
        assert sels[1..][m] == sels[m + 1];
      }
      ScanMiss(page, t, sels[1..], e);
    } else {
      forall m | k - 1 < m < |sels[1..]|
        ensures !Shown(page, t, sels[1..][m])
      {
        assert sels[1..][m] == sels[m + 1];
      }
      ScanMissLast(page, t, sels[1..], e, k - 1);
    }
  }

  /**
   * Candidate `k` at the `j`-th poll is the last one shown before the
   * deadline: none after it in that pass, none at any later poll.
   */
  ghost predicate LastShownAt(page: Page, sels: seq<Selector>, t: nat, deadline: nat, j: nat, k: nat)
  {
    && PollAt(t, ClickPollMs, j) < deadline && k < |sels| && Shown(page, PollAt(t, ClickPollMs, j), sels[k])
    && (forall m :: k < m < |sels| ==> !Shown(page, PollAt(t, ClickPollMs, j), sels[m]))
    && (forall i :: j < i && PollAt(t, ClickPollMs, i) < deadline ==> NoneShown(page, PollAt(t, ClickPollMs, i), sels))
  }

  /**
   * `_click_first_visible` from instant `t` until `deadline`: a pass every
   * 250 ms; at the deadline the last recorded error is raised, or a
   * TimeoutError when none was recorded.
   */
  function ClickRounds(page: Page, sels: seq<Selector>, t: nat, deadline: nat, lastErr: Option<Failure>): (r: Result<Click, Failure>)
    ensures r.Ok? ==> t <= r.value.at < deadline
    ensures t >= deadline ==> r == Err(if lastErr.Some? then lastErr.value else TimeoutError(NoClickableMessage))
    decreases deadline - t
  {
    if t >= deadline then
      Err(if lastErr.Some? then lastErr.value else TimeoutError(NoClickableMessage))
    else
      var pass := Scan(page, t, sels, lastErr);
      if pass.Hit? then Ok(Click(pass.sel, pass.mode, t))
      else ClickRounds(page, sels, t + ClickPollMs, deadline, pass.lastErr)
  }

  /**
   * A click happened at a poll before the deadline, on a shown candidate,
   * forcibly only when the normal click raised, and no earlier poll found
   * anything clickable.
   */
  lemma {:induction false} ClickRoundsOk(page: Page, sels: seq<Selector>, t: nat, deadline: nat, lastErr: Option<Failure>)
    requires ClickRounds(page, sels, t, deadline, lastErr).Ok?
    ensures var c := ClickRounds(page, sels, t, deadline, lastErr).value;
            && t <= c.at < deadline
            && (exists j :: c.at == PollAt(t, ClickPollMs, j))
            && c.sel in sels && Clickable(page, c.at, c.sel) && page.click(c.at, c.sel, c.mode)
            && (c.mode == Normal <==> page.click(c.at, c.sel, Normal))
            && forall j :: PollAt(t, ClickPollMs, j) < c.at ==> NoneClickable(page, PollAt(t, ClickPollMs, j), sels)
    decreases deadline - t
  {
    var c := ClickRounds(page, sels, t, deadline, lastErr).value;
    var pass := Scan(page, t, sels, lastErr);
    if pass.Hit? {
      ScanHit(page, t, sels, lastErr);
      assert c.at == PollAt(t, ClickPollMs, 0);
    } else {
      ScanMiss(page, t, sels, lastErr);
      ClickRoundsOk(page, sels, t + ClickPollMs, deadline, pass.lastErr);
      var j0: nat :| c.at == PollAt(t + ClickPollMs, ClickPollMs, j0);
      assert c.at == PollAt(t, ClickPollMs, j0 + 1);
      forall j: nat | PollAt(t, ClickPollMs, j) < c.at
        ensures NoneClickable(page, PollAt(t, ClickPollMs, j), sels)
      {
        if j > 0 {
          assert PollAt(t, ClickPollMs, j) == PollAt(t + ClickPollMs, ClickPollMs, j - 1);
        }
      }
    }
  }

  /**
   * A failure means no poll before the deadline found anything clickable. The
   * error raised is the click failure of the last candidate shown, at the last
   * poll that showed one; when no poll showed any, it is the error carried in,
   * or the TimeoutError when none was carried in.
   */
  lemma {:induction false} ClickRoundsErr(page: Page, sels: seq<Selector>, t: nat, deadline: nat, lastErr: Option<Failure>)
    requires ClickRounds(page, sels, t, deadline, lastErr).Err?
    ensures var e := ClickRounds(page, sels, t, deadline, lastErr).error;
            (forall j :: PollAt(t, ClickPollMs, j) < deadline ==> NoneShown(page, PollAt(t, ClickPollMs, j), sels))
            ==> e == (if lastErr.Some? then lastErr.value else TimeoutError(NoClickableMessage))
    ensures forall j: nat, k: nat :: LastShownAt(page, sels, t, deadline, j, k) ==>
              ClickRounds(page, sels, t, deadline, lastErr).error == ClickFailed(sels[k])
    ensures forall j :: PollAt(t, ClickPollMs, j) < deadline ==> NoneClickable(page, PollAt(t, ClickPollMs, j), sels)
    decreases deadline - t
  {
    var e := ClickRounds(page, sels, t, deadline, lastErr).error;
    if t < deadline {
      var next := t + ClickPollMs;
      var pass := Scan(page, t, sels, lastErr);
      ScanMiss(page, t, sels, lastErr);
      ClickRoundsErr(page, sels, next, deadline, pass.lastErr);
      assert e == ClickRounds(page, sels, next, deadline, pass.lastErr).error;
      forall j: nat | PollAt(t, ClickPollMs, j) < deadline
        ensures NoneClickable(page, PollAt(t, ClickPollMs, j), sels)
      {
        if j > 0 {
          assert PollAt(t, ClickPollMs, j) == PollAt(next, ClickPollMs, j - 1);
        }
      }
      if forall j :: PollAt(t, ClickPollMs, j) < deadline ==> NoneShown(page, PollAt(t, ClickPollMs, j), sels) {
        assert NoneShown(page, PollAt(t, ClickPollMs, 0), sels);
        forall j: nat | PollAt(next, ClickPollMs, j) < deadline
          ensures NoneShown(page, PollAt(next, ClickPollMs, j), sels)
        {
          assert PollAt(next, ClickPollMs, j) == PollAt(t, ClickPollMs, j + 1);
        }
      }
      forall j: nat, k: nat | LastShownAt(page, sels, t, deadline, j, k)
        ensures e == ClickFailed(sels[k])
      {
        if j == 0 {
          ScanMissLast(page, t, sels, lastErr, k);
          forall i: nat | PollAt(next, ClickPollMs, i) < deadline
            ensures NoneShown(page, PollAt(next, ClickPollMs, i), sels)
          {
            assert PollAt(next, ClickPollMs, i) == PollAt(t, ClickPollMs, i + 1);
          }
        } else {
          assert PollAt(t, ClickPollMs, j) == PollAt(next, ClickPollMs, j - 1);
          forall i: nat | j - 1 < i && PollAt(next, ClickPollMs, i) < deadline
            ensures NoneShown(page, PollAt(next, ClickPollMs, i), sels)
          {
            assert PollAt(next, ClickPollMs, i) == PollAt(t, ClickPollMs, i + 1);
          }
          assert LastShownAt(page, sels, next, deadline, j - 1, k);
        }
      }
    }
  }

  /** `_click_first_visible(page, selectors, timeout_ms)` started at `t0`. */
  method ClickFirstVisible(page: Page, sels: seq<Selector>, t0: nat, timeoutMs: nat) returns (r: Result<Click, Failure>)
    ensures r == ClickRounds(page, sels, t0, t0 + timeoutMs, None)
  {
    var deadline := t0 + timeoutMs;
    var t := t0;
    var lastErr: Option<Failure> := None;
    while t < deadline
      invariant ClickRounds(page, sels, t, deadline, lastErr) == ClickRounds(page, sels, t0, deadline, None)
      decreases deadline - t
    {
      ghost var passStart := lastErr;
      for i := 0 to |sels|
        invariant Scan(page, t, sels[i..], lastErr) == Scan(page, t, sels, passStart)
      {
        var sel := sels[i];
        assert sels[i..][1..] == sels[i + 1..];
        if page.count(t, sel) > 0 && page.visible(t, sel) {
          if page.click(t, sel, Normal) {
            return Ok(Click(sel, Normal, t));
          }
          if page.click(t, sel, Forced) {
            return Ok(Click(sel, Forced, t));
          }
          lastErr := Some(ClickFailed(sel));
        }
      }
      t := t + ClickPollMs;
    }
    r := Err(if lastErr.Some? then lastErr.value else TimeoutError(NoClickableMessage));
  }

  /**
   * `_click_first_visible` as the actions use it: on success, one of the
   * candidates was clicked within the window.
   */
  method ClickCandidate(page: Page, sels: seq<Selector>, t0: nat, timeoutMs: nat) returns (r: Result<Click, Failure>)
    ensures r.Ok? ==> r.value.sel in sels && t0 <= r.value.at < t0 + timeoutMs
    ensures r.Ok? <==> ClickRounds(page, sels, t0, t0 + timeoutMs, None).Ok?
  {
    r := ClickFirstVisible(page, sels, t0, timeoutMs);
    if r.Ok? {
      ClickRoundsOk(page, sels, t0, t0 + timeoutMs, None);
    }
  }

  // ---------------------------------------------------------------------------
  // _wait_any
  // ---------------------------------------------------------------------------

  const WaitAnyMessage := "Timeout waiting for expected UI"
  const AnyPollMs := 200

  /** What `_wait_any` looks for at each poll. */
  function AnyShownProbe(page: Page, sels: seq<Selector>): Probe
  {
    (t: nat) => AnyShown(page, t, sels)
  }

  /**
   * `_wait_any(page, selectors, timeout_ms)` started at `t0`: it returns at the
   * first poll, 200 ms apart, that shows a candidate, and raises a TimeoutError
   * when none before the deadline did.
   */
  method WaitAny(page: Page, sels: seq<Selector>, t0: nat, timeoutMs: nat) returns (r: Result<nat, Failure>)
    ensures var first := FirstPoll(AnyShownProbe(page, sels), t0, t0 + timeoutMs, AnyPollMs);
            && (r.Ok? <==> first.Some?)
            && (r.Ok? ==> r.value == first.value)
            && (r.Err? ==> r.error == TimeoutError(WaitAnyMessage))
  {
    var deadline := t0 + timeoutMs;
    var probe := AnyShownProbe(page, sels);
    var t := t0;
    while t < deadline
      invariant FirstPoll(probe, t, deadline, AnyPollMs) == FirstPoll(probe, t0, deadline, AnyPollMs)
      decreases deadline - t
    {
      for i := 0 to |sels|
        invariant forall k :: 0 <= k < i ==> !Shown(page, t, sels[k])
      {
        if page.count(t, sels[i]) > 0 && page.visible(t, sels[i]) {
          return Ok(t);
        }
      }
      t := t + AnyPollMs;
    }
    r := Err(TimeoutError(WaitAnyMessage));
  }

  // ---------------------------------------------------------------------------
  // _pick_file_input
  // ---------------------------------------------------------------------------

  const TestidFileInput := "input[type='file'][data-testid='fileInput']"
  const FileInput := "input[type='file']"
  /** At most this many generic file inputs are inspected. */
  const FileInputScan := 10

  /** The least index below `n` whose match is visible. */
  function FirstVisibleNth(page: Page, t: nat, sel: Selector, n: nat): (r: Option<nat>)
    ensures r.Some? ==> r.value < n && page.visible(t, Nth(sel, r.value))
                        && forall j :: 0 <= j < r.value ==> !page.visible(t, Nth(sel, j))
    ensures r.None? ==> forall j :: 0 <= j < n ==> !page.visible(t, Nth(sel, j))
  {
    if n == 0 then None
    else
      var before := FirstVisibleNth(page, t, sel, n - 1);
      if before.Some? then before
      else if page.visible(t, Nth(sel, n - 1)) then Some(n - 1)
      else None
  }

  function Min(a: nat, b: nat): nat
  {
    if a < b then a else b
  }

  /** Index `i`, below `n`, is the first match of `sel` that is visible. */
  predicate FirstVisibleAt(page: Page, t: nat, sel: Selector, n: nat, i: nat)
  {
    i < n && page.visible(t, Nth(sel, i)) && forall j :: 0 <= j < i ==> !page.visible(t, Nth(sel, j))
  }

  /** None of the first `n` matches of `sel` is visible. */
  predicate NoneVisibleBelow(page: Page, t: nat, sel: Selector, n: nat)
  {
    forall j :: 0 <= j < n ==> !page.visible(t, Nth(sel, j))
  }

  /** There is no file input at all in `scope`. */
  predicate NoFileInput(page: Page, t: nat, scope: Scope)
  {
    page.count(t, Within(scope, TestidFileInput)) == 0 && page.count(t, Within(scope, FileInput)) == 0
  }

  /**
   * The input `_pick_file_input(scope)` picks: the test-id input when there is
   * one; otherwise the first visible one among the first ten generic inputs,
   * or the first generic input when none of those is visible; None when there
   * is no input.
   */
  function FileInputChoice(page: Page, t: nat, scope: Scope): (r: Option<Selector>)
    ensures r.None? <==> NoFileInput(page, t, scope)
    ensures page.count(t, Within(scope, TestidFileInput)) > 0 ==> r == Some(Within(scope, TestidFileInput))
    ensures r.Some? && r != Some(Within(scope, TestidFileInput)) && r != Some(Within(scope, FileInput)) ==>
              exists i :: 0 <= i < FileInputScan && i < page.count(t, Within(scope, FileInput))
                          && r == Some(Nth(Within(scope, FileInput), i)) && page.visible(t, Nth(Within(scope, FileInput), i))
    ensures var n := page.count(t, Within(scope, FileInput));
            page.count(t, Within(scope, TestidFileInput)) == 0 && n > 0 ==>
              && (forall i :: FirstVisibleAt(page, t, Within(scope, FileInput), Min(n, FileInputScan), i) ==>
                    r == Some(Nth(Within(scope, FileInput), i)))
              && (NoneVisibleBelow(page, t, Within(scope, FileInput), Min(n, FileInputScan)) ==>
                    r == Some(Within(scope, FileInput)))
  {
    var generic := Within(scope, FileInput);
    var n := page.count(t, generic);
    if page.count(t, Within(scope, TestidFileInput)) > 0 then Some(Within(scope, TestidFileInput))
    else if n == 0 then None
    else
      var i := FirstVisibleNth(page, t, generic, Min(n, FileInputScan));
      if i.Some? then Some(Nth(generic, i.value)) else Some(generic)
  }

  /** `_pick_file_input(scope)`. */
  method PickFileInput(page: Page, t: nat, scope: Scope) returns (r: Option<Selector>)
    ensures r == FileInputChoice(page, t, scope)
  {
    var preferred := Within(scope, TestidFileInput);
    if page.count(t, preferred) > 0 {
      return Some(preferred);
    }
    var generic := Within(scope, FileInput);
    var n := page.count(t, generic);
    if n > 0 {
      var m := if n < FileInputScan then n else FileInputScan;
      for i := 0 to m
        invariant FirstVisibleNth(page, t, generic, i) == None
      {
        if page.visible(t, Nth(generic, i)) {
          return Some(Nth(generic, i));
        }
      }
      return Some(generic);
    }
    return None;
  }

  // ---------------------------------------------------------------------------
  // _wait_media_uploaded_in_composer
  // ---------------------------------------------------------------------------

  const PreviewCandidates: seq<Selector> := [
    "div[data-testid=\"attachments\"]",
    "div[data-testid=\"tweetPhoto\"]",
    "div[data-testid=\"tweetPhotoContainer\"]",
    "div[data-testid=\"mediaContainer\"]",
    "div[data-testid=\"videoPlayer\"]",
    "div[data-testid=\"videoComponent\"]",
    "video",
    "#layers img",
    "#layers video",
    "img[src*=\"twimg\"]"
  ]

  const IndicatorCandidates: seq<Selector> := [
    "div[data-testid=\"mediaUploadProgress\"]",
    "#layers div[data-testid=\"mediaUploadProgress\"]",
    "div[data-testid=\"attachments\"] div[role=\"progressbar\"]",
    "div[data-testid=\"mediaContainer\"] div[role=\"progressbar\"]",
    "div[data-testid=\"tweetPhotoContainer\"] div[role=\"progressbar\"]",
    "div[aria-label*=\"Uploading\"]",
    "div[aria-label*=\"Processing\"]",
    "div[aria-label*=\"رفع\"]",
    "div[aria-label*=\"معالجة\"]",
    "svg[aria-label*=\"Uploading\"]",
    "svg[aria-label*=\"Processing\"]",
    "svg[aria-label*=\"رفع\"]",
    "svg[aria-label*=\"معالجة\"]"
  ]

  /** The remove-media button, one selector list. */
  const RemoveButton: Selector :=
    "#layers [aria-label=\"Remove\"], #layers [aria-label=\"Remove media\"], "
    + "#layers [aria-label=\"إزالة\"], #layers [aria-label=\"حذف\"], "
    + "#layers [data-testid*=\"remove\"]"

  /** Some candidate, resolved in `scope`, is shown. */
  predicate AnyShownIn(page: Page, t: nat, scope: Scope, sels: seq<Selector>)
  {
    exists k :: 0 <= k < |sels| && Shown(page, t, Within(scope, sels[k]))
  }

  /** A poll of `_wait_media_uploaded_in_composer` sees the attached media (a preview or the remove button). */
  predicate PreviewSeen(page: Page, scope: Scope, t: nat)
  {
    AnyShownIn(page, t, scope, PreviewCandidates) || Shown(page, t, Within(scope, RemoveButton))
  }

  /** `_media_uploading_indicator_visible(scope)`. */
  predicate Uploading(page: Page, scope: Scope, t: nat)
  {
    AnyShownIn(page, t, scope, IndicatorCandidates)
  }

  const MediaTimeoutMessage := "انتهت مهلة انتظار رفع/معالجة الميديا."
  const UnseenPollMs := 250
  const BusyPollMs := 450
  const CalmPollMs := 300
  const StableTicks := 4
  const SettledPauseMs := 700

  /**
   * The loop of `_wait_media_uploaded_in_composer` from instant `t`, given what
   * each poll observes: `seen` (a preview or the remove button) and `busy` (an
   * upload indicator). `saw` is the latched `saw_preview`, `stable` the count
   * of indicator-free polls since the last indicator sighting.
   */
  function MediaRounds(seen: Probe, busy: Probe, t: nat, deadline: nat, saw: bool, stable: nat): (r: Result<nat, Failure>)
    ensures r.Err? ==> r.error == TimeoutError(MediaTimeoutMessage)
    decreases deadline - t
  {
    if t >= deadline then Err(TimeoutError(MediaTimeoutMessage))
    else
      var saw' := saw || seen(t);
      if !saw' then MediaRounds(seen, busy, t + UnseenPollMs, deadline, false, stable)
      else if busy(t) then MediaRounds(seen, busy, t + BusyPollMs, deadline, true, 0)
      else if stable + 1 >= StableTicks then Ok(t + SettledPauseMs)
      else MediaRounds(seen, busy, t + CalmPollMs, deadline, true, stable + 1)
  }

  /**
   * The upload has settled at the poll `last`: that poll and the three before
   * it, 300 ms apart, saw no indicator, and the media had been seen, at or
   * after `t0`, no later than the first of them.
   */
  /** Some instant in [lo, hi] saw the media. */
  predicate SeenBetween(seen: Probe, lo: int, hi: int)
  {
    exists seenAt: nat :: lo <= seenAt <= hi && seen(seenAt)
  }

  lemma SeenBetweenWiden(seen: Probe, lo: int, hi: int, hi': int)
    requires SeenBetween(seen, lo, hi) && hi <= hi'
    ensures SeenBetween(seen, lo, hi')
  {
    var seenAt: nat :| lo <= seenAt <= hi && seen(seenAt);
  }

  predicate SettledAt(seen: Probe, busy: Probe, t0: nat, last: nat)
  {
    && last >= t0 + 3 * CalmPollMs
    && !busy(last)
    && !busy(last - CalmPollMs)
    && !busy(last - 2 * CalmPollMs)
    && !busy(last - 3 * CalmPollMs)
    && SeenBetween(seen, t0, last - 3 * CalmPollMs)
  }

  /** What the loop has observed when it reaches instant `t` with state (`saw`, `stable`). */
  predicate MediaHistory(seen: Probe, busy: Probe, t0: nat, t: nat, saw: bool, stable: nat)
  {
    && stable < StableTicks
    && t >= t0 + CalmPollMs * stable
    && (stable > 0 ==> saw)
    && (stable >= 1 ==> !busy(t - CalmPollMs))
    && (stable >= 2 ==> !busy(t - 2 * CalmPollMs))
    && (stable >= 3 ==> !busy(t - 3 * CalmPollMs))
    && (saw ==> SeenBetween(seen, t0, t - CalmPollMs * stable))
  }

  lemma {:induction false} MediaRoundsSettle(seen: Probe, busy: Probe, t0: nat, t: nat, deadline: nat, saw: bool, stable: nat)
    requires MediaHistory(seen, busy, t0, t, saw, stable)
    requires MediaRounds(seen, busy, t, deadline, saw, stable).Ok?
    ensures var done := MediaRounds(seen, busy, t, deadline, saw, stable).value;
            done >= SettledPauseMs && done - SettledPauseMs < deadline && SettledAt(seen, busy, t0, done - SettledPauseMs)
    decreases deadline - t
  {
    if !(saw || seen(t)) {
      MediaRoundsSettle(seen, busy, t0, t + UnseenPollMs, deadline, false, stable);
    } else {
      var hi := t - CalmPollMs * stable;
      if !saw {
        assert stable == 0 && t0 <= t;
        assert SeenBetween(seen, t0, hi);
      }
      if busy(t) {
        SeenBetweenWiden(seen, t0, hi, t + BusyPollMs);
        MediaRoundsSettle(seen, busy, t0, t + BusyPollMs, deadline, true, 0);
      } else if stable + 1 >= StableTicks {
        assert hi == t - 3 * CalmPollMs;
      } else {
        assert hi == t + CalmPollMs - CalmPollMs * (stable + 1);
        MediaRoundsSettle(seen, busy, t0, t + CalmPollMs, deadline, true, stable + 1);
      }
    }
  }

  /**
   * The wait never returns before the media was seen, and returns only 700 ms
   * after four consecutive indicator-free polls following that sighting, the
   * last of them before the deadline.
   */
  lemma MediaWaitSettled(seen: Probe, busy: Probe, t0: nat, deadline: nat)
    requires MediaRounds(seen, busy, t0, deadline, false, 0).Ok?
    ensures var done := MediaRounds(seen, busy, t0, deadline, false, 0).value;
            done >= SettledPauseMs && done - SettledPauseMs < deadline && SettledAt(seen, busy, t0, done - SettledPauseMs)
  {
    MediaRoundsSettle(seen, busy, t0, t0, deadline, false, 0);
  }

  /** Media that shows with no indicator from the first poll on is accepted at the fourth poll, 1.6 s after the start. */
  lemma MediaWaitPrompt(seen: Probe, busy: Probe, t0: nat, deadline: nat)
    requires t0 + 3 * CalmPollMs < deadline
    requires seen(t0)
    requires forall j :: 0 <= j < StableTicks ==> !busy(PollAt(t0, CalmPollMs, j))
    ensures MediaRounds(seen, busy, t0, deadline, false, 0) == Ok(t0 + 3 * CalmPollMs + SettledPauseMs)
  {
    var done := t0 + 3 * CalmPollMs + SettledPauseMs;
    assert !busy(PollAt(t0, CalmPollMs, 3));
    assert MediaRounds(seen, busy, t0 + 3 * CalmPollMs, deadline, true, 3) == Ok(done);
    assert !busy(PollAt(t0, CalmPollMs, 2));
    assert MediaRounds(seen, busy, t0 + 2 * CalmPollMs, deadline, true, 2) == Ok(done);
    assert !busy(PollAt(t0, CalmPollMs, 1));
    assert MediaRounds(seen, busy, t0 + CalmPollMs, deadline, true, 1) == Ok(done);
    assert !busy(PollAt(t0, CalmPollMs, 0));
  }

  /** What `_wait_media_uploaded_in_composer` observes in `scope`. */
  function MediaSeen(page: Page, scope: Scope): Probe
  {
    (t: nat) => PreviewSeen(page, scope, t)
  }

  function MediaBusy(page: Page, scope: Scope): Probe
  {
    (t: nat) => Uploading(page, scope, t)
  }

  /** `_wait_media_uploaded_in_composer(page, timeout_ms)` started at `t0`; the scope is fixed at the start. */
  method WaitMediaUploadedInComposer(page: Page, t0: nat, timeoutMs: nat) returns (r: Result<nat, Failure>)
    ensures r == MediaRounds(MediaSeen(page, GetScope(page, t0)), MediaBusy(page, GetScope(page, t0)), t0, t0 + timeoutMs, false, 0)
  {
    var scope := GetScope(page, t0);
    r := MediaLoop(MediaSeen(page, scope), MediaBusy(page, scope), t0, t0 + timeoutMs);
  }

  /**
   * The loop of `_wait_media_uploaded_in_composer`, with what one poll sees
   * (a preview, an upload indicator) as probes: it latches `saw_preview` and
   * counts indicator-free polls, resetting the count on any indicator.
   */
  method MediaLoop(seen: Probe, busy: Probe, t0: nat, deadline: nat) returns (r: Result<nat, Failure>)
    ensures r == MediaRounds(seen, busy, t0, deadline, false, 0)
  {
    var t := t0;
    var sawPreview := false;
    var stableTicks := 0;
    while t < deadline
      invariant MediaRounds(seen, busy, t, deadline, sawPreview, stableTicks) == MediaRounds(seen, busy, t0, deadline, false, 0)
      decreases deadline - t
    {
      if seen(t) {
        sawPreview := true;
      }
      if !sawPreview {
        t := t + UnseenPollMs;
        continue;
      }
      if busy(t) {
        stableTicks := 0;
        t := t + BusyPollMs;
        continue;
      }
      stableTicks := stableTicks + 1;
      if stableTicks >= StableTicks {
        return Ok(t + SettledPauseMs);
      }
      t := t + CalmPollMs;
    }
    r := Err(TimeoutError(MediaTimeoutMessage));
  }

  // ---------------------------------------------------------------------------
  // _wait_button_enabled
  // ---------------------------------------------------------------------------

  const EnabledPollMs := 250

  /**
   * A button the wait accepts: shown, its aria-disabled attribute is not
   * "true", and `is_enabled()` is true; when `is_enabled()` raises, the
   * aria-disabled check alone decides.
   */
  predicate Acceptable(page: Page, t: nat, s: Selector)
  {
    Shown(page, t, s) && page.ariaDisabled(t, s) != Some("true") && page.enabled(t, s) != Some(false)
  }

  /** One pass of the wait: some candidate, resolved in `scope`, is acceptable. */
  function EnabledProbe(page: Page, scope: Scope, sels: seq<Selector>): Probe
  {
    (t: nat) => exists k :: 0 <= k < |sels| && Acceptable(page, t, Within(scope, sels[k]))
  }

  /**
   * `_wait_button_enabled(scope, selectors, timeout_ms)` started at `t0`, with
   * the pause between passes taken on the page: it returns true at the first
   * pass that finds an acceptable button, and false, without raising, once the
   * deadline has passed. The instant returned is when it stopped.
   */
  method WaitButtonEnabled(page: Page, scope: Scope, sels: seq<Selector>, t0: nat, timeoutMs: nat)
    returns (enabled: bool, t: nat)
    ensures var first := FirstPoll(EnabledProbe(page, scope, sels), t0, t0 + timeoutMs, EnabledPollMs);
            && (enabled <==> first.Some?)
            && t == (if enabled then first.value else PollsEnd(t0, t0 + timeoutMs, EnabledPollMs))
  {
    var deadline := t0 + timeoutMs;
    var probe := EnabledProbe(page, scope, sels);
    t := t0;
    while t < deadline
      invariant FirstPoll(probe, t, deadline, EnabledPollMs) == FirstPoll(probe, t0, deadline, EnabledPollMs)
      invariant PollsEnd(t, deadline, EnabledPollMs) == PollsEnd(t0, deadline, EnabledPollMs)
      decreases deadline - t
    {
      for i := 0 to |sels|
        invariant forall k :: 0 <= k < i ==> !Acceptable(page, t, Within(scope, sels[k]))
      {
        var btn := Within(scope, sels[i]);
        if page.count(t, btn) > 0 && page.visible(t, btn) {
          var aria := page.ariaDisabled(t, btn);
          var ok := if page.enabled(t, btn).Some? then page.enabled(t, btn).value else aria != Some("true");
          if ok && aria != Some("true") {
            return true, t;
          }
        }
      }
      t := t + EnabledPollMs;
    }
    enabled := false;
  }

  /** What Python reports when `scope.page` is read on a page rather than on a locator. */
  const NoPageAttribute := "'Page' object has no attribute 'page'"

  /**
   * The loop of `_wait_button_enabled` as written: the pause between passes is
   * `scope.page.wait_for_timeout(250)`, and when there is no dialog the scope
   * is the page itself, which has no `page` attribute, so the first pass that
   * finds nothing raises. The result is the instant an acceptable button was
   * found, or None at the deadline.
   */
  function EnabledRoundsAsWritten(page: Page, scope: Scope, sels: seq<Selector>, t: nat, deadline: nat): (r: Result<Option<nat>, Failure>)
    ensures r.Ok? && r.value.Some? ==> t <= r.value.value < deadline && EnabledProbe(page, scope, sels)(r.value.value)
    ensures r.Err? ==> scope == WholePage && r.error == Raised(NoPageAttribute)
    ensures scope == InDialog ==> r.Ok?
    decreases deadline - t
  {
    if t >= deadline then Ok(None)
    else if EnabledProbe(page, scope, sels)(t) then Ok(Some(t))
    else if scope == WholePage then Err(Raised(NoPageAttribute))
    else EnabledRoundsAsWritten(page, scope, sels, t + EnabledPollMs, deadline)
  }

  /**
   * As written, waiting in the page scope raises as soon as a pass finds no
   * enabled button, where the wait was meant to keep polling and then return
   * False, as the corrected wait does by going on to the next pass; an inline
   * reply composer (no dialog) whose button is still disabled is one such input.
   */
  lemma PageScopeWaitRaises(page: Page, sels: seq<Selector>, t0: nat, timeoutMs: nat)
    requires timeoutMs > 0
    requires !EnabledProbe(page, WholePage, sels)(t0)
    ensures EnabledRoundsAsWritten(page, WholePage, sels, t0, t0 + timeoutMs) == Err(Raised(NoPageAttribute))
    ensures FirstPoll(EnabledProbe(page, WholePage, sels), t0, t0 + timeoutMs, EnabledPollMs)
            == FirstPoll(EnabledProbe(page, WholePage, sels), t0 + EnabledPollMs, t0 + timeoutMs, EnabledPollMs)
  {
  }

  /** In a dialog the wait as written and the corrected wait agree. */
  lemma {:induction false} DialogScopeWaitAgrees(page: Page, sels: seq<Selector>, t: nat, deadline: nat)
    ensures EnabledRoundsAsWritten(page, InDialog, sels, t, deadline)
            == Ok(FirstPoll(EnabledProbe(page, InDialog, sels), t, deadline, EnabledPollMs))
    decreases deadline - t
  {
    var probe := EnabledProbe(page, InDialog, sels);
    if t < deadline && !probe(t) {
      DialogScopeWaitAgrees(page, sels, t + EnabledPollMs, deadline);
      assert FirstPoll(probe, t, deadline, EnabledPollMs) == FirstPoll(probe, t + EnabledPollMs, deadline, EnabledPollMs);
    }
  }

  /** A true result means an acceptable button was on screen at that instant, before the deadline. */
  lemma WaitButtonEnabledMeaning(page: Page, scope: Scope, sels: seq<Selector>, t0: nat, timeoutMs: nat)
    ensures var first := FirstPoll(EnabledProbe(page, scope, sels), t0, t0 + timeoutMs, EnabledPollMs);
            && (first.Some? ==> t0 <= first.value < t0 + timeoutMs
                                && exists k :: 0 <= k < |sels| && Acceptable(page, first.value, Within(scope, sels[k])))
            && (first.None? ==> forall j :: PollAt(t0, EnabledPollMs, j) < t0 + timeoutMs
                                  ==> !EnabledProbe(page, scope, sels)(PollAt(t0, EnabledPollMs, j)))
  {
    FirstPollMeaning(EnabledProbe(page, scope, sels), t0, t0 + timeoutMs, EnabledPollMs);
  }

  // ---------------------------------------------------------------------------
  // Composing: the textbox, entering text, attaching media
  // ---------------------------------------------------------------------------

  const Textarea := "div[data-testid='tweetTextarea_0']"
  const TextboxRole := "div[data-testid='tweetTextarea_0'][role='textbox']"
  const TextboxTimeoutMs := 60000
  const SelectAll := "Control+A"
  const KeyFailed := "keyboard press failed"

  /** The composer textbox in `scope`: the one with the textbox role when present, the bare test id otherwise. */
  function ComposerTextbox(page: Page, t: nat, scope: Scope): (tb: Selector)
    ensures tb == Within(scope, TextboxRole) || tb == Within(scope, Textarea)
  {
    if page.count(t, Within(scope, TextboxRole)) > 0 then Within(scope, TextboxRole) else Within(scope, Textarea)
  }

  /** A step that puts `text` into a field. */
  predicate EntersText(s: Step, text: string)
  {
    (s.Filled? || s.Typed?) && s.text == text
  }

  /**
   * `fill(text)`, and when it raises, select all and type the text (the
   * fallback of `quote_tweet`): whenever it succeeds, its last step puts the
   * text in.
   */
  function EnterText(page: Page, t: nat, tb: Selector, text: string): (r: Result<seq<Step>, Failure>)
    ensures r.Ok? <==> page.fill(t, tb) || page.key(t, SelectAll)
    ensures r.Ok? ==> |r.value| > 0 && EntersText(r.value[|r.value| - 1], text)
    ensures r.Ok? ==> forall i :: 0 <= i < |r.value| ==> !r.value[i].Clicked? && !r.value[i].FilesSet?
  {
    if page.fill(t, tb) then Ok([Filled(tb, text)])
    else if page.key(t, SelectAll) then Ok([Pressed(Some(tb), SelectAll), Typed(tb, text)])
    else Err(Raised(KeyFailed))
  }

  /** The text entry of `reply_to_tweet` as written: when `fill` raises, the fallback selects all and types nothing. */
  function EnterTextAsWritten(page: Page, t: nat, tb: Selector, text: string): (r: Result<seq<Step>, Failure>)
    ensures r.Ok? <==> page.fill(t, tb) || page.key(t, SelectAll)
    ensures r.Ok? ==> forall i :: 0 <= i < |r.value| ==> !r.value[i].Clicked? && !r.value[i].FilesSet?
    ensures r.Ok? && !page.fill(t, tb) ==> forall i :: 0 <= i < |r.value| ==> !EntersText(r.value[i], text)
  {
    if page.fill(t, tb) then Ok([Filled(tb, text)])
    else if page.key(t, SelectAll) then Ok([Pressed(Some(tb), SelectAll)])
    else Err(Raised(KeyFailed))
  }

  /**
   * When `fill` raises in the reply composer, the text entry as written ends
   * without the reply text ever being typed, and the reply goes on to be
   * published; the corrected entry types it, as `quote_tweet` does.
   */
  lemma ReplyFillFallbackDropsText(page: Page, t: nat, tb: Selector, text: string)
    requires !page.fill(t, tb) && page.key(t, SelectAll)
    ensures EnterTextAsWritten(page, t, tb, text).Ok?
    ensures var steps := EnterTextAsWritten(page, t, tb, text).value;
            forall i :: 0 <= i < |steps| ==> !EntersText(steps[i], text)
    ensures EnterText(page, t, tb, text).Ok?
  {
  }

  /** `media_path and str(media_path).strip()`. */
  predicate HasMedia(media: Option<string>)
  {
    media.Some? && Strip(media.value) != []
  }

  const AttachTimeoutMs := 60000

  /** `r` is what the upload wait returns when it starts at some instant from `t0` on. */
  ghost predicate UploadWaitFrom(page: Page, t0: nat, mediaTimeoutMs: nat, r: Result<nat, Failure>)
  {
    exists ta: nat :: t0 <= ta && r == MediaRounds(MediaSeen(page, GetScope(page, ta)), MediaBusy(page, GetScope(page, ta)), ta, ta + mediaTimeoutMs, false, 0)
  }

  /**
   * The media block of `reply_to_tweet` and `quote_tweet`: pick the file input
   * in `scope` (a RuntimeError with `missing` when there is none), wait until
   * it is attached, set the file, and wait for the upload to settle. The only
   * step is setting the file, and the result is the instant the upload wait
   * returned.
   */
  method AttachMedia(page: Page, t0: nat, scope: Scope, path: string, missing: string, mediaTimeoutMs: nat)
    returns (r: Result<nat, Failure>, steps: seq<Step>)
    ensures r == Err(RuntimeError(missing)) <==> NoFileInput(page, t0, scope)
    ensures NoFileInput(page, t0, scope) ==> steps == []
    ensures steps == [] || (|steps| == 1 && steps[0] == FilesSet(FileInputChoice(page, t0, scope).value, path))
    ensures r.Ok? ==> |steps| == 1 && UploadWaitFrom(page, t0, mediaTimeoutMs, r)
    ensures SetsFile(steps, Some(path))
  {
    steps := [];
    var input := PickFileInput(page, t0, scope);
    if input.None? {
      return Err(RuntimeError(missing)), steps;
    }
    var attached := WaitFor(page, t0, input.value, Attached, AttachTimeoutMs);
    if attached.Err? {
      return Err(attached.error), steps;
    }
    var ta := attached.value;
    steps := [FilesSet(input.value, path)];
    r := WaitMediaUploadedInComposer(page, ta, mediaTimeoutMs);
  }

  // ---------------------------------------------------------------------------
  // reply_to_tweet
  // ---------------------------------------------------------------------------

  const ReplyTextRequired := "reply_text required"
  const NoReplyFileInput := "Could not find file input for reply composer."
  const OpenTimeoutMs := 30000
  const EnableTimeoutMs := 120000
  const PublishTimeoutMs := 30000

  const ReplyButtons: seq<Selector> := [
    "div[data-testid='reply']",
    "button[data-testid='reply']",
    "div[role='button'][data-testid='reply']",
    "[aria-label*='Reply']",
    "[aria-label*='رد']"
  ]

  const ReplyPublishButtons: seq<Selector> := [
    "button[data-testid='tweetButtonInline']",
    "button[data-testid='tweetButton']",
    "button:has-text('Reply')",
    "button:has-text('رد')",
    "button:has-text('نشر')",
    "button:has-text('Post')"
  ]

  /** The trace of a composing action that got to its publish click. */
  predicate Published(steps: seq<Step>, publish: seq<Selector>, text: string, media: Option<string>)
  {
    && |steps| >= 2
    && steps[|steps| - 1].Clicked? && steps[|steps| - 1].sel in publish
    && (exists i :: 0 <= i < |steps| - 1 && EntersText(steps[i], text))
    && (HasMedia(media) ==> exists i, j :: 0 <= i < j < |steps| - 1 && EntersText(steps[i], text)
                                          && steps[j].FilesSet? && steps[j].path == media.value)
  }

  lemma TextboxIsNoReplyButton(scope: Scope)
    ensures Within(scope, TextboxRole) !in ReplyButtons && Within(scope, Textarea) !in ReplyButtons
  {
  }

  /** After opening the tweet at the normalised `url`, the reply composer's textbox is already showing. */
  predicate ComposerAlreadyOpen(page: Page, t0: nat, url: string)
  {
    GotoTweet(page, t0, url).Ok? && Shown(page, GotoTweet(page, t0, url).value, Textarea)
  }

  /**
   * The composer-opening part of `reply_to_tweet`: open the tweet at the
   * normalised `url`, then click a reply trigger unless the composer textbox
   * is already showing.
   */
  method OpenReplyComposer(page: Page, t0: nat, url: string, triggers: seq<Selector>) returns (r: Result<nat, Failure>, steps: seq<Step>)
    ensures url == [] ==> r == Err(ValueError(TweetUrlRequired)) && steps == []
    ensures r.Ok? ==> |steps| >= 1 && steps[0] == Visited(url)
    ensures r.Ok? && ComposerAlreadyOpen(page, t0, url) ==> |steps| == 1 && ClicksNone(steps, triggers)
    ensures r.Ok? && !ComposerAlreadyOpen(page, t0, url) ==> |steps| == 2 && steps[1].Clicked? && steps[1].sel in triggers
  {
    steps := GotoSteps(url);
    r := GotoTweet(page, t0, url);
    if r.Err? {
      return;
    }
    var t := r.value;
    if !(page.count(t, Textarea) > 0 && page.visible(t, Textarea)) {
      var click := ClickCandidate(page, triggers, t, OpenTimeoutMs);
      if click.Err? {
        return Err(click.error), steps;
      }
      steps := steps + [Clicked(click.value.sel, click.value.mode)];
      r := Ok(click.value.at);
    }
  }

  /**
   * Filling the composer textbox in `scope`: wait (at most 60 s) for it to
   * show, click it and enter the text. The last step puts the text in, and the
   * only click is on the textbox.
   */
  method ComposeText(page: Page, t0: nat, scope: Scope, text: string) returns (r: Result<nat, Failure>, steps: seq<Step>)
    ensures r.Ok? ==> |steps| >= 2 && EntersText(steps[|steps| - 1], text)
    ensures forall i :: 0 <= i < |steps| && steps[i].Clicked?
              ==> steps[i].sel == Within(scope, TextboxRole) || steps[i].sel == Within(scope, Textarea)
  {
    steps := [];
    var tb := ComposerTextbox(page, t0, scope);
    var shown := WaitFor(page, t0, tb, Visible, TextboxTimeoutMs);
    if shown.Err? {
      return Err(shown.error), steps;
    }
    var t := shown.value;
    if !page.click(t, tb, Normal) {
      return Err(ClickFailed(tb)), steps;
    }
    steps := [Clicked(tb, Normal)];
    var entry := EnterText(page, t, tb, text);
    if entry.Err? {
      return Err(entry.error), steps;
    }
    steps := steps + entry.value;
    r := Ok(t);
  }

  /**
   * The end of `reply_to_tweet` and `quote_tweet`: wait (at most 120 s) for one
   * of `enableSels`, in `scope`, to be enabled, then click the first publish
   * candidate whether or not the wait succeeded.
   */
  method PublishWhenEnabled(page: Page, t0: nat, scope: Scope, enableSels: seq<Selector>, publishSels: seq<Selector>)
    returns (r: Result<Click, Failure>, tEnd: nat)
    ensures t0 <= tEnd && r == ClickRounds(page, publishSels, tEnd, tEnd + PublishTimeoutMs, None)
    ensures r.Ok? ==> r.value.sel in publishSels && r.value.at >= t0
  {
    var _, stopped := WaitButtonEnabled(page, scope, enableSels, t0, EnableTimeoutMs);
    tEnd := stopped;
    FirstPollMeaning(EnabledProbe(page, scope, enableSels), t0, t0 + EnableTimeoutMs, EnabledPollMs);
    r := ClickFirstVisible(page, publishSels, tEnd, PublishTimeoutMs);
    if r.Ok? {
      ClickRoundsOk(page, publishSels, tEnd, tEnd + PublishTimeoutMs, None);
    }
  }

  /** Every step sets the file `media` names. */
  predicate SetsFile(steps: seq<Step>, media: Option<string>)
  {
    forall i :: 0 <= i < |steps| ==> steps[i].FilesSet? && Some(steps[i].path) == media
  }

  /**
   * `if media_path and str(media_path).strip(): ...`: the media block when
   * there is a file to attach, nothing otherwise.
   */
  method AttachIfAny(page: Page, t0: nat, scope: Scope, media: Option<string>, missing: string, mediaTimeoutMs: nat)
    returns (r: Result<nat, Failure>, steps: seq<Step>)
    ensures SetsFile(steps, media) && |steps| <= 1
    ensures !HasMedia(media) ==> r == Ok(t0) && steps == []
    ensures HasMedia(media) && r.Ok? ==> |steps| == 1 && UploadWaitFrom(page, t0, mediaTimeoutMs, r)
    ensures HasMedia(media) ==> (r == Err(RuntimeError(missing)) <==> NoFileInput(page, t0, scope))
  {
    if !HasMedia(media) {
      return Ok(t0), [];
    }
    var path := media.value;
    r, steps := AttachMedia(page, t0, scope, path, missing, mediaTimeoutMs);
    assert Some(path) == media;
  }

  /**
   * The tail of `reply_to_tweet` from instant `t0`: attach the media when there
   * is any, in the scope found then; wait for the publish button in the scope
   * found after that, and click the first publish candidate; pause. It sets at
   * most the file and clicks only at the end.
   */
  method ReplyFinish(page: Page, t0: nat, media: Option<string>, mediaTimeoutMs: nat, waitAfterMs: nat, publishSels: seq<Selector>)
    returns (r: Result<nat, Failure>, steps: seq<Step>)
    ensures r.Err? ==> SetsFile(steps, media)
    ensures r.Ok? ==> && |steps| == (if HasMedia(media) then 2 else 1)
                      && SetsFile(steps[..|steps| - 1], media)
                      && steps[|steps| - 1].Clicked? && steps[|steps| - 1].sel in publishSels
  {
    var attached, attach := AttachIfAny(page, t0, GetScope(page, t0), media, NoReplyFileInput, mediaTimeoutMs);
    if attached.Err? {
      return Err(attached.error), attach;
    }
    var t := attached.value;
    var publish, _ := PublishWhenEnabled(page, t, GetScope(page, t), publishSels, publishSels);
    if publish.Err? {
      return Err(publish.error), attach;
    }
    steps := attach + [Clicked(publish.value.sel, publish.value.mode)];
    assert steps[..|steps| - 1] == attach;
    r := Ok(publish.value.at + waitAfterMs);
  }

  /**
   * The body of `reply_to_tweet` (inside its `try`) for stripped, non-empty
   * text and the normalised `url`, with the reply triggers and the publish candidates as parameters:
   * open the composer; fill the textbox; attach the media when there is any;
   * wait for the publish button and click it; pause.
   */
  method ReplySteps(page: Page, t0: nat, url: string, text: string, media: Option<string>, mediaTimeoutMs: nat, waitAfterMs: nat,
                    triggers: seq<Selector>, publishSels: seq<Selector>)
    returns (r: Result<nat, Failure>, steps: seq<Step>)
    requires Within(WholePage, TextboxRole) !in triggers && Within(WholePage, Textarea) !in triggers
    ensures url == [] ==> r == Err(ValueError(TweetUrlRequired)) && steps == []
    ensures r.Ok? ==> ReplyShape(url, text, media, triggers, publishSels, ComposerAlreadyOpen(page, t0, url), steps)
  {
    var opener, opening := OpenReplyComposer(page, t0, url, triggers);
    if opener.Err? {
      return Err(opener.error), opening;
    }
    var composed, typing := ComposeText(page, opener.value, WholePage, text);
    if composed.Err? {
      return Err(composed.error), opening + typing;
    }
    var finished, finish := ReplyFinish(page, composed.value, media, mediaTimeoutMs, waitAfterMs, publishSels);
    if finished.Err? {
      return finished, opening + typing + finish;
    }
    ReplyOrder(url, ComposerAlreadyOpen(page, t0, url), opening, typing, finish, text, media, publishSels, triggers);
    r, steps := finished, opening + typing + finish;
  }

  /**
   * The trace of a reply that got to its publish click: it opens the tweet
   * first; it clicks a reply trigger right after that when the composer was
   * not already showing (`composerOpen`), and no trigger at all otherwise; it
   * enters the text, sets the file after the text when there is media, and
   * ends with the publish click.
   */
  ghost predicate ReplyShape(url: string, text: string, media: Option<string>, triggers: seq<Selector>,
                             publishSels: seq<Selector>, composerOpen: bool, steps: seq<Step>)
  {
    && Published(steps, publishSels, text, media)
    && steps[0] == Visited(url)
    && (composerOpen ==> ClicksNone(steps[..|steps| - 1], triggers))
    && (!composerOpen ==> steps[1].Clicked? && steps[1].sel in triggers)
  }

  /** Text entered by the last step of `typing`, then the optional file, then the publish click, is a publication. */
  lemma PublishedAfter(opening: seq<Step>, typing: seq<Step>, finish: seq<Step>, text: string,
                       media: Option<string>, publishSels: seq<Selector>)
    requires |typing| >= 1 && EntersText(typing[|typing| - 1], text)
    requires && |finish| == (if HasMedia(media) then 2 else 1)
             && SetsFile(finish[..|finish| - 1], media)
             && finish[|finish| - 1].Clicked? && finish[|finish| - 1].sel in publishSels
    ensures Published(opening + typing + finish, publishSels, text, media)
  {
    var steps := opening + typing + finish;
    var textAt := |opening| + |typing| - 1;
    assert steps[textAt] == typing[|typing| - 1];
    assert steps[|steps| - 1] == finish[|finish| - 1];
    if HasMedia(media) {
      assert steps[textAt + 1] == finish[..|finish| - 1][0];
    }
  }

  /** Trigger-free parts make a trace whose every step but the last is trigger-free. */
  lemma NoTriggerBeforeLast(opening: seq<Step>, typing: seq<Step>, finish: seq<Step>, triggers: seq<Selector>)
    requires ClicksNone(opening, triggers) && ClicksNone(typing, triggers)
    requires |finish| >= 1 && ClicksNone(finish[..|finish| - 1], triggers)
    ensures ClicksNone((opening + typing + finish)[..|opening + typing + finish| - 1], triggers)
  {
    var steps := opening + typing + finish;
    ClicksNoneAppend(opening, typing, triggers);
    assert steps[..|steps| - 1] == (opening + typing) + finish[..|finish| - 1];
    ClicksNoneAppend(opening + typing, finish[..|finish| - 1], triggers);
  }

  /** How the three parts of a reply's trace fit together. */
  lemma ReplyOrder(url: string, composerOpen: bool, opening: seq<Step>, typing: seq<Step>, finish: seq<Step>, text: string,
                   media: Option<string>, publishSels: seq<Selector>, triggers: seq<Selector>)
    requires |opening| >= 1 && opening[0] == Visited(url)
    requires composerOpen ==> |opening| == 1 && ClicksNone(opening, triggers)
    requires !composerOpen ==> |opening| == 2 && opening[1].Clicked? && opening[1].sel in triggers
    requires |typing| >= 2 && EntersText(typing[|typing| - 1], text)
    requires forall i :: 0 <= i < |typing| && typing[i].Clicked? ==> typing[i].sel !in triggers
    requires && |finish| == (if HasMedia(media) then 2 else 1)
             && SetsFile(finish[..|finish| - 1], media)
             && finish[|finish| - 1].Clicked? && finish[|finish| - 1].sel in publishSels
    ensures ReplyShape(url, text, media, triggers, publishSels, composerOpen, opening + typing + finish)
  {
    var steps := opening + typing + finish;
    PublishedAfter(opening, typing, finish, text, media, publishSels);
    assert steps[0] == opening[0];
    if composerOpen {
      NoTriggerBeforeLast(opening, typing, finish, triggers);
    } else {
      assert steps[1] == opening[1];
    }
  }

  /**
   * `reply_to_tweet`: empty or blank text is a ValueError before the browser
   * is launched; otherwise the browser is launched, the reply is composed and
   * published, and the context and the browser are closed whatever happened.
   */
  method ReplyToTweet(page: Page, t0: nat, env: string, channelUp: bool, tweetUrl: string, replyText: string,
                      media: Option<string>, mediaTimeoutMs: nat, waitAfterMs: nat)
    returns (r: Result<nat, Failure>, trace: seq<Step>)
    ensures ReplyRun(page, t0, Launch(env, channelUp), NormTweetUrl(tweetUrl), Strip(replyText), media, r, trace)
  {
    r, trace := ReplyFrom(page, t0, Launch(env, channelUp), NormTweetUrl(tweetUrl), Strip(replyText),
                          media, mediaTimeoutMs, waitAfterMs);
  }

  /**
   * A run of `reply_to_tweet` with the stripped `text` and the normalised
   * `url` that launched with `launch`: empty text fails before the launch;
   * otherwise the context and the browser are closed at the end, an empty URL
   * fails with nothing in between, and a success has the shape of a reply.
   */
  ghost predicate ReplyRun(page: Page, t0: nat, launch: Step, url: string, text: string, media: Option<string>,
                           r: Result<nat, Failure>, trace: seq<Step>)
  {
    && (text == [] ==> r == Err(ValueError(ReplyTextRequired)) && trace == [])
    && (text != [] ==> |trace| >= 3 && trace[0] == launch && ClosedAtEnd(trace))
    && (text != [] && url == [] ==> r == Err(ValueError(TweetUrlRequired)) && trace == [launch] + Closing)
    && (r.Ok? ==> |trace| >= 3 && ReplyShape(url, text, media, ReplyButtons, ReplyPublishButtons,
                                             ComposerAlreadyOpen(page, t0, url), trace[1..|trace| - 2]))
  }

  /** `reply_to_tweet` with the text stripped and the URL normalised, launching with `launch`. */
  method ReplyFrom(page: Page, t0: nat, launch: Step, url: string, text: string, media: Option<string>,
                   mediaTimeoutMs: nat, waitAfterMs: nat)
    returns (r: Result<nat, Failure>, trace: seq<Step>)
    ensures ReplyRun(page, t0, launch, url, text, media, r, trace)
  {
    if text == [] {
      return Err(ValueError(ReplyTextRequired)), [];
    }
    TextboxIsNoReplyButton(WholePage);
    var steps;
    r, steps := ReplySteps(page, t0, url, text, media, mediaTimeoutMs, waitAfterMs, ReplyButtons, ReplyPublishButtons);
    trace := Session(launch, steps);
  }

  // ---------------------------------------------------------------------------
  // quote_tweet
  // ---------------------------------------------------------------------------

  const QuoteTextRequired := "text required for quote"
  const NoQuoteFileInput := "Could not find file input for quote composer."
  const MenuTimeoutMs := 60000
  const MenuWaitMs := 15000

  const RepostMenuButtons: seq<Selector> := [
    "div[data-testid='retweet']",
    "button[data-testid='retweet']",
    "div[role='button'][data-testid='retweet']",
    "[aria-label*='Repost']",
    "[aria-label*='إعادة النشر']",
    "[aria-label*='إعاده النشر']",
    "[aria-label*='إعادة نشر']"
  ]

  /** What shows that the repost menu opened. */
  const MenuShown: seq<Selector> := ["div[role='menu']", "div[role='menuitem']"]

  const QuoteItems: seq<Selector> := [
    "div[role='menuitem']:has-text('Quote')",
    "div[role='menuitem']:has-text('اقتباس')",
    "div[role='menuitem']:has-text('اقتبس')",
    "span:has-text('Quote')",
    "span:has-text('اقتباس')",
    "span:has-text('اقتبس')"
  ]

  /** The buttons whose enabled state the quote waits for. */
  const QuoteEnableButtons: seq<Selector> := [
    "button[data-testid='tweetButtonInline']",
    "button[data-testid='tweetButton']"
  ]

  const QuotePublishButtons: seq<Selector> := [
    "button[data-testid='tweetButtonInline']",
    "button[data-testid='tweetButton']",
    "button:has-text('Post')",
    "button:has-text('نشر')"
  ]

  /**
   * Opening a menu item from a button on the tweet: open the tweet at the
   * normalised `url`, click the
   * first clickable menu button (60 s), wait for the menu (15 s), click the
   * first clickable item (30 s). On success the trace is exactly the visit and
   * the two clicks, and the result is the instant of the item click.
   */
  method OpenMenuItem(page: Page, t0: nat, url: string, menuSels: seq<Selector>, itemSels: seq<Selector>)
    returns (r: Result<nat, Failure>, steps: seq<Step>)
    ensures url == [] ==> r == Err(ValueError(TweetUrlRequired)) && steps == []
    ensures r.Ok? ==> && |steps| == 3 && steps[0] == Visited(url)
                      && steps[1].Clicked? && steps[1].sel in menuSels
                      && steps[2].Clicked? && steps[2].sel in itemSels
    ensures r.Err? ==> |steps| <= 2
  {
    steps := GotoSteps(url);
    var shown := GotoTweet(page, t0, url);
    if shown.Err? {
      return Err(shown.error), steps;
    }
    var clicks;
    r, clicks := MenuThenItem(page, shown.value, menuSels, itemSels);
    steps := steps + clicks;
  }

  /**
   * The clicks of `OpenMenuItem` once the tweet showed at `t0`: a menu button,
   * then, once the menu is up, an item; the result is the instant of the item
   * click.
   */
  method MenuThenItem(page: Page, t0: nat, menuSels: seq<Selector>, itemSels: seq<Selector>)
    returns (r: Result<nat, Failure>, clicks: seq<Step>)
    ensures r.Ok? ==> && |clicks| == 2
                      && clicks[0].Clicked? && clicks[0].sel in menuSels
                      && clicks[1].Clicked? && clicks[1].sel in itemSels
    ensures r.Err? ==> |clicks| <= 1
  {
    var menu := ClickCandidate(page, menuSels, t0, MenuTimeoutMs);
    if menu.Err? {
      return Err(menu.error), [];
    }
    var menuClick := Clicked(menu.value.sel, menu.value.mode);
    var menuUp := WaitAny(page, MenuShown, menu.value.at, MenuWaitMs);
    if menuUp.Err? {
      return Err(menuUp.error), [menuClick];
    }
    var item := ClickCandidate(page, itemSels, menuUp.value, OpenTimeoutMs);
    if item.Err? {
      return Err(item.error), [menuClick];
    }
    r, clicks := Ok(item.value.at), [menuClick, Clicked(item.value.sel, item.value.mode)];
  }

  /**
   * The trace of a quote that got to its publish click: the visit, the click
   * on a repost-menu button, the click on a quote item, then the text, the
   * file after the text when there is media, and the publish click last.
   */
  ghost predicate QuoteShape(url: string, text: string, media: Option<string>, menuSels: seq<Selector>,
                             itemSels: seq<Selector>, publishSels: seq<Selector>, steps: seq<Step>)
  {
    && |steps| >= 3
    && Published(steps, publishSels, text, media)
    && steps[0] == Visited(url)
    && steps[1].Clicked? && steps[1].sel in menuSels
    && steps[2].Clicked? && steps[2].sel in itemSels
    && forall i :: 0 <= i < |steps| - 1 && EntersText(steps[i], text) ==> i > 2
  }

  /**
   * The body of `quote_tweet` for stripped, non-empty text and the normalised
   * `url`: open the quote
   * composer from the repost menu; take the scope once; fill the textbox in
   * it; attach the media in it when there is any; wait for the publish button
   * in it and click the first publish candidate; pause.
   */
  method QuoteSteps(page: Page, t0: nat, url: string, text: string, media: Option<string>, mediaTimeoutMs: nat,
                    waitAfterMs: nat, menuSels: seq<Selector>, itemSels: seq<Selector>, enableSels: seq<Selector>,
                    publishSels: seq<Selector>)
    returns (r: Result<nat, Failure>, steps: seq<Step>)
    ensures url == [] ==> r == Err(ValueError(TweetUrlRequired)) && steps == []
    ensures r.Ok? ==> QuoteShape(url, text, media, menuSels, itemSels, publishSels, steps)
  {
    var opener, opening := OpenMenuItem(page, t0, url, menuSels, itemSels);
    if opener.Err? {
      return Err(opener.error), opening;
    }
    var scope := GetScope(page, opener.value);
    var composed, typing := ComposeText(page, opener.value, scope, text);
    if composed.Err? {
      return Err(composed.error), opening + typing;
    }
    var attached, attach := AttachIfAny(page, composed.value, scope, media, NoQuoteFileInput, mediaTimeoutMs);
    if attached.Err? {
      return Err(attached.error), opening + typing + attach;
    }
    var publish, _ := PublishWhenEnabled(page, attached.value, scope, enableSels, publishSels);
    if publish.Err? {
      return Err(publish.error), opening + typing + attach;
    }
    QuoteOrder(url, opening, typing, attach, Clicked(publish.value.sel, publish.value.mode), text, media, menuSels, itemSels, publishSels);
    r, steps := Ok(publish.value.at + waitAfterMs), opening + typing + attach + [Clicked(publish.value.sel, publish.value.mode)];
  }

  /** How the parts of a quote's trace fit together. */
  lemma QuoteOrder(url: string, opening: seq<Step>, typing: seq<Step>, attach: seq<Step>, publish: Step, text: string,
                   media: Option<string>, menuSels: seq<Selector>, itemSels: seq<Selector>, publishSels: seq<Selector>)
    requires && |opening| == 3 && opening[0] == Visited(url)
             && opening[1].Clicked? && opening[1].sel in menuSels
             && opening[2].Clicked? && opening[2].sel in itemSels
    requires |typing| >= 2 && EntersText(typing[|typing| - 1], text)
    requires SetsFile(attach, media) && |attach| == (if HasMedia(media) then 1 else 0)
    requires publish.Clicked? && publish.sel in publishSels
    ensures QuoteShape(url, text, media, menuSels, itemSels, publishSels, opening + typing + attach + [publish])
  {
    var steps := opening + typing + attach + [publish];
    var textAt := |opening| + |typing| - 1;
    assert steps[textAt] == typing[|typing| - 1];
    assert steps[|steps| - 1] == publish;
    if HasMedia(media) {
      assert steps[textAt + 1] == attach[0];
    }
    assert steps[..3] == opening;
    forall i | 0 <= i < |steps| - 1 && EntersText(steps[i], text)
      ensures i > 2
    {
    }
  }

  /**
   * `quote_tweet`: empty or blank text is a ValueError before the browser is
   * launched; otherwise the quote is composed and published between the launch
   * and the closing of the context and the browser.
   */
  method QuoteTweet(page: Page, t0: nat, env: string, channelUp: bool, tweetUrl: string, text: string,
                    media: Option<string>, mediaTimeoutMs: nat, waitAfterMs: nat)
    returns (r: Result<nat, Failure>, trace: seq<Step>)
    ensures QuoteRun(Launch(env, channelUp), NormTweetUrl(tweetUrl), Strip(text), media, r, trace)
  {
    r, trace := QuoteFrom(page, t0, Launch(env, channelUp), NormTweetUrl(tweetUrl), Strip(text),
                          media, mediaTimeoutMs, waitAfterMs);
  }

  /**
   * A run of `quote_tweet` with the stripped `text` and the normalised `url`
   * that launched with `launch`: empty text fails before the launch;
   * otherwise the context and the browser are closed at the end, an empty URL
   * fails with nothing in between, and a success has the shape of a quote.
   */
  ghost predicate QuoteRun(launch: Step, url: string, text: string, media: Option<string>,
                           r: Result<nat, Failure>, trace: seq<Step>)
  {
    && (text == [] ==> r == Err(ValueError(QuoteTextRequired)) && trace == [])
    && (text != [] ==> |trace| >= 3 && trace[0] == launch && ClosedAtEnd(trace))
    && (text != [] && url == [] ==> r == Err(ValueError(TweetUrlRequired)) && trace == [launch] + Closing)
    && (r.Ok? ==> |trace| >= 3 && QuoteShape(url, text, media, RepostMenuButtons, QuoteItems, QuotePublishButtons,
                                             trace[1..|trace| - 2]))
  }

  /** `quote_tweet` with the text stripped and the URL normalised, launching with `launch`. */
  method QuoteFrom(page: Page, t0: nat, launch: Step, url: string, text: string, media: Option<string>,
                   mediaTimeoutMs: nat, waitAfterMs: nat)
    returns (r: Result<nat, Failure>, trace: seq<Step>)
    ensures QuoteRun(launch, url, text, media, r, trace)
  {
    if text == [] {
      return Err(ValueError(QuoteTextRequired)), [];
    }
    var steps;
    r, steps := QuoteSteps(page, t0, url, text, media, mediaTimeoutMs, waitAfterMs,
                           RepostMenuButtons, QuoteItems, QuoteEnableButtons, QuotePublishButtons);
    trace := Session(launch, steps);
  }

  // ---------------------------------------------------------------------------
  // repost_tweet
  // ---------------------------------------------------------------------------

  const RepostOpenButtons: seq<Selector> := [
    "div[data-testid='retweet']",
    "button[data-testid='retweet']",
    "div[role='button'][data-testid='retweet']",
    "[aria-label*='reposts'][aria-label*='Repost']",
    "[aria-label*='Repost']",
    "[aria-label*='إعادة النشر']",
    "[aria-label*='إعاده النشر']",
    "[aria-label*='إعادة نشر']"
  ]

  const RepostItems: seq<Selector> := [
    "div[role='menuitem']:has-text('Repost')",
    "div[role='menuitem']:has-text('إعادة النشر')",
    "div[role='menuitem']:has-text('إعاده النشر')",
    "div[role='menuitem']:has-text('إعادة نشر')",
    "span:has-text('Repost')",
    "span:has-text('إعادة النشر')",
    "span:has-text('إعاده النشر')",
    "span:has-text('إعادة نشر')"
  ]

  /**
   * `repost_tweet`: launch, open the tweet, click a repost-menu button, wait
   * for the menu, click a repost item, pause, close. A successful repost clicks
   * exactly twice: the menu button first, then the item.
   */
  method RepostTweet(page: Page, t0: nat, env: string, channelUp: bool, tweetUrl: string, waitAfterMs: nat)
    returns (r: Result<nat, Failure>, trace: seq<Step>)
    ensures RepostRun(Launch(env, channelUp), NormTweetUrl(tweetUrl), r, trace)
  {
    r, trace := RepostFrom(page, t0, Launch(env, channelUp), NormTweetUrl(tweetUrl), waitAfterMs);
  }

  /**
   * A run of `repost_tweet` that launched with `launch` for the normalised
   * `url`: it closes at the end; an empty URL is a ValueError with nothing in
   * between; a success visits the tweet and clicks exactly twice, the menu
   * button first, then the item.
   */
  ghost predicate RepostRun(launch: Step, url: string, r: Result<nat, Failure>, trace: seq<Step>)
  {
    && |trace| >= 3 && trace[0] == launch && ClosedAtEnd(trace)
    && (url == [] ==> r == Err(ValueError(TweetUrlRequired)) && trace == [launch] + Closing)
    && (r.Ok? ==> && |trace| == 6 && trace[1] == Visited(url)
                  && trace[2].Clicked? && trace[2].sel in RepostOpenButtons
                  && trace[3].Clicked? && trace[3].sel in RepostItems)
  }

  /** `repost_tweet` once the browser was launched with `launch`, for the normalised `url`. */
  method RepostFrom(page: Page, t0: nat, launch: Step, url: string, waitAfterMs: nat)
    returns (r: Result<nat, Failure>, trace: seq<Step>)
    ensures RepostRun(launch, url, r, trace)
  {
    var opener, steps := OpenMenuItem(page, t0, url, RepostOpenButtons, RepostItems);
    r := if opener.Ok? then Ok(opener.value + waitAfterMs) else opener;
    trace := Session(launch, steps);
    assert forall i :: 0 <= i < |steps| ==> trace[1 + i] == steps[i];
  }

  // ---------------------------------------------------------------------------
  // unfollow_user
  // ---------------------------------------------------------------------------

  const UnfollowTestid: Selector := "[data-testid$=\"-unfollow\"]"
  const UnfollowText: Selector :=
    "button:has-text(\"إلغاء المتابعة\"), button:has-text(\"Unfollow\"), button:has-text(\"Following\"), button:has-text(\"متابَع\")"
  const ConfirmSheet: Selector := "[data-testid=\"confirmationSheetConfirm\"]"
  const ButtonTimeoutMs := 30000
  const ConfirmTimeoutMs := 15000

  /** The unfollow button: the `-unfollow` testid when it shows, the text variants otherwise. */
  function UnfollowButton(page: Page, t: nat): (b: Selector)
    ensures b == UnfollowTestid <==> Shown(page, t, UnfollowTestid)
  {
    if Shown(page, t, UnfollowTestid) then UnfollowTestid else UnfollowText
  }

  /** The instant the unfollow button is visible, 6.2 s after the profile was opened at `t0`. */
  function UnfollowReady(page: Page, t0: nat): Result<nat, Failure>
  {
    WaitFor(page, t0 + SettleMs, UnfollowButton(page, t0 + SettleMs), Visible, ButtonTimeoutMs)
  }

  /**
   * A run of `unfollow_user` that launched with `launch`: it opens the profile
   * and closes the context and the browser at the end; a button that never
   * shows is the whole failure, and a success clicks the button and, exactly
   * when the confirmation sheet was present as the button showed, the
   * confirmation.
   */
  ghost predicate UnfollowRun(page: Page, t0: nat, launch: Step, profileUrl: string, r: Result<nat, Failure>, trace: seq<Step>)
  {
    && |trace| >= 4 && trace[0] == launch && trace[1] == Visited(profileUrl)
    && ClosedAtEnd(trace)
    && (r.Ok? ==> && UnfollowReady(page, t0).Ok?
                  && trace[2].Clicked? && trace[2].sel == UnfollowButton(page, t0 + SettleMs)
                  && (page.count(UnfollowReady(page, t0).value, ConfirmSheet) > 0
                      <==> |trace| == 6 && trace[3].Clicked? && trace[3].sel == ConfirmSheet))
    && (r.Ok? ==> |trace| == 5 || |trace| == 6)
    && (UnfollowReady(page, t0).Err? ==> r == UnfollowReady(page, t0) && |trace| == 4)
  }

  /**
   * `unfollow_user`: launch on the Chrome channel (no fallback here), open the
   * profile, pause 6.2 s, wait for the unfollow button and click it (forced if
   * the plain click raises); then, only when the confirmation sheet's button is
   * present at that moment, wait for it and click it the same way; pause;
   * close.
   */
  method UnfollowUser(page: Page, t0: nat, env: string, profileUrl: string, waitAfterMs: nat)
    returns (r: Result<nat, Failure>, trace: seq<Step>)
    ensures UnfollowRun(page, t0, Launched(Some(ChromeChannel(env))), profileUrl, r, trace)
  {
    r, trace := UnfollowFrom(page, t0, Launched(Some(ChromeChannel(env))), profileUrl, waitAfterMs);
  }

  /** `unfollow_user` once the browser was launched with `launch`. */
  method UnfollowFrom(page: Page, t0: nat, launch: Step, profileUrl: string, waitAfterMs: nat)
    returns (r: Result<nat, Failure>, trace: seq<Step>)
    ensures UnfollowRun(page, t0, launch, profileUrl, r, trace)
  {
    var clicked, clicks := UnfollowClicks(page, t0);
    r := if clicked.Ok? then Ok(clicked.value + waitAfterMs) else clicked;
    var opening := [launch, Visited(profileUrl)];
    trace := opening + clicks + Closing;
    assert |trace| == |clicks| + 4 && trace[0] == opening[0] && trace[1] == opening[1];
    assert forall i :: 0 <= i < |clicks| ==> trace[2 + i] == clicks[i];
    assert trace[|trace| - 2..] == Closing;
  }

  /**
   * The clicks of `unfollow_user` once the profile was opened at `t0`: the
   * unfollow button, then the confirmation when its sheet is present at the
   * instant the button showed. The result is the instant of the last click.
   */
  method UnfollowClicks(page: Page, t0: nat) returns (r: Result<nat, Failure>, clicks: seq<Step>)
    ensures |clicks| <= 2
    ensures r.Ok? ==> && UnfollowReady(page, t0).Ok? && |clicks| >= 1
                      && clicks[0].Clicked? && clicks[0].sel == UnfollowButton(page, t0 + SettleMs)
                      && (page.count(UnfollowReady(page, t0).value, ConfirmSheet) > 0
                          <==> |clicks| == 2 && clicks[1].Clicked? && clicks[1].sel == ConfirmSheet)
    ensures UnfollowReady(page, t0).Err? ==> r == UnfollowReady(page, t0) && clicks == []
  {
    var t := t0 + SettleMs;
    var btn := UnfollowButton(page, t);
    var ready := WaitFor(page, t, btn, Visible, ButtonTimeoutMs);
    if ready.Err? {
      return ready, [];
    }
    t := ready.value;
    var click := ClickOrForce(page, t, btn);
    if click.Err? {
      return Err(click.error), [];
    }
    clicks := [Clicked(btn, click.value)];
    if page.count(t, ConfirmSheet) > 0 {
      var sheet := WaitFor(page, t, ConfirmSheet, Visible, ConfirmTimeoutMs);
      if sheet.Err? {
        return Err(sheet.error), clicks;
      }
      var confirm := ClickOrForce(page, sheet.value, ConfirmSheet);
      if confirm.Err? {
        return Err(confirm.error), clicks;
      }
      clicks := clicks + [Clicked(ConfirmSheet, confirm.value)];
      t := sheet.value;
    }
    r := Ok(t);
  }
}

=== FILE: x_bookmark.dfy ===
/**
 * Bookmarking a tweet through the browser (app/x/modules/x_bookmark.py). A
 * single pass over the test-id candidates clicks the first one that is shown
 * and stops; only when none was clicked is the element found by its label
 * tried, and a failure there is swallowed; with nothing clicked the action
 * raises a TimeoutError. Removing a bookmark is the same scan over the
 * removeBookmark candidates followed by the bookmark ones.
 */
module XBookmark {
  import opened Wrappers
  import opened Text
  import opened Browser

  const BookmarkCandidates: seq<Selector> := [
    "div[data-testid='bookmark']",
    "button[data-testid='bookmark']",
    "div[role='button'][data-testid='bookmark']"
  ]

  const RemoveBookmarkCandidates: seq<Selector> := [
    "div[data-testid='removeBookmark']",
    "button[data-testid='removeBookmark']",
    "div[role='button'][data-testid='removeBookmark']"
  ]

  /** `undo_bookmark_tweet` scans the removeBookmark candidates first, then the bookmark ones. */
  const UndoCandidates: seq<Selector> := RemoveBookmarkCandidates + BookmarkCandidates

  /** `get_by_label` with the case-insensitive label patterns of each action. */
  const BookmarkLabel: Selector := "label=/(Bookmark|Bookmarks|إشارة مرجعية|الإشارات المرجعية)/i"
  const UndoLabel: Selector :=
    "label=/(Remove Bookmark|Remove from Bookmarks|إزالة الإشارة المرجعية|إزالة من الإشارات المرجعية|Bookmark|إشارة مرجعية)/i"

  const NoBookmarkButton := "Could not find Bookmark button"
  const NoRemoveButton := "Could not find Remove Bookmark button"

  /** The fixed pause after navigating to the tweet. */
  const LoadPauseMs := 6200

  // ---------------------------------------------------------------------------
  // The candidate scan
  // ---------------------------------------------------------------------------

  /** The index of the first candidate shown at `t`, if any. */
  function FirstShown(page: Page, t: nat, sels: seq<Selector>): (k: Option<nat>)
    ensures k.Some? ==> k.value < |sels| && Shown(page, t, sels[k.value])
    ensures k.Some? ==> forall j :: 0 <= j < k.value ==> !Shown(page, t, sels[j])
    ensures k.None? ==> forall j :: 0 <= j < |sels| ==> !Shown(page, t, sels[j])
    decreases |sels|
  {
    if sels == [] then None
    else if Shown(page, t, sels[0]) then Some(0)
    else
      var k := FirstShown(page, t, sels[1..]);
      assert forall j :: 1 <= j < |sels| ==> sels[j] == sels[1..][j - 1];
      if k.Some? then Some(k.value + 1) else None
  }

  /** Scanning two lists one after the other: the second is reached only when nothing in the first is shown. */
  lemma {:induction false} FirstShownAppend(page: Page, t: nat, a: seq<Selector>, b: seq<Selector>)
    ensures FirstShown(page, t, a + b)
            == if FirstShown(page, t, a).Some? then FirstShown(page, t, a)
               else if FirstShown(page, t, b).Some? then Some(|a| + FirstShown(page, t, b).value)
               else None
    decreases |a|
  {
    if a != [] {
      assert (a + b)[0] == a[0];
      assert (a + b)[1..] == a[1..] + b;
      if !Shown(page, t, a[0]) {
        FirstShownAppend(page, t, a[1..], b);
      }
    } else {
      assert a + b == b;
    }
  }

  /**
   * What the scan and the label fallback end with once the page settled at
   * `t`: the one click made, or the failure raised. The first shown candidate
   * is clicked, forced when the plain click raises, and a failure of the forced
   * click propagates; the label is tried only when no candidate is shown, and
   * when it has no match or both of its clicks raise the result is the
   * TimeoutError `notFound`.
   */
  function ClickBookmark(page: Page, t: nat, candidates: seq<Selector>, byLabel: Selector, notFound: string)
    : (r: Result<Step, Failure>)
    ensures r.Ok? ==> r.value.Clicked? && (r.value.sel in candidates || r.value.sel == byLabel)
  {
    match FirstShown(page, t, candidates)
    case Some(k) =>
      (match ClickOrForce(page, t, candidates[k])
       case Ok(mode) => Ok(Clicked(candidates[k], mode))
       case Err(e) => Err(e))
    case None =>
      if page.count(t, byLabel) > 0 && ClickOrForce(page, t, byLabel).Ok? then
        Ok(Clicked(byLabel, ClickOrForce(page, t, byLabel).value))
      else Err(TimeoutError(notFound))
  }

  /**
   * The candidate clicked is the first one shown; the label is clicked only
   * when no candidate is shown; a candidate whose clicks both raise is the
   * failure; a label whose clicks both raise is swallowed into the TimeoutError.
   * Which click went through follows the page: the plain click when it does
   * not raise, else the forced one.
   */
  lemma ClickBookmarkMeaning(page: Page, t: nat, candidates: seq<Selector>, byLabel: Selector, notFound: string)
    requires byLabel !in candidates
    ensures var r := ClickBookmark(page, t, candidates, byLabel, notFound);
            && (r.Ok? && r.value.sel in candidates
                ==> exists k :: 0 <= k < |candidates| && r.value.sel == candidates[k] && Shown(page, t, candidates[k])
                                && forall j :: 0 <= j < k ==> !Shown(page, t, candidates[j]))
            && (r.Ok? && r.value.sel == byLabel ==> forall j :: 0 <= j < |candidates| ==> !Shown(page, t, candidates[j]))
            && (r.Err? ==> r.error == TimeoutError(notFound) || (r.error.ClickFailed? && r.error.sel in candidates))
            && (r == Err(TimeoutError(notFound))
                ==> (forall j :: 0 <= j < |candidates| ==> !Shown(page, t, candidates[j]))
                    && (page.count(t, byLabel) > 0 ==> ClickOrForce(page, t, byLabel).Err?))
    ensures var r := ClickBookmark(page, t, candidates, byLabel, notFound);
            var k := FirstShown(page, t, candidates);
            k.Some? ==> var sel := candidates[k.value];
                        && (r.Ok? <==> page.click(t, sel, Normal) || page.click(t, sel, Forced))
                        && (r.Ok? ==> r.value == Clicked(sel, if page.click(t, sel, Normal) then Normal else Forced))
                        && (r.Err? ==> r.error == ClickFailed(sel))
    ensures var r := ClickBookmark(page, t, candidates, byLabel, notFound);
            FirstShown(page, t, candidates).None?
            ==> && (r.Ok? <==> page.count(t, byLabel) > 0 && (page.click(t, byLabel, Normal) || page.click(t, byLabel, Forced)))
                && (r.Ok? ==> r.value == Clicked(byLabel, if page.click(t, byLabel, Normal) then Normal else Forced))
                && (r.Err? ==> r.error == TimeoutError(notFound))
  {
    var r := ClickBookmark(page, t, candidates, byLabel, notFound);
    var k := FirstShown(page, t, candidates);
    if k.Some? && r.Ok? {
      assert r.value.sel == candidates[k.value];
    }
  }

  /**
   * The `for` loop over the candidates and the flag-guarded label fallback:
   * the click made, or the failure raised.
   */
  method ScanAndClick(page: Page, t: nat, candidates: seq<Selector>, byLabel: Selector, notFound: string)
    returns (r: Result<Step, Failure>)
    ensures r == ClickBookmark(page, t, candidates, byLabel, notFound)
  {
    var clicked := false;
    var i := 0;
    while i < |candidates|
      invariant 0 <= i <= |candidates|
      invariant forall j :: 0 <= j < i ==> !Shown(page, t, candidates[j])
      invariant !clicked
    {
      var sel := candidates[i];
      if Shown(page, t, sel) {
        var click := ClickOrForce(page, t, sel);
        if click.Err? {
          return Err(click.error);
        }
        r := Ok(Clicked(sel, click.value));
        clicked := true;
        assert FirstShown(page, t, candidates) == Some(i);
        break;
      }
      i := i + 1;
    }
    if !clicked {
      assert FirstShown(page, t, candidates) == None;
      r := Err(TimeoutError(notFound));
      if page.count(t, byLabel) > 0 {
        var click := ClickOrForce(page, t, byLabel);
        if click.Ok? {
          r := Ok(Clicked(byLabel, click.value));
          clicked := true;
        }
      }
    }
  }

  // ---------------------------------------------------------------------------
  // bookmark_tweet and undo_bookmark_tweet
  // ---------------------------------------------------------------------------

  /**
   * A run that launched with `launch`, visited `url` and scanned `candidates`
   * then `label` once the page settled: a click is the only step between the
   * visit and the closing, and the result is the instant after the closing
   * pause; with no click the failure of the scan is the result and the pause is
   * skipped. The context and the browser are closed at the end either way.
   */
  ghost predicate BookmarkRun(page: Page, t0: nat, launch: Step, url: string, waitAfterMs: nat,
                              candidates: seq<Selector>, byLabel: Selector, notFound: string,
                              r: Result<nat, Failure>, trace: seq<Step>)
  {
    var c := ClickBookmark(page, t0 + LoadPauseMs, candidates, byLabel, notFound);
    && (c.Ok? ==> r == Ok(t0 + LoadPauseMs + waitAfterMs) && trace == Session(launch, [Visited(url), c.value]))
    && (c.Err? ==> r == Err(c.error) && trace == Session(launch, [Visited(url)]))
  }

  /** The body shared by both actions, once the browser was launched with `launch`. */
  method BookmarkFrom(page: Page, t0: nat, launch: Step, url: string, waitAfterMs: nat,
                      candidates: seq<Selector>, byLabel: Selector, notFound: string)
    returns (r: Result<nat, Failure>, trace: seq<Step>)
    ensures BookmarkRun(page, t0, launch, url, waitAfterMs, candidates, byLabel, notFound, r, trace)
  {
    var t := t0 + LoadPauseMs;
    var click := ScanAndClick(page, t, candidates, byLabel, notFound);
    if click.Err? {
      return Err(click.error), Session(launch, [Visited(url)]);
    }
    r, trace := Ok(t + waitAfterMs), Session(launch, [Visited(url), click.value]);
  }

  /** `bookmark_tweet`: launch on the Chrome channel (no fallback here), open the tweet, bookmark it, pause, close. */
  method BookmarkTweet(page: Page, t0: nat, env: string, tweetUrl: string, waitAfterMs: nat)
    returns (r: Result<nat, Failure>, trace: seq<Step>)
    ensures BookmarkRun(page, t0, Launched(Some(ChromeChannel(env))), tweetUrl, waitAfterMs,
                        BookmarkCandidates, BookmarkLabel, NoBookmarkButton, r, trace)
  {
    r, trace := BookmarkFrom(page, t0, Launched(Some(ChromeChannel(env))), tweetUrl, waitAfterMs,
                             BookmarkCandidates, BookmarkLabel, NoBookmarkButton);
  }

  /** `undo_bookmark_tweet`: the same steps over the removeBookmark candidates first and the wider label. */
  method UndoBookmarkTweet(page: Page, t0: nat, env: string, tweetUrl: string, waitAfterMs: nat)
    returns (r: Result<nat, Failure>, trace: seq<Step>)
    ensures BookmarkRun(page, t0, Launched(Some(ChromeChannel(env))), tweetUrl, waitAfterMs,
                        UndoCandidates, UndoLabel, NoRemoveButton, r, trace)
  {
    r, trace := BookmarkFrom(page, t0, Launched(Some(ChromeChannel(env))), tweetUrl, waitAfterMs,
                             UndoCandidates, UndoLabel, NoRemoveButton);
  }

  /**
   * A run clicks at most once, and only a candidate or the label; it pauses
   * after the click only when there was one.
   */
  lemma AtMostOneClick(page: Page, t0: nat, launch: Step, url: string, waitAfterMs: nat,
                       candidates: seq<Selector>, byLabel: Selector, notFound: string,
                       r: Result<nat, Failure>, trace: seq<Step>)
    requires BookmarkRun(page, t0, launch, url, waitAfterMs, candidates, byLabel, notFound, r, trace)
    requires !launch.Clicked?
    ensures |ClickedSelectors(trace)| == (if r.Ok? then 1 else 0)
    ensures forall s :: s in ClickedSelectors(trace) ==> s in candidates || s == byLabel
  {
    var c := ClickBookmark(page, t0 + LoadPauseMs, candidates, byLabel, notFound);
    var middle := if c.Ok? then [Visited(url), c.value] else [Visited(url)];
    assert trace == [launch] + middle + Closing;
    ClickedSelectorsAppend([launch] + middle, Closing);
    ClickedSelectorsAppend([launch], middle);
    assert ClickedSelectors([launch]) == [] by {
      assert [launch][..0] == [];
    }
    assert ClickedSelectors(Closing) == [] by {
      assert Closing[..1] == [ContextClosed];
      assert Closing[..1][..0] == [];
    }
    if c.Ok? {
      assert middle[..1] == [Visited(url)] && middle[..1][..0] == [];
      assert ClickedSelectors(middle) == [c.value.sel];
    } else {
      assert middle[..0] == [];
    }
  }

  /**
   * Removing a bookmark prefers the removeBookmark candidates: when one of them
   * is shown, the click made is on a removeBookmark candidate, and a failure is
   * one of its clicks.
   */
  lemma UndoPrefersRemove(page: Page, t: nat, k: nat)
    requires k < |RemoveBookmarkCandidates| && Shown(page, t, RemoveBookmarkCandidates[k])
    ensures var r := ClickBookmark(page, t, UndoCandidates, UndoLabel, NoRemoveButton);
            && (r.Ok? ==> r.value.sel in RemoveBookmarkCandidates)
            && (r.Err? ==> r.error.ClickFailed? && r.error.sel in RemoveBookmarkCandidates)
  {
    FirstShownAppend(page, t, RemoveBookmarkCandidates, BookmarkCandidates);
    var i := FirstShown(page, t, RemoveBookmarkCandidates);
    assert i.Some?;
    assert UndoCandidates[i.value] == RemoveBookmarkCandidates[i.value];
  }
}

=== FILE: x_delete.dfy ===
/**
 * Deleting a tweet through the browser (app/x/modules/x_delete.py): the
 * status URL built from a tweet id, and the three clicks of `delete_tweet`:
 * the tweet's menu caret, the Delete item and the confirmation sheet. The caret
 * and the Delete item are each found by a chain of fallbacks that keeps the
 * first selector with a match; the method that takes the steps is proved equal
 * to a function of the page, whose contract states the order of the clicks.
 */
module XDelete {
  import opened Wrappers
  import opened Text
  import opened Browser

  // ---------------------------------------------------------------------------
  // build_tweet_url_by_id
  // ---------------------------------------------------------------------------

  const StatusPrefix := "https://x.com/i/status/"

  /** `build_tweet_url_by_id`: the public status URL followed by the stripped id. */
  function BuildTweetUrlById(tweetId: string): (url: string)
    ensures StartsWith(url, StatusPrefix)
    ensures url[|StatusPrefix|..] == Strip(tweetId)
  {
    StatusPrefix + Strip(tweetId)
  }

  /** Two ids give the same URL exactly when they are equal once stripped. */
  lemma BuildTweetUrlInjective(a: string, b: string)
    ensures BuildTweetUrlById(a) == BuildTweetUrlById(b) <==> Strip(a) == Strip(b)
  {
    if BuildTweetUrlById(a) == BuildTweetUrlById(b) {
      assert BuildTweetUrlById(a)[|StatusPrefix|..] == BuildTweetUrlById(b)[|StatusPrefix|..];
    }
  }

  // ---------------------------------------------------------------------------
  // Fallback chains
  // ---------------------------------------------------------------------------

  /**
   * Where a chain of `if not x.count(): x = <next>` stops: the first selector
   * with a match, or the last one when none of the others has any (the last
   * one is used without being counted).
   */
  function PresentIndex(page: Page, t: nat, sels: seq<Selector>): (k: nat)
    requires sels != []
    ensures k < |sels|
    ensures forall j :: 0 <= j < k ==> page.count(t, sels[j]) == 0
    ensures k < |sels| - 1 ==> page.count(t, sels[k]) > 0
    decreases |sels|
  {
    if |sels| == 1 || page.count(t, sels[0]) > 0 then 0
    else
      var k := PresentIndex(page, t, sels[1..]);
      assert forall j :: 1 <= j < k + 1 ==> sels[j] == sels[1..][j - 1];
      k + 1
  }

  /** The selector a fallback chain ends with. */
  function FirstPresent(page: Page, t: nat, sels: seq<Selector>): (s: Selector)
    requires sels != []
    ensures s in sels
  {
    sels[PresentIndex(page, t, sels)]
  }

  /** One link of a chain: it stops at its head when the head has a match or is the last selector. */
  lemma FirstPresentUnfold(page: Page, t: nat, sels: seq<Selector>)
    requires sels != []
    ensures FirstPresent(page, t, sels)
            == if |sels| == 1 || page.count(t, sels[0]) > 0 then sels[0] else FirstPresent(page, t, sels[1..])
  {
  }

  // ---------------------------------------------------------------------------
  // delete_tweet
  // ---------------------------------------------------------------------------

  const TweetSel: Selector := "[data-testid=\"tweet\"]"
  /** `tweet.get_by_test_id("caret")`, then the "More" button in English and in Arabic. */
  const TweetCaret: Selector := "[data-testid=\"tweet\"] >> [data-testid=\"caret\"]"
  const MoreLabel: Selector := "[aria-label=\"More\"]"
  const MoreLabelArabic: Selector := "[aria-label=\"المزيد\"]"
  const CaretFallbacks: seq<Selector> := [TweetCaret, MoreLabel, MoreLabelArabic]

  /** `get_by_text` in English and in Arabic, then the menu items in the same order. */
  const DeleteText: Selector := "text=\"Delete\""
  const DeleteTextArabic: Selector := "text=\"حذف\""
  const DeleteItem: Selector := "div[role='menuitem']:has-text('Delete')"
  const DeleteItemArabic: Selector := "div[role='menuitem']:has-text('حذف')"
  const DeleteFallbacks: seq<Selector> := [DeleteText, DeleteTextArabic, DeleteItem, DeleteItemArabic]

  const ConfirmSel: Selector := "[data-testid=\"confirmationSheetConfirm\"]"

  const LoadPauseMs := 3000
  const TweetTimeoutMs := 30000
  const CaretTimeoutMs := 15000
  const MenuPauseMs := 800
  const ButtonTimeoutMs := 10000

  const DebugShot := "debug_delete.png"
  const DeleteFailedPrefix := "فشل حذف التغريدة: "

  /** Wait up to `timeoutMs` for the first match of `sel` to show, then click it once: the instant of the click. */
  function ShowAndClick(page: Page, t: nat, sel: Selector, timeoutMs: nat): (r: Result<nat, Failure>)
    ensures r.Ok? ==> t <= r.value <= t + timeoutMs && page.click(r.value, sel, Normal)
    ensures r.Err? ==> r.error == WaitTimedOut(sel) || r.error == ClickFailed(sel)
  {
    var shown := WaitFor(page, t, sel, Visible, timeoutMs);
    if shown.Err? then Err(shown.error)
    else if page.click(shown.value, sel, Normal) then shown
    else Err(ClickFailed(sel))
  }

  /** The click that ends a stage, as the trace records it. */
  predicate ClickIn(s: Step, sels: seq<Selector>)
  {
    s.Clicked? && s.mode == Normal && s.sel in sels
  }

  /**
   * The clicks of `delete_tweet` once the tweet page was opened at `t0`, and
   * the instant of the confirmation click or the failure that stopped them.
   * The clicks are made in a fixed order, caret, Delete, confirmation; a
   * success clicks all three and ends on the confirmation; once Delete was
   * clicked the confirmation is always waited for, so a failure after it is a
   * failure of the confirmation.
   */
  function DeleteClicks(page: Page, t0: nat): (o: (Result<nat, Failure>, seq<Step>))
    ensures |o.1| <= 3
    ensures o.0.Ok? <==> |o.1| == 3
    ensures |o.1| >= 1 ==> ClickIn(o.1[0], CaretFallbacks)
    ensures |o.1| >= 2 ==> ClickIn(o.1[1], DeleteFallbacks)
    ensures |o.1| == 3 ==> o.1[2] == Clicked(ConfirmSel, Normal)
    ensures o.0.Ok? ==> o.0.value >= t0 + LoadPauseMs + 2 * MenuPauseMs && page.click(o.0.value, ConfirmSel, Normal)
    ensures |o.1| == 2 ==> o.0 == Err(WaitTimedOut(ConfirmSel)) || o.0 == Err(ClickFailed(ConfirmSel))
  {
    var shown := WaitFor(page, t0 + LoadPauseMs, TweetSel, Visible, TweetTimeoutMs);
    if shown.Err? then (Err(shown.error), [])
    else
      var caret := FirstPresent(page, shown.value, CaretFallbacks);
      var atCaret := ShowAndClick(page, shown.value, caret, CaretTimeoutMs);
      if atCaret.Err? then (Err(atCaret.error), [])
      else
        var t := atCaret.value + MenuPauseMs;
        var del := FirstPresent(page, t, DeleteFallbacks);
        var chosen := ShowAndClick(page, t, del, ButtonTimeoutMs);
        if chosen.Err? then (Err(chosen.error), [Clicked(caret, Normal)])
        else
          var confirmed := ShowAndClick(page, chosen.value + MenuPauseMs, ConfirmSel, ButtonTimeoutMs);
          if confirmed.Err? then (Err(confirmed.error), [Clicked(caret, Normal), Clicked(del, Normal)])
          else (confirmed, [Clicked(caret, Normal), Clicked(del, Normal), Clicked(ConfirmSel, Normal)])
  }

  /** The caret chosen once the tweet showed at `t`: `caret` reassigned down its fallback chain. */
  method ChooseCaret(page: Page, t: nat) returns (caret: Selector)
    ensures caret == FirstPresent(page, t, CaretFallbacks)
  {
    FirstPresentUnfold(page, t, CaretFallbacks);
    FirstPresentUnfold(page, t, CaretFallbacks[1..]);
    assert CaretFallbacks[1..][1..] == [MoreLabelArabic];
    caret := TweetCaret;
    if page.count(t, caret) == 0 {
      caret := MoreLabel;
      if page.count(t, caret) == 0 {
        caret := MoreLabelArabic;
      }
    }
  }

  /** The Delete button chosen once the menu was open at `t`: `delete_btn` reassigned down its fallback chain. */
  method ChooseDelete(page: Page, t: nat) returns (del: Selector)
    ensures del == FirstPresent(page, t, DeleteFallbacks)
  {
    FirstPresentUnfold(page, t, DeleteFallbacks);
    FirstPresentUnfold(page, t, DeleteFallbacks[1..]);
    FirstPresentUnfold(page, t, DeleteFallbacks[1..][1..]);
    assert DeleteFallbacks[1..][1..][1..] == [DeleteItemArabic];
    del := DeleteText;
    if page.count(t, del) == 0 {
      del := DeleteTextArabic;
    }
    if page.count(t, del) == 0 {
      del := DeleteItem;
      if page.count(t, del) == 0 {
        del := DeleteItemArabic;
      }
    }
  }

  /**
   * The body of the `try` in `delete_tweet` once the page was opened at `t0`:
   * wait for the tweet, click the caret, pause, click Delete, pause, click the
   * confirmation. The result is the instant of the confirmation click.
   */
  method Choreography(page: Page, t0: nat) returns (r: Result<nat, Failure>, clicks: seq<Step>)
    ensures (r, clicks) == DeleteClicks(page, t0)
  {
    var shown := WaitFor(page, t0 + LoadPauseMs, TweetSel, Visible, TweetTimeoutMs);
    if shown.Err? {
      return Err(shown.error), [];
    }
    var caret := ChooseCaret(page, shown.value);
    var atCaret := ShowAndClick(page, shown.value, caret, CaretTimeoutMs);
    if atCaret.Err? {
      return Err(atCaret.error), [];
    }
    var t := atCaret.value + MenuPauseMs;
    var del := ChooseDelete(page, t);
    var chosen := ShowAndClick(page, t, del, ButtonTimeoutMs);
    if chosen.Err? {
      return Err(chosen.error), [Clicked(caret, Normal)];
    }
    var confirmed := ShowAndClick(page, chosen.value + MenuPauseMs, ConfirmSel, ButtonTimeoutMs);
    if confirmed.Err? {
      return Err(confirmed.error), [Clicked(caret, Normal), Clicked(del, Normal)];
    }
    r, clicks := confirmed, [Clicked(caret, Normal), Clicked(del, Normal), Clicked(ConfirmSel, Normal)];
  }

  /**
   * A run of `delete_tweet` for `url` that launched with `launch`: the tweet
   * is visited and the clicks of `DeleteClicks` follow. A success pauses
   * `waitAfterMs` after the confirmation click; any failure takes a screenshot
   * and becomes a RuntimeError carrying the failure. The context and the
   * browser are closed at the end either way.
   */
  ghost predicate DeleteRun(page: Page, t0: nat, launch: Step, url: string, waitAfterMs: nat,
                            r: Result<nat, Failure>, trace: seq<Step>)
  {
    var o := DeleteClicks(page, t0);
    && (o.0.Ok? ==> r == Ok(o.0.value + waitAfterMs) && trace == Session(launch, [Visited(url)] + o.1))
    && (o.0.Err? ==> && r == Err(Wrapped(DeleteFailedPrefix, o.0.error))
                     && trace == Session(launch, [Visited(url)] + o.1 + [Screenshot(DebugShot)]))
  }

  /**
   * `delete_tweet`: launch on the Chrome channel, or with no channel when that
   * raised; open the tweet; take the three clicks; close.
   */
  method DeleteTweet(page: Page, t0: nat, env: string, channelUp: bool, tweetUrl: string, waitAfterMs: nat)
    returns (r: Result<nat, Failure>, trace: seq<Step>)
    ensures DeleteRun(page, t0, Launch(env, channelUp), tweetUrl, waitAfterMs, r, trace)
  {
    r, trace := DeleteFrom(page, t0, Launch(env, channelUp), tweetUrl, waitAfterMs);
  }

  /** `delete_tweet` once the browser was launched with `launch`. */
  method DeleteFrom(page: Page, t0: nat, launch: Step, url: string, waitAfterMs: nat)
    returns (r: Result<nat, Failure>, trace: seq<Step>)
    ensures DeleteRun(page, t0, launch, url, waitAfterMs, r, trace)
  {
    var done, clicks := Choreography(page, t0);
    if done.Err? {
      r := Err(Wrapped(DeleteFailedPrefix, done.error));
      trace := Session(launch, [Visited(url)] + clicks + [Screenshot(DebugShot)]);
    } else {
      r := Ok(done.value + waitAfterMs);
      trace := Session(launch, [Visited(url)] + clicks);
    }
  }

  /** `delete_tweet_by_id`: exactly `delete_tweet` on the URL built from the id. */
  method DeleteTweetById(page: Page, t0: nat, env: string, channelUp: bool, tweetId: string, waitAfterMs: nat)
    returns (r: Result<nat, Failure>, trace: seq<Step>)
    ensures DeleteRun(page, t0, Launch(env, channelUp), BuildTweetUrlById(tweetId), waitAfterMs, r, trace)
  {
    r, trace := DeleteTweet(page, t0, env, channelUp, BuildTweetUrlById(tweetId), waitAfterMs);
  }

  /** A run returns True only after all three clicks, the confirmation last; it never clicks anything else. */
  lemma DeletedAfterConfirm(page: Page, t0: nat, launch: Step, url: string, waitAfterMs: nat,
                            r: Result<nat, Failure>, trace: seq<Step>)
    requires DeleteRun(page, t0, launch, url, waitAfterMs, r, trace)
    ensures r.Ok? ==> && |trace| == 7 && trace[1] == Visited(url)
                      && ClickIn(trace[2], CaretFallbacks) && ClickIn(trace[3], DeleteFallbacks)
                      && trace[4] == Clicked(ConfirmSel, Normal)
    ensures r.Err? ==> r.error.Wrapped? && r.error.prefix == DeleteFailedPrefix
                       && trace[|trace| - 3] == Screenshot(DebugShot)
  {
    var o := DeleteClicks(page, t0);
    var steps := trace[1..|trace| - 2];
    if o.0.Ok? {
      assert steps == [Visited(url)] + o.1;
      assert trace[2] == steps[1] == o.1[0] && trace[3] == steps[2] == o.1[1] && trace[4] == steps[3] == o.1[2];
    } else {
      assert steps == [Visited(url)] + o.1 + [Screenshot(DebugShot)];
      assert trace[|trace| - 3] == steps[|steps| - 1];
    }
  }
}

=== FILE: x_login.dfy ===
/**
 * Logging in to X through the browser (app/x/modules/x_login.py): the name
 * of the session file, the two-of-three vote that decides whether the login
 * worked, and the order of the steps of `login_twitter` with its early
 * failures.
 *
 * The random pauses of the source are parameters (`Pauses`); the mouse
 * moves and per-character typing delays that only imitate a person are not
 * modelled. Firefox is launched without a channel, recorded as
 * `Launched(None)`.
 */
module XLogin {
  import opened Wrappers
  import opened Text
  import opened Browser
  import Utils

  // ---------------------------------------------------------------------------
  // _safe_cookie_filename
  // ---------------------------------------------------------------------------

  const JsonExt := ".json"
  const DefaultStem := "account"
  const MaxFilename := 120

  /** The sanitised user name before the extension: stripped, unsafe runs collapsed to `_`, or "account" when nothing is left. */
  function CookieStem(username: string): (s: string)
    ensures Utils.AllLabelChars(s) && s != []
    ensures Strip(username) == [] ==> s == DefaultStem
    ensures Strip(username) != [] && Utils.AllLabelChars(Strip(username)) ==> s == Strip(username)
  {
    var t := Strip(username);
    var s := Utils.CollapseUnsafe(t);
    Utils.CollapseKeepsSafe(t);
    if s == [] then DefaultStem else s
  }

  lemma JsonExtIsSafe()
    ensures Utils.AllLabelChars(JsonExt)
  {
  }

  /**
   * `_safe_cookie_filename`: the stem with ".json" appended when it does not
   * already end so, cut to 120 characters. Only a name that was cut can lack
   * the extension, and a stem of at most 115 characters is kept whole.
   */
  function SafeCookieFilename(username: string): (r: string)
    ensures Utils.AllLabelChars(r) && |JsonExt| <= |r| <= MaxFilename
    ensures Strip(username) == [] ==> r == DefaultStem + JsonExt
    ensures |r| < MaxFilename ==> EndsWith(r, JsonExt)
    ensures |CookieStem(username)| <= MaxFilename - |JsonExt| ==> EndsWith(r, JsonExt) && CookieStem(username) <= r
    ensures EndsWith(CookieStem(username), JsonExt) && |CookieStem(username)| <= MaxFilename ==> r == CookieStem(username)
    ensures !EndsWith(CookieStem(username), JsonExt) && |CookieStem(username)| <= MaxFilename - |JsonExt| ==>
              r == CookieStem(username) + JsonExt
    ensures var named := if EndsWith(CookieStem(username), JsonExt) then CookieStem(username) else CookieStem(username) + JsonExt;
            r <= named && |r| == if |named| < MaxFilename then |named| else MaxFilename
  {
    var s := CookieStem(username);
    var named := if EndsWith(s, JsonExt) then s else s + JsonExt;
    JsonExtIsSafe();
    AppendEnds(s, JsonExt);
    assert Utils.AllLabelChars(named);
    PyTake(named, MaxFilename)
  }

  /** A file name made by `_safe_cookie_filename` comes back unchanged. */
  lemma SafeCookieFilenameIdempotent(username: string)
    ensures SafeCookieFilename(SafeCookieFilename(username)) == SafeCookieFilename(username)
  {
    var r := SafeCookieFilename(username);
    Utils.StripLabel(r);
    Utils.CollapseKeepsSafe(r);
    assert CookieStem(r) == r;
    if !EndsWith(r, JsonExt) {
      assert |r| == MaxFilename;
      assert PyTake(r + JsonExt, MaxFilename) == r;
    }
  }

  /**
   * A safe 120-character user name that does not end in ".json" already fills
   * the limit, so the appended ".json" is cut off again and the file name has
   * no extension.
   */
  lemma LongNameLosesExtension(username: string)
    requires Utils.AllLabelChars(username) && |username| == MaxFilename
    requires username[MaxFilename - |JsonExt|] != '.'
    ensures SafeCookieFilename(username) == username
    ensures !EndsWith(SafeCookieFilename(username), JsonExt)
  {
    Utils.StripLabel(username);
    Utils.CollapseKeepsSafe(username);
    var stem := CookieStem(username);
    assert stem == username;
    assert !EndsWith(stem, JsonExt) by {
      assert stem[MaxFilename - |JsonExt|..][0] == stem[MaxFilename - |JsonExt|];
    }
    var named := stem + JsonExt;
    assert named[..MaxFilename] == stem;
  }

  // ---------------------------------------------------------------------------
  // The session file and the debug files beside it
  // ---------------------------------------------------------------------------

  const DefaultCookiesDir := "cookies"

  /** `str(Path(cookies_dir) / name)`: an empty or "." directory adds nothing, otherwise one '/' separates the two. */
  function CookiePath(dir: string, name: string): (p: string)
    ensures EndsWith(p, name)
  {
    AppendEnds(dir + "/", name);
    AppendEnds(dir, name);
    if dir == [] || dir == "." then name
    else if dir[|dir| - 1] == '/' then dir + name
    else dir + "/" + name
  }

  /** The session file is named by `_safe_cookie_filename`, whatever the directory. */
  lemma CookiePathName(dir: string, username: string)
    ensures Utils.PathName(CookiePath(dir, SafeCookieFilename(username))) == SafeCookieFilename(username)
  {
    var name := SafeCookieFilename(username);
    assert '/' !in name by {
      forall i | 0 <= i < |name|
        ensures name[i] != '/'
      {
        assert Utils.IsLabelChar(name[i]);
      }
    }
    assert name != "." && name != [];
    if dir == [] || dir == "." {
      Utils.PathNameAfter([], name);
      assert [] + name == name;
    } else if dir[|dir| - 1] == '/' {
      Utils.PathNameAfter(dir, name);
    } else {
      Utils.PathNameAfter(dir + "/", name);
    }
  }

  /** `str(cookie_path).replace('.json', '_failed.png')`. */
  function FailedShot(path: string): string
  {
    ReplaceAll(path, JsonExt, "_failed.png")
  }

  /** `str(cookie_path).replace('.json', '_failed.html')`. */
  function FailedHtml(path: string): string
  {
    ReplaceAll(path, JsonExt, "_failed.html")
  }

  /**
   * When ".json" occurs in a session path only as its extension, the debug
   * files are the same path with the extension swapped.
   */
  lemma ReplaceExtension(p: string, rep: string)
    requires !Contains(p, JsonExt)
    ensures ReplaceAll(p + JsonExt, JsonExt, rep) == p + rep
  {
    assert forall k :: 0 < k < |JsonExt| ==> JsonExt[k] != JsonExt[0];
    ReplaceAtEnd(p, JsonExt, rep);
  }

  /** So for such a path the failure screenshot is `<path without .json>_failed.png`. */
  lemma FailedShotBeside(p: string)
    requires !Contains(p, JsonExt)
    ensures FailedShot(p + JsonExt) == p + "_failed.png"
    ensures FailedHtml(p + JsonExt) == p + "_failed.html"
  {
    ReplaceExtension(p, "_failed.png");
    ReplaceExtension(p, "_failed.html");
  }

  // ---------------------------------------------------------------------------
  // check_login_success
  // ---------------------------------------------------------------------------

  const VerdictPauseMs := 4000
  const HomeMark := "home"
  const HomeUrl := "https://x.com/home"
  const SideNavNewTweet: Selector := "[data-testid=\"SideNav_NewTweet_Button\"]"
  const AuthToken := "auth_token"

  /** The URL looks signed in: it mentions "home", or mentions neither "login" nor "flow". */
  function UrlSignedIn(url: string): (r: bool)
    ensures StartsWith(url, HomeUrl) ==> r
    ensures Contains(url, "login") && !Contains(url, HomeMark) ==> !r
  {
    assert StartsWith(url, HomeUrl) ==> Contains(url, HomeMark) by {
      if StartsWith(url, HomeUrl) {
        HomePrefixHasHome(url);
      }
    }
    Contains(url, HomeMark) || (!Contains(url, "login") && !Contains(url, "flow"))
  }

  /** The home URL prefix test adds nothing to the "home" test: such a URL contains "home". */
  lemma HomePrefixHasHome(url: string)
    requires StartsWith(url, HomeUrl)
    ensures Contains(url, HomeMark)
  {
    assert url[14..18] == HomeUrl[14..18] == HomeMark;
    assert OccursAt(url, HomeMark, 14);
  }

  /** The signed-in-only control is visible. */
  predicate ControlSignedIn(page: Page, t: nat)
  {
    page.visible(t, SideNavNewTweet)
  }

  /** Some cookie is named auth_token; a failure to read the cookies counts as none. */
  function CookieSignedIn(page: Page, t: nat): (r: bool)
    ensures page.cookieNames(t).None? ==> !r
    ensures forall names :: page.cookieNames(t) == Some(names) ==> (r <==> "auth_token" in names)
  {
    page.cookieNames(t).Some? && AuthToken in page.cookieNames(t).value
  }

  /** At least two of three. */
  function Majority(a: bool, b: bool, c: bool): (r: bool)
    ensures a == b ==> r == a
    ensures a == c ==> r == a
    ensures b == c ==> r == b
  {
    (a && b) || (a && c) || (b && c)
  }

  /** The verdict of `check_login_success` called at `t`: a majority of the three votes taken 4 s later. */
  function LoggedIn(page: Page, t: nat): (r: bool)
    ensures var at := t + VerdictPauseMs;
            UrlSignedIn(page.url(at)) == ControlSignedIn(page, at) ==> r == UrlSignedIn(page.url(at))
    ensures var at := t + VerdictPauseMs;
            UrlSignedIn(page.url(at)) == CookieSignedIn(page, at) ==> r == UrlSignedIn(page.url(at))
    ensures var at := t + VerdictPauseMs;
            ControlSignedIn(page, at) == CookieSignedIn(page, at) ==> r == ControlSignedIn(page, at)
  {
    var at := t + VerdictPauseMs;
    Majority(UrlSignedIn(page.url(at)), ControlSignedIn(page, at), CookieSignedIn(page, at))
  }

  /** `sum(checks)`: how many votes are true. */
  function CountTrue(checks: seq<bool>): (n: nat)
    ensures n <= |checks|
  {
    if checks == [] then 0 else (if checks[0] then 1 else 0) + CountTrue(checks[1..])
  }

  /**
   * `check_login_success`: after 4 s, one vote for the URL, one for the
   * visible new-tweet control and one for the auth_token cookie; true when
   * at least two of them are.
   */
  method CheckLoginSuccess(page: Page, t0: nat) returns (ok: bool)
    ensures ok <==> LoggedIn(page, t0)
  {
    var t := t0 + VerdictPauseMs;
    var url := page.url(t);
    var checks: seq<bool> := [];
    if Contains(url, HomeMark) || StartsWith(url, HomeUrl) {
      if StartsWith(url, HomeUrl) {
        HomePrefixHasHome(url);
      }
      checks := checks + [true];
    } else if !Contains(url, "login") && !Contains(url, "flow") {
      checks := checks + [true];
    } else {
      checks := checks + [false];
    }
    checks := checks + [page.visible(t, SideNavNewTweet)];
    var names := page.cookieNames(t);
    checks := checks + [names.Some? && AuthToken in names.value];
    assert checks == [UrlSignedIn(url), ControlSignedIn(page, t), CookieSignedIn(page, t)];
    assert checks[1..][1..][1..] == [];
    assert CountTrue(checks[1..][1..]) == (if checks[2] then 1 else 0);
    assert CountTrue(checks[1..]) == (if checks[1] then 1 else 0) + (if checks[2] then 1 else 0);
    ok := CountTrue(checks) >= 2;
  }

  // ---------------------------------------------------------------------------
  // login_twitter
  // ---------------------------------------------------------------------------

  const LoginUrl := "https://x.com/i/flow/login"
  const UserInput: Selector := "input[autocomplete=\"username\"]"
  const UserWaitMs := 20000

  /** `get_by_role("button", name="Next")`, then the two text fallbacks. */
  const NextRole: Selector := "role=button[name=\"Next\"]"
  const NextText: Selector := "button:has-text(\"Next\")"
  const NextArabic: Selector := "button:has-text(\"التالي\")"
  const NextButtons: seq<Selector> := [NextRole, NextText, NextArabic]

  const RateLimitTexts: seq<Selector> := [
    "text=\"Please try again later\"",
    "text=\"try again later\"",
    "text=\"try later\"",
    "span:has-text(\"try again later\")",
    "div:has-text(\"try again later\")"
  ]
  const RateLimitShot := "rate_limit_error.png"
  const RateLimitMessage := "❌ X يطلب المحاولة لاحقاً (Please try later).\n\n💡 **الأسباب المحتملة:**\n1. تم اكتشاف نشاط غير عادي\n2. محاولات تسجيل دخول كثيرة\n3. الحساب يحتاج تحقق يدوي\n\n🔄 **الحل:**\n1. انتظر 15-30 دقيقة ثم حاول مرة أخرى\n2. أو سجل دخول يدوياً من المتصفح العادي أولاً\n3. تحقق من الصورة: rate_limit_error.png"

  const VerifyInput: Selector := "input[data-testid=\"ocfEnterTextTextInput\"]"
  const VerifyShot := "verification_required.png"
  const VerifyMessage := "❌ X يطلب تحقق إضافي (رقم هاتف أو بريد إلكتروني).\n\n💡 **الحل:**\n1. أدخل رقم الهاتف أو البريد الإلكتروني يدوياً في نافذة المتصفح\n2. أو سجل دخول من المتصفح العادي أولاً\n3. تحقق من الصورة: verification_required.png"

  const PasswordInput: Selector := "input[type=\"password\"]"
  const PasswordWaitMs := 30000
  const PasswordShot := "password_field_not_found.png"
  const PasswordMessage := "لم يتم العثور على حقل كلمة المرور. قد يكون X طلب تحقق إضافي. تحقق من: password_field_not_found.png"

  /** The test-id button, then `get_by_role("button", name=...)` in English and in Arabic. */
  const LoginTestid: Selector := "button[data-testid=\"LoginForm_Login_Button\"]"
  const LoginRole: Selector := "role=button[name=\"Log in\"]"
  const LoginArabic: Selector := "role=button[name=\"تسجيل الدخول\"]"
  const LoginButtons: seq<Selector> := [LoginTestid, LoginRole, LoginArabic]

  const FailedPrefix := "فشل تسجيل الدخول (أو يحتاج تحقق إضافي). تحقق من الملفات: "

  /**
   * Why a login failed: a failure of the page (a wait that timed out, a
   * click that raised), or one of the `RuntimeError`s the login raises
   * itself, whose text `Message` gives.
   */
  datatype LoginError =
    | PageError(failure: Failure)
    | RateLimited
    | VerificationRequired
    | PasswordFieldMissing
    | NotLoggedIn(shot: string)

  /** The text of a `RuntimeError` the login raises itself. */
  function Message(e: LoginError): (m: string)
    requires !e.PageError?
    ensures e.NotLoggedIn? ==> m == FailedPrefix + e.shot
  {
    match e
    case RateLimited => RateLimitMessage
    case VerificationRequired => VerifyMessage
    case PasswordFieldMissing => PasswordMessage
    case NotLoggedIn(shot) => FailedPrefix + shot
  }

  /** The exception the source raises for a failure. */
  function Raised(e: LoginError): Failure
  {
    if e.PageError? then e.failure else RuntimeError(Message(e))
  }

  /**
   * The random sleeps of `login_twitter`, in ms: before the user-name field
   * is looked for (with the mouse moves), from the field appearing to the
   * Next click (with the typing), after Next, from the password field
   * appearing to the log-in click (with the typing), and after the log-in
   * click.
   */
  datatype Pauses = Pauses(beforeUser: nat, userTyping: nat, afterNext: nat, passwordTyping: nat, afterLogin: nat)

  const Opening: seq<Step> := [Launched(None), Visited(LoginUrl)]

  /**
   * A click on the field, then `type_like_human`: another click and the
   * text. Both clicks ask the page at the same instant, so they succeed or
   * fail together.
   */
  method EnterField(page: Page, t: nat, sel: Selector, text: string) returns (r: Result<nat, Failure>, steps: seq<Step>)
    ensures r.Ok? <==> page.click(t, sel, Normal)
    ensures r.Ok? ==> r.value == t && steps == [Clicked(sel, Normal), Clicked(sel, Normal), Typed(sel, text)]
    ensures r.Err? ==> r.error == ClickFailed(sel) && steps == []
  {
    if !page.click(t, sel, Normal) {
      return Err(ClickFailed(sel)), [];
    }
    steps := [Clicked(sel, Normal)];
    steps := steps + [Clicked(sel, Normal), Typed(sel, text)];
    r := Ok(t);
  }

  /**
   * The Next button: the role button; when clicking it raises, the English
   * text button when it is visible and the Arabic one otherwise, whose click
   * failure escapes.
   */
  method ClickNext(page: Page, t: nat) returns (r: Result<Selector, Failure>)
    ensures r.Ok? ==> r.value in NextButtons && page.click(t, r.value, Normal)
    ensures r == Ok(NextRole) <==> page.click(t, NextRole, Normal)
    ensures r.Ok? && r.value == NextText ==> page.visible(t, NextText)
    ensures r.Ok? && r.value == NextArabic ==> !page.visible(t, NextText)
    ensures r.Err? <==> && !page.click(t, NextRole, Normal)
                        && !page.click(t, if page.visible(t, NextText) then NextText else NextArabic, Normal)
    ensures r.Err? ==> r.error == ClickFailed(if page.visible(t, NextText) then NextText else NextArabic)
  {
    if page.click(t, NextRole, Normal) {
      return Ok(NextRole);
    }
    var btn := NextText;
    if !page.visible(t, btn) {
      btn := NextArabic;
    }
    if page.click(t, btn, Normal) {
      r := Ok(btn);
    } else {
      r := Err(ClickFailed(btn));
    }
  }

  /** The rate-limit scan: true when one of the five messages is present and visible. */
  method RateLimitShown(page: Page, t: nat) returns (shown: bool)
    ensures shown <==> AnyShown(page, t, RateLimitTexts)
  {
    for k := 0 to |RateLimitTexts|
      invariant forall j :: 0 <= j < k ==> !Shown(page, t, RateLimitTexts[j])
    {
      if Shown(page, t, RateLimitTexts[k]) {
        return true;
      }
    }
    return false;
  }

  /**
   * The two checks after Next: a rate-limit message, then the extra
   * verification input; either stops the login with a screenshot.
   */
  method CheckBlocked(page: Page, t: nat) returns (r: Result<nat, LoginError>, steps: seq<Step>)
    ensures AnyShown(page, t, RateLimitTexts)
            ==> r == Err(RateLimited) && steps == [Screenshot(RateLimitShot)]
    ensures !AnyShown(page, t, RateLimitTexts) && Shown(page, t, VerifyInput)
            ==> r == Err(VerificationRequired) && steps == [Screenshot(VerifyShot)]
    ensures r.Ok? <==> !AnyShown(page, t, RateLimitTexts) && !Shown(page, t, VerifyInput)
    ensures r.Ok? ==> r.value == t && steps == []
  {
    var limited := RateLimitShown(page, t);
    if limited {
      return Err(RateLimited), [Screenshot(RateLimitShot)];
    }
    if page.count(t, VerifyInput) > 0 && page.visible(t, VerifyInput) {
      return Err(VerificationRequired), [Screenshot(VerifyShot)];
    }
    r, steps := Ok(t), [];
  }

  /** The password field: wait for it (a screenshot and an error when it never shows), then click and type. */
  method EnterPassword(page: Page, t: nat, password: string) returns (r: Result<nat, LoginError>, steps: seq<Step>)
    ensures WaitFor(page, t, PasswordInput, Visible, PasswordWaitMs).Err?
            ==> r == Err(PasswordFieldMissing) && steps == [Screenshot(PasswordShot)]
    ensures r.Ok? ==> && WaitFor(page, t, PasswordInput, Visible, PasswordWaitMs).Ok?
                      && r.value == WaitFor(page, t, PasswordInput, Visible, PasswordWaitMs).value
                      && steps == [Clicked(PasswordInput, Normal), Clicked(PasswordInput, Normal), Typed(PasswordInput, password)]
    ensures r.Err? && WaitFor(page, t, PasswordInput, Visible, PasswordWaitMs).Ok?
            ==> r.error == PageError(ClickFailed(PasswordInput)) && steps == []
  {
    var shown := WaitFor(page, t, PasswordInput, Visible, PasswordWaitMs);
    if shown.Err? {
      return Err(PasswordFieldMissing), [Screenshot(PasswordShot)];
    }
    var typed;
    typed, steps := EnterField(page, shown.value, PasswordInput, password);
    r := if typed.Ok? then Ok(typed.value) else Err(PageError(typed.error));
  }

  /** Among `sels`, the `k`-th is the first whose click goes through at `t`. */
  predicate FirstToClick(page: Page, t: nat, sels: seq<Selector>, k: nat)
  {
    k < |sels| && page.click(t, sels[k], Normal) && forall j :: 0 <= j < k ==> !page.click(t, sels[j], Normal)
  }

  /** The log-in button: test id, then English role name, then Arabic role name, whose failure escapes. */
  method ClickLogin(page: Page, t: nat) returns (r: Result<Selector, Failure>)
    ensures r.Ok? ==> exists k :: 0 <= k < |LoginButtons| && FirstToClick(page, t, LoginButtons, k) && r.value == LoginButtons[k]
    ensures r.Err? ==> r.error == ClickFailed(LoginArabic)
                       && forall k :: 0 <= k < |LoginButtons| ==> !page.click(t, LoginButtons[k], Normal)
  {
    if page.click(t, LoginTestid, Normal) {
      assert FirstToClick(page, t, LoginButtons, 0);
      return Ok(LoginTestid);
    }
    if page.click(t, LoginRole, Normal) {
      assert FirstToClick(page, t, LoginButtons, 1);
      return Ok(LoginRole);
    }
    if page.click(t, LoginArabic, Normal) {
      assert FirstToClick(page, t, LoginButtons, 2);
      return Ok(LoginArabic);
    }
    r := Err(ClickFailed(LoginArabic));
  }

  /**
   * The end of the login: the verdict, then either the session saved to the
   * cookie path, or the failure screenshot and HTML beside it and an error
   * naming the screenshot. The browser is closed on both paths.
   */
  method Conclude(page: Page, t: nat, path: string) returns (r: Result<string, LoginError>, steps: seq<Step>)
    ensures r.Ok? <==> LoggedIn(page, t)
    ensures r.Ok? ==> r.value == path && steps == [SavedState(path), BrowserClosed]
    ensures r.Err? ==> && r.error == NotLoggedIn(FailedShot(path))
                       && steps == [Screenshot(FailedShot(path)), SavedHtml(FailedHtml(path)), BrowserClosed]
  {
    var ok := CheckLoginSuccess(page, t);
    if !ok {
      var shot := FailedShot(path);
      return Err(NotLoggedIn(shot)), [Screenshot(shot), SavedHtml(FailedHtml(path)), BrowserClosed];
    }
    r, steps := Ok(path), [SavedState(path), BrowserClosed];
  }

  /** The step touches the password field. */
  predicate TouchesPassword(s: Step)
  {
    (s.Clicked? || s.Typed? || s.Filled?) && s.sel == PasswordInput
  }

  /** No step touches the password field. */
  predicate LeavesPassword(steps: seq<Step>)
  {
    forall i :: 0 <= i < |steps| ==> !TouchesPassword(steps[i])
  }

  /** No step saves the session. */
  predicate SavesNothing(trace: seq<Step>)
  {
    forall i :: 0 <= i < |trace| ==> !trace[i].SavedState?
  }

  /** Every password step of `a + b` comes from `b` when `a` has none. */
  lemma PasswordStepsFrom(a: seq<Step>, b: seq<Step>)
    requires LeavesPassword(a)
    ensures forall i :: 0 <= i < |a + b| && TouchesPassword((a + b)[i]) ==> |a| <= i && TouchesPassword(b[i - |a|])
  {
  }

  lemma SavesNothingAppend(a: seq<Step>, b: seq<Step>)
    requires SavesNothing(a) && SavesNothing(b)
    ensures SavesNothing(a + b)
  {
    forall i | 0 <= i < |a + b|
      ensures !(a + b)[i].SavedState?
    {
      if i >= |a| {
        assert (a + b)[i] == b[i - |a|];
      }
    }
  }

  /** The user-name steps: the field's click, then `type_like_human`. */
  function UserSteps(username: string): seq<Step>
  {
    [Clicked(UserInput, Normal), Clicked(UserInput, Normal), Typed(UserInput, username)]
  }

  /**
   * From the login page to the checks: wait for the user-name field, type
   * the name, pause, click Next, pause. The result is the instant of the
   * checks.
   */
  method ReachChecks(page: Page, t0: nat, w: Pauses, username: string) returns (r: Result<nat, Failure>, steps: seq<Step>)
    ensures WaitFor(page, t0 + w.beforeUser, UserInput, Visible, UserWaitMs).Err?
            ==> r == Err(WaitTimedOut(UserInput)) && steps == []
    ensures steps == [] || (|steps| >= 3 && steps[..3] == UserSteps(username))
    ensures r.Ok? ==> && WaitFor(page, t0 + w.beforeUser, UserInput, Visible, UserWaitMs).Ok?
                      && r.value == WaitFor(page, t0 + w.beforeUser, UserInput, Visible, UserWaitMs).value + w.userTyping + w.afterNext
                      && |steps| == 4 && steps[3].Clicked? && steps[3].sel in NextButtons
    ensures LeavesPassword(steps) && SavesNothing(steps)
  {
    var user := WaitFor(page, t0 + w.beforeUser, UserInput, Visible, UserWaitMs);
    if user.Err? {
      return Err(user.error), [];
    }
    var typed;
    typed, steps := EnterField(page, user.value, UserInput, username);
    if typed.Err? {
      return Err(typed.error), [];
    }
    var t := user.value + w.userTyping;
    var next := ClickNext(page, t);
    if next.Err? {
      return Err(next.error), steps;
    }
    steps := steps + [Clicked(next.value, Normal)];
    r := Ok(t + w.afterNext);
  }

  /**
   * From the password field to the end: wait for it, type the password,
   * pause, click the log-in button, pause, decide. The ghost result is the
   * instant `check_login_success` was called, when the run got that far.
   */
  method SignIn(page: Page, t: nat, w: Pauses, password: string, path: string)
    returns (r: Result<string, LoginError>, steps: seq<Step>, ghost verdict: Option<nat>)
    ensures WaitFor(page, t, PasswordInput, Visible, PasswordWaitMs).Err?
            ==> r == Err(PasswordFieldMissing) && steps == [Screenshot(PasswordShot)]
    ensures verdict.Some? ==> && WaitFor(page, t, PasswordInput, Visible, PasswordWaitMs).Ok?
                              && verdict.value == WaitFor(page, t, PasswordInput, Visible, PasswordWaitMs).value
                                                  + w.passwordTyping + w.afterLogin
                              && Typed(PasswordInput, password) in steps
    ensures r.Ok? <==> verdict.Some? && LoggedIn(page, verdict.value)
    ensures r.Ok? ==> r.value == path && |steps| >= 2 && steps[|steps| - 2..] == [SavedState(path), BrowserClosed]
    ensures verdict.Some? && !LoggedIn(page, verdict.value)
            ==> && r == Err(NotLoggedIn(FailedShot(path)))
                && |steps| >= 3 && steps[|steps| - 3..] == [Screenshot(FailedShot(path)), SavedHtml(FailedHtml(path)), BrowserClosed]
    ensures r.Err? ==> SavesNothing(steps)
  {
    verdict := None;
    var entered;
    entered, steps := EnterPassword(page, t, password);
    if entered.Err? {
      return Err(entered.error), steps, None;
    }
    assert steps[2] == Typed(PasswordInput, password);
    var now := entered.value + w.passwordTyping;
    var login := ClickLogin(page, now);
    if login.Err? {
      return Err(PageError(login.error)), steps, None;
    }
    steps := steps + [Clicked(login.value, Normal)];
    now := now + w.afterLogin;
    verdict := Some(now);
    var outcome, last := Conclude(page, now, path);
    r := outcome;
    assert steps[2] == Typed(PasswordInput, password);
    steps := steps + last;
    assert steps[|steps| - |last|..] == last;
    if r.Err? {
      SavesNothingAppend(steps[..|steps| - 3], last);
      assert steps == steps[..|steps| - 3] + last;
    }
  }

  /**
   * What the run does from the instant `t` of the two checks on: a rate-limit
   * message stops it with a screenshot, then an extra verification input
   * does; only when both are absent is the password field touched; a
   * password field that never shows stops it with a screenshot; the session
   * is saved exactly when `check_login_success`, called at `verdict`, says
   * yes, and otherwise the failure files are written beside the session
   * path.
   */
  ghost predicate FromChecks(page: Page, t: nat, w: Pauses, password: string, path: string,
                             r: Result<string, LoginError>, steps: seq<Step>, verdict: Option<nat>)
  {
    var rateLimited := AnyShown(page, t, RateLimitTexts);
    var verifying := Shown(page, t, VerifyInput);
    var field := WaitFor(page, t, PasswordInput, Visible, PasswordWaitMs);
    && (rateLimited ==> r == Err(RateLimited) && steps == [Screenshot(RateLimitShot)] && verdict.None?)
    && (!rateLimited && verifying ==> r == Err(VerificationRequired) && steps == [Screenshot(VerifyShot)] && verdict.None?)
    && (!LeavesPassword(steps) ==> !rateLimited && !verifying)
    && (!rateLimited && !verifying && field.Err? ==> r == Err(PasswordFieldMissing) && steps == [Screenshot(PasswordShot)])
    && (verdict.Some? ==> && !rateLimited && !verifying && field.Ok?
                          && verdict.value == field.value + w.passwordTyping + w.afterLogin
                          && Typed(PasswordInput, password) in steps)
    && (r.Ok? <==> verdict.Some? && LoggedIn(page, verdict.value))
    && (r.Ok? ==> r.value == path && |steps| >= 2 && steps[|steps| - 2..] == [SavedState(path), BrowserClosed])
    && (verdict.Some? && !LoggedIn(page, verdict.value)
        ==> && r == Err(NotLoggedIn(FailedShot(path)))
            && |steps| >= 3 && steps[|steps| - 3..] == [Screenshot(FailedShot(path)), SavedHtml(FailedHtml(path)), BrowserClosed])
    && (r.Err? ==> SavesNothing(steps))
  }

  /** From the checks to the end: the two checks and, only when both pass, `SignIn`. */
  method PastChecks(page: Page, t: nat, w: Pauses, password: string, path: string)
    returns (r: Result<string, LoginError>, steps: seq<Step>, ghost verdict: Option<nat>)
    ensures FromChecks(page, t, w, password, path, r, steps, verdict)
  {
    var clear;
    clear, steps := CheckBlocked(page, t);
    if clear.Err? {
      return Err(clear.error), steps, None;
    }
    r, steps, verdict := SignIn(page, t, w, password, path);
  }

  /** The session file of `login_twitter`: `cookies_dir / _safe_cookie_filename(username)`. */
  function SessionPath(cookiesDir: string, username: string): string
  {
    CookiePath(cookiesDir, SafeCookieFilename(username))
  }

  /** `PastChecks` after the steps `head` that led to the checks. */
  method Finish(page: Page, t: nat, w: Pauses, password: string, path: string, head: seq<Step>)
    returns (r: Result<string, LoginError>, trace: seq<Step>, ghost verdict: Option<nat>)
    requires LeavesPassword(head) && SavesNothing(head)
    ensures |trace| >= |head| && forall i :: 0 <= i < |head| ==> trace[i] == head[i]
    ensures FromChecks(page, t, w, password, path, r, trace[|head|..], verdict)
    ensures forall i :: 0 <= i < |trace| && TouchesPassword(trace[i]) ==> |head| <= i
    ensures r.Err? ==> SavesNothing(trace)
  {
    var back;
    r, back, verdict := PastChecks(page, t, w, password, path);
    trace := head + back;
    assert trace[|head|..] == back;
    PasswordStepsFrom(head, back);
    if r.Err? {
      SavesNothingAppend(head, back);
    }
  }

  /**
   * A run of `login_twitter` that saves the session to `path`: the login page
   * first; a user-name field that never shows ends it there; otherwise the
   * name is typed, Next is clicked, and `FromChecks` describes the rest from
   * the instant `checked` of the two checks on. No password step comes before
   * the checks, and a failed run saves nothing.
   */
  ghost predicate LoginRun(page: Page, t0: nat, w: Pauses, username: string, password: string, path: string,
                           r: Result<string, LoginError>, trace: seq<Step>, checked: Option<nat>, verdict: Option<nat>)
  {
    var user := WaitFor(page, t0 + w.beforeUser, UserInput, Visible, UserWaitMs);
    && |trace| >= 2 && trace[0] == Launched(None) && trace[1] == Visited(LoginUrl)
    && (user.Err? ==> r == Err(PageError(WaitTimedOut(UserInput))) && trace == Opening && checked.None?)
    && (|trace| > 2 ==> |trace| >= 5 && trace[2] == trace[3] == Clicked(UserInput, Normal) && trace[4] == Typed(UserInput, username))
    && (checked.Some? ==> && user.Ok? && checked.value == user.value + w.userTyping + w.afterNext
                          && |trace| >= 6 && trace[5].Clicked? && trace[5].sel in NextButtons
                          && FromChecks(page, checked.value, w, password, path, r, trace[6..], verdict))
    && (checked.None? ==> r.Err? && verdict.None? && LeavesPassword(trace))
    && (forall i :: 0 <= i < |trace| && TouchesPassword(trace[i]) ==> 6 <= i && checked.Some?)
    && (r.Err? ==> SavesNothing(trace))
  }

  /** `login_twitter` with the session path already computed. */
  method LoginAt(page: Page, t0: nat, w: Pauses, username: string, password: string, path: string)
    returns (r: Result<string, LoginError>, trace: seq<Step>, ghost checked: Option<nat>, ghost verdict: Option<nat>)
    ensures LoginRun(page, t0, w, username, password, path, r, trace, checked, verdict)
  {
    var reached, front := ReachChecks(page, t0, w, username);
    assert LeavesPassword(Opening);
    if reached.Err? {
      SavesNothingAppend(Opening, front);
      PasswordStepsFrom(Opening, front);
      trace := Opening + front;
      assert |trace| > 2 ==> trace[2] == front[..3][0] && trace[3] == front[..3][1] && trace[4] == front[..3][2];
      return Err(PageError(reached.error)), trace, None, None;
    }
    checked := Some(reached.value);
    SavesNothingAppend(Opening, front);
    PasswordStepsFrom(Opening, front);
    var head := Opening + front;
    assert |head| == 6;
    assert front[0] == front[..3][0] && front[1] == front[..3][1] && front[2] == front[..3][2];
    assert head[0] == Opening[0] && head[1] == Opening[1];
    assert head[2] == front[0] && head[3] == front[1] && head[4] == front[2] && head[5] == front[3];
    r, trace, verdict := Finish(page, reached.value, w, password, path, head);
  }

  /**
   * `login_twitter`. Open the login flow; wait for the user-name field, type
   * the name and click Next; stop on a rate-limit message or an extra
   * verification request; wait for the password field, type the password and
   * click the log-in button; then decide with `check_login_success`. The
   * ghost results are the instant of the two checks after Next and the
   * instant `check_login_success` was called, when the run got that far. A
   * raise before the end leaves the browser to be torn down with the
   * Playwright context, which the trace does not record.
   */
  method LoginTwitter(page: Page, t0: nat, w: Pauses, username: string, password: string, cookiesDir: string)
    returns (r: Result<string, LoginError>, trace: seq<Step>, ghost checked: Option<nat>, ghost verdict: Option<nat>)
    ensures LoginRun(page, t0, w, username, password, SessionPath(cookiesDir, username), r, trace, checked, verdict)
  {
    r, trace, checked, verdict := LoginAt(page, t0, w, username, password, SessionPath(cookiesDir, username));
  }
}

=== FILE: x_post.dfy ===
/**
 * Posting a tweet through the browser (app/x/modules/x_post.py): the video
 * test on the file suffix, the three waits that follow an upload (media
 * ready, video processed, publish button enabled), the fallback chains that
 * find the new-tweet control, the textbox and the publish button, the wait
 * for the composer to close, and the step order of `post_to_x`.
 *
 * The waits are loops over probes, proved equal to recursive functions of the
 * clock as in XActions; the fallback chains are methods proved equal to
 * functions whose contracts state the order of preference.
 */
module XPost {
  import opened Wrappers
  import opened Text
  import opened Browser
  import Utils
  import XActions

  // ---------------------------------------------------------------------------
  // _is_video_file
  // ---------------------------------------------------------------------------

  const VideoExtensions: set<string> := {".mp4", ".mov", ".mkv", ".webm", ".m4v", ".avi"}

  /** `_is_video_file`: the lower-cased suffix of the path is a video extension. */
  function IsVideoFile(path: string): (r: bool)
    ensures r ==> 4 <= |Utils.PathSuffix(path)| <= 5 && Utils.PathSuffix(path)[0] == '.'
  {
    Lower(Utils.PathSuffix(path)) in VideoExtensions
  }

  /** The last dot of `stem + ext` is the one that starts `ext`. */
  lemma LastDotBeforeExtension(stem: string, ext: string)
    requires |ext| >= 1 && ext[0] == '.' && '.' !in ext[1..]
    ensures LastIndexOf(stem + ext, '.') == |stem|
    ensures (stem + ext)[|stem|..] == ext
  {
    var name := stem + ext;
    forall j | |stem| < j < |name|
      ensures name[j] != '.'
    {
      assert name[j] == ext[1..][j - |stem| - 1];
    }
    LastIndexOfAt(name, '.', |stem|);
  }

  /**
   * A file `stem + ext` in directory `dir` (empty, or ending in '/') has the
   * suffix `ext` when the stem is not empty and `ext` is a dot followed by at
   * least one character and no further dot.
   */
  lemma SuffixOfFile(dir: string, stem: string, ext: string)
    requires dir == [] || dir[|dir| - 1] == '/'
    requires stem != [] && '/' !in stem
    requires |ext| >= 2 && ext[0] == '.' && '.' !in ext[1..] && '/' !in ext
    ensures Utils.PathSuffix(dir + stem + ext) == ext
  {
    assert dir + stem + ext == dir + (stem + ext);
    assert (stem + ext)[0] == stem[0];
    Utils.PathNameAfter(dir, stem + ext);
    LastDotBeforeExtension(stem, ext);
  }

  /** Such a file is a video exactly when its extension, lower-cased, is a video extension. */
  lemma VideoByExtension(dir: string, stem: string, ext: string)
    requires dir == [] || dir[|dir| - 1] == '/'
    requires stem != [] && '/' !in stem
    requires |ext| >= 2 && ext[0] == '.' && '.' !in ext[1..] && '/' !in ext
    ensures IsVideoFile(dir + stem + ext) <==> Lower(ext) in VideoExtensions
  {
    SuffixOfFile(dir, stem, ext);
  }

  /** A name whose only dot is its first character has no suffix. */
  lemma DotFileHasNoSuffix(dir: string, name: string)
    requires dir == [] || dir[|dir| - 1] == '/'
    requires |name| >= 2 && name[0] == '.' && '.' !in name[1..] && '/' !in name
    ensures Utils.PathSuffix(dir + name) == []
  {
    Utils.PathNameAfter(dir, name);
    LastDotBeforeExtension([], name);
    assert [] + name == name;
  }

  /** So a file named by an extension alone, such as ".mp4", is not a video. */
  lemma DotFileIsNoVideo(dir: string, name: string)
    requires dir == [] || dir[|dir| - 1] == '/'
    requires |name| >= 2 && name[0] == '.' && '.' !in name[1..] && '/' !in name
    ensures !IsVideoFile(dir + name)
  {
    DotFileHasNoSuffix(dir, name);
    NoSuffixNoVideo(dir + name);
  }

  /** A path without a suffix is not a video. */
  lemma NoSuffixNoVideo(path: string)
    requires Utils.PathSuffix(path) == []
    ensures !IsVideoFile(path)
  {
    assert Lower([]) == [];
  }

  /** A path without a dot in its name is never a video. */
  lemma NoDotNoVideo(path: string)
    requires '.' !in Utils.PathName(path)
    ensures !IsVideoFile(path)
  {
    assert LastIndexOf(Utils.PathName(path), '.') == -1;
    assert Lower([]) == [];
  }

  // ---------------------------------------------------------------------------
  // _wait_media_uploaded_or_ready
  // ---------------------------------------------------------------------------

  const PostPreviews: seq<Selector> := [
    "div[data-testid=\"attachments\"]",
    "div[data-testid=\"tweetPhoto\"]",
    "div[data-testid=\"tweetPhotoContainer\"]",
    "div[data-testid=\"mediaContainer\"]",
    "div[data-testid=\"videoPlayer\"]",
    "div[data-testid=\"videoComponent\"]",
    "video",
    "#layers img",
    "#layers video"
  ]

  const PostIndicators: seq<Selector> := [
    "div[data-testid=\"mediaUploadProgress\"]",
    "#layers div[data-testid=\"mediaUploadProgress\"]",
    "div[data-testid=\"attachments\"] div[role=\"progressbar\"]",
    "div[data-testid=\"mediaContainer\"] div[role=\"progressbar\"]",
    "div[data-testid=\"tweetPhotoContainer\"] div[role=\"progressbar\"]",
    "div[data-testid=\"videoPlayer\"] div[role=\"progressbar\"]",
    "div[aria-label*=\"Uploading\"]",
    "div[aria-label*=\"Processing\"]",
    "div[aria-label*=\"رفع\"]",
    "div[aria-label*=\"معالجة\"]",
    "svg[aria-label*=\"Uploading\"]",
    "svg[aria-label*=\"Processing\"]",
    "svg[aria-label*=\"رفع\"]",
    "svg[aria-label*=\"معالجة\"]"
  ]

  const PostRemoveButton: Selector :=
    "#layers [aria-label=\"Remove\"], #layers [aria-label=\"Remove media\"], "
    + "#layers [aria-label=\"إزالة\"], #layers [aria-label=\"حذف\"], "
    + "#layers [data-testid*=\"remove\"]"

  const UnseenPollMs := 250
  const ReadyPauseMs := 700
  const BusyPollMs := 400

  /** `_media_preview_visible`: the scope is looked up again at every call. */
  predicate PreviewVisible(page: Page, t: nat)
  {
    XActions.AnyShownIn(page, t, GetScope(page, t), PostPreviews)
  }

  /** `_media_uploading_indicator_visible`: the scope is looked up again at every call. */
  predicate IndicatorVisible(page: Page, t: nat)
  {
    XActions.AnyShownIn(page, t, GetScope(page, t), PostIndicators)
  }

  /** What one poll of the ready wait counts as a sighting; the remove button is resolved in the scope of the start. */
  function ReadySeen(page: Page, scope: Scope): Probe
  {
    (t: nat) => PreviewVisible(page, t) || Shown(page, t, Within(scope, PostRemoveButton))
  }

  function ReadyBusy(page: Page): Probe
  {
    (t: nat) => IndicatorVisible(page, t)
  }

  /**
   * The ready wait from instant `t`: polls every 250 ms until the media is
   * seen (the sighting is latched), then returns 700 ms after the first poll
   * that shows no indicator, polling every 400 ms while one shows; a
   * TimeoutError at the deadline.
   */
  function ReadyRounds(seen: Probe, busy: Probe, t: nat, deadline: nat, saw: bool): (r: Result<nat, Failure>)
    ensures r.Err? ==> r.error == TimeoutError(XActions.MediaTimeoutMessage)
    decreases deadline - t
  {
    if t >= deadline then Err(TimeoutError(XActions.MediaTimeoutMessage))
    else if !(saw || seen(t)) then ReadyRounds(seen, busy, t + UnseenPollMs, deadline, false)
    else if !busy(t) then Ok(t + ReadyPauseMs)
    else ReadyRounds(seen, busy, t + BusyPollMs, deadline, true)
  }

  /**
   * The ready wait returns 700 ms after a poll before the deadline that saw no
   * indicator, and the media had been seen at or before that poll.
   */
  lemma {:induction false} ReadyMeaning(seen: Probe, busy: Probe, t0: nat, t: nat, deadline: nat, saw: bool)
    requires t0 <= t
    requires saw ==> exists s: nat :: t0 <= s <= t && seen(s)
    requires ReadyRounds(seen, busy, t, deadline, saw).Ok?
    ensures var done := ReadyRounds(seen, busy, t, deadline, saw).value;
            && done >= ReadyPauseMs && t <= done - ReadyPauseMs < deadline
            && !busy(done - ReadyPauseMs)
            && exists s: nat :: t0 <= s <= done - ReadyPauseMs && seen(s)
    decreases deadline - t
  {
    if !(saw || seen(t)) {
      ReadyMeaning(seen, busy, t0, t + UnseenPollMs, deadline, false);
    } else if busy(t) {
      var s: nat :| t0 <= s <= t && seen(s);
      ReadyMeaning(seen, busy, t0, t + BusyPollMs, deadline, true);
    } else if !saw {
      assert seen(t);
    }
  }

  /**
   * Unlike the composer wait of the reply and quote actions, which needs four
   * quiet polls, the ready wait accepts the first quiet poll after a sighting:
   * media shown with no indicator at the start is accepted at once, where the
   * composer wait takes at least 900 ms more.
   */
  lemma ReadyIsPrompt(seen: Probe, busy: Probe, t0: nat, deadline: nat)
    requires t0 < deadline && seen(t0) && !busy(t0)
    ensures ReadyRounds(seen, busy, t0, deadline, false) == Ok(t0 + ReadyPauseMs)
    ensures var slow := XActions.MediaRounds(seen, busy, t0, deadline, false, 0);
            slow.Ok? ==> slow.value >= t0 + 3 * XActions.CalmPollMs + ReadyPauseMs
  {
    if XActions.MediaRounds(seen, busy, t0, deadline, false, 0).Ok? {
      XActions.MediaWaitSettled(seen, busy, t0, deadline);
    }
  }

  /** The loop of `_wait_media_uploaded_or_ready` over its probes. */
  method ReadyLoop(seen: Probe, busy: Probe, t0: nat, deadline: nat) returns (r: Result<nat, Failure>)
    ensures r == ReadyRounds(seen, busy, t0, deadline, false)
  {
    var t := t0;
    var sawPreview := false;
    while t < deadline
      invariant ReadyRounds(seen, busy, t, deadline, sawPreview) == ReadyRounds(seen, busy, t0, deadline, false)
      decreases deadline - t
    {
      if seen(t) {
        sawPreview := true;
      }
      if !sawPreview {
        t := t + UnseenPollMs;
        continue;
      }
      if !busy(t) {
        return Ok(t + ReadyPauseMs);
      }
      t := t + BusyPollMs;
    }
    r := Err(TimeoutError(XActions.MediaTimeoutMessage));
  }

  /** `_wait_media_uploaded_or_ready(page, timeout_ms)` started at `t0`. */
  method WaitMediaUploadedOrReady(page: Page, t0: nat, timeoutMs: nat) returns (r: Result<nat, Failure>)
    ensures r == ReadyRounds(ReadySeen(page, GetScope(page, t0)), ReadyBusy(page), t0, t0 + timeoutMs, false)
  {
    r := ReadyLoop(ReadySeen(page, GetScope(page, t0)), ReadyBusy(page), t0, t0 + timeoutMs);
  }

  // ---------------------------------------------------------------------------
  // _wait_media_processed_video
  // ---------------------------------------------------------------------------

  const VideoTimeoutMessage := "انتهت مهلة انتظار اكتمال معالجة الفيديو."
  const VideoBusyPollMs := 600
  const VideoCalmPollMs := 500
  const StableNeeded := 3
  const VideoPauseMs := 1200

  /**
   * The video wait from instant `t` with `hits` quiet polls counted: an
   * indicator resets the count and waits 600 ms; a quiet poll counts, and the
   * third one in a row returns after 1.2 s; a TimeoutError at the deadline.
   */
  function VideoRounds(busy: Probe, t: nat, deadline: nat, hits: nat): (r: Result<nat, Failure>)
    ensures r.Err? ==> r.error == TimeoutError(VideoTimeoutMessage)
    decreases deadline - t
  {
    if t >= deadline then Err(TimeoutError(VideoTimeoutMessage))
    else if busy(t) then VideoRounds(busy, t + VideoBusyPollMs, deadline, 0)
    else if hits + 1 >= StableNeeded then Ok(t + VideoPauseMs)
    else VideoRounds(busy, t + VideoCalmPollMs, deadline, hits + 1)
  }

  /** What the video wait has seen when it reaches `t` with `hits` quiet polls counted. */
  predicate VideoHistory(busy: Probe, t0: nat, t: nat, hits: nat)
  {
    && hits < StableNeeded
    && t >= t0 + VideoCalmPollMs * hits
    && (hits >= 1 ==> !busy(t - VideoCalmPollMs))
    && (hits >= 2 ==> !busy(t - 2 * VideoCalmPollMs))
  }

  /**
   * The video wait returns 1.2 s after the third of three consecutive quiet
   * polls, 500 ms apart, the last of them before the deadline; no sighting of
   * the media is needed.
   */
  lemma {:induction false} VideoSettles(busy: Probe, t0: nat, t: nat, deadline: nat, hits: nat)
    requires VideoHistory(busy, t0, t, hits)
    requires VideoRounds(busy, t, deadline, hits).Ok?
    ensures var last := VideoRounds(busy, t, deadline, hits).value - VideoPauseMs;
            && t0 + 2 * VideoCalmPollMs <= last < deadline
            && !busy(last) && !busy(last - VideoCalmPollMs) && !busy(last - 2 * VideoCalmPollMs)
    decreases deadline - t
  {
    if busy(t) {
      VideoSettles(busy, t0, t + VideoBusyPollMs, deadline, 0);
    } else if hits + 1 < StableNeeded {
      VideoSettles(busy, t0, t + VideoCalmPollMs, deadline, hits + 1);
    }
  }

  /** A single indicator between quiet polls starts the count again. */
  lemma VideoResetByIndicator(busy: Probe, t: nat, deadline: nat)
    requires t + 2 * VideoCalmPollMs + VideoBusyPollMs < deadline
    requires !busy(t) && !busy(t + VideoCalmPollMs) && busy(t + 2 * VideoCalmPollMs)
    ensures VideoRounds(busy, t, deadline, 0) == VideoRounds(busy, t + 2 * VideoCalmPollMs + VideoBusyPollMs, deadline, 0)
  {
    assert VideoRounds(busy, t + VideoCalmPollMs, deadline, 1)
        == VideoRounds(busy, t + 2 * VideoCalmPollMs, deadline, 2);
  }

  /** `_wait_media_processed_video(page, timeout_ms)` started at `t0`, with its probe. */
  method VideoLoop(busy: Probe, t0: nat, deadline: nat) returns (r: Result<nat, Failure>)
    ensures r == VideoRounds(busy, t0, deadline, 0)
  {
    var t := t0;
    var stableHits := 0;
    while t < deadline
      invariant VideoRounds(busy, t, deadline, stableHits) == VideoRounds(busy, t0, deadline, 0)
      decreases deadline - t
    {
      if busy(t) {
        stableHits := 0;
        t := t + VideoBusyPollMs;
        continue;
      }
      stableHits := stableHits + 1;
      if stableHits >= StableNeeded {
        return Ok(t + VideoPauseMs);
      }
      t := t + VideoCalmPollMs;
    }
    r := Err(TimeoutError(VideoTimeoutMessage));
  }

  // ---------------------------------------------------------------------------
  // _wait_publish_button_enabled
  // ---------------------------------------------------------------------------

  const InlineButton := "button[data-testid=\"tweetButtonInline\"]"
  const TweetButton := "button[data-testid=\"tweetButton\"]"
  const GateMessage := "زر النشر لم يصبح متاحًا ضمن المهلة."
  const GatePollMs := 400

  /** The button the gate inspects: the inline one when it shows, the plain one otherwise. */
  function GateButton(page: Page, scope: Scope, t: nat): (b: Selector)
    ensures b == Within(scope, InlineButton) <==> Shown(page, t, Within(scope, InlineButton))
  {
    if Shown(page, t, Within(scope, InlineButton)) then Within(scope, InlineButton)
    else
      assert |Within(scope, TweetButton)| != |Within(scope, InlineButton)|;
      Within(scope, TweetButton)
  }

  /** One poll of the gate: the inspected button is shown, not aria-disabled, and not reported disabled. */
  function GateProbe(page: Page, scope: Scope): Probe
  {
    (t: nat) => XActions.Acceptable(page, t, GateButton(page, scope, t))
  }

  /**
   * `_wait_publish_button_enabled(page, timeout_ms)` started at `t0`, with the
   * scope of the start: the first poll (every 400 ms) that accepts the button;
   * a TimeoutError, never a False, when none does.
   */
  method WaitPublishButtonEnabled(page: Page, t0: nat, timeoutMs: nat) returns (r: Result<nat, Failure>)
    ensures var first := FirstPoll(GateProbe(page, GetScope(page, t0)), t0, t0 + timeoutMs, GatePollMs);
            && (r.Ok? <==> first.Some?)
            && (r.Ok? ==> r.value == first.value)
            && (r.Err? ==> r.error == TimeoutError(GateMessage))
  {
    var deadline := t0 + timeoutMs;
    var scope := GetScope(page, t0);
    var probe := GateProbe(page, scope);
    var t := t0;
    while t < deadline
      invariant FirstPoll(probe, t, deadline, GatePollMs) == FirstPoll(probe, t0, deadline, GatePollMs)
      decreases deadline - t
    {
      var btn := Within(scope, InlineButton);
      if !(page.count(t, btn) > 0 && page.visible(t, btn)) {
        btn := Within(scope, TweetButton);
      }
      if page.count(t, btn) > 0 && page.visible(t, btn) {
        var disabled := page.ariaDisabled(t, btn) == Some("true");
        var enabled := page.enabled(t, btn);
        if enabled.Some? && enabled.value && !disabled {
          return Ok(t);
        }
        if enabled.None? && !disabled {
          return Ok(t);
        }
      }
      t := t + GatePollMs;
    }
    r := Err(TimeoutError(GateMessage));
  }

  /**
   * The gate opens at a poll where the preferred button is acceptable, no
   * earlier poll had an acceptable button, and a shown inline button is always
   * the one judged.
   */
  lemma GateMeaning(page: Page, t0: nat, timeoutMs: nat)
    ensures var scope := GetScope(page, t0);
            var first := FirstPoll(GateProbe(page, scope), t0, t0 + timeoutMs, GatePollMs);
            && (first.Some? ==> t0 <= first.value < t0 + timeoutMs
                                && XActions.Acceptable(page, first.value, GateButton(page, scope, first.value))
                                && forall j :: PollAt(t0, GatePollMs, j) < first.value
                                     ==> !XActions.Acceptable(page, PollAt(t0, GatePollMs, j), GateButton(page, scope, PollAt(t0, GatePollMs, j))))
            && (first.None? ==> forall j :: PollAt(t0, GatePollMs, j) < t0 + timeoutMs
                                  ==> !XActions.Acceptable(page, PollAt(t0, GatePollMs, j), GateButton(page, scope, PollAt(t0, GatePollMs, j))))
  {
    FirstPollMeaning(GateProbe(page, GetScope(page, t0)), t0, t0 + timeoutMs, GatePollMs);
  }

  // ---------------------------------------------------------------------------
  // _click_publish
  // ---------------------------------------------------------------------------

  const PublishText := "button:has-text(\"Post\"), button:has-text(\"Tweet\"), button:has-text(\"نشر\")"
  const PagePublish := "button[data-testid=\"tweetButton\"], button[data-testid=\"tweetButtonInline\"]"
  const LookupPauseMs := 1000
  const TweetButtonWaitMs := 10000
  const ScrollPauseMs := 500
  const NoButtonShot := "debug_no_button.png"
  const NoPublishButton := "لم يتم العثور على زر النشر. تم حفظ screenshot للتشخيص."
  const PublishClickFailed := "فشل الضغط على زر النشر بجميع الطرق"

  /** Every selector the publish lookup can settle on. */
  const PublishButtons: seq<Selector> := [
    InlineButton, Within(InDialog, InlineButton), TweetButton, Within(InDialog, TweetButton),
    PublishText, Within(InDialog, PublishText), PagePublish
  ]

  /** What a lookup settled on, and when. */
  datatype Found = Found(sel: Option<Selector>, at: nat)

  /**
   * The lookup of `_click_publish` after its 1 s pause: the inline button in
   * the scope when it shows; else the plain button in the scope when there is
   * one and it becomes visible within 10 s (a wait that times out costs the
   * 10 s); else the first button with a publish text in the scope; else a
   * publish button anywhere on the page; else nothing.
   */
  function PublishLookup(page: Page, t0: nat): (f: Found)
    ensures f.sel.Some? ==> f.sel.value in PublishButtons
    ensures var t := t0 + LookupPauseMs;
            var scope := GetScope(page, t);
            && (f.sel == Some(Within(scope, InlineButton)) && f.at == t <==> Shown(page, t, Within(scope, InlineButton)))
            && (f.sel.None? <==> && !Shown(page, t, Within(scope, InlineButton))
                                 && (page.count(t, Within(scope, TweetButton)) > 0
                                     ==> WaitFor(page, t, Within(scope, TweetButton), Visible, TweetButtonWaitMs).Err?)
                                 && page.count(f.at, Within(scope, PublishText)) == 0
                                 && page.count(f.at, PagePublish) == 0)
    ensures var t := t0 + LookupPauseMs;
            var scope := GetScope(page, t);
            var normal := Within(scope, TweetButton);
            var waited := WaitFor(page, t, normal, Visible, TweetButtonWaitMs);
            var gotNormal := page.count(t, normal) > 0 && waited.Ok?;
            var t' := if page.count(t, normal) > 0 then t + TweetButtonWaitMs else t;
            && (f.sel == Some(normal) <==> !Shown(page, t, Within(scope, InlineButton)) && gotNormal)
            && (f.sel == Some(normal) ==> f.at == waited.value)
            && (f.sel == Some(Within(scope, PublishText))
                <==> && !Shown(page, t, Within(scope, InlineButton)) && !gotNormal
                     && page.count(t', Within(scope, PublishText)) > 0)
            && (f.sel == Some(PagePublish)
                <==> && !Shown(page, t, Within(scope, InlineButton)) && !gotNormal
                     && page.count(t', Within(scope, PublishText)) == 0 && page.count(t', PagePublish) > 0)
            && (!Shown(page, t, Within(scope, InlineButton)) && !gotNormal ==> f.at == t')
  {
    var t := t0 + LookupPauseMs;
    var scope := GetScope(page, t);
    var inline := Within(scope, InlineButton);
    var normal := Within(scope, TweetButton);
    var byText := Within(scope, PublishText);
    assert |normal| != |inline| && |byText| != |inline| && |PagePublish| != |inline|;
    assert |normal| != |byText| && |normal| != |PagePublish| && |byText| != |PagePublish|;
    if Shown(page, t, inline) then Found(Some(inline), t)
    else
      var waited := if page.count(t, normal) > 0 then WaitFor(page, t, normal, Visible, TweetButtonWaitMs) else Err(WaitTimedOut(normal));
      if waited.Ok? then Found(Some(normal), waited.value)
      else
        var t' := if page.count(t, normal) > 0 then t + TweetButtonWaitMs else t;
        if page.count(t', byText) > 0 then Found(Some(byText), t')
        else if page.count(t', PagePublish) > 0 then Found(Some(PagePublish), t')
        else Found(None, t')
  }

  /** The first delivery of a click that goes through: normal, forced, then a mouse click at the box's centre. */
  function ClickChain(page: Page, t: nat, sel: Selector): (m: Option<ClickMode>)
    ensures m == Some(Normal) <==> page.click(t, sel, Normal)
    ensures m == Some(Forced) <==> !page.click(t, sel, Normal) && page.click(t, sel, Forced)
    ensures m == Some(Mouse) <==> !page.click(t, sel, Normal) && !page.click(t, sel, Forced) && page.click(t, sel, Mouse)
    ensures m.Some? ==> page.click(t, sel, m.value)
  {
    if page.click(t, sel, Normal) then Some(Normal)
    else if page.click(t, sel, Forced) then Some(Forced)
    else if page.click(t, sel, Mouse) then Some(Mouse)
    else None
  }

  /**
   * `_click_publish` from instant `t0`: look the button up, pause 500 ms,
   * then click it by the first delivery that goes through. With no button a
   * screenshot is saved and an exception raised; when no delivery goes
   * through an exception is raised. On success the only step is the click.
   */
  method ClickPublish(page: Page, t0: nat) returns (r: Result<nat, Failure>, steps: seq<Step>)
    ensures var f := PublishLookup(page, t0);
            && (f.sel.None? ==> r == Err(Raised(NoPublishButton)) && steps == [Screenshot(NoButtonShot)])
            && (f.sel.Some? ==> (r.Ok? <==> ClickChain(page, f.at + ScrollPauseMs, f.sel.value).Some?))
            && (f.sel.Some? && r.Err? ==> r.error == Raised(PublishClickFailed) && steps == [])
            && (r.Ok? ==> && f.sel.Some? && r.value == f.at + ScrollPauseMs
                          && steps == [Clicked(f.sel.value, ClickChain(page, f.at + ScrollPauseMs, f.sel.value).value)])
  {
    var t := t0 + LookupPauseMs;
    var scope := GetScope(page, t);
    var btn: Option<Selector> := None;
    var inline := Within(scope, InlineButton);
    if page.count(t, inline) > 0 && page.visible(t, inline) {
      btn := Some(inline);
    }
    if btn.None? {
      var normal := Within(scope, TweetButton);
      if page.count(t, normal) > 0 {
        var waited := WaitFor(page, t, normal, Visible, TweetButtonWaitMs);
        if waited.Ok? {
          btn := Some(normal);
          t := waited.value;
        } else {
          t := t + TweetButtonWaitMs;
        }
      }
    }
    if btn.None? {
      var byText := Within(scope, PublishText);
      if page.count(t, byText) > 0 {
        btn := Some(byText);
      }
    }
    if btn.None? && page.count(t, PagePublish) > 0 {
      btn := Some(PagePublish);
    }
    assert Found(btn, t) == PublishLookup(page, t0);
    if btn.None? {
      return Err(Raised(NoPublishButton)), [Screenshot(NoButtonShot)];
    }
    t := t + ScrollPauseMs;
    var b := btn.value;
    steps := [];
    if page.click(t, b, Normal) {
      return Ok(t), [Clicked(b, Normal)];
    }
    if page.click(t, b, Forced) {
      return Ok(t), [Clicked(b, Forced)];
    }
    if page.click(t, b, Mouse) {
      return Ok(t), [Clicked(b, Mouse)];
    }
    r := Err(Raised(PublishClickFailed));
  }

  // ---------------------------------------------------------------------------
  // _wait_post_done
  // ---------------------------------------------------------------------------

  const ToastSel := "div[role='status'], div[aria-live='polite'], div[aria-live='assertive']"
  const DonePollMs := 300
  const PostDoneTimeoutMs := 60000

  /** One poll of `_wait_post_done`: the dialog is gone or hidden, or a status toast shows. */
  function DoneProbe(page: Page): Probe
  {
    (t: nat) => page.count(t, DialogSel) == 0 || !page.visible(t, DialogSel) || Shown(page, t, ToastSel)
  }

  /** `_wait_post_done(page, timeout_ms)` started at `t0`: True at the first poll that sees the post through, False at the deadline. */
  method WaitPostDone(page: Page, t0: nat, timeoutMs: nat) returns (done: bool, t: nat)
    ensures var first := FirstPoll(DoneProbe(page), t0, t0 + timeoutMs, DonePollMs);
            && (done <==> first.Some?)
            && t == (if done then first.value else PollsEnd(t0, t0 + timeoutMs, DonePollMs))
  {
    var deadline := t0 + timeoutMs;
    var probe := DoneProbe(page);
    t := t0;
    while t < deadline
      invariant FirstPoll(probe, t, deadline, DonePollMs) == FirstPoll(probe, t0, deadline, DonePollMs)
      invariant PollsEnd(t, deadline, DonePollMs) == PollsEnd(t0, deadline, DonePollMs)
      decreases deadline - t
    {
      if page.count(t, DialogSel) == 0 {
        return true, t;
      }
      if !page.visible(t, DialogSel) {
        return true, t;
      }
      if page.count(t, ToastSel) > 0 && page.visible(t, ToastSel) {
        return true, t;
      }
      t := t + DonePollMs;
    }
    done := false;
  }

  // ---------------------------------------------------------------------------
  // Opening the composer: the new-tweet fallback chain
  // ---------------------------------------------------------------------------

  /** `get_by_test_id("SideNav_NewTweet_Button")`. */
  const SideNavNewTweet := "[data-testid=\"SideNav_NewTweet_Button\"]"
  const ComposeLinks := "a[href=\"/compose/tweet\"], a[href=\"/compose/post\"]"
  const ComposeLabels := "[aria-label*=\"Post\"], [aria-label*=\"Tweet\"], [aria-label*=\"New\"]"
  const NewTweetKeys := "Control+N"
  const NoNewTweet := "لم يتم العثور على زر New Tweet. قد تحتاج إلى إعادة تسجيل الدخول."

  /**
   * The control that opens the composer: the side-navigation button, a
   * compose link, a control labelled as posting, each only when present and
   * its click goes through; else the Ctrl+N shortcut when the key press goes
   * through; else nothing.
   */
  function NewTweetStep(page: Page, t: nat): (s: Option<Step>)
    ensures s == Some(Clicked(SideNavNewTweet, Normal)) <==> page.count(t, SideNavNewTweet) > 0 && page.click(t, SideNavNewTweet, Normal)
    ensures s == Some(Clicked(ComposeLinks, Normal))
            <==> && !(page.count(t, SideNavNewTweet) > 0 && page.click(t, SideNavNewTweet, Normal))
                 && page.count(t, ComposeLinks) > 0 && page.click(t, ComposeLinks, Normal)
    ensures s == Some(Clicked(ComposeLabels, Normal))
            <==> && !(page.count(t, SideNavNewTweet) > 0 && page.click(t, SideNavNewTweet, Normal))
                 && !(page.count(t, ComposeLinks) > 0 && page.click(t, ComposeLinks, Normal))
                 && page.count(t, ComposeLabels) > 0 && page.click(t, ComposeLabels, Normal)
    ensures s == Some(Pressed(None, NewTweetKeys))
            <==> && !(page.count(t, SideNavNewTweet) > 0 && page.click(t, SideNavNewTweet, Normal))
                 && !(page.count(t, ComposeLinks) > 0 && page.click(t, ComposeLinks, Normal))
                 && !(page.count(t, ComposeLabels) > 0 && page.click(t, ComposeLabels, Normal))
                 && page.key(t, NewTweetKeys)
    ensures s.None? <==> && !(page.count(t, SideNavNewTweet) > 0 && page.click(t, SideNavNewTweet, Normal))
                         && !(page.count(t, ComposeLinks) > 0 && page.click(t, ComposeLinks, Normal))
                         && !(page.count(t, ComposeLabels) > 0 && page.click(t, ComposeLabels, Normal))
                         && !page.key(t, NewTweetKeys)
    ensures s.Some? ==> s.value in [Clicked(SideNavNewTweet, Normal), Clicked(ComposeLinks, Normal),
                                    Clicked(ComposeLabels, Normal), Pressed(None, NewTweetKeys)]
  {
    if page.count(t, SideNavNewTweet) > 0 && page.click(t, SideNavNewTweet, Normal) then Some(Clicked(SideNavNewTweet, Normal))
    else if page.count(t, ComposeLinks) > 0 && page.click(t, ComposeLinks, Normal) then Some(Clicked(ComposeLinks, Normal))
    else if page.count(t, ComposeLabels) > 0 && page.click(t, ComposeLabels, Normal) then Some(Clicked(ComposeLabels, Normal))
    else if page.key(t, NewTweetKeys) then Some(Pressed(None, NewTweetKeys))
    else None
  }

  /** The new-tweet part of `post_to_x`, with its `new_tweet_clicked` flag. */
  method OpenNewTweet(page: Page, t: nat) returns (r: Result<nat, Failure>, steps: seq<Step>)
    ensures NewTweetStep(page, t).None? <==> r.Err?
    ensures r.Err? ==> r.error == Raised(NoNewTweet)
    ensures NewTweetStep(page, t).None? ==> steps == []
    ensures r.Ok? ==> steps == [NewTweetStep(page, t).value] && r.value == t + ComposerPauseMs
  {
    var clicked := false;
    steps := [];
    if page.count(t, SideNavNewTweet) > 0 && page.click(t, SideNavNewTweet, Normal) {
      clicked, steps := true, [Clicked(SideNavNewTweet, Normal)];
    }
    if !clicked && page.count(t, ComposeLinks) > 0 && page.click(t, ComposeLinks, Normal) {
      clicked, steps := true, [Clicked(ComposeLinks, Normal)];
    }
    if !clicked && page.count(t, ComposeLabels) > 0 && page.click(t, ComposeLabels, Normal) {
      clicked, steps := true, [Clicked(ComposeLabels, Normal)];
    }
    if !clicked && page.key(t, NewTweetKeys) {
      clicked, steps := true, [Pressed(None, NewTweetKeys)];
    }
    if !clicked {
      return Err(Raised(NoNewTweet)), steps;
    }
    r := Ok(t + ComposerPauseMs);
  }

  // ---------------------------------------------------------------------------
  // _get_textbox and writing the text
  // ---------------------------------------------------------------------------

  const ComposerPauseMs := 2000
  const TextboxRole := "div[data-testid=\"tweetTextarea_0\"][role=\"textbox\"]"
  const Textarea := "div[data-testid=\"tweetTextarea_0\"]"
  const Editable := "[contenteditable=\"true\"][role=\"textbox\"]"
  const Placeholder := "[placeholder*=\"What\"], [placeholder*=\"happening\"], [placeholder*=\"يحدث\"]"
  const TextboxWaitMs := 10000
  const NoTextbox := "لم يتم العثور على textbox للكتابة"

  /**
   * One try of `_get_textbox`: a selector that must be present first
   * (`counted`) or need not be, and that must become visible within 10 s.
   * Returns where the search goes on: the textbox found, or the instant to
   * try the next way from.
   */
  function TryTextbox(page: Page, t: nat, sel: Selector, counted: bool): (r: Result<Found, nat>)
    ensures r.Ok? ==> r.value.sel == Some(sel) && t <= r.value.at <= t + TextboxWaitMs
    ensures r.Ok? <==> (!counted || page.count(t, sel) > 0) && WaitFor(page, t, sel, Visible, TextboxWaitMs).Ok?
  {
    if counted && page.count(t, sel) == 0 then Err(t)
    else
      var w := WaitFor(page, t, sel, Visible, TextboxWaitMs);
      if w.Ok? then Ok(Found(Some(sel), w.value)) else Err(t + TextboxWaitMs)
  }

  /** The ways `_get_textbox` tries, in order, each with whether its selector must be present first. */
  function TextboxWays(scope: Scope): seq<(Selector, bool)>
  {
    [(Within(scope, TextboxRole), true), (Within(scope, Textarea), true), (Editable, false), (Placeholder, false)]
  }

  /** Trying `ways` in order from `t`: the first that finds its textbox, each tried where the previous one gave up. */
  function FirstTextbox(page: Page, t: nat, ways: seq<(Selector, bool)>): (f: Found)
    ensures f.sel.None? ==> f.at >= t
    decreases |ways|
  {
    if ways == [] then Found(None, t)
    else
      var r := TryTextbox(page, t, ways[0].0, ways[0].1);
      if r.Ok? then r.value
      else
        assert r.error >= t;
        FirstTextbox(page, r.error, ways[1..])
  }

  /** Way `k` is tried at instant `s`: every earlier way was tried and gave up, the last of them at `s`. */
  ghost predicate TriedAt(page: Page, t: nat, ways: seq<(Selector, bool)>, k: nat, s: nat)
    decreases k
  {
    if k == 0 then s == t
    else
      && ways != [] && TryTextbox(page, t, ways[0].0, ways[0].1).Err?
      && TriedAt(page, TryTextbox(page, t, ways[0].0, ways[0].1).error, ways[1..], k - 1, s)
  }

  /**
   * The textbox found is the one of the first way that works, tried where all
   * the earlier ways gave up; nothing is found only when every way gave up.
   */
  lemma {:induction false} FirstTextboxOrder(page: Page, t: nat, ways: seq<(Selector, bool)>)
    ensures var f := FirstTextbox(page, t, ways);
            && (f.sel.Some? ==> exists k: nat, s: nat :: k < |ways| && TriedAt(page, t, ways, k, s)
                                   && TryTextbox(page, s, ways[k].0, ways[k].1) == Ok(f))
            && (f.sel.None? ==> TriedAt(page, t, ways, |ways|, f.at))
    decreases |ways|
  {
    var f := FirstTextbox(page, t, ways);
    if ways == [] {
      assert TriedAt(page, t, ways, 0, t);
    } else {
      var r := TryTextbox(page, t, ways[0].0, ways[0].1);
      if r.Ok? {
        assert TriedAt(page, t, ways, 0, t);
      } else {
        FirstTextboxOrder(page, r.error, ways[1..]);
        if f.sel.Some? {
          var k: nat, s: nat :| k < |ways[1..]| && TriedAt(page, r.error, ways[1..], k, s)
                                && TryTextbox(page, s, ways[1..][k].0, ways[1..][k].1) == Ok(f);
          assert TriedAt(page, t, ways, k + 1, s);
        } else {
          assert TriedAt(page, t, ways, |ways|, f.at);
        }
      }
    }
  }

  /**
   * `_get_textbox` after its 1 s pause: the role textbox in the scope, the
   * bare textarea in the scope, any editable textbox on the page, a field
   * with a composing placeholder, the first that becomes visible in 10 s.
   */
  function TextboxLookup(page: Page, t0: nat): (f: Found)
    ensures f.sel.Some? ==> f.sel.value in [Within(GetScope(page, t0 + LookupPauseMs), TextboxRole),
                                            Within(GetScope(page, t0 + LookupPauseMs), Textarea), Editable, Placeholder]
    ensures var t := t0 + LookupPauseMs;
            var role := Within(GetScope(page, t), TextboxRole);
            page.count(t, role) > 0 && WaitFor(page, t, role, Visible, TextboxWaitMs).Ok? ==> f.sel == Some(role)
    ensures var ways := TextboxWays(GetScope(page, t0 + LookupPauseMs));
            && (f.sel.Some? ==> exists k: nat, s: nat :: k < |ways| && TriedAt(page, t0 + LookupPauseMs, ways, k, s)
                                   && TryTextbox(page, s, ways[k].0, ways[k].1) == Ok(f))
            && (f.sel.None? ==> TriedAt(page, t0 + LookupPauseMs, ways, |ways|, f.at))
  {
    var t := t0 + LookupPauseMs;
    var ways := TextboxWays(GetScope(page, t));
    FirstTextboxOrder(page, t, ways);
    var f := FirstTextbox(page, t, ways);
    assert f.sel.Some? ==> f.sel.value in [ways[0].0, ways[1].0, ways[2].0, ways[3].0];
    f
  }

  const TypePauseMs := 500
  const AfterTextMs := 1000
  const KeyFailed := "keyboard press failed"

  /**
   * Clicking the textbox and entering the text: `fill`, and when it raises,
   * click again, select all and type. On success the last step puts the text
   * in and every click is on the textbox.
   */
  method WriteText(page: Page, t0: nat, tb: Selector, text: string) returns (r: Result<nat, Failure>, steps: seq<Step>)
    ensures r.Ok? ==> |steps| >= 2 && XActions.EntersText(steps[|steps| - 1], text)
    ensures forall i :: 0 <= i < |steps| ==> (steps[i].Clicked? ==> steps[i].sel == tb) && !steps[i].FilesSet?
    ensures r.Ok? ==> (steps == [Clicked(tb, Normal), Filled(tb, text)] <==> page.fill(t0 + TypePauseMs, tb))
  {
    if !page.click(t0, tb, Normal) {
      return Err(ClickFailed(tb)), [];
    }
    steps := [Clicked(tb, Normal)];
    var t := t0 + TypePauseMs;
    if page.fill(t, tb) {
      return Ok(t + AfterTextMs), steps + [Filled(tb, text)];
    }
    if !page.click(t, tb, Normal) {
      return Err(ClickFailed(tb)), steps;
    }
    if !page.key(t, XActions.SelectAll) {
      return Err(Raised(KeyFailed)), steps + [Clicked(tb, Normal)];
    }
    steps := steps + [Clicked(tb, Normal), Pressed(Some(tb), XActions.SelectAll), Typed(tb, text)];
    r := Ok(t + AfterTextMs);
  }

  // ---------------------------------------------------------------------------
  // _pick_composer_file_input
  // ---------------------------------------------------------------------------

  const TestidFileInput := "input[type=\"file\"][data-testid=\"fileInput\"]"
  const FileInput := "input[type=\"file\"]"

  /**
   * `_pick_composer_file_input`: the test-id input in the scope; else the
   * first visible one of the first ten generic inputs in the scope, or the
   * first of them; else the test-id input on the page; else the first generic
   * input on the page. It always settles on some input.
   */
  function ComposerFileInput(page: Page, t: nat): (s: Selector)
    ensures page.count(t, Within(GetScope(page, t), TestidFileInput)) > 0 ==> s == Within(GetScope(page, t), TestidFileInput)
    ensures && page.count(t, Within(GetScope(page, t), TestidFileInput)) == 0
            && page.count(t, Within(GetScope(page, t), FileInput)) == 0
            ==> s == (if page.count(t, TestidFileInput) > 0 then TestidFileInput else FileInput)
    ensures var generic := Within(GetScope(page, t), FileInput);
            var m := XActions.Min(page.count(t, generic), XActions.FileInputScan);
            page.count(t, Within(GetScope(page, t), TestidFileInput)) == 0 && page.count(t, generic) > 0 ==>
              && (forall i :: XActions.FirstVisibleAt(page, t, generic, m, i) ==> s == Nth(generic, i))
              && (XActions.NoneVisibleBelow(page, t, generic, m) ==> s == generic)
  {
    var scope := GetScope(page, t);
    var generic := Within(scope, FileInput);
    var n := page.count(t, generic);
    if page.count(t, Within(scope, TestidFileInput)) > 0 then Within(scope, TestidFileInput)
    else if n > 0 then
      var i := XActions.FirstVisibleNth(page, t, generic, XActions.Min(n, XActions.FileInputScan));
      if i.Some? then Nth(generic, i.value) else generic
    else if page.count(t, TestidFileInput) > 0 then TestidFileInput
    else FileInput
  }

  method PickComposerFileInput(page: Page, t: nat) returns (s: Selector)
    ensures s == ComposerFileInput(page, t)
  {
    var scope := GetScope(page, t);
    var preferred := Within(scope, TestidFileInput);
    if page.count(t, preferred) > 0 {
      return preferred;
    }
    var generic := Within(scope, FileInput);
    var n := page.count(t, generic);
    if n > 0 {
      var m := if n < XActions.FileInputScan then n else XActions.FileInputScan;
      for i := 0 to m
        invariant XActions.FirstVisibleNth(page, t, generic, i) == None
      {
        if page.visible(t, Nth(generic, i)) {
          return Nth(generic, i);
        }
      }
      return generic;
    }
    if page.count(t, TestidFileInput) > 0 {
      return TestidFileInput;
    }
    return FileInput;
  }

  // ---------------------------------------------------------------------------
  // post_to_x
  // ---------------------------------------------------------------------------

  const HomeUrl := "https://x.com/home"
  const HomePauseMs := 2000
  const LoginInput := "input[name=\"text\"]"
  const SessionExpiredMessage := "الجلسة منتهية. يجب إعادة تسجيل الدخول."
  const MediaTimeoutMs := 240000
  const AttachWaitMs := 30000
  const PostClickDelayMs := 5000
  const PostShot := "debug_post.png"
  const PostHtml := "debug_post.html"

  /** The stages `post_to_x` goes through, in the order it reached them. */
  datatype Phase =
    | ComposerOpened
    | TextEntered
    | FileAttached
    | MediaReady
    | VideoProcessed
    | PublishEnabled
    | PublishClicked
    | Confirmed(done: bool)

  /** A login field is present, or the URL mentions logging or signing in. */
  function SessionExpired(page: Page, t: nat): (r: bool)
    ensures page.count(t, LoginInput) > 0 ==> r
    ensures Contains(page.url(t), "login") || Contains(page.url(t), "signin") ==> r
    ensures Contains(page.url(t), "LOGIN") || Contains(page.url(t), "Login") ==> r
    ensures r ==>
      page.count(t, LoginInput) > 0 || Contains(Lower(page.url(t)), "login") || Contains(Lower(page.url(t)), "signin")
  {
    var url := page.url(t);
    assert Lower("login") == "login" && Lower("signin") == "signin";
    assert Lower("LOGIN") == "login" && Lower("Login") == "login";
    assert Contains(url, "login") ==> Contains(Lower(url), "login") by {
      if Contains(url, "login") { ContainsLower(url, "login"); }
    }
    assert Contains(url, "signin") ==> Contains(Lower(url), "signin") by {
      if Contains(url, "signin") { ContainsLower(url, "signin"); }
    }
    assert Contains(url, "LOGIN") ==> Contains(Lower(url), "login") by {
      if Contains(url, "LOGIN") { ContainsLower(url, "LOGIN"); }
    }
    assert Contains(url, "Login") ==> Contains(Lower(url), "login") by {
      if Contains(url, "Login") { ContainsLower(url, "Login"); }
    }
    page.count(t, LoginInput) > 0 || Contains(Lower(page.url(t)), "login") || Contains(Lower(page.url(t)), "signin")
  }

  /** The stages after the file is set, in order: video processing only for a video, and the gate last. */
  function WaitPhases(video: bool): seq<Phase>
  {
    [MediaReady] + (if video then [VideoProcessed] else []) + [PublishEnabled]
  }

  /** The stages of the media block, in order. */
  function MediaPhases(media: Option<string>): seq<Phase>
  {
    if XActions.HasMedia(media) then [FileAttached] + WaitPhases(IsVideoFile(media.value)) else []
  }

  /** `_wait_media_processed_video(page, timeout_ms)` started at `t0`. */
  method WaitMediaProcessedVideo(page: Page, t0: nat, timeoutMs: nat) returns (r: Result<nat, Failure>)
    ensures r == VideoRounds(ReadyBusy(page), t0, t0 + timeoutMs, 0)
  {
    r := VideoLoop(ReadyBusy(page), t0, t0 + timeoutMs);
  }

  /** For a video, the processing wait; nothing otherwise. */
  method VideoIfAny(page: Page, t0: nat, video: bool) returns (r: Result<nat, Failure>)
    ensures !video ==> r == Ok(t0)
    ensures video ==> r == VideoRounds(ReadyBusy(page), t0, t0 + MediaTimeoutMs, 0)
  {
    if !video {
      return Ok(t0);
    }
    r := WaitMediaProcessedVideo(page, t0, MediaTimeoutMs);
  }

  /**
   * The three waits started at `t`, over their probes: the ready wait, then
   * for a video the processing wait, then the gate, whose probe depends on
   * the instant it starts (the scope is looked up then). The first that fails
   * gives the error; otherwise the instant the gate opened.
   */
  function WaitsOutcome(seen: Probe, busy: Probe, gate: nat -> Probe, t: nat, video: bool): Result<nat, Failure>
  {
    var ready := ReadyRounds(seen, busy, t, t + MediaTimeoutMs, false);
    if ready.Err? then Err(ready.error)
    else
      var processed := if video then VideoRounds(busy, ready.value, ready.value + MediaTimeoutMs, 0) else Ok(ready.value);
      if processed.Err? then Err(processed.error)
      else
        var firstOk := FirstPoll(gate(processed.value), processed.value, processed.value + MediaTimeoutMs, GatePollMs);
        if firstOk.None? then Err(TimeoutError(GateMessage)) else Ok(firstOk.value)
  }

  /**
   * When the three waits go through: the media had been seen, and the
   * indicator was off at the poll 700 ms before the ready wait returned; for
   * a video the indicator was then off at three polls 500 ms apart; and the
   * gate opened at a poll that accepted, after every earlier poll of the gate
   * had refused. A failure is the first wait's timeout.
   */
  lemma WaitsMeaning(seen: Probe, busy: Probe, gate: nat -> Probe, t: nat, video: bool)
    ensures var r := WaitsOutcome(seen, busy, gate, t, video);
            r.Err? ==> r.error in {TimeoutError(XActions.MediaTimeoutMessage), TimeoutError(VideoTimeoutMessage), TimeoutError(GateMessage)}
    ensures var ready := ReadyRounds(seen, busy, t, t + MediaTimeoutMs, false);
            WaitsOutcome(seen, busy, gate, t, video).Ok? ==>
              && ready.Ok? && t + ReadyPauseMs <= ready.value && !busy(ready.value - ReadyPauseMs)
              && exists s: nat :: t <= s <= ready.value - ReadyPauseMs && seen(s)
    ensures var ready := ReadyRounds(seen, busy, t, t + MediaTimeoutMs, false);
            WaitsOutcome(seen, busy, gate, t, video).Ok? && video ==>
              var done := VideoRounds(busy, ready.value, ready.value + MediaTimeoutMs, 0);
              && done.Ok? && ready.value + 2 * VideoCalmPollMs + VideoPauseMs <= done.value
              && !busy(done.value - VideoPauseMs)
              && !busy(done.value - VideoPauseMs - VideoCalmPollMs)
              && !busy(done.value - VideoPauseMs - 2 * VideoCalmPollMs)
    ensures var ready := ReadyRounds(seen, busy, t, t + MediaTimeoutMs, false);
            var r := WaitsOutcome(seen, busy, gate, t, video);
            r.Ok? ==>
              var p := if video then VideoRounds(busy, ready.value, ready.value + MediaTimeoutMs, 0).value else ready.value;
              && ready.value <= p <= r.value && gate(p)(r.value)
              && forall j :: PollAt(p, GatePollMs, j) < r.value ==> !gate(p)(PollAt(p, GatePollMs, j))
  {
    var ready := ReadyRounds(seen, busy, t, t + MediaTimeoutMs, false);
    if ready.Ok? {
      ReadyMeaning(seen, busy, t, t, t + MediaTimeoutMs, false);
      if video && VideoRounds(busy, ready.value, ready.value + MediaTimeoutMs, 0).Ok? {
        VideoSettles(busy, ready.value, ready.value, ready.value + MediaTimeoutMs, 0);
      }
      var p := if video then VideoRounds(busy, ready.value, ready.value + MediaTimeoutMs, 0) else Ok(ready.value);
      if p.Ok? {
        FirstPollMeaning(gate(p.value), p.value, p.value + MediaTimeoutMs, GatePollMs);
      }
    }
  }

  /** The outcome of the three waits, put together from what each wait returned. */
  lemma WaitsOutcomeFrom(seen: Probe, busy: Probe, gate: nat -> Probe, t: nat, video: bool,
                         ready: Result<nat, Failure>, processed: Result<nat, Failure>, firstOk: Option<nat>)
    requires ready == ReadyRounds(seen, busy, t, t + MediaTimeoutMs, false)
    requires ready.Ok? && video ==> processed == VideoRounds(busy, ready.value, ready.value + MediaTimeoutMs, 0)
    requires ready.Ok? && !video ==> processed == Ok(ready.value)
    requires ready.Ok? && processed.Ok? ==> firstOk == FirstPoll(gate(processed.value), processed.value, processed.value + MediaTimeoutMs, GatePollMs)
    ensures ready.Err? ==> WaitsOutcome(seen, busy, gate, t, video) == Err(ready.error)
    ensures ready.Ok? && processed.Err? ==> WaitsOutcome(seen, busy, gate, t, video) == Err(processed.error)
    ensures ready.Ok? && processed.Ok? && firstOk.None? ==> WaitsOutcome(seen, busy, gate, t, video) == Err(TimeoutError(GateMessage))
    ensures ready.Ok? && processed.Ok? && firstOk.Some? ==> WaitsOutcome(seen, busy, gate, t, video) == Ok(firstOk.value)
  {
  }

  /** The gate's probe when it starts at `s`, with the scope of that instant. */
  function GateAt(page: Page): nat -> Probe
  {
    (s: nat) => GateProbe(page, GetScope(page, s))
  }

  /** The three waits of `post_to_x` started at `t` on the page. */
  function MediaOutcome(page: Page, t: nat, video: bool): Result<nat, Failure>
  {
    WaitsOutcome(ReadySeen(page, GetScope(page, t)), ReadyBusy(page), GateAt(page), t, video)
  }

  /**
   * The three waits after the file is set: ready, processed for a video, and
   * the publish button enabled; the first that fails ends them with its error,
   * and on success they end at the poll that found the button enabled.
   */
  method MediaWaits(page: Page, t0: nat, video: bool) returns (r: Result<nat, Failure>, phases: seq<Phase>)
    ensures r == MediaOutcome(page, t0, video)
    ensures r.Ok? ==> phases == WaitPhases(video)
    ensures r.Err? ==> phases < WaitPhases(video)
  {
    assert MediaOutcome(page, t0, video) == WaitsOutcome(ReadySeen(page, GetScope(page, t0)), ReadyBusy(page), GateAt(page), t0, video);
    var ready := WaitMediaUploadedOrReady(page, t0, MediaTimeoutMs);
    if ready.Err? {
      WaitsOutcomeFrom(ReadySeen(page, GetScope(page, t0)), ReadyBusy(page), GateAt(page), t0, video, ready, ready, None);
      return Err(ready.error), [];
    }
    var processed := VideoIfAny(page, ready.value, video);
    if processed.Err? {
      WaitsOutcomeFrom(ReadySeen(page, GetScope(page, t0)), ReadyBusy(page), GateAt(page), t0, video, ready, processed, None);
    }
    var processing := if video then [VideoProcessed] else [];
    if processed.Err? {
      return Err(processed.error), [MediaReady];
    }
    var gate := WaitPublishButtonEnabled(page, processed.value, MediaTimeoutMs);
    assert GateAt(page)(processed.value) == GateProbe(page, GetScope(page, processed.value));
    var firstOk := FirstPoll(GateAt(page)(processed.value), processed.value, processed.value + MediaTimeoutMs, GatePollMs);
    WaitsOutcomeFrom(ReadySeen(page, GetScope(page, t0)), ReadyBusy(page), GateAt(page), t0, video, ready, processed, firstOk);
    if gate.Err? {
      assert [MediaReady] + processing < WaitPhases(video);
      return Err(gate.error), [MediaReady] + processing;
    }
    r, phases := Ok(gate.value), WaitPhases(video);
  }

  /**
   * The media block started at `t` went through and ended at `g`: the file
   * input was attached in time, and the three waits started when it was
   * ended with the publish button enabled at `g`.
   */
  predicate MediaWaitedUntil(page: Page, t: nat, path: string, g: nat)
  {
    var attached := WaitFor(page, t, ComposerFileInput(page, t), Attached, AttachWaitMs);
    attached.Ok? && MediaOutcome(page, attached.value, IsVideoFile(path)) == Ok(g)
  }

  /**
   * The media block of `post_to_x`: pick the input, wait for it to be
   * attached, set the file, then the three waits; a wait that fails ends the
   * block with its error.
   */
  method AttachMediaAndWait(page: Page, t0: nat, media: Option<string>) returns (r: Result<nat, Failure>, steps: seq<Step>, phases: seq<Phase>)
    ensures XActions.SetsFile(steps, media) && |steps| <= 1
    ensures !XActions.HasMedia(media) ==> r == Ok(t0) && steps == [] && phases == []
    ensures XActions.HasMedia(media) ==> (|steps| == 1 <==> WaitFor(page, t0, ComposerFileInput(page, t0), Attached, AttachWaitMs).Ok?)
    ensures var attached := WaitFor(page, t0, ComposerFileInput(page, t0), Attached, AttachWaitMs);
            XActions.HasMedia(media) && attached.Ok?
            ==> r == MediaOutcome(page, attached.value, IsVideoFile(media.value))
    ensures r.Ok? && XActions.HasMedia(media) ==> MediaWaitedUntil(page, t0, media.value, r.value)
    ensures r.Ok? ==> phases == MediaPhases(media) && (XActions.HasMedia(media) ==> |steps| == 1)
    ensures r.Err? ==> phases < MediaPhases(media)
  {
    if !XActions.HasMedia(media) {
      return Ok(t0), [], [];
    }
    var input := PickComposerFileInput(page, t0);
    var attached := WaitFor(page, t0, input, Attached, AttachWaitMs);
    if attached.Err? {
      return Err(attached.error), [], [];
    }
    steps := [FilesSet(input, media.value)];
    var waits, waited := MediaWaits(page, attached.value, IsVideoFile(media.value));
    r, phases := waits, [FileAttached] + waited;
  }

  /** `AttachMediaAndWait`, with only what the step order of a post needs of it. */
  method MediaForPost(page: Page, t0: nat, media: Option<string>) returns (r: Result<nat, Failure>, steps: seq<Step>, phases: seq<Phase>)
    ensures XActions.SetsFile(steps, media) && |steps| <= 1
    ensures !XActions.HasMedia(media) ==> r == Ok(t0) && steps == [] && phases == []
    ensures r.Ok? && XActions.HasMedia(media) ==> MediaWaitedUntil(page, t0, media.value, r.value)
    ensures r.Ok? ==> phases == MediaPhases(media) && (XActions.HasMedia(media) ==> |steps| == 1)
    ensures r.Err? ==> phases < MediaPhases(media)
  {
    r, steps, phases := AttachMediaAndWait(page, t0, media);
  }

  /** The new-tweet steps `post_to_x` can take. */
  const NewTweetSteps: seq<Step> := [Clicked(SideNavNewTweet, Normal), Clicked(ComposeLinks, Normal),
                                     Clicked(ComposeLabels, Normal), Pressed(None, NewTweetKeys)]

  /**
   * Opening the composer and writing the text, from instant `t0`: the
   * new-tweet control, a 2 s pause, the textbox lookup, the text. On success
   * the first step opened the composer, the last put the text in, and every
   * click in between is on the textbox found.
   */
  method ComposeTweet(page: Page, t0: nat, text: string) returns (r: Result<nat, Failure>, steps: seq<Step>, phases: seq<Phase>)
    ensures NewTweetStep(page, t0).None? ==> r == Err(Raised(NoNewTweet)) && steps == [] && phases == []
    ensures NewTweetStep(page, t0).Some? && TextboxLookup(page, t0 + ComposerPauseMs).sel.None?
            ==> r == Err(Raised(NoTextbox)) && steps == [NewTweetStep(page, t0).value]
    ensures r.Ok? ==> && |steps| >= 3 && steps[0] == NewTweetStep(page, t0).value && steps[0] in NewTweetSteps
                      && XActions.EntersText(steps[|steps| - 1], text)
                      && TextboxLookup(page, t0 + ComposerPauseMs).sel.Some?
                      && forall i :: 1 <= i < |steps| && steps[i].Clicked?
                           ==> steps[i].sel == TextboxLookup(page, t0 + ComposerPauseMs).sel.value
    ensures r.Ok? ==> phases == [ComposerOpened, TextEntered]
    ensures r.Err? ==> phases < [ComposerOpened, TextEntered]
  {
    var opening, newTweet := OpenNewTweet(page, t0);
    if opening.Err? {
      return opening, newTweet, [];
    }
    var box := TextboxLookup(page, opening.value);
    if box.sel.None? {
      return Err(Raised(NoTextbox)), newTweet, [ComposerOpened];
    }
    var writing, written := WriteText(page, box.at, box.sel.value, text);
    steps := newTweet + written;
    if writing.Err? {
      return writing, steps, [ComposerOpened];
    }
    r, phases := writing, [ComposerOpened, TextEntered];
  }

  /** Every phase `post_to_x` goes through up to its publish click. */
  function PostPhases(media: Option<string>): (p: seq<Phase>)
    ensures |p| >= 3 && p[..2] == [ComposerOpened, TextEntered] && p[|p| - 1] == PublishClicked
  {
    [ComposerOpened, TextEntered] + MediaPhases(media) + [PublishClicked]
  }

  /**
   * A post that went through: the composer was opened by a new-tweet step,
   * the text put in (and the file set after it, when there is media) before
   * the last step clicks a publish button, and the phases are all of them in
   * order, then the optional confirmation.
   */
  ghost predicate PostShape(text: string, media: Option<string>, steps: seq<Step>, phases: seq<Phase>)
  {
    && |steps| >= 1 && steps[0] in NewTweetSteps
    && XActions.Published(steps, PublishButtons, text, media)
    && |phases| >= 1 && phases[|phases| - 1].Confirmed? && phases == PostPhases(media) + [phases[|phases| - 1]]
  }

  /** The parts of a post put together have its shape. */
  lemma PostOrder(compose: seq<Step>, attach: seq<Step>, click: seq<Step>, text: string, media: Option<string>, done: bool)
    requires |compose| >= 1 && compose[0] in NewTweetSteps && XActions.EntersText(compose[|compose| - 1], text)
    requires XActions.SetsFile(attach, media) && (XActions.HasMedia(media) ==> |attach| == 1)
    requires |click| == 1 && click[0].Clicked? && click[0].sel in PublishButtons
    ensures PostShape(text, media, compose + attach + click, PostPhases(media) + [Confirmed(done)])
    ensures (compose + attach + click)[|compose + attach + click| - 1] == click[0]
  {
    var steps := compose + attach + click;
    var i := |compose| - 1;
    assert steps[i] == compose[i];
    assert steps[|steps| - 1] == click[0];
    if XActions.HasMedia(media) {
      assert steps[i + 1] == attach[0];
    }
  }

  /** `ComposeTweet`, with only what the step order of a post needs of it. */
  method ComposeForPost(page: Page, t0: nat, text: string) returns (r: Result<nat, Failure>, steps: seq<Step>, phases: seq<Phase>)
    ensures NewTweetStep(page, t0).None? ==> r == Err(Raised(NoNewTweet)) && steps == []
    ensures r.Ok? ==> |steps| >= 1 && steps[0] in NewTweetSteps && XActions.EntersText(steps[|steps| - 1], text)
    ensures r.Ok? ==> phases == [ComposerOpened, TextEntered]
    ensures r.Err? ==> phases < [ComposerOpened, TextEntered]
  {
    r, steps, phases := ComposeTweet(page, t0, text);
  }

  /** `step` is the click `_click_publish` makes when it starts at `t`. */
  predicate PublishedFrom(page: Page, t: nat, step: Step)
  {
    var f := PublishLookup(page, t);
    && f.sel.Some?
    && ClickChain(page, f.at + ScrollPauseMs, f.sel.value).Some?
    && step == Clicked(f.sel.value, ClickChain(page, f.at + ScrollPauseMs, f.sel.value).value)
  }

  /**
   * With the media block started at `t`, `step` clicked publish at the very
   * instant the media waits ended.
   */
  ghost predicate PublishedAfterMedia(page: Page, t: nat, path: string, step: Step)
  {
    exists g: nat :: MediaWaitedUntil(page, t, path, g) && PublishedFrom(page, g, step)
  }

  /** `ClickPublish`, with only what the step order of a post needs of it. */
  method PublishClick(page: Page, t0: nat) returns (r: Result<nat, Failure>, steps: seq<Step>)
    ensures r.Ok? ==> |steps| == 1 && steps[0].Clicked? && steps[0].sel in PublishButtons
    ensures r.Ok? ==> PublishedFrom(page, t0, steps[0])
  {
    r, steps := ClickPublish(page, t0);
  }

  /**
   * The end of a post from instant `t0`: click publish, pause 5 s, and wait
   * for the composer to close; `done` is whether it closed in time.
   */
  method PublishAndConfirm(page: Page, t0: nat) returns (r: Result<nat, Failure>, click: seq<Step>, done: bool)
    ensures r.Ok? ==> |click| == 1 && click[0].Clicked? && click[0].sel in PublishButtons && PublishedFrom(page, t0, click[0])
  {
    var publishing;
    publishing, click := PublishClick(page, t0);
    if publishing.Err? {
      return publishing, click, false;
    }
    var end;
    done, end := WaitPostDone(page, publishing.value + PostClickDelayMs, PostDoneTimeoutMs);
    r := Ok(end);
  }

  /**
   * The part of a post after the text, from instant `t0`: the media block,
   * then publish and confirm. With media, a post that gets through clicked
   * publish at the very instant the media waits ended.
   */
  method MediaAndPublish(page: Page, t0: nat, media: Option<string>)
    returns (r: Result<nat, Failure>, attach: seq<Step>, click: seq<Step>, phases: seq<Phase>, done: bool)
    ensures r.Err? ==> phases <= MediaPhases(media)
    ensures r.Ok? ==> && XActions.SetsFile(attach, media) && (XActions.HasMedia(media) ==> |attach| == 1)
                      && |click| == 1 && click[0].Clicked? && click[0].sel in PublishButtons
                      && phases == MediaPhases(media)
    ensures r.Ok? && XActions.HasMedia(media)
            ==> PublishedAfterMedia(page, t0, media.value, click[0])
  {
    var attaching;
    attaching, attach, phases := MediaForPost(page, t0, media);
    if attaching.Err? {
      return attaching, attach, [], phases, false;
    }
    r, click, done := PublishAndConfirm(page, attaching.value);
  }

  /**
   * What `post_to_x` does once the session is known to be live, from instant
   * `t0`: compose, attach and wait, click publish, pause 5 s and wait for
   * the composer to close, whose answer is only recorded in the last phase.
   */
  method PostSteps(page: Page, t0: nat, text: string, media: Option<string>)
    returns (r: Result<nat, Failure>, steps: seq<Step>, phases: seq<Phase>, ghost ta: nat)
    ensures NewTweetStep(page, t0).None? ==> r == Err(Raised(NoNewTweet)) && steps == []
    ensures r.Err? ==> phases < PostPhases(media)
    ensures r.Ok? ==> PostShape(text, media, steps, phases)
    ensures r.Ok? && XActions.HasMedia(media)
            ==> PublishedAfterMedia(page, ta, media.value, steps[|steps| - 1])
  {
    var composing, compose, composePhases := ComposeForPost(page, t0, text);
    if composing.Err? {
      PrefixAfter([], composePhases, [ComposerOpened, TextEntered], MediaPhases(media) + [PublishClicked]);
      return composing, compose, composePhases, t0;
    }
    ta := composing.value;
    var posting, attach, click, mediaPhases, done := MediaAndPublish(page, composing.value, media);
    if posting.Err? {
      if mediaPhases == MediaPhases(media) {
        PrefixAfter(composePhases + mediaPhases, [], [PublishClicked], []);
      } else {
        PrefixAfter(composePhases, mediaPhases, MediaPhases(media), [PublishClicked]);
      }
      return posting, compose + attach + click, composePhases + mediaPhases, ta;
    }
    phases := PostPhases(media) + [Confirmed(done)];
    PostOrder(compose, attach, click, text, media, done);
    r, steps := posting, compose + attach + click;
  }

  const PostChannel := "chrome"

  /**
   * `post_to_x(storage_state_path, text, media_path, headless)` from instant
   * `t0`, on a browser launched on the Chrome channel with no fallback.
   *
   * It opens the home page and, after 2 s, refuses an expired session. It
   * opens the composer and writes the text. With media it attaches the file,
   * waits for it to be ready, for a video waits for processing, and waits for
   * the publish button. It clicks publish, waits 5 s, and waits for the
   * composer to close, whose answer it ignores: every post that gets through
   * the click returns True. Any failure saves a screenshot and the page's HTML
   * and raises again; the browser is closed either way.
   */
  method PostToX(page: Page, t0: nat, text: string, media: Option<string>)
    returns (r: Result<bool, Failure>, trace: seq<Step>, phases: seq<Phase>, ghost ta: nat)
    ensures |trace| >= 4 && trace[0] == Launched(Some(PostChannel)) && trace[1] == Visited(HomeUrl) && ClosedAtEnd(trace)
    ensures SessionExpired(page, t0 + HomePauseMs)
            ==> && r == Err(Raised(SessionExpiredMessage)) && phases == []
                && trace == [Launched(Some(PostChannel)), Visited(HomeUrl), Screenshot(PostShot), SavedHtml(PostHtml)] + Closing
    ensures !SessionExpired(page, t0 + HomePauseMs) && NewTweetStep(page, t0 + HomePauseMs).None?
            ==> r == Err(Raised(NoNewTweet))
    ensures r.Err? ==> trace[|trace| - 4..|trace| - 2] == [Screenshot(PostShot), SavedHtml(PostHtml)]
    ensures r.Err? ==> phases < PostPhases(media)
    ensures r.Ok? ==> r == Ok(true) && PostShape(text, media, trace[2..|trace| - 2], phases)
    ensures r.Ok? && XActions.HasMedia(media)
            ==> PublishedAfterMedia(page, ta, media.value, trace[|trace| - 3])
  {
    var opening := [Launched(Some(PostChannel)), Visited(HomeUrl)];
    var failed := [Screenshot(PostShot), SavedHtml(PostHtml)];
    var t := t0 + HomePauseMs;
    if SessionExpired(page, t) {
      return Err(Raised(SessionExpiredMessage)), opening + failed + Closing, [], t;
    }
    var posting, steps;
    posting, steps, phases, ta := PostSteps(page, t, text, media);
    if posting.Err? {
      trace := opening + steps + failed + Closing;
      assert trace[|trace| - 4..|trace| - 2] == failed;
      return Err(posting.error), trace, phases, ta;
    }
    r, trace := Ok(true), opening + steps + Closing;
    assert trace[2..|trace| - 2] == steps;
    assert trace[|trace| - 3] == steps[|steps| - 1];
  }

  /** A proper prefix of the middle part stays a proper prefix of the whole. */
  lemma PrefixAfter(a: seq<Phase>, p: seq<Phase>, m: seq<Phase>, z: seq<Phase>)
    requires p < m
    ensures a + p < a + m + z
  {
    assert (a + m + z)[..|a + p|] == a + m[..|p|];
  }
}
